=== FILE: README.md ===
# cuboid-wars in Dafny

A model of the discrete core of cuboid-wars, a multiplayer arena game. It has a Bevy server and client that talk over QUIC. An earlier chat server and client share the repository. Each source function becomes a pure Dafny function or method, and its contract, or a lemma about it, states what the function promises.

The model covers six parts of the repository:

- **Map generation** (`MapGrid`, `Reachability`, `Walls`, `Ramps`, `MapGen`, `Roofs`, `RoofMerge`, `RoofEdges`, `Lights`, `OldWalls`).
  - Setup and interior walls: a 10×10 grid of cells with wall, ramp and roof flags; perimeter walls; interior walls placed from a shuffled edge list, each reverted if it cuts a cell off.
  - Ramps: footprints placed under zone and spacing rules.
  - Roofs: roof cells grown from seed cells, connected by shortest paths and filled by a weighted draw, then cut into slabs and merged.
  - Roof edges and lights: guard walls along roof edges, and wall lights.
  - Wall segments: grid lines turned into segments, then normalised and merged.
  - The older monolithic generator, where it differs.
- **Sentries and ghosts** (`Navigation`, `OldNavigation`, `Hunters`).
  - Direction algebra and the blocked, valid and ahead direction filters.
  - The timer-driven Patrol/Target/PrePatrol mode machine.
  - Collisions that stun players and sentries.
- **Connections, login and chat** (`ChatProtocol`, `ChatServer`, `EcsChat`, `ChatClient`, `ChatInput`, `Protocol`, `Broadcast`, `NetServer`).
  - The chat server's id counter, name validation and client state machine, and the entity-component version of it.
  - The chat clients and their slash-command parser.
  - The game server's login flow, message handling, shot throttle and periodic state broadcast.
- **Client replication** (`ClientSync`, `Echo`).
  - Reconciling the local tables of players, items and sentries with the server's snapshots.
  - The monotone filter on update sequence numbers.
  - Round-trip-time measurement by echo.
- **Items** (`Items`): the earlier server's power-up spawner, despawn by age, collection and expiry.
- **Skybox** (`Skybox`): extracting the six cubemap faces from a 4×3 cross image, byte by byte, and the system that does this once.

Modelling conventions:

- Randomness, the clock and the iteration order of hash maps are parameters. A draw is an oracle `nat -> nat`; a walk over a map is a sequence that lists its keys. One walk is fixed instead: `Roofs.RoofSlabs` takes the roof cells in row-major order, where the source walks a `HashSet` (see "Left out").
- Every send on a channel becomes an entry of an outbox.
- Bevy commands take effect after the system that issues them, so each handler reads the world as the system found it.
  In `NetServer` the components as the frame began are a separate parameter, `view`, which every component read and presence test uses; the component inserts and despawns of the frame's events collect in the world's `entities` and `bodies` and are never read back within the frame. Resources such as the player table change at once.
- A Rust panic is `None` in the model.
- `f32` and `f64` quantities are exact reals. Grid coordinates are exact in `f32` as well, so nothing is lost there.
- The older `server/src/map.rs` repeats several functions of `server/src/map/` almost verbatim, and the older ghosts repeat the sentries. One member covers each pair, and its row cites the newer copy. The older copies are `cell_center` (map.rs:21-35), `count_cell_walls` (map.rs:50-66), `all_cells_reachable` (map.rs:69-152), the perimeter setup (map.rs:172-190), the interior-wall loop (map.rs:219-338), the wall stage of `generate_grid` (map.rs:162-374), ramp placement (map.rs:786-913), `normalize_wall` (map.rs:921-935), `merge_walls` (map.rs:936-996, with its own tolerance), roof merging (map.rs:997-1060, tolerance 1e-4), the ghost spawner (`server/src/systems/ghosts.rs:165-220`), and the older sentries' `pick_direction` (`server/src/systems/sentries.rs:147-153`), which `Navigation.PickDirection` covers for both direction types.
- Where the repository's written description and its code disagree, the code is followed. For example, the grid is 10×10, as in `common/src/constants.rs`.

## Model

| member | source | states |
|---|---|---|
| MapGrid.GridCoordsFromPosition | server/src/map/helpers.rs:17-23 | the cell returned is the one whose two grid lines bracket the position on each axis |
| MapGrid.CellCenter | server/src/map/helpers.rs:7-15 | the centre lies on the ground (y = 0), strictly inside its cell, and `grid_coords_from_position` maps it back to the same cell |
| MapGrid.CountCellWalls | server/src/map/helpers.rs:56-72 | the count is the number of walled sides, at most four, and zero exactly when no side is walled |
| MapGrid.FindFrom | server/src/map/helpers.rs:28-36 | the result is the first accepted draw among the remaining attempts, and None exactly when every remaining draw is rejected |
| MapGrid.FindUnoccupiedCell | server/src/map/helpers.rs:25-37 | a returned cell lies in the 10×10 field, is not occupied and is one of the 100 draws; None exactly when all 100 draws hit occupied cells |
| MapGrid.FindUnoccupiedCellNotRamp | server/src/map/helpers.rs:39-54 | as `find_unoccupied_cell`, and the cell is never a ramp; None exactly when each draw is occupied or a ramp |
| Reachability.OpenCells | server/src/map/grid.rs:14-22 | the target set is exactly the in-grid cells without a ramp |
| Reachability.FirstOpenFrom | server/src/map/grid.rs:24-35 | the cell found is open, no open cell precedes it in row-major order from the scan start, and None means no open cell from there on |
| Reachability.StartCell | server/src/map/grid.rs:24-39 | the start is the first non-ramp cell in row-major order; it is None exactly when every cell is a ramp |
| Reachability.PathStaysClosed | server/src/map/grid.rs:41-88 | a path that starts in a set closed under search steps ends in it, so a finished search that missed a cell proves that cell unreachable |
| Reachability.Visit | server/src/map/grid.rs:45-53 | one direction test: the neighbour is enqueued and marked visited exactly when the range check and the current cell's wall let the search through and the neighbour is unvisited and not a ramp; the queue grows by exactly the newly visited cells |
| Reachability.Expand | server/src/map/grid.rs:41-80 | after the four tests every step out of the popped cell ends in a visited cell, only non-ramp in-grid cells are visited, and each cell is enqueued at most once |
| Reachability.AllVisited | server/src/map/grid.rs:82-84 | once the visited count equals the target count, every non-ramp cell is reachable from the start |
| Reachability.SomeMissed | server/src/map/grid.rs:87-88 | a search that ends with fewer visited cells than the target leaves a non-ramp cell unreachable |
| Reachability.AllCellsReachable | server/src/map/grid.rs:6-89 | true exactly when the dimensions are degenerate, every cell is a ramp, or every non-ramp cell is reachable by wall-respecting steps from the first non-ramp cell |
| Walls.LineFlagsSeeBothSides | server/src/map/walls.rs:6-28 | on a grid whose shared edges agree, the flag read from one side of an inner grid line is the flag of the cell on the other side too |
| Walls.StartOffset | server/src/map/walls.rs:84-94 | the start offset is −T/2, 0 or +T/2 and is 0 whenever the line continues past the start |
| Walls.EndOffset | server/src/map/walls.rs:95-104 | the end offset is the mirror image of the start offset, so it too is −T/2, 0 or +T/2 |
| Walls.HSegment | server/src/map/walls.rs:70-112 | a horizontal segment lies on z = row·GRID_SIZE − FIELD_DEPTH/2 at both ends, has width WALL_THICKNESS, has each end within T/2 of its grid line, and runs from smaller to larger x |
| Walls.VSegment | server/src/map/walls.rs:123-155 | a vertical segment lies on x = col·GRID_SIZE − FIELD_WIDTH/2 at both ends, has width WALL_THICKNESS, has each end within T/2 of its grid line, and runs from smaller to larger z |
| Walls.HSegmentInjective | server/src/map/walls.rs:70-112 | two different grid-line/column pairs never give the same horizontal segment |
| Walls.VSegmentInjective | server/src/map/walls.rs:123-155 | two different grid-column/row pairs never give the same vertical segment |
| Walls.HSegmentNotLater | server/src/map/walls.rs:64-114 | a segment is not among those the scan emits after its own position, so the scan cannot repeat it |
| Walls.VSegmentNotLater | server/src/map/walls.rs:117-157 | the same for the vertical scan |
| Walls.HorizontalFrom | server/src/map/walls.rs:64-114 | the horizontal scan emits a segment for every flagged line/column pair still to come, nothing else, and no segment twice |
| Walls.VerticalFrom | server/src/map/walls.rs:117-157 | the vertical scan emits a segment for every flagged column/row pair still to come, nothing else, and no segment twice |
| Walls.GenerateWalls | server/src/map/walls.rs:58-160 | every flagged horizontal and vertical grid segment yields its wall, every wall comes from a flagged segment, no wall appears twice, and every wall is axis-aligned with width WALL_THICKNESS |
| Walls.Normalize | server/src/map/walls.rs:162-176 | the classification is kept, a horizontal wall ends up with x1 ≤ x2 and a vertical one with z1 ≤ z2 by a swap only, and any other wall passes through unchanged |
| Walls.NormalizeIdempotent | server/src/map/walls.rs:162-176 | normalising twice gives the same wall as normalising once |
| Walls.InsertPermutes | server/src/map/walls.rs:195-204 | inserting one wall into a list adds exactly that wall to its multiset |
| Walls.InsertSorted | server/src/map/walls.rs:195-204 | inserting into a list sorted by grid line then start keeps it sorted |
| Walls.SortCorrect | server/src/map/walls.rs:195-204 | the sort orders by grid line, then by start, and is a permutation of its input |
| Walls.SortMembers | server/src/map/walls.rs:195-204 | the sort keeps the length and exactly the walls of its input |
| Walls.SortSorted | server/src/map/walls.rs:195-204 | the sorted list is ordered by grid line, then by start |
| Walls.MergeRun | server/src/map/walls.rs:208-231 | a run yields at least one and at most as many walls as it consumes; its first output keeps the line, start and width of the run's first wall, reaches at least as far, and ends where one of the consumed walls ends |
| Walls.MergeRunGrows | server/src/map/walls.rs:208-231 | every output of a run keeps the line, start and width of one of its input walls and reaches at least as far |
| Walls.MergeRunFirst | server/src/map/walls.rs:208-231 | on a sorted run with a positive tolerance, the first output ends exactly where an input wall it covers ends, so it reaches no further than its inputs |
| Walls.MergeRunLater | server/src/map/walls.rs:208-231 | on a sorted run, every later output ends exactly where one of the remaining input walls that it covers ends |
| Walls.MergeRunCovers | server/src/map/walls.rs:208-231 | on a sorted run with a positive tolerance, every input wall is covered by an output: on its line and of its width within the tolerance, starting no later when on exactly its line, and reaching at least as far |
| Walls.MergeLine | server/src/map/walls.rs:208-232 | merging a line never lengthens the list and leaves it empty only when it was empty |
| Walls.MergeLineMade | server/src/map/walls.rs:208-232 | on a sorted list, each merged wall starts as an input wall starts, on its line and with its width, and ends where an input wall it covers ends |
| Walls.MergeLineSound | server/src/map/walls.rs:208-232 | on a list sorted by line then start and a positive tolerance: each merged wall is made from input walls (starts where one starts, ends where one it covers ends), and each input wall is covered by a merged wall |
| Walls.NearLineStartsLater | server/src/map/walls.rs:212-218 | a concrete run: a wall on a line 0.005 away that starts earlier is absorbed, and the merged wall keeps the later start of the current wall, so coverage of starts holds only on exactly the same line |
| Walls.Partition | server/src/map/walls.rs:184-193 | each wall is normalised and lands in exactly one of horizontals (x1 ≤ x2), verticals (z1 ≤ z2) and others |
| Walls.FilterOthers | server/src/map/walls.rs:184-193 | reference definition: the inputs that are neither horizontal nor vertical, in order |
| Walls.Horizontals | server/src/map/walls.rs:184-193 | the horizontals are exactly the horizontal inputs, normalised, each with x1 ≤ x2 |
| Walls.Verticals | server/src/map/walls.rs:184-193 | the verticals are exactly the vertical inputs, normalised, each with z1 ≤ z2 |
| Walls.PartitionCorrect | server/src/map/walls.rs:184-193 | each horizontal input, normalised, is among the horizontals, each vertical input among the verticals, and the others are exactly the remaining inputs in order |
| Walls.MergeWallsParts | server/src/map/walls.rs:233-237 | the result is the merged horizontals, then the merged verticals, then the other walls |
| Walls.MergeSorted | server/src/map/walls.rs:195-232 | merging the sorted list of a line gives walls each made from that line's walls, and covers every one of them |
| Walls.MergeWallsShape | server/src/map/walls.rs:179-238 | never more walls out than in, and the non-axis-aligned walls come last, unchanged and in order |
| Walls.MergeWallsCovers | server/src/map/walls.rs:179-238 | with a positive tolerance, every horizontal (or vertical) input, normalised, is covered by an output wall |
| Walls.MergeWallsCorrect | server/src/map/walls.rs:179-238 | `merge_walls` never returns more walls than it receives; the non-axis-aligned walls come last, unchanged and in order; every other output is made from the horizontals or the verticals (starting where one starts, ending where one it covers ends); every axis-aligned input, normalised, is covered by an output on its line |
| Ramps.GuardAdmitsEmptyDraw | server/src/map/ramps.rs:14-16 | the size guard as written admits a 4×3 grid, on which the first-row draw of a footprint along z, `1..=(rows − 3)`, is empty |
| Ramps.GuardMakesDrawsNonEmpty | server/src/map/ramps.rs:29-37 | under the corrected guard (both dimensions at least RAMP_LENGTH_CELLS + 2) every draw range of either orientation is non-empty |
| Ramps.Candidate | server/src/map/ramps.rs:25-37 | a drawn footprint is RAMP_LENGTH_CELLS × RAMP_WIDTH_CELLS oriented by `along_x` and lies inside the border ring |
| Ramps.Mark | server/src/map/ramps.rs:79-112 | marking rewrites each cell by the footprint rule and leaves the grid's shape alone |
| Ramps.RampOf | server/src/map/ramps.rs:114-133 | the ramp has y1 = 0 and y2 = WALL_HEIGHT + ROOF_THICKNESS, and its low and high corners are the footprint's grid-line corners, in the order the high end decides |
| Ramps.MarkSetsEnds | server/src/map/ramps.rs:86-112 | after marking, each row (along x) or column (along z) of the footprint has its base flag at the low end and its top flag at the high end |
| Ramps.MarkSeparated | server/src/map/ramps.rs:61-77 | a footprint accepted because its padded, clamped area holds no ramp cell contains no cell of any earlier ramp |
| Ramps.MarkKeepsPlaced | server/src/map/ramps.rs:39-112 | accepting and marking a footprint keeps the placement invariant: only ramp flags change, exactly the covered cells carry them, ends are marked, footprints stay separated |
| Ramps.Attempt | server/src/map/ramps.rs:22-134 | one attempt either changes nothing or records exactly the drawn footprint |
| Ramps.AttemptKeepsPlaced | server/src/map/ramps.rs:39-112 | an attempt keeps the placement invariant whether it is rejected by the zone or overlap test or accepted |
| Ramps.PlaceFrom | server/src/map/ramps.rs:18-23 | the loop never records more than RAMP_COUNT ramps, only appends, and accepts at most one footprint per attempt within MAX_ATTEMPTS attempts |
| Ramps.PlaceFromKeepsPlaced | server/src/map/ramps.rs:18-134 | the whole loop keeps the placement invariant |
| Ramps.GenerateRamps | server/src/map/ramps.rs:10-137 | a grid too small for a footprint is returned unchanged with no ramps; otherwise at most RAMP_COUNT ramps, one per accepted footprint |
| Ramps.GenerateRampsCorrect | server/src/map/ramps.rs:39-112 | on a ramp-free grid, the result marks exactly the cells of the accepted footprints, changes nothing but ramp flags, keeps each footprint one or two cells from the border with base and top at opposite ends, and keeps every footprint clear of the padded area of every later one |
| MapGen.Perimeter | server/src/map/mod.rs:34-55 | the starting grid has the field's shape and each cell carries exactly its outward border flags |
| MapGen.PerimeterCorrect | server/src/map/mod.rs:37-55 | every border cell has its outward wall, no inner side is walled, no cell has a ramp flag, and both sides of every shared edge agree |
| MapGen.EdgesFrom | server/src/map/mod.rs:64-76 | the scan lists exactly the edges of its kind in the remaining rows and columns, one per edge |
| MapGen.Candidates | server/src/map/mod.rs:60-76 | the candidates are exactly the interior south edges (rows above the last) and east edges (columns left of the last), (rows−1)·cols + rows·(cols−1) of them |
| MapGen.Shuffle | server/src/map/mod.rs:78-82 | the Fisher–Yates shuffle is a permutation of the candidate list |
| MapGen.MaxWalls | server/src/map/mod.rs:130-152 | the larger wall count of the two cells an edge separates is at most four |
| MapGen.SkipOnlyFromTwoWalls | server/src/map/mod.rs:154-163 | a random skip is possible exactly when one of the two cells already has two or more walls; a pair with fewer walls is never skipped |
| MapGen.SetEdge | server/src/map/mod.rs:165-180 | setting or clearing an edge writes the owning cell's south or east flag and the neighbour's north or west flag, and every other cell is kept |
| MapGen.SetEdgeSymmetric | server/src/map/mod.rs:165-201 | placing or reverting an edge keeps south(r,c) ⇔ north(r+1,c) and east(r,c) ⇔ west(r,c+1) everywhere |
| MapGen.SetEdgeWalled | server/src/map/mod.rs:165-180 | after setting an edge it reads as set, and every other interior edge reads as before |
| MapGen.SetEdgeGrows | server/src/map/mod.rs:165-180 | placing only adds walls and changes no ramp or roof flag |
| MapGen.SetEdgeTrue | server/src/map/mod.rs:165-180 | the facts the placement loop relies on about placing an edge, together |
| MapGen.GrownKeepsPerimeter | server/src/map/mod.rs:166-201 | a grid that only gained walls still has every perimeter wall, so the loop never clears a border wall |
| MapGen.SetEdgeUndo | server/src/map/mod.rs:185-201 | reverting a just-placed edge that was open restores the grid exactly |
| MapGen.PlaceInteriorWalls | server/src/map/mod.rs:84-203 | the loop keeps the grid symmetric and its perimeter, places at most WALL_NUM_SEGMENTS walls, each on a candidate that was open and not next to a ramp base or top nor between two ramp cells, skips walled edges without change, and keeps a placement only when every non-ramp cell stays reachable |
| MapGen.RampFlagsKept | server/src/map/mod.rs:104-128 | the ramp test of an edge gives the same answer after any number of placements, since placing touches no ramp flag |
| MapGen.KeepEdge | server/src/map/mod.rs:182-184 | a kept placement adds exactly its own edge to the walled edges, and that edge was open in the starting grid |
| MapGen.SplitBoundary | server/src/map/mod.rs:223-235 | the boundary walls are those on a field border within the tolerance, the interior walls the rest, and together they are the lower walls |
| MapGen.RampsKeepWalls | server/src/map/mod.rs:57-58 | placing ramps keeps the perimeter walls and the symmetry of the grid |
| MapGen.ShuffledInterior | server/src/map/mod.rs:78-86 | the shuffled list still holds interior edges only |
| MapGen.RampStage | server/src/map/mod.rs:34-58 | the grid after the perimeter and ramp stages has the field's shape, keeps its perimeter, is symmetric, has no interior wall and at most RAMP_COUNT ramps |
| MapGen.InteriorWallsClear | server/src/map/mod.rs:104-128 | when every kept wall passed the ramp test on the ramp grid, no interior wall of the final grid blocks a ramp base, top or pair |
| MapGen.WallStage | server/src/map/mod.rs:205-235 | the lower walls, merged, split into boundary walls (on a field border within 0.01) and interior walls, which together are the lower walls |
| MapGen.RoofStage | server/src/map/mod.rs:211-215 | roof cells are open cells; the roofed grid is the walled grid with exactly those cells' roof flag set; at most three merged roofs per roof cell, each ordered, of roof thickness, and no two still mergeable |
| MapGen.GenerateGrid | server/src/map/mod.rs:27-252 | the generated grid keeps its perimeter, is symmetric, holds at most 35 placed interior walls, none blocking a ramp, and at most RAMP_COUNT ramps, and stays connected once a wall is placed; the boundary and interior walls split the lower walls; the roofs are merged roofs over open roof cells marked on the grid; the roof-edge walls and the wall lights are those of the roofed grid |
| OldWalls.Bump | server/src/walls.rs:89-95 | placing an edge adds one to the count of each in-grid cell it borders and nothing else |
| OldWalls.Draw | server/src/walls.rs:36-52 | every draw is a valid edge: a horizontal one on row line 0..=rows over a column, a vertical one on column line 0..=cols beside a row |
| OldWalls.StepKeeps | server/src/walls.rs:54-152 | an attempt keeps one wall per placed edge at that edge, no edge placed twice, and each cell's count equal to its placed bordering edges and at most three; it pushes a wall exactly when the edge is new and both neighbouring cells have fewer than three walls |
| OldWalls.Start | server/src/walls.rs:20-28 | the empty start satisfies the generator's invariant |
| OldWalls.GenerateOldWalls | server/src/walls.rs:18-156 | at most NUM_WALL_SEGMENTS walls, one per placed edge and centred on it, no edge twice, and no cell bordered by more than three placed edges |
| Roofs.CellSeeds | server/src/map/roofs.rs:43-69 | a cell pushes exactly the in-grid non-ramp neighbours on the sides where it has a ramp top |
| Roofs.Seeds | server/src/map/roofs.rs:39-71 | the ramp-top-adjacent list holds exactly the open cells some ramp top faces, and only open cells |
| Roofs.NearestFromCorrect | server/src/map/roofs.rs:82-94 | the scan keeps the first index other than the start at the least Manhattan distance seen so far |
| Roofs.NearestCorrect | server/src/map/roofs.rs:81-96 | there is no target exactly when the list has one entry; otherwise the target is at least as near as every other entry and strictly nearer than every earlier one |
| Roofs.Enqueue | server/src/map/roofs.rs:120-131 | a neighbour test keeps the search invariant, only grows the visited set, and only appends to the queue |
| Roofs.Search | server/src/map/roofs.rs:98-132 | the breadth-first search keeps the search invariant (visited cells are open and linked by parents to the start) and the target is visited when found |
| Roofs.StateLeads | server/src/map/roofs.rs:128-129 | every visited cell's parent chain leads back to the start, each parent of lower rank |
| Roofs.ChainSnoc | server/src/map/roofs.rs:137-145 | a chain extended by an open neighbour of its last cell is still a chain |
| Roofs.TraceBack | server/src/map/roofs.rs:135-148 | the walk back yields a chain of open adjacent cells from the target to the start |
| Roofs.ShortestRoofPath | server/src/map/roofs.rs:97-148 | a found path runs from the target to the start through open adjacent cells; without one nothing is added |
| Roofs.SetOf | server/src/map/roofs.rs:138 | the set holds exactly the path's cells |
| Roofs.CellsOfSnoc | server/src/map/roofs.rs:135-148 | adding a path adds exactly its cells to the roof |
| Roofs.ConnectSeeds | server/src/map/roofs.rs:73-150 | phase 1's roof is exactly the cells of the paths, each joining a seed to its nearest other seed; it lies on open cells (no ramp gets a roof) and is empty with fewer than two seeds |
| Roofs.RoofNeighbours | server/src/map/roofs.rs:167-185 | at most four roofed neighbours are counted |
| Roofs.Weight | server/src/map/roofs.rs:192-195 | every candidate weighs at least 0.5 |
| Roofs.CandidatesFrom | server/src/map/roofs.rs:156-199 | the scan lists exactly the candidates at or after its start: open, unroofed, with two walls or two roofed neighbours |
| Roofs.CandidateList | server/src/map/roofs.rs:156-199 | the candidate list holds exactly the cells meeting the candidate rule |
| Roofs.Weights | server/src/map/roofs.rs:192-197 | one weight per candidate, in order |
| Roofs.Pick | server/src/map/roofs.rs:209-215 | a taken index lies within the list |
| Roofs.TotalSnoc | server/src/map/roofs.rs:206 | the total of a prefix grows by the next weight |
| Roofs.PickCorrect | server/src/map/roofs.rs:205-215 | with positive weights and a draw below the total, a candidate is always taken, and the draw lies in that candidate's share of the total |
| Roofs.TotalPositive | server/src/map/roofs.rs:206 | the total of a non-empty list of positive weights is positive |
| Roofs.ScaledInRange | server/src/map/roofs.rs:207 | the draw lies in [0, total) |
| Roofs.ChooseCandidate | server/src/map/roofs.rs:155-215 | a round takes a cell meeting the candidate rule, and takes nothing only when no cell meets it |
| Roofs.FillRoofs | server/src/map/roofs.rs:152-216 | phase 2 only adds cells that were candidates when taken, stays on open cells, stops at the target count or when no candidate is left, and adds nothing when phase 1 reached the target |
| Roofs.FillStep | server/src/map/roofs.rs:209-214 | adding a candidate keeps the phase-2 invariant and grows the roof by one |
| Roofs.AddedStep | server/src/map/roofs.rs:209-214 | every added cell was a candidate for the roof at the time it was added |
| Roofs.Fillers | server/src/map/roofs.rs:277-308 | at most two fillers per cell |
| Roofs.SlabShape | server/src/map/roofs.rs:223-311 | a slab covers its cell and reaches at most half a wall thickness past it; a filler is a proper strip of depth PAD along the slab's north or south edge within its width, and only outside overlap mode |
| Roofs.SlabsApart | server/src/map/roofs.rs:238-275 | outside overlap mode the slabs of two different roof cells share no interior point |
| Roofs.RoofCellsFrom | server/src/map/roofs.rs:221 | the listing holds each in-grid roof cell once |
| Roofs.NoDupSize | server/src/map/roofs.rs:221 | a list without repeats is as long as its set |
| Roofs.SlabsOfShape | server/src/map/roofs.rs:313-321 | each cell contributes its slab and at most two fillers, all of roof thickness |
| Roofs.MarkRoofs | server/src/map/roofs.rs:323-324 | has_roof is set on exactly the roof cells and nothing else changes |
| Roofs.RoofSlabsShape | server/src/map/roofs.rs:218-325 | between one and three slabs per roof cell, all of roof thickness, and every roof cell's slab is present |
| Roofs.GenerateIndividualRoofs | server/src/map/roofs.rs:20-328 | the roof cells are open cells (no ramp is roofed), the target count is reached unless no candidate is left, has_roof changes only on the roof cells, and each roof cell yields its slab plus at most two fillers |
| RoofMerge.NormalizeRoof | server/src/map/roofs.rs:333-340 | the corners come out ordered, each pair holding the same two values, thickness kept, and an ordered roof is left alone |
| RoofMerge.Near | server/src/map/roofs.rs:363-374 | the tolerance test holds exactly when the absolute difference is below the tolerance |
| RoofMerge.MergeableSymmetric | server/src/map/roofs.rs:363-376 | the merge test gives the same answer whichever roof is the accumulator |
| RoofMerge.Union | server/src/map/roofs.rs:376-381 | the merged roof contains both roofs, is the least rectangle that does, keeps the accumulator's thickness and keeps corner order |
| RoofMerge.CountMark | server/src/map/roofs.rs:381 | marking one more roof used raises the used count by one |
| RoofMerge.CountAll | server/src/map/roofs.rs:345 | with every roof marked, the used count is the number of roofs |
| RoofMerge.CountNone | server/src/map/roofs.rs:345 | a fresh used list has count zero |
| RoofMerge.Pass | server/src/map/roofs.rs:358-385 | one pass merges exactly when it marks more roofs used; a pass that merges nothing leaves the accumulator unchanged and no unused roof passes the test against it; the accumulator only grows and keeps its thickness, and every roof absorbed lies inside it |
| RoofMerge.Grow | server/src/map/roofs.rs:355-386 | after the passes no unused roof passes the merge test against the accumulator; the accumulator contains the start roof and every absorbed roof and keeps its thickness |
| RoofMerge.TakeRoof | server/src/map/roofs.rs:349-387 | an unused roof seeds an accumulator, output once; if nothing is absorbed the roof is output unchanged |
| RoofMerge.CornersFromSelf | server/src/map/roofs.rs:349-387 | a roof left as it is takes its corners from its own list |
| RoofMerge.AllCornersSelf | server/src/map/roofs.rs:349-387 | every roof of a list takes its corners from that list |
| RoofMerge.CornersUnion | server/src/map/roofs.rs:376-381 | absorbing a roof of the list into an accumulator whose corners come from the list keeps every corner a corner of some roof of the list |
| RoofMerge.CornersTrans | server/src/map/roofs.rs:343-391 | corners taken from a list whose corners come from the input come from the input |
| RoofMerge.CornersStep | server/src/map/roofs.rs:387 | outputting a roof whose corners come from the input keeps every output's corners from the input |
| RoofMerge.RoundStart | server/src/map/roofs.rs:344-346 | before the first roof nothing is used or output, and the round's invariant holds |
| RoofMerge.RoundStep | server/src/map/roofs.rs:348-387 | one turn of the round, skipping a used roof or taking an unused one, keeps the round's invariant and the corner provenance |
| RoofMerge.RoundFrom | server/src/map/roofs.rs:348-390 | running the round from any roof on, with the invariant holding there, gives the round's whole contract |
| RoofMerge.RoundTake | server/src/map/roofs.rs:352-387 | taking an unused roof keeps the round's invariant and keeps every output's corners among the inputs' |
| RoofMerge.Round | server/src/map/roofs.rs:344-390 | a round returns fewer roofs exactly when it merged; a round that merges nothing returns its input and no pair in it passes the test; every input roof ends inside an output roof of near thickness; each output thickness is an input thickness; and each corner coordinate of an output is that coordinate of some input roof, so an output reaches no further than the inputs do |
| RoofMerge.RoundDone | server/src/map/roofs.rs:348-390 | the round's invariant after the last roof gives the round's contract |
| RoofMerge.SkipStep | server/src/map/roofs.rs:349-351 | skipping a used roof keeps the round's invariant |
| RoofMerge.TakeStep | server/src/map/roofs.rs:352-387 | taking an unused roof keeps the round's invariant |
| RoofMerge.StableStep | server/src/map/roofs.rs:355-386 | a roof that absorbed nothing fails the merge test with every later roof |
| RoofMerge.OriginsStep | server/src/map/roofs.rs:387 | each output roof keeps the thickness of the roof that seeded it |
| RoofMerge.OwnedStep | server/src/map/roofs.rs:381-387 | every roof absorbed this step lies inside the roof just output |
| RoofMerge.OwnedAll | server/src/map/roofs.rs:348-390 | once every roof is used, each lies inside an output roof of near thickness |
| RoofMerge.OriginsAll | server/src/map/roofs.rs:387 | every output thickness is the thickness of some input roof |
| RoofMerge.CoverTrans | server/src/map/roofs.rs:343-391 | coverage carries over from one round to the next |
| RoofMerge.ThicknessTrans | server/src/map/roofs.rs:343-391 | thickness provenance carries over from one round to the next |
| RoofMerge.StablePairs | server/src/map/roofs.rs:343 | in the final list no two different roofs pass the merge test |
| RoofMerge.NormalizedStart | server/src/map/roofs.rs:333-340 | the normalised list is ordered, covers itself and keeps the input thicknesses |
| RoofMerge.MergeRoofs | server/src/map/roofs.rs:331-394 | never more roofs than given; every output roof is ordered; every normalised input roof lies inside an output roof; every output thickness comes from an input roof; each corner coordinate of an output is that coordinate of some normalised input roof; and no two output roofs can still be merged |
| RoofEdges.EdgeWall | server/src/map/collision.rs:18-75 | a guard wall has the roof-wall thickness and runs the full cell length along its side, flat in z for north and south and in x for west and east |
| RoofEdges.CellGuards | server/src/map/collision.rs:13-75 | a cell yields at most four walls, none without a roof, each of the roof-wall thickness |
| RoofEdges.CellGuardsMembers | server/src/map/collision.rs:13-75 | a wall is among a cell's guard walls exactly when it lies along one of its sides that continues onto neither a roof nor a facing ramp top |
| RoofEdges.GuardsFrom | server/src/map/collision.rs:11-77 | the scan emits at most four walls per roofed cell |
| RoofEdges.RoofEdgeWalls | server/src/map/collision.rs:8-80 | at most four walls per roofed cell, all of the roof-wall thickness |
| RoofEdges.GuardsMembers | server/src/map/collision.rs:11-77 | a wall is emitted exactly when it lies along a guarded side of a roofed cell in the scanned range |
| RoofEdges.EdgeWallShared | server/src/map/collision.rs:18-75 | two cell sides give the same wall exactly when they are the same side or the two faces of one shared edge |
| RoofEdges.RoofsEnclosed | server/src/map/collision.rs:24-75 | a side of a roofed cell has its guard wall exactly when it does not continue onto a neighbouring roof or the neighbour's ramp top facing it |
| RoofEdges.NoRoofsNoGuards | server/src/map/collision.rs:14-16 | a grid without roofs gets no guard walls |
| Lights.Round | server/src/map/lights.rs:25 | the rounded line is within a half of the value |
| Lights.Clamp | server/src/map/lights.rs:33-34 | the clamped line lies in the range and an in-range line is kept |
| Lights.SidesHorizontal | server/src/map/lights.rs:171-189 | the two sides of a horizontal line are the roof flags of the cells south and north of it, false outside the grid |
| Lights.SidesVertical | server/src/map/lights.rs:191-209 | the two sides of a vertical line are the roof flags of the cells east and west of it, false outside the grid |
| Lights.RunLightsMembers | server/src/map/lights.rs:36-69 | the lights of a run of cells along a line are exactly one per roofed cell beside the line, with the side's heading rule, and at most two per cell |
| Lights.WallLightsShape | server/src/map/lights.rs:13-119 | every light of a wall faces a roofed cell beside the wall's own grid line within the wall's span, with the heading rule, and a wall has a bounded number of lights |
| Lights.GenerateWallLights | server/src/map/lights.rs:10-122 | the map's lights are exactly the lights of its walls |
| Lights.LightsFaceRoofs | server/src/map/lights.rs:42-116 | every light of the map faces an in-grid roofed cell |
| Lights.NoRoofsNoLights | server/src/map/lights.rs:171-209 | a grid without roofs gets no lights |
| Navigation.ToVelocity | server/src/systems/sentries/navigation.rs:20-48 | a direction's velocity is horizontal, zero exactly for standing still, and along exactly one axis otherwise |
| Navigation.Opposite | server/src/systems/sentries/navigation.rs:51-59 | turning round stands still exactly when standing still, and otherwise changes the direction |
| Navigation.DirectionFromVelocity | server/src/systems/sentries/navigation.rs:119-131 | East exactly for positive x, West for negative x, and North and South by the sign of z only when x is zero |
| Navigation.OppositeInvolution | server/src/systems/sentries/navigation.rs:51-59 | turning round twice is the identity, and the opposite direction's velocity is the negated velocity |
| Navigation.VelocityRoundTrip | server/src/systems/sentries/navigation.rs:20-48 | reading a direction back from its velocity gives the direction |
| Navigation.BlockedCauses | server/src/systems/sentries/navigation.rs:62-115 | standing still is never blocked; a wall, the field edge, a ramp or another sentry each blocks on its own; an unblocked move lands on a free or self-held ramp-less field cell with no wall between |
| Navigation.UnblockedIsStep | server/src/systems/sentries/navigation.rs:74-104 | from a non-ramp cell an unblocked move is a step of the map generator's reachability search |
| Navigation.MoveReversible | server/src/systems/sentries/navigation.rs:62-115 | on a grid whose walls agree on both sides of each edge, a sentry that may move one way from a non-ramp cell it alone holds may move straight back |
| Navigation.Unblocked | server/src/systems/sentries/navigation.rs:147-151 | the filter keeps exactly the unblocked directions |
| Navigation.ValidDirections | server/src/systems/sentries/navigation.rs:134-154 | the valid directions are exactly the unblocked moving directions, in the fixed order, at most four |
| Navigation.UnblockedIsFilter | server/src/systems/sentries/navigation.rs:147-151 | the filter keeps the order of its input |
| Navigation.AheadDirections | server/src/systems/sentries/navigation.rs:157-159 | the directions ahead are exactly the given ones other than the way back, in order |
| Navigation.AheadDropsAtMostOne | server/src/systems/sentries/navigation.rs:157-159 | from a repeat-free list at most one direction is dropped, and none when the way back is not listed |
| Navigation.AheadNothingToDrop | server/src/systems/sentries/navigation.rs:157-159 | without the way back in the list, the list is unchanged |
| Navigation.PickDirection | server/src/systems/sentries/navigation.rs:161-167 | nothing exactly from an empty list, otherwise one of the options |
| Navigation.PickReachesAll | server/src/systems/sentries/navigation.rs:165 | every option is drawn by some draw |
| OldNavigation.ToVelocity | server/src/systems/sentries.rs:39-62 | a direction's velocity is horizontal, along exactly one axis, with the given speed |
| OldNavigation.Opposite | server/src/systems/sentries.rs:64-71 | turning round always changes the direction |
| OldNavigation.DirectionFromVelocity | server/src/systems/sentries.rs:83-95 | nothing exactly for a velocity without x and z; otherwise x's sign decides before z's |
| OldNavigation.DirectionAlgebra | server/src/systems/ghosts.rs:40-96 | turning round twice is the identity and a direction survives the trip through its velocity |
| OldNavigation.BlockedIsWalled | server/src/systems/sentries.rs:73-80 | the blocked directions are exactly the cell's walled sides |
| OldNavigation.Filter | server/src/systems/sentries.rs:104-116 | the filter keeps exactly the elements the test accepts |
| OldNavigation.OpenOf | server/src/systems/sentries.rs:104-108 | the open directions are exactly those without a wall on that side |
| OldNavigation.RampSafeOf | server/src/systems/sentries.rs:112-116 | the ramp-safe directions are exactly those leading neither onto a ramp nor off the field |
| OldNavigation.ValidDirections | server/src/systems/sentries.rs:97-141 | a result is non-empty and holds exactly the usable directions; there is none (the source panics) exactly when no direction is usable |
| OldNavigation.AllDirections | server/src/systems/sentries.rs:37 | the fixed list names every direction |
| OldNavigation.ForwardDirections | server/src/systems/sentries.rs:143-145 | the forward directions are exactly the valid ones other than the way back, and the current direction stays when valid |
| OldNavigation.FindSpawnCell | server/src/systems/sentries.rs:176-186 | the redraw loop ends on a ramp-free cell of the field |
| OldNavigation.SpawnHunters | server/src/systems/sentries.rs:160-211 | nothing is spawned when sentries exist; otherwise sentries 0..n-1, each at the centre of a ramp-free cell, in Patrol with a zero timer and at an intersection, moving along a usable direction; a cell without one gives no result (the source panics) |
| Hunters.ModeStep | server/src/systems/sentries/systems.rs:62-131 | in Patrol the timer runs down and a visible player is chased exactly when it hunts or the cooldown is over, with a full target timer; in Target the timer is refilled while fleeing, and the hunter cools down exactly on timeout or a lost, stunned or roofed target; PrePatrol is left alone; the patrol cells are cleared exactly on leaving Patrol |
| Hunters.ModeStepKeepsGood | server/src/systems/sentries/systems.rs:77-125 | a targeting hunter always follows somebody with a positive timer of at most the target duration, and every frame keeps this |
| Hunters.FleeingNeverTimesOut | server/src/systems/sentries/systems.rs:88-101 | a hunter whose valid, grounded target keeps the hunt power-up stays in Target with a full timer |
| Hunters.FirstCatcher | server/src/systems/sentries/systems.rs:223-237 | the first sentry in order that targets the player and overlaps it, and none exactly when no sentry does |
| Hunters.Hits | server/src/systems/sentries/systems.rs:201-238 | at most one hit per player; every hit pairs a known, unstunned, non-hunting player with a sentry that catches it |
| Hunters.HitSentries | server/src/systems/sentries/systems.rs:241 | the sentries of the hits, in order |
| Hunters.HitsExactly | server/src/systems/sentries/systems.rs:201-238 | a listed player is hit exactly when it is vulnerable and some sentry catches it; no player and no sentry is hit twice |
| Hunters.ApplyHits | server/src/systems/sentries/systems.rs:240-266 | applying the hits keeps the player and sentry tables' keys; the only messages are SentryHit to a hit player and, to a logged-in player, the status of a hit player |
| Hunters.ApplyHitsBroadcastsStatus | server/src/systems/sentries/systems.rs:254-257 | every logged-in player is sent the status of each hit player as its stun begins |
| Hunters.ApplyHitsEffect | server/src/systems/sentries/systems.rs:241-265 | a hit player ends stunned for the stun time and the hit penalty poorer, a hitting sentry ends in PrePatrol with a cleared timer, and nobody else changes |
| Hunters.ApplyHitsNotifies | server/src/systems/sentries/systems.rs:246-250 | exactly the known hit players are told SentryHit |
| Hunters.ApplyHitsKeepsGood | server/src/systems/sentries/systems.rs:260-264 | the collision stun keeps every sentry's mode invariant |
| Broadcast.Recipients | server/src/systems/network/broadcast.rs:18-33 | the recipients are exactly the listed logged-in players other than the skipped one, without repeats when the table has none |
| Broadcast.SendAll | server/src/systems/network/broadcast.rs:21 | one send of the message per recipient, in order |
| Broadcast.BroadcastToOthers | server/src/systems/network/broadcast.rs:18-24 | only sends of the message, and a player receives it exactly when logged in and not the skipped one |
| Broadcast.BroadcastToAll | server/src/systems/network/broadcast.rs:27-33 | only sends of the message, and a player receives it exactly when logged in |
| Broadcast.Addressees | server/src/systems/network/broadcast.rs:19-31 | the addressees of the sends, in order |
| Broadcast.BroadcastReachesEachOnce | server/src/systems/network/broadcast.rs:18-33 | walking the whole table, a broadcast reaches every logged-in player (but the skipped one) exactly once |
| Broadcast.StatusOf | server/src/systems/network/broadcast.rs:61-65 | the status names the player, is stunned exactly while the stun timer runs, and has the sentry hunt exactly while its timer runs |
| Broadcast.Snapshot | server/src/systems/network/broadcast.rs:41-70 | one entry per listed logged-in player whose entity has its components, carrying that player's data, without repeats |
| Broadcast.SnapshotFlags | server/src/systems/network/broadcast.rs:49-66 | a snapshot entry is a logged-in player with its name, hits and position, stunned exactly while its stun timer runs and with each power-up exactly while its timer runs |
| Broadcast.CollectItems | server/src/systems/network/broadcast.rs:74-93 | one entry per shown item in table order, carrying its type and position, without repeats |
| Broadcast.CollectItemsOmitsRespawningCookies | server/src/systems/network/broadcast.rs:78-81 | an item is left out exactly when it is a cookie with a non-zero spawn time |
| Broadcast.CollectSentries | server/src/systems/network/broadcast.rs:97-116 | one entry per sentry, in table order, with its position and velocity |
| Broadcast.CollectSentriesOnePerSentry | server/src/systems/network/broadcast.rs:97-116 | every sentry of the table appears exactly once |
| NetServer.HandleEvent | server/src/systems/network/systems.rs:25-90 | an event for an unknown id changes nothing; a disconnect of a known player goes to Disconnect; a message from a player not yet logged in goes to the login flow, one from a logged-in player to the message handler; no event touches items, sentries or another player's record |
| NetServer.HandleEvents | server/src/systems/network/systems.rs:38-89 | the events of one frame run in arrival order; no position is passed on and no projectile asked for except from the components as the frame began |
| NetServer.EventReadsView | server/src/systems/network/messages.rs:87-99 | a relayed speed change carries the position the player's components had as the frame began, and a projectile is asked for only for a player that had components then |
| NetServer.LoginReadsView | server/src/systems/network/login.rs:57-111 | the login flow passes on no speed change and asks for no projectile |
| NetServer.DispatchReadsView | server/src/systems/network/messages.rs:87-99 | the message handler passes on a speed change only with the position from the frame's start, and asks for a projectile only for a player whose components were there then |
| NetServer.LoginUnreadQueued | server/src/systems/network/login.rs:68-111 | the login flow's messages and the table it leaves do not depend on component inserts or despawns queued earlier in the frame |
| NetServer.DispatchUnreadQueued | server/src/systems/network/messages.rs:31-177 | the message handler's messages, projectile requests and player table do not depend on component writes queued earlier in the frame |
| NetServer.QueuedWritesUnreadOnce | server/src/systems/network/systems.rs:38-89 | no single event's messages or projectile requests depend on the component writes queued before it |
| NetServer.QueuedWritesUnread | server/src/systems/network/systems.rs:38-89 | over a whole frame the same messages go out and the same projectiles are asked for, whatever component writes are queued: the queued writes are never read back |
| NetServer.SecondOfTwo | server/src/systems/network/systems.rs:38-89 | in a frame of two events the second runs on the table the first leaves, and their outputs follow each other |
| NetServer.LoginThenSpeed | server/src/systems/network/login.rs:107 | a Login followed in the same frame by a speed change leaves the new speed on the fresh body, but no speed change is passed on |
| NetServer.LoginThenShot | server/src/systems/network/messages.rs:142 | a Login followed in the same frame by a shot records the shot but asks for no projectile |
| NetServer.LogoffThenSpeed | server/src/systems/network/messages.rs:41 | a Logoff followed in the same frame by a speed change leaves no entity or body, yet the change still reaches exactly the other logged-in players with the position the frame began with |
| NetServer.Disconnect | server/src/systems/network/systems.rs:45-57 | the player's record, entity and components go; only a player that had logged in is announced, non-gracefully, and then to exactly the other logged-in players |
| NetServer.LoginName | server/src/systems/network/login.rs:47-52 | the login name is never empty and is the given one whenever that is not empty |
| NetServer.Without | server/src/systems/network/login.rs:84-87 | the snapshot loses exactly the newcomer's entry and stays free of duplicate ids |
| NetServer.LoggedInAs | server/src/systems/network/login.rs:39-55 | logging in sets the player's flag and login name, keeps its hits, and changes no other record or table |
| NetServer.HandleLogin | server/src/systems/network/login.rs:21-121 | a non-login message before login changes nothing; a Login marks the player logged in under its login name, touches no other player, asks for no projectile and, once Init is sent, queues a body for the player; when the Init send fails nothing is sent and no components are added |
| NetServer.LoginMessages | server/src/systems/network/login.rs:57-111 | the login flow sends only Init, the initial update and Login announcements |
| NetServer.LoginSnap | server/src/systems/network/login.rs:67-81 | the newcomer is replicated with its login name, its hits, the idle speed and no stun or power-up flag set |
| NetServer.OccupantsExactly | server/src/systems/network/login.rs:174-196 | the spawn search keeps away from exactly the logged-in players that had components as the frame began and the sentries |
| NetServer.InitialUpdateListsNewcomerOnce | server/src/systems/network/login.rs:84-104 | the initial update lists the newcomer exactly once and last, ids are distinct, and the other entries are exactly the logged-in players that had components as the frame began |
| NetServer.LoginAnnounced | server/src/systems/network/login.rs:57-111 | a successful login sends Init and then the initial update built from the updated table to the newcomer, queues its body with the snapshot's position and facing and the idle speed, and sends the Login announcement, and nothing else, to exactly the other logged-in players |
| NetServer.LoginInitFailure | server/src/systems/network/login.rs:57-65 | when the Init send fails nothing is sent and no components are added, yet the player stays marked logged in |
| NetServer.FreeInRow | server/src/systems/network/login.rs:144-149 | the candidate cells of one row are exactly its cells without a ramp |
| NetServer.FreeCellsOf | server/src/systems/network/login.rs:142-150 | the candidate cells of a run of rows are exactly their cells without a ramp |
| NetServer.FreeCells | server/src/systems/network/login.rs:142-150 | the candidate cells are exactly the in-grid cells without a ramp |
| NetServer.Offset | server/src/systems/network/login.rs:165-172 | a spawn offset lies within the inner half of the cell, at most a quarter cell from the centre |
| NetServer.SpawnFrom | server/src/systems/network/login.rs:157-208 | the remaining attempts yield either the origin or a point inside a ramp-free cell that is at least MIN_DISTANCE from every occupant |
| NetServer.SpawnPosition | server/src/systems/network/login.rs:129-209 | the spawn is the origin, which is always the case when every cell has a ramp, or else a point inside a ramp-free cell at least MIN_DISTANCE from every occupant |
| NetServer.SpawnTakesFirstFarCandidate | server/src/systems/network/login.rs:157-200 | when all earlier attempts land too close and attempt a does not, the spawn is exactly attempt a's candidate |
| NetServer.SpawnFromReaches | server/src/systems/network/login.rs:157-200 | the search from any attempt before the first far candidate ends at that candidate |
| NetServer.Dispatch | server/src/systems/network/messages.rs:21-107 | a repeated Login closes the connection; Logoff removes the entity and body and sends only the graceful Logoff, to exactly the other logged-in players; a speed or facing change alters only that field of the body and sends only its own relay, a speed change only when the body was there as the frame began and with that position; a shot goes through the throttle; an echo goes back unchanged to its sender |
| NetServer.HandleShot | server/src/systems/network/messages.rs:110-177 | a shot from an unknown player or within the cooldown changes nothing and sends nothing; an accepted shot records its time, turns the shooter's body to the shot's facing, requests a projectile (multi-shot when the timer runs) exactly when the shooter had components as the frame began, and sends only the Shot, to exactly the other logged-in players |
| NetServer.ShotsSpacedOut | server/src/systems/network/messages.rs:125-133 | after an accepted shot at t1, a later shot has any effect only if it comes at least PROJECTILE_COOLDOWN_TIME after t1 |
| NetServer.FirstShotAccepted | server/src/systems/network/connection.rs:32 | a freshly connected player's first shot passes the throttle at any clock reading, because the last shot time starts at negative infinity |
| NetServer.BroadcastTick | server/src/systems/network/systems.rs:97-139 | below the interval time only accumulates; at the interval the timer restarts and the sequence number advances modulo 2^32; nothing is sent when nobody is logged in; every message sent goes to a logged-in player and is the update with the new sequence number, the snapshot of the logged-in players, the shown items and the sentries |
| NetServer.TickReachesEveryoneOnce | server/src/systems/network/systems.rs:115-138 | each due update reaches every logged-in player exactly once and nobody else |
| NetServer.Connect | server/src/systems/network/connection.rs:11-36 | a new connection is a nameless, not yet logged-in player with no hits, timers at zero and no shot yet, and no other record changes |
| NetServer.OldShotCount | server/src/systems/network.rs:450-459 | the earlier server fires MULTI_SHOT_MULTIPLIER projectiles exactly when the multi-shot timer runs, and one otherwise |
| NetServer.OldRepeatedLogin | server/src/systems/network.rs:357-361 | the earlier server despawns a player that sends Login again and keeps its record |
| NetServer.OthersStayLoggedIn | server/src/systems/network/login.rs:110-111 | changing one player's record leaves the set of other logged-in players unchanged, so the Login announcement reaches the same players |
| Items.OccupiedCells | server/src/systems/items.rs:43-48 | the occupied cells are exactly the grid cells of the existing items |
| Items.SpawnTick | server/src/systems/items.rs:30-70 | below the interval time only accumulates; at the interval the timer restarts and, when the search finds a cell free of items, one item of the drawn kind appears in that cell under the next id with the current time as its spawn time, no other item changes and the next id advances; otherwise nothing spawns |
| Items.SpawnKeepsOnePerCell | server/src/systems/items.rs:43-67 | spawning keeps every cell holding at most one item |
| Items.Despawn | server/src/systems/items.rs:73-90 | exactly the items younger than ITEM_LIFETIME remain, unchanged |
| Items.DespawnMonotone | server/src/systems/items.rs:77-82 | despawning is idempotent at a fixed time, and a later clock never keeps an item an earlier one removed |
| Items.FirstCollector | server/src/systems/items.rs:107-115 | an item's collector is the first player in table order that has a position and overlaps the item; there is none exactly when no such player overlaps it |
| Items.FirstAfterHead | server/src/systems/items.rs:108-114 | when the head of the table does not collect, the first collector of the rest is the first of the whole table |
| Items.Collections | server/src/systems/items.rs:101-117 | the collections name exactly the items that have a collector, each with its first collector and its kind |
| Items.RemoveCollected | server/src/systems/items.rs:122-126 | exactly the collected items are removed and the rest stay unchanged |
| Items.GrantAll | server/src/systems/items.rs:128-137 | a player's speed or multi-shot timer is set to the full duration exactly when it collected an item of that kind; no other field and no other player changes |
| Items.GrantsCons | server/src/systems/items.rs:122-147 | a non-empty list of collections grants a power-up when its head does or its tail does |
| Items.KnownCollectionsExactly | server/src/systems/items.rs:129 | the collections that reach a player are exactly those whose player is in the table |
| Items.PowerUpMessages | server/src/systems/items.rs:128-143 | one PowerUp message per collection by a known player, in collection order, each with that player's speed and multi-shot flags right after its own collection is granted |
| Items.BroadcastEach | server/src/systems/items.rs:149-152 | every message goes to every logged-in player and to nobody else |
| Items.LoggedInOf | server/src/systems/network.rs:28-33 | the addressees of a broadcast are exactly the logged-in players of the table |
| Items.Collect | server/src/systems/items.rs:93-153 | collection changes no player's presence; every logged-in player is sent each PowerUp message of the collections, and nothing else is sent |
| Items.CollectExactly | server/src/systems/items.rs:101-147 | an item survives collection exactly when no player with a position overlaps it, and a player's speed timer is set to the full duration whenever it is the first collector of a speed item |
| Items.RunDown | server/src/systems/items.rs:166-167 | a run-down timer is never negative, never grows, and stays positive exactly when the time left exceeds the frame |
| Items.ExpiryMessages | server/src/systems/items.rs:161-180 | a player gets a message with its new flags exactly when one of its power-up flags changed |
| Items.Expire | server/src/systems/items.rs:156-186 | every player's timers run down and nothing else changes; each logged-in player receives a player's new flags exactly when those flags changed |
| Items.ExpiryOnlyTurnsOff | server/src/systems/items.rs:162-173 | as time moves forward no power-up flag comes on, so every expiry message reports a flag going off |
| ChatServer.Utf8Width | server/src/server.rs:339 | a character takes one to four UTF-8 bytes |
| ChatServer.Utf8Len | server/src/server.rs:339 | a string's byte length lies between its character count and four times that, and is zero only for the empty string |
| ChatServer.Utf8LenAppend | server/src/server.rs:339 | the byte length of a concatenation is the sum of the parts' lengths |
| ChatServer.ValidateName | server/src/server.rs:338-344 | a name is accepted exactly when it has 2 to 50 UTF-8 bytes; it is too short below 2 bytes and too long above 50 |
| ChatServer.NameLengthBounds | server/src/server.rs:338-344 | an ASCII name's byte length is its character count, so a one-character ASCII name is too short, and any name of more than 50 characters is too long |
| ChatServer.AsciiLength | server/src/server.rs:339 | an all-ASCII string has one byte per character |
| ChatServer.NextId | server/src/server.rs:76 | the successor of a u32 id is again an id in 1..u32::MAX, wrapping to 1 |
| ChatServer.Steps | server/src/server.rs:74-81 | the distance around the id cycle is below u32::MAX and is zero exactly from an id to itself |
| ChatServer.StepsNext | server/src/server.rs:76 | one step of the counter brings it one closer to any other id |
| ChatServer.StepsNextAll | server/src/server.rs:76 | one step of the counter brings it one closer to every other id at once |
| ChatServer.AdvanceId | server/src/server.rs:74-81 | the counter stops at the first id after the current one, going round the cycle, that no client holds, and skips only held ids |
| ChatServer.AdvanceLeavesNew | server/src/server.rs:83-93 | after a new client takes the counter's id, the counter moves to a different id whenever one is free |
| ChatServer.AddClient | server/src/server.rs:83-94 | the new client gets the counter's id, which no client held, and is connected; the counter then points at a free id if there is one |
| ChatServer.GetPlayers | server/src/server.rs:138-146 | the player list has exactly the logged-in clients, each with its own player |
| ChatServer.SendToAll | server/src/server.rs:178-186 | the message goes to every logged-in client of the walk and to nobody else |
| ChatServer.RemoveClient | server/src/server.rs:100-107 | the client leaves the table and its task is told to close |
| ChatServer.DisconnectClient | server/src/server.rs:221-234 | an unknown id changes nothing; otherwise the client leaves; only a client that had logged in is announced, non-gracefully, to every remaining logged-in client |
| ChatServer.DrawPos | server/src/server.rs:116-122 | a login's position has both coordinates in -1000..=1000 |
| ChatServer.ProcessClientLogin | server/src/server.rs:250-273 | a non-Login message before login removes the client; a Login with a bad name gets the error and then Close; a good name gets Init with the players logged in before it, then the client is logged in at the drawn position and every logged-in client, itself included, is told; every send after Init is that Login announcement to a logged-in client |
| ChatServer.ProcessClientMessageAsWritten | server/src/server.rs:276-325 | as written, a Remove naming an id not in the table panics; every other message is handled as by the corrected handler |
| ChatServer.ProcessClientMessage | server/src/server.rs:276-325 | a second Login removes the client; a Logoff closes it first and then tells every remaining logged-in client gracefully; Say reaches every logged-in client unchanged; a bad Name gets an error and changes nothing; a good one renames and is relayed to every logged-in client; Remove takes out a logged-in target, closes it first and then tells every remaining logged-in client of the removal, and otherwise answers "not found"; in each relayed case every send is that case's message to a logged-in client and nothing else is sent |
| ChatServer.ProcessClientDataAsWritten | server/src/server.rs:240-247 | as written, a message from an id no longer in the table panics; otherwise it is routed by login state |
| ChatServer.ProcessClientData | server/src/server.rs:240-247 | a message from an id no longer in the table is dropped; otherwise a connected client's message goes to the login handler and a logged-in client's message to the message handler |
| ChatServer.StaleSenderPanics | server/src/server.rs:130-136 | client 1 removes logged-in client 2, after which client 2's queued Say makes the server as written panic |
| ChatServer.UnknownRemoveTargetPanics | server/src/server.rs:148-152 | a Remove naming an id no client holds makes the server as written panic instead of answering "not found" |
| ChatServer.CorrectedHandlesStaleIds | server/src/server.rs:311-323 | the corrected server drops a stale sender's message without effect and answers an unknown Remove target with the "not found" error |
| ChatServer.ProcessKeepsInvariants | server/src/server.rs:240-325 | handling a message or a disconnect keeps every logged-in name valid and the counter on a free id |
| ChatServer.GetPlayersOnce | server/src/server.rs:138-146 | when the table walk names each id once, the player list names each logged-in client once |
| ChatServer.InitListsOthers | server/src/server.rs:263-264 | a login's Init lists exactly the clients logged in before it, never the newcomer itself, and each once when the table walk names each id once |
| EcsChat.LoggedInOf | server/src/systems.rs:51 | the logged-in query yields exactly the entities that carry the LoggedIn marker |
| EcsChat.SendTo | server/src/systems.rs:76-80 | the message goes to the owner of every listed entity except the skipped player, and to nobody else |
| EcsChat.Connect | server/src/systems.rs:54-60 | a connect spawns a fresh Connected entity for the id and points the index at it; other index entries stay as they were |
| EcsChat.Disconnect | server/src/systems.rs:63-83 | an id not in the index changes nothing; otherwise its index entry and entity go, and only an entity logged in when the system started is announced, non-gracefully, to every other entity logged in at that point |
| EcsChat.HandleConnections | server/src/systems.rs:46-84 | after a frame every disconnected id has left the index and every id that connected without disconnecting is in it; the only messages are non-graceful Logoffs |
| EcsChat.ConnectAll | server/src/systems.rs:54-60 | every connecting id ends up in the index and no earlier entry is lost |
| EcsChat.DisconnectAll | server/src/systems.rs:63-83 | every disconnecting id leaves the index, the others stay, and only non-graceful Logoffs are sent |
| EcsChat.Others | server/src/systems.rs:156-159 | Init lists every player logged in when the system started, each with its position, and lists nothing else |
| EcsChat.HandleMessage | server/src/systems.rs:94-224 | a message from an id not in the index, or from an entity without components yet, is dropped; a connected client's Login whose Init send fails changes nothing; a connected client's first message other than Login despawns it and sends nothing; a logged-in client's Login despawns it and sends nothing; a logged-in client's Logoff despawns it and tells exactly the other players logged in at the start, gracefully; the index is never touched |
| EcsChat.ProcessMessages | server/src/systems.rs:87-136 | handling a frame's messages leaves the index as it was |
| EcsChat.LoginAnnounced | server/src/systems.rs:152-191 | a connected client's Login with a successful Init send is answered first with Init listing every player logged in when the system started; each of those players hears of the newcomer; and the newcomer's entity becomes LoggedIn |
| EcsChat.TwoLoginsInOneFrame | server/src/systems.rs:102-124 | because the queries read the world as the system found it, two Logins in one frame both log the client in: two Inits, and the other player hears the Login twice |
| ChatClient.AddChatMessage | client/src/client.rs:116-121 | the new line becomes the last of the history; the history grows by that line while below MAX_CHAT_HISTORY, otherwise drops its oldest line, so it never exceeds the cap |
| ChatClient.Others | client/src/client.rs:56-58 | the participants Init lists other than the client itself: every one of them and nothing else |
| ChatClient.OthersSnoc | client/src/client.rs:56-58 | listing one more participant at the end appends it exactly when it is not the client itself, so the listing order is kept |
| ChatClient.InitLines | client/src/client.rs:55-61 | Init shows one "<name> is here." line for each listed participant other than the client itself, in listing order, and no other line before the greeting |
| ChatClient.AddAll | client/src/client.rs:56-61 | after Init the known participants are exactly the earlier ones plus every listed one |
| ChatClient.AddAllLaterWins | client/src/client.rs:56-101 | after Init each listed id holds the player of its last listing, and every earlier participant Init does not list keeps its entry |
| ChatClient.Effect | client/src/client.rs:48-114 | a Logoff, Remove, Say or Name about an unknown participant panics and nothing else does; Login adds or replaces the participant, Logoff and Remove drop it, Say and Error change nobody, Name renames exactly that participant and Init adds the list; the line is "[Server Error] <m>", Init's "is here" lines joined by newlines and closed by the greeting, "<name> joined.", "<name> left." on a graceful Logoff and "<name> disappeared." otherwise, "<name> was removed.", "<name>: <text>", and for Name the old name followed by ` is now known as "<new>".`, every name read before the table changes |
| ChatClient.ProcessMessage | client/src/client.rs:48-93 | the participants change as the message says and exactly that message's line joins the history |
| ChatClient.HistoryBounded | client/src/client.rs:116-121 | however many messages arrive, the history never holds more than MAX_CHAT_HISTORY lines |
| ChatClient.LoginLogoffRoundTrip | client/src/client.rs:65-78 | a Login followed by the same participant's Logoff leaves a new participant's table as it was |
| ChatClient.NamesOf | client/src/game.rs:20-23 | the older client's name table has the same ids as the participant table, with each participant's name |
| ChatClient.GameProcessMessage | client/src/game.rs:58-104 | the older client panics exactly on a Logoff, Remove, Say or Name about an unknown id; Login adds the name, Logoff and Remove drop it, Say and Error change nothing, Name renames that id and Init adds the list; it returns the same lines as the newer client, each name read before the table changes (for Name, the old name) |
| ChatClient.AddAllNamesAgrees | client/src/game.rs:61-72 | adding Init's list to the names gives the names of the participants after the same Init |
| ChatClient.ClientsAgree | client/src/game.rs:58-104 | from the same participants, the two clients panic on the same messages, the older one shows exactly the line the newer one records, and its names match the newer one's participants |
| ChatInput.TrimStart | client/src/input.rs:28 | trimming the front removes exactly a whitespace prefix and leaves a result that is empty or starts with a non-whitespace character |
| ChatInput.TrimEnd | client/src/input.rs:28 | trimming the back removes exactly a whitespace suffix and leaves a result that is empty or ends with a non-whitespace character |
| ChatInput.TrimShape | client/src/input.rs:28 | a trimmed line is a slice of the input with only whitespace cut off either end, and neither of its ends is whitespace |
| ChatInput.TrimIdempotent | client/src/input.rs:28 | trimming twice is trimming once |
| ChatInput.SplitOnce | client/src/input.rs:51 | the command word holds no space; without a space it is the whole text, otherwise the text is the word, one space and the rest |
| ChatInput.NoSpaceNoSplit | client/src/input.rs:51 | a text without a space is all command word and has no remainder |
| ChatInput.Argument | client/src/input.rs:55 | a command has an argument exactly when there is a remainder that is not blank once trimmed, and the argument is that trimmed remainder |
| ChatInput.WhoLines | client/src/input.rs:68-78 | with no names /who prints "No participants."; otherwise it prints the header and then one indented line per name, in order |
| ChatInput.Command | client/src/input.rs:50-121 | a slash command never sends a chat line |
| ChatInput.EofIsQuit | client/src/input.rs:23-26 | end of input is handled exactly like the line "/quit": Logoff is sent and "Goodbye!" printed |
| ChatInput.TrimEmptyIffBlank | client/src/input.rs:28-31 | trimming leaves nothing exactly when every character is whitespace |
| ChatInput.BlankLinesSkipped | client/src/input.rs:28-31 | a line is skipped exactly when it is all whitespace |
| ChatInput.SayCarriesTrimmedLine | client/src/input.rs:33-40 | a line is sent as Say exactly when, once trimmed, it is non-empty and does not start with '/', and the Say carries the trimmed line |
| ChatInput.NamesAreTrimmed | client/src/input.rs:54-67 | /name and /login send only a non-empty name with no whitespace at either end |
| ChatInput.RemoveOnlyKnown | client/src/input.rs:79-94 | /remove sends Remove exactly when the trimmed argument is non-empty and the client's name lookup finds it, and then sends the id the lookup returned |
| ChatInput.UnknownCommandReported | client/src/input.rs:110-113 | a word that is no command is echoed as "Unknown command: /word" followed by the help hint, and nothing is sent |
| ChatInput.LoneSlashIsUnknown | client/src/input.rs:51-117 | a lone "/" is reported as an unknown command, so the "Empty command" branch is never reached |
| Echo.Push | client/src/systems/network/systems.rs:120-123 | a new sample becomes the newest of the window; the window grows by it while below ten samples, otherwise loses its oldest, so it never holds more than ten |
| Echo.EchoTick | client/src/systems/network/systems.rs:78-103 | a request goes out exactly when the accumulated time, starting one second short of the interval on the first run, reaches ECHO_INTERVAL; a request restarts the timer, records the send instant as pending and carries it in nanoseconds modulo 2^64; otherwise time accumulates and the estimate is untouched |
| Echo.FirstEchoAfterOneSecond | client/src/systems/network/systems.rs:85-89 | the first request goes out in the first frame, exactly when that frame lasts at least one second |
| Echo.EchoReply | client/src/systems/network/systems.rs:106-127 | a reply is ignored unless a request is pending and the reply carries its timestamp; an accepted reply clears the pending request, appends the measured time as the newest sample to a window of at most ten, and sets the estimate to the integer mean of the window |
| Echo.ReplyTakenOnce | client/src/systems/network/systems.rs:107-118 | once a reply is accepted, the same reply arriving again changes nothing |
| Echo.MeanBounds | client/src/systems/network/systems.rs:125 | the sum of samples lying between lo and hi lies between lo and hi times their count |
| Echo.FloorMeanBounds | client/src/systems/network/systems.rs:126 | an integer mean of samples lying between lo and hi also lies between lo and hi |
| Echo.EstimateWithinSamples | client/src/systems/network/systems.rs:117-126 | the estimate after an accepted reply lies between the smallest and the largest sample in the window |
| Echo.RealMean | client/src/systems/network.rs:370-371 | the mean times the window size is the window's sum |
| Echo.OldHandleEcho | client/src/systems/network.rs:356-372 | the earlier client ignores a reply unless one is pending and the timestamps are equal; otherwise it clears the pending request, pushes the sample into the window and sets the estimate to the exact mean |
| ClientSync.IdSet | client/src/systems/network/items.rs:36 | the id set of a listing holds exactly the ids that occur in it |
| ClientSync.SpawnMissing | client/src/systems/network/items.rs:39-53 | afterwards the table holds the earlier ids plus every listed one; present entries keep their entity; each newly listed id gets a fresh handle from the counter, distinct from the others spawned |
| ClientSync.KeepListed | client/src/systems/network/items.rs:56-67 | exactly the entries the server still lists remain, unchanged |
| ClientSync.SyncTable | client/src/systems/network/items.rs:28-68 | after reconciliation the table holds exactly the listed ids; present ones keep their entity; exactly the entities of unlisted ids are despawned; handles stay fresh |
| ClientSync.SyncTableIdempotent | client/src/systems/network/items.rs:28-68 | reconciling again with the same listing changes nothing, spawns nothing and despawns nothing |
| ClientSync.SpawnNothing | client/src/systems/network/items.rs:39-42 | when every listed id is already present, the spawn loop spawns nothing |
| ClientSync.SentryMessage | client/src/systems/network/sentries.rs:16-61 | an unknown sentry is spawned under a fresh handle; a known one keeps its entity and the table is unchanged |
| ClientSync.SyncSentries | client/src/systems/network/sentries.rs:77-141 | the sentry table is reconciled as the item table is, and exactly the listed sentries get the server's state |
| ClientSync.SpawnPlayers | client/src/systems/network/players.rs:182-230 | afterwards the table holds the earlier ids plus every listed one; present players are untouched; a new player takes a fresh handle and its fields from its first listing |
| ClientSync.UpdatePlayers | client/src/systems/network/players.rs:244-268 | a listed player present in the table takes its hits and its speed, multi-shot and phasing flags from its last listing, and an unlisted one stays as it was |
| ClientSync.RefreshTwice | client/src/systems/network/players.rs:244-268 | applying two snapshots to a player leaves just the second one's fields |
| ClientSync.SyncPlayers | client/src/systems/network/players.rs:164-270 | after sync the players are exactly the listed ones; exactly the unlisted players' entities are despawned; the server velocity is written to exactly the listed, already present, visible players other than the local one; handles stay fresh |
| ClientSync.SyncPlayersFields | client/src/systems/network/players.rs:182-268 | every listed player holds its last listing's hits, speed, multi-shot and phasing flags; a present player keeps its entity, name, sentry-hunt and stun flags; a new one takes them from its first listing |
| ClientSync.PlayerLogin | client/src/systems/network/login.rs:31-78 | a Login for a known id changes nothing; a new player is spawned under a fresh handle with hits 0 and the message's flags |
| ClientSync.PlayerLogoff | client/src/systems/network/login.rs:81-86 | the player leaves the table and exactly its entity, if it had one, is despawned |
| ClientSync.PlayerStatus | client/src/systems/network/players.rs:125-157 | an unknown id changes nothing; a known player's five flags are overwritten and nothing else changes; the sound plays exactly for the local player when the stun flag is unchanged and no power-up is switched off |
| ClientSync.SoundOnlyOnGain | client/src/systems/network/players.rs:133-148 | when the sound plays the message is about the local player, every power-up that was on stays on, and the stun flag did not change |
| ClientSync.HandleUpdate | client/src/systems/network/messages.rs:126-182 | an update numbered no later than the last accepted one changes nothing; a newer one becomes the last accepted and leaves the player, item and sentry tables holding exactly the listed ids |
| ClientSync.UpdateReplayIgnored | client/src/systems/network/messages.rs:145-154 | delivering the same update twice has the same effect as delivering it once |
| ClientSync.Dispatch | client/src/systems/network/messages.rs:22-119 | a second Init changes nothing, no message changes the client's own id or lowers the last accepted update number, and an echo reply at most clears the pending request |
| ClientSync.Receive | client/src/systems/network/systems.rs:40-69 | one event of a frame: a disconnect only sets the exit flag; with no id read at the frame's start a message leaves the client as it is and an Init only queues its id; with an id every message is dispatched and queues nothing |
| ClientSync.ReceiveFrom | client/src/systems/network/systems.rs:40-69 | over the events of a frame the pending echo request never moves past the one at the frame's start |
| ClientSync.LastInit | client/src/systems/network/login.rs:14-28 | the id queued by the last Init of a frame: present exactly when the frame holds an Init, and then that of an Init no later Init follows |
| ClientSync.LastInitCons | client/src/systems/network/login.rs:14-28 | a frame's last Init is that of its tail if the tail has one, and otherwise the first event's |
| ClientSync.FrameBeforeLogin | client/src/systems/network/systems.rs:40-69 | with no id read at the frame's start, the events leave the client untouched, queue the id of the last Init, and set the exit flag exactly on a disconnect |
| ClientSync.OnlyInitBeforeLogin | client/src/systems/network/systems.rs:40-69 | a frame before login changes nothing but the client's id, which becomes that of the frame's last Init only once the frame ends, and the app exits exactly when the connection ended |
| ClientSync.InitFrameDropsLogin | client/src/systems/network/login.rs:14-28 | an Init and a Login in the same frame give the client its id but spawn no player, because the id is read once per frame |
| ClientSync.FrameKeepsOrder | client/src/systems/network/systems.rs:40-69 | over the events of a frame the last accepted update number never goes down |
| ClientSync.AcceptedUpdatesIncrease | client/src/systems/network/messages.rs:145-154 | over any frame, echo replies included (each reply, once logged in, no older than the pending probe), the last accepted update number never goes down |
| ClientSync.UpdateAcceptedIffNewer | client/src/systems/network/messages.rs:145-154 | after login, an update changes the client only when its number is above the last accepted one, and then that number becomes the last accepted |
| ClientSync.OldSpawn | client/src/systems/network.rs:224-271 | the earlier client's spawn loop adds every listed id and leaves present players untouched |
| ClientSync.OldRefresh | client/src/systems/network.rs:281-294 | the earlier client keeps each present player's entity and takes the hits of its last listing |
| ClientSync.OldUpdate | client/src/systems/network.rs:208-295 | the earlier client, which checks no sequence number, ends with exactly the listed players; present ones keep their entity and every listed one holds the server's hits |
| ClientSync.OldLogin | client/src/systems/network.rs:141-164 | the earlier client ignores a Login for a known id and otherwise adds the player with hits 0 under a fresh handle |
| Skybox.Tile | client/src/systems/skybox.rs:84-93 | each cubemap face comes from one tile of the 4×3 cross: the middle row holds four tiles, and only column 1 has tiles above and below it |
| Skybox.DstIsRowIndex | client/src/systems/skybox.rs:98-103 | the destination of row y of face f is row f·faceSize + y of the stacked cubemap |
| Skybox.RowsDisjoint | client/src/systems/skybox.rs:97-107 | the destination rows of two different (face, row) pairs never overlap, and later pairs lie further on |
| Skybox.DstInBounds | client/src/systems/skybox.rs:59-69 | every destination row lies inside the six-face buffer |
| Skybox.RowInBounds | client/src/systems/skybox.rs:100-106 | when the image is at least three faces high every source row lies inside its data |
| Skybox.BottomRowNeedsHeight | client/src/systems/skybox.rs:54-56 | the last row of the bottom face fits inside the data only when the image is at least three faces high |
| Skybox.RowOutsideMeansShort | client/src/systems/skybox.rs:101-106 | a source row falls outside the data only when the image is less than three faces high |
| Skybox.CreateCubemap | client/src/systems/skybox.rs:48-111 | conversion panics exactly when the image has no data or is less than three faces high, since the height check only logs; otherwise the result has six faces and every byte of every face row equals the byte of that row in the face's tile of the cross |
| Skybox.CopyFace | client/src/systems/skybox.rs:97-108 | copying one face either panics, which only a short image causes, or extends the cubemap by exactly that face's rows, each equal to its row of the cross |
| Skybox.RowStep | client/src/systems/skybox.rs:103 | consecutive rows of a face lie one face row of bytes apart |
| Skybox.CopyRow | client/src/systems/skybox.rs:106 | appending a row copies that row's bytes and keeps every earlier row intact |
| Skybox.NextFace | client/src/systems/skybox.rs:98 | a face's last row ends where the next face starts |
| Skybox.ConvertSystem | client/src/systems/skybox.rs:21-46 | nothing happens once a cubemap exists, before a cross image is requested, or while it is still loading; otherwise the cubemap is built and the cross image's resource removed, so the conversion runs once |

## Left out

- Roofs.ShortestRoofPath: the contract proves that a found path is a chain of open, adjacent cells from the target back to the start. It does not prove that the path is the shortest one; that would need a breadth-first-search distance invariant.
- Hunters.ModeStep: the ghost copy (server/src/systems/ghosts.rs:260-323) reads a ghost-hunt power-up timer that the current player record no longer has. The shared model reads the sentry-hunt timer in its place.
- Skybox.CreateCubemap: byte offsets are unbounded integers. The source computes them in `u32`. In a cross four faces wide, the source offset `src_y * width * 4 + x_offset * 4` passes 2^32 once a face is 9460 pixels wide, and the buffer size `face_size * face_size * 4 * 6` passes it at 13378 pixels. Past those sizes the source panics in a debug build and wraps in a release build; the model does neither.
- Echo.EchoReply: the sum of the window is unbounded. The source's `Duration` sum would panic only past about 584 years of round trips.
- Component writes (positions, speeds, face directions, velocities, shake effects and sounds) are not tracked. The model records only the tables, the outboxes and, where a handler changes them, the bodies of the game server.
- NetServer.LoginSnap: the contract does not state that the newcomer faces the origin. The body computes the facing as `atan2` of the negated spawn position (server/src/systems/network/login.rs:71), but the spawn position is a search result and the statement was too costly to prove.
- NetServer.Dispatch: an insert on an entity that a Logoff earlier in the same frame queued for despawn is dropped. In the engine such a queued insert on a despawned entity is reported as an error when the queue is applied; that report is not modelled.
- NetServer.HandleEvents: the model applies the queued component writes of one frame in order, after the frame's events. It does not model queued writes of other systems that run in the same frame.
- Floating point: `f32` rounding, NaN and infinities are not modelled. The one infinity the source uses, the initial last-shot time, is modelled as "no shot yet".
- Collision and visibility tests are boolean inputs: projectile, sentry and player overlaps, and player–item overlap. The same goes for `atan2`, the facing of a spawned player.
- Lights.GenerateWallLights: a light records its roofed cell, its side and its yaw, not its fixture and light positions, which `push_light` computes with `sin_cos` (server/src/map/lights.rs:124-168). The wall's yaw, an `atan2` of the wall's direction, is the input `yawOf`.
- The probabilities of the random draws are not modelled: shuffles, `random_bool` ratios and the weighted roof pick are arbitrary oracle choices.
- Network I/O is not modelled: tokio and quinn tasks, TLS and bincode encoding. A failed send is recorded like any other, except the login's Init send, whose failure the game server acts on and which is an input.
- The movement systems, projectile simulation and all client rendering, camera, UI and input-device code are not modelled.
- `setup_skybox_from_cross` and `skybox_update_camera_system` only load an asset and attach it to cameras, so they are not modelled.
- The older monolithic generator's `generate_individual_walls` (server/src/map.rs:430-532) and `generate_individual_roofs` (server/src/map.rs:533-785) are not modelled. They are geometric variants of the newer wall and roof generators and are superseded by them.
- The older game server's `generate_spawn_position` (server/src/systems/network.rs:111-139) is not modelled: it rejects a spawn by a wall-collision test on floats. Its broadcast timer, sequence number, connect, disconnect and login flow match the newer server and are modelled once in `NetServer`.
- The entity-component chat server's `network_receiver_system` (server/src/systems.rs:20-39) only turns channel messages into events, so it is not modelled.
- The game protocol's message definitions are not part of this model. `Protocol` infers their fields from their use in the handlers. `common/src/protocol.rs` defines the chat protocol, which `ChatProtocol` models.
- `PlayerInfo::status` is not part of this model. The flags it reports are taken from their use in server/src/systems/network/broadcast.rs.
- MapGen.GenerateGrid: `server/src/map/mod.rs` calls `roofs::generate_roofs`, `collision::generate_roof_walls`, `collision::merge_roof_walls` and a one-argument `generate_wall_lights`, which `server/src/map/roofs.rs`, `server/src/map/collision.rs` and `server/src/map/lights.rs` do not contain; they define `generate_individual_roofs`, `generate_roof_edge_walls` and a two-argument `generate_wall_lights`. The model composes those: `generate_individual_roofs` then `merge_roofs`, `generate_roof_edge_walls` without a further roof-wall merge, and `generate_wall_lights` over the lower walls.
- Roofs.RoofSlabs: the source walks the roof cells in `HashSet` order (server/src/map/roofs.rs:221); the model walks them in row-major order. `merge_roofs` depends on that order, but the contract of `RoofMerge.MergeRoofs` holds for every input order.
- Walls.MergeRunCovers: an output starts no later than an input wall it covers only when the two lie on exactly the same line. `merge_line` also absorbs a wall on a line within MERGE_EPS that starts earlier and keeps the run's later start (server/src/map/walls.rs:212-218); `Walls.NearLineStartsLater` shows such a run. The same holds for `Walls.MergeLineSound` and `Walls.MergeWallsCorrect`.
- OldNavigation.FindSpawnCell: the source redraws until a ramp-free cell comes up and so loops forever when no draw ever finds one (server/src/systems/sentries.rs:176-186). A method must end, so the model requires that some later draw finds a ramp-free cell; the endless loop is not modelled.
- ChatInput.RemoveOnlyKnown: the client's `get_id_by_name` is not part of this model, so the name lookup is a parameter. The lemma says /remove sends exactly what that lookup returns.
- Client: `handle_init_message` also stores the map layout, which the model does not track. The client's own id is the only effect modelled.

## Findings

| source | as written | input that shows it | evidently intended | confidence | as-written member | corrected member |
|---|---|---|---|---|---|---|
| server/src/map/ramps.rs:14-16 | the size guard for a ramp running along z admits a grid three rows deep, where the z range drawn from is empty | a grid of 3 rows and at least 4 columns: the draw `1..=0` panics | the guard should only admit grids where every range drawn from is non-empty | high (not executed) | Ramps.GuardAdmitsEmptyDraw | Ramps.GuardMakesDrawsNonEmpty |
| server/src/server.rs:240-247 | `process_client_data` asks `is_logged_in`, which panics for an id no longer in the table | clients 1 and 2 logged in; 1 sends Remove for 2; 2's already queued Say then arrives | a message from a client that is already gone is dropped, as `disconnect_client` does for a repeated disconnect | medium (not executed) | ChatServer.StaleSenderPanics | ChatServer.CorrectedHandlesStaleIds |
| server/src/server.rs:311-323 | the Remove handler calls `get_logged_in_name`, which panics for an id not in the table, before the "not found" reply can be sent | a logged-in client sends Remove for id 7, which no client holds | the sender gets "Cannot remove 7: not found" | high (not executed) | ChatServer.UnknownRemoveTargetPanics | ChatServer.ProcessClientData |

=== FILE: broadcast.dfy ===
/** The server's player, item and sentry tables and what it derives from them
    for the wire (server/src/systems/network/broadcast.rs): who a broadcast
    reaches, the player snapshot, and the item and sentry lists of an
    update. A HashMap's iteration order is arbitrary, so every walk over a
    table takes the order as a parameter: a sequence naming each key once. */
module Broadcast {
  import W = Wrappers
  import M = MapGrid
  import opened Protocol

  /** The debugging switches that grant a power-up to everybody; all off. */
  const ALWAYS_SPEED: bool := false
  const ALWAYS_MULTI_SHOT: bool := false
  const ALWAYS_PHASING: bool := false
  const ALWAYS_SENTRY_HUNT: bool := false

  /** The server's record of a connected player (`PlayerInfo`); timers are in
      seconds, `lastShotTime` is the game clock at the last accepted shot,
      None before the first (the source starts it at negative infinity). */
  datatype PlayerInfo = PlayerInfo(
    loggedIn: bool, name: string, hits: int,
    speedTimer: real, multiShotTimer: real, phasingTimer: real, sentryHuntTimer: real,
    stunTimer: real, lastShotTime: W.Option<real>)

  /** The components of a player's entity once logged in: Position, Speed
      and FaceDirection. */
  datatype Body = Body(pos: M.Position, speed: Speed, faceDir: real)

  /** An item: its type, its spawn clock (a respawning cookie has a non-zero
      one) and its entity's position. */
  datatype ItemInfo = ItemInfo(itemType: ItemType, spawnTime: real, pos: M.Position)

  type Players = map<nat, PlayerInfo>

  /** `order` names each element of `keys` exactly once. */
  ghost predicate Enumerates(order: seq<nat>, keys: set<nat>)
  {
    Distinct(order) && forall k :: k in order <==> k in keys
  }

  /** The logged-in players. */
  function LoggedIn(players: Players): set<nat>
  {
    set id | id in players && players[id].loggedIn
  }

  /** The ids of `order`, in that order, that are logged in and are not `skip`. */
  function Recipients(players: Players, order: seq<nat>, skip: W.Option<nat>): (ids: seq<nat>)
    ensures |ids| <= |order|
    ensures forall id :: id in ids <==> id in order && id in LoggedIn(players) && skip != W.Some(id)
    ensures Distinct(order) ==> Distinct(ids)
  {
    if order == [] then []
    else
      var rest := Recipients(players, order[1..], skip);
      var id := order[0];
      assert forall k :: k in order[1..] ==> k in order;
      if id in players && players[id].loggedIn && skip != W.Some(id) then [id] + rest else rest
  }

  /** One send of `msg` to each id, in order. */
  function SendAll(ids: seq<nat>, msg: ServerMsg): (out: seq<Out>)
    ensures |out| == |ids|
    ensures forall k :: 0 <= k < |ids| ==> out[k] == Send(ids[k], msg)
  {
    seq(|ids|, k requires 0 <= k < |ids| => Send(ids[k], msg))
  }

  /** `broadcast_to_others`: `msg` to every logged-in player except `skip`. */
  function BroadcastToOthers(players: Players, order: seq<nat>, skip: nat, msg: ServerMsg): (out: seq<Out>)
    ensures forall o :: o in out ==> o.Send? && o.msg == msg
    ensures forall id :: Send(id, msg) in out <==> id in order && id in LoggedIn(players) && id != skip
  {
    var ids := Recipients(players, order, W.Some(skip));
    var out := SendAll(ids, msg);
    assert forall id :: id in ids ==> Send(id, msg) in out by {
      forall id | id in ids ensures Send(id, msg) in out {
        var k :| 0 <= k < |ids| && ids[k] == id;
        assert out[k] == Send(id, msg);
      }
    }
    out
  }

  /** `broadcast_to_all`: `msg` to every logged-in player. */
  function BroadcastToAll(players: Players, order: seq<nat>, msg: ServerMsg): (out: seq<Out>)
    ensures forall o :: o in out ==> o.Send? && o.msg == msg
    ensures forall id :: Send(id, msg) in out <==> id in order && id in LoggedIn(players)
  {
    var ids := Recipients(players, order, W.None);
    var out := SendAll(ids, msg);
    assert forall id :: id in ids ==> Send(id, msg) in out by {
      forall id | id in ids ensures Send(id, msg) in out {
        var k :| 0 <= k < |ids| && ids[k] == id;
        assert out[k] == Send(id, msg);
      }
    }
    out
  }

  /** The recipients of a broadcast, in order. */
  function Addressees(out: seq<Out>): (ids: seq<nat>)
    ensures |ids| == |out| && forall k :: 0 <= k < |out| ==> ids[k] == out[k].to
  {
    seq(|out|, k requires 0 <= k < |out| => out[k].to)
  }

  /** Walking the whole table, a broadcast reaches every logged-in player but
      `skip` (every one, for `broadcast_to_all`), and each exactly once. */
  lemma BroadcastReachesEachOnce(players: Players, order: seq<nat>, skip: nat, msg: ServerMsg)
    requires Enumerates(order, players.Keys)
    ensures var out := BroadcastToOthers(players, order, skip, msg);
            Distinct(Addressees(out))
            && forall id :: id in Addressees(out) <==> id in LoggedIn(players) && id != skip
    ensures var out := BroadcastToAll(players, order, msg);
            Distinct(Addressees(out))
            && forall id :: id in Addressees(out) <==> id in LoggedIn(players)
  {
    var ids := Recipients(players, order, W.Some(skip));
    assert Addressees(BroadcastToOthers(players, order, skip, msg)) == ids;
    var all := Recipients(players, order, W.None);
    assert Addressees(BroadcastToAll(players, order, msg)) == all;
  }

  /** The status flags of a player: each power-up is on while its timer runs
      (or its switch is on), and the player is stunned while the stun timer
      runs (`PlayerInfo::status`). */
  function StatusOf(id: nat, info: PlayerInfo): (s: Status)
    ensures s.id == id
    ensures s.stunned <==> info.stunTimer > 0.0
    ensures s.sentryHuntUp <==> info.sentryHuntTimer > 0.0
  {
    Status(id,
           ALWAYS_SPEED || info.speedTimer > 0.0,
           ALWAYS_MULTI_SHOT || info.multiShotTimer > 0.0,
           ALWAYS_PHASING || info.phasingTimer > 0.0,
           ALWAYS_SENTRY_HUNT || info.sentryHuntTimer > 0.0,
           info.stunTimer > 0.0)
  }

  /** The replicated form of a logged-in player. */
  function SnapOf(info: PlayerInfo, body: Body): PlayerSnap
  {
    var s := StatusOf(0, info);
    PlayerSnap(info.name, body.pos, body.speed, body.faceDir, info.hits,
               s.speedUp, s.multiShotUp, s.phasingUp, s.sentryHuntUp, s.stunned)
  }

  /** `snapshot_logged_in_players`: one entry per logged-in player whose
      entity has its components, in table order; a player without them is
      skipped. */
  function Snapshot(players: Players, bodies: map<nat, Body>, order: seq<nat>): (s: seq<(nat, PlayerSnap)>)
    ensures |s| <= |order|
    ensures forall id :: id in Ids(s) <==> id in order && id in LoggedIn(players) && id in bodies
    ensures forall k :: 0 <= k < |s| ==>
              s[k].0 in players && s[k].0 in bodies && s[k].1 == SnapOf(players[s[k].0], bodies[s[k].0])
    ensures Distinct(order) ==> Distinct(Ids(s))
  {
    if order == [] then []
    else
      var rest := Snapshot(players, bodies, order[1..]);
      var id := order[0];
      assert forall k :: k in order[1..] ==> k in order;
      DistinctTail(order);
      if id in players && players[id].loggedIn && id in bodies then
        var s := [(id, SnapOf(players[id], bodies[id]))] + rest;
        IdsCons(s[0], rest);
        DistinctCons(id, Ids(rest));
        s
      else rest
  }

  /** The snapshot's flags are the timers read as booleans: stunned exactly
      while the stun timer runs, each power-up exactly while its timer runs. */
  lemma SnapshotFlags(players: Players, bodies: map<nat, Body>, order: seq<nat>, k: nat)
    requires k < |Snapshot(players, bodies, order)|
    ensures var (id, p) := Snapshot(players, bodies, order)[k];
            && id in players && players[id].loggedIn
            && p.name == players[id].name && p.hits == players[id].hits && p.pos == bodies[id].pos
            && (p.stunned <==> players[id].stunTimer > 0.0)
            && (p.speedUp <==> players[id].speedTimer > 0.0)
            && (p.multiShotUp <==> players[id].multiShotTimer > 0.0)
            && (p.phasingUp <==> players[id].phasingTimer > 0.0)
            && (p.sentryHuntUp <==> players[id].sentryHuntTimer > 0.0)
  {
    var s := Snapshot(players, bodies, order);
    assert s[k].0 in Ids(s);
  }

  /** A cookie that is waiting to respawn is not shown. */
  predicate Shown(info: ItemInfo)
  {
    info.itemType != Cookie || info.spawnTime == 0.0
  }

  /** `collect_items`: the shown items in table order. */
  function CollectItems(items: map<nat, ItemInfo>, order: seq<nat>): (s: seq<(nat, ItemSnap)>)
    ensures |s| <= |order|
    ensures forall id :: id in Ids(s) <==> id in order && id in items && Shown(items[id])
    ensures forall k :: 0 <= k < |s| ==>
              s[k].0 in items && s[k].1 == ItemSnap(items[s[k].0].itemType, items[s[k].0].pos)
    ensures Distinct(order) ==> Distinct(Ids(s))
  {
    if order == [] then []
    else
      var rest := CollectItems(items, order[1..]);
      var id := order[0];
      assert forall k :: k in order[1..] ==> k in order;
      DistinctTail(order);
      if id in items && Shown(items[id]) then
        var s := [(id, ItemSnap(items[id].itemType, items[id].pos))] + rest;
        IdsCons(s[0], rest);
        DistinctCons(id, Ids(rest));
        s
      else rest
  }

  /** The items left out of an update are exactly the cookies with a
      non-zero spawn clock. */
  lemma CollectItemsOmitsRespawningCookies(items: map<nat, ItemInfo>, order: seq<nat>, id: nat)
    requires Enumerates(order, items.Keys) && id in items
    ensures id !in Ids(CollectItems(items, order)) <==> items[id].itemType == Cookie && items[id].spawnTime != 0.0
  {
  }

  /** `collect_sentries`: one entry per sentry, in table order. The source
      expects every sentry entity to carry a position and a velocity. */
  function CollectSentries(order: seq<nat>, bodies: map<nat, SentrySnap>): (s: seq<(nat, SentrySnap)>)
    requires forall id :: id in order ==> id in bodies
    ensures Ids(s) == order
    ensures forall k :: 0 <= k < |s| ==> s[k].1 == bodies[order[k]]
  {
    seq(|order|, k requires 0 <= k < |order| => (order[k], bodies[order[k]]))
  }

  /** Every sentry of the table appears once in an update. */
  lemma CollectSentriesOnePerSentry(sentries: set<nat>, order: seq<nat>, bodies: map<nat, SentrySnap>)
    requires Enumerates(order, sentries) && sentries <= bodies.Keys
    ensures var s := CollectSentries(order, bodies);
            Distinct(Ids(s)) && forall id :: id in Ids(s) <==> id in sentries
  {
  }
}

=== FILE: chatclient.dfy ===
/** The chat client's state (client/src/client.rs): the participants it
    knows and a bounded chat history, updated by every server message; and
    the older `GameClient` (client/src/game.rs), which keeps names only and
    returns the line to show instead of storing it. Both panic, `None`
    here, when a message names a participant they do not know. */
module ChatClient {
  import W = Wrappers
  import opened ChatProtocol

  /** MAX_CHAT_HISTORY: the lines the history keeps. */
  const MAX_CHAT_HISTORY: nat := 100

  /** `ClientState`. */
  datatype ClientState = ClientState(players: map<nat, Player>, history: seq<string>)

  const EMPTY: ClientState := ClientState(map[], [])

  /** `lines` joined with newlines. */
  function JoinLines(lines: seq<string>): (s: string)
  {
    if lines == [] then "" else if |lines| == 1 then lines[0] else lines[0] + "\n" + JoinLines(lines[1..])
  }

  /** `add_chat_message`: the line is appended and, past the cap, the oldest
      line dropped. */
  function AddChatMessage(history: seq<string>, line: string): (h: seq<string>)
    ensures |history| <= MAX_CHAT_HISTORY ==> |h| <= MAX_CHAT_HISTORY
    ensures |h| > 0 && h[|h| - 1] == line
    ensures |history| < MAX_CHAT_HISTORY ==> h == history + [line]
    ensures |history| >= MAX_CHAT_HISTORY ==> h == history[1..] + [line]
  {
    var h := history + [line];
    if |h| > MAX_CHAT_HISTORY then h[1..] else h
  }

  /** The greeting that closes Init's lines. */
  const GREETING: string := "[Connected] You are now logged in."

  /** The listed participants other than `myId`, in listing order. */
  function Others(myId: nat, ps: seq<(nat, Player)>): (r: seq<(nat, Player)>)
    ensures |r| <= |ps|
    ensures forall p :: p in r ==> p in ps && p.0 != myId
    ensures forall p :: p in ps && p.0 != myId ==> p in r
  {
    if ps == [] then []
    else (if ps[0].0 != myId then [ps[0]] else []) + Others(myId, ps[1..])
  }

  /** Listing one more participant at the end extends `Others` by it exactly
      when it is not the client itself, so `Others` keeps listing order. */
  lemma {:induction false} OthersSnoc(myId: nat, ps: seq<(nat, Player)>, p: (nat, Player))
    ensures Others(myId, ps + [p]) == Others(myId, ps) + (if p.0 != myId then [p] else [])
    decreases |ps|
  {
    if ps == [] {
      assert [] + [p] == [p];
      assert [p][1..] == [];
    } else {
      assert (ps + [p])[0] == ps[0];
      assert (ps + [p])[1..] == ps[1..] + [p];
      OthersSnoc(myId, ps[1..], p);
    }
  }

  /** The lines Init shows before the greeting: "<name> is here." for each
      listed participant other than the client itself, in listing order. */
  function InitLines(myId: nat, ps: seq<(nat, Player)>): (lines: seq<string>)
    ensures |lines| == |Others(myId, ps)|
    ensures forall k :: 0 <= k < |lines| ==> lines[k] == Others(myId, ps)[k].1.name + " is here."
  {
    if ps == [] then []
    else (if ps[0].0 != myId then [ps[0].1.name + " is here."] else []) + InitLines(myId, ps[1..])
  }

  /** The participants after Init adds the listed ones, later entries
      overwriting earlier ones (see AddAllLaterWins). */
  function AddAll(players: map<nat, Player>, ps: seq<(nat, Player)>): (r: map<nat, Player>)
    ensures r.Keys == players.Keys + set k | 0 <= k < |ps| :: ps[k].0
    decreases |ps|
  {
    if ps == [] then players
    else
      var r := AddAll(players[ps[0].0 := ps[0].1], ps[1..]);
      assert (set k | 0 <= k < |ps| :: ps[k].0) == {ps[0].0} + set k | 0 <= k < |ps[1..]| :: ps[1..][k].0 by {
        forall k | 0 <= k < |ps|
          ensures ps[k].0 in {ps[0].0} + set k | 0 <= k < |ps[1..]| :: ps[1..][k].0
        {
          if k > 0 { assert ps[1..][k - 1].0 == ps[k].0; }
        }
      }
      r
  }

  /** `j` is the last listing of its id in `ps`. */
  predicate LastListing(ps: seq<(nat, Player)>, j: int)
  {
    0 <= j < |ps| && forall j2 :: j < j2 < |ps| ==> ps[j2].0 != ps[j].0
  }

  /** After Init every listed id maps to its last listing, and every earlier
      participant Init does not list keeps its entry. */
  lemma {:induction false} AddAllLaterWins(players: map<nat, Player>, ps: seq<(nat, Player)>)
    ensures forall j :: LastListing(ps, j) ==> AddAll(players, ps)[ps[j].0] == ps[j].1
    ensures forall k :: k in players && (forall j :: 0 <= j < |ps| ==> ps[j].0 != k) ==> AddAll(players, ps)[k] == players[k]
    decreases |ps|
  {
    if ps != [] {
      var p2 := players[ps[0].0 := ps[0].1];
      var tail := ps[1..];
      AddAllLaterWins(p2, tail);
      var r := AddAll(p2, tail);
      assert r == AddAll(players, ps);
      forall j | LastListing(ps, j) ensures r[ps[j].0] == ps[j].1 {
        if j == 0 {
          forall j2 | 0 <= j2 < |tail| ensures tail[j2].0 != ps[0].0 {
            assert tail[j2] == ps[j2 + 1];
          }
        } else {
          assert tail[j - 1] == ps[j];
          assert LastListing(tail, j - 1) by {
            forall j2 | j - 1 < j2 < |tail| ensures tail[j2].0 != tail[j - 1].0 {
              assert tail[j2] == ps[j2 + 1];
            }
          }
        }
      }
      forall k | k in players && (forall j :: 0 <= j < |ps| ==> ps[j].0 != k) ensures r[k] == players[k] {
        assert ps[0].0 != k;
        forall j | 0 <= j < |tail| ensures tail[j].0 != k {
          assert tail[j] == ps[j + 1];
        }
      }
    }
  }

  /** The line a server message shows, and the participants afterwards; None
      when it names an unknown participant. */
  function Effect(players: map<nat, Player>, msg: ServerMessage): (r: W.Option<(map<nat, Player>, string)>)
    ensures r.None? <==> (msg.SLogoff? || msg.SRemove? || msg.SSay? || msg.SName?) && msg.id !in players
    ensures r.Some? && msg.SLogin? ==> r.value.0 == players[msg.id := msg.player]
    ensures r.Some? && (msg.SLogoff? || msg.SRemove?) ==> r.value.0 == players - {msg.id}
    ensures r.Some? && (msg.SSay? || msg.SError?) ==> r.value.0 == players
    ensures r.Some? && msg.SName? ==> r.value.0 == players[msg.id := players[msg.id].(name := msg.name)]
    ensures r.Some? && msg.SInit? ==> r.value.0 == AddAll(players, msg.players)
    ensures r.Some? && msg.SError? ==> r.value.1 == "[Server Error] " + msg.message
    ensures r.Some? && msg.SInit? ==> r.value.1 == JoinLines(InitLines(msg.id, msg.players) + [GREETING])
    ensures r.Some? && msg.SLogin? ==> r.value.1 == msg.player.name + " joined."
    ensures r.Some? && msg.SLogoff? ==>
              r.value.1 == players[msg.id].name + (if msg.graceful then " left." else " disappeared.")
    ensures r.Some? && msg.SRemove? ==> r.value.1 == players[msg.id].name + " was removed."
    ensures r.Some? && msg.SSay? ==> r.value.1 == players[msg.id].name + ": " + msg.text
    ensures r.Some? && msg.SName? ==> r.value.1 == players[msg.id].name + " is now known as \"" + msg.name + "\"."
  {
    match msg
    case SError(m) => W.Some((players, "[Server Error] " + m))
    case SInit(myId, ps) =>
      W.Some((AddAll(players, ps), JoinLines(InitLines(myId, ps) + [GREETING])))
    case SLogin(id, p) => W.Some((players[id := p], p.name + " joined."))
    case SLogoff(id, graceful) =>
      if id !in players then W.None
      else W.Some((players - {id}, players[id].name + (if graceful then " left." else " disappeared.")))
    case SRemove(id) =>
      if id !in players then W.None else W.Some((players - {id}, players[id].name + " was removed."))
    case SSay(id, text) =>
      if id !in players then W.None else W.Some((players, players[id].name + ": " + text))
    case SName(id, name) =>
      if id !in players then W.None
      else W.Some((players[id := players[id].(name := name)], players[id].name + " is now known as \"" + name + "\"."))
  }

  /** `ClientState::process_message`: the participants change as the
      message says and exactly one line joins the history. */
  function ProcessMessage(st: ClientState, msg: ServerMessage): (r: W.Option<ClientState>)
    ensures r.None? <==> Effect(st.players, msg).None?
    ensures r.Some? ==> r.value.players == Effect(st.players, msg).value.0
    ensures r.Some? ==> r.value.history == AddChatMessage(st.history, Effect(st.players, msg).value.1)
  {
    match Effect(st.players, msg)
    case None => W.None
    case Some((players, line)) => W.Some(ClientState(players, AddChatMessage(st.history, line)))
  }

  /** The history never grows past the cap, whatever arrives. */
  lemma {:induction false} HistoryBounded(st: ClientState, msgs: seq<ServerMessage>)
    requires |st.history| <= MAX_CHAT_HISTORY
    ensures var r := ProcessAll(st, msgs); r.Some? ==> |r.value.history| <= MAX_CHAT_HISTORY
    decreases |msgs|
  {
    if msgs != [] {
      match ProcessMessage(st, msgs[0])
      case None =>
      case Some(st1) => HistoryBounded(st1, msgs[1..]);
    }
  }

  /** A stream of messages, stopping at the first panic. */
  function ProcessAll(st: ClientState, msgs: seq<ServerMessage>): (r: W.Option<ClientState>)
    decreases |msgs|
  {
    if msgs == [] then W.Some(st)
    else
      match ProcessMessage(st, msgs[0])
      case None => W.None
      case Some(st1) => ProcessAll(st1, msgs[1..])
  }

  /** A Login followed by that participant's Logoff leaves the participants
      as they were, if the participant was new. */
  lemma LoginLogoffRoundTrip(st: ClientState, id: nat, p: Player, graceful: bool)
    requires id !in st.players
    ensures var r := ProcessAll(st, [SLogin(id, p), SLogoff(id, graceful)]);
            r.Some? && r.value.players == st.players
  {
    var msgs := [SLogin(id, p), SLogoff(id, graceful)];
    var st1 := ProcessMessage(st, SLogin(id, p)).value;
    var st2 := ProcessMessage(st1, SLogoff(id, graceful)).value;
    assert st2.players == st.players;
    assert msgs[1..][1..] == [];
    assert ProcessAll(st1, msgs[1..]) == ProcessAll(st2, []) == W.Some(st2);
  }

  // ---------------------------------------------------------------------------
  // The older GameClient
  // ---------------------------------------------------------------------------

  /** `GameClient`: names by id. */
  type Names = map<nat, string>

  /** The names of a participant table. */
  function NamesOf(players: map<nat, Player>): (n: Names)
    ensures n.Keys == players.Keys && forall id :: id in n ==> n[id] == players[id].name
  {
    map id | id in players :: players[id].name
  }

  /** The names after Init adds the listed ones. */
  function AddAllNames(names: Names, ps: seq<(nat, Player)>): Names
    decreases |ps|
  {
    if ps == [] then names else AddAllNames(names[ps[0].0 := ps[0].1.name], ps[1..])
  }

  /** `GameClient::process_message`: the names after the message and the
      line to show; None on an unknown participant. */
  function GameProcessMessage(names: Names, msg: ServerMessage): (r: W.Option<(Names, string)>)
    ensures r.None? <==> (msg.SLogoff? || msg.SRemove? || msg.SSay? || msg.SName?) && msg.id !in names
    ensures r.Some? && msg.SLogin? ==> r.value.0 == names[msg.id := msg.player.name]
    ensures r.Some? && (msg.SLogoff? || msg.SRemove?) ==> r.value.0 == names - {msg.id}
    ensures r.Some? && (msg.SSay? || msg.SError?) ==> r.value.0 == names
    ensures r.Some? && msg.SName? ==> r.value.0 == names[msg.id := msg.name]
    ensures r.Some? && msg.SInit? ==> r.value.0 == AddAllNames(names, msg.players)
    ensures r.Some? && msg.SError? ==> r.value.1 == "[Server Error] " + msg.message
    ensures r.Some? && msg.SInit? ==> r.value.1 == JoinLines(InitLines(msg.id, msg.players) + [GREETING])
    ensures r.Some? && msg.SLogin? ==> r.value.1 == msg.player.name + " joined."
    ensures r.Some? && msg.SLogoff? ==> r.value.1 == names[msg.id] + (if msg.graceful then " left." else " disappeared.")
    ensures r.Some? && msg.SRemove? ==> r.value.1 == names[msg.id] + " was removed."
    ensures r.Some? && msg.SSay? ==> r.value.1 == names[msg.id] + ": " + msg.text
    ensures r.Some? && msg.SName? ==> r.value.1 == names[msg.id] + " is now known as \"" + msg.name + "\"."
  {
    match msg
    case SError(m) => W.Some((names, "[Server Error] " + m))
    case SInit(myId, ps) =>
      W.Some((AddAllNames(names, ps), JoinLines(InitLines(myId, ps) + [GREETING])))
    case SLogin(id, p) => W.Some((names[id := p.name], p.name + " joined."))
    case SLogoff(id, graceful) =>
      if id !in names then W.None
      else W.Some((names - {id}, names[id] + (if graceful then " left." else " disappeared.")))
    case SRemove(id) =>
      if id !in names then W.None else W.Some((names - {id}, names[id] + " was removed."))
    case SSay(id, text) =>
      if id !in names then W.None else W.Some((names, names[id] + ": " + text))
    case SName(id, name) =>
      if id !in names then W.None
      else W.Some((names[id := name], names[id] + " is now known as \"" + name + "\"."))
  }

  lemma {:induction false} AddAllNamesAgrees(players: map<nat, Player>, ps: seq<(nat, Player)>)
    ensures AddAllNames(NamesOf(players), ps) == NamesOf(AddAll(players, ps))
    decreases |ps|
  {
    if ps != [] {
      assert NamesOf(players)[ps[0].0 := ps[0].1.name] == NamesOf(players[ps[0].0 := ps[0].1]);
      AddAllNamesAgrees(players[ps[0].0 := ps[0].1], ps[1..]);
    }
  }

  /** The two clients agree: started from the same participants, the older
      one panics on the same messages, shows the same line the newer one
      records, and keeps the newer one's names. */
  lemma ClientsAgree(players: map<nat, Player>, msg: ServerMessage)
    ensures var a := Effect(players, msg);
            var b := GameProcessMessage(NamesOf(players), msg);
            && (a.None? <==> b.None?)
            && (a.Some? ==> b.value.1 == a.value.1 && b.value.0 == NamesOf(a.value.0))
  {
    match msg
    case SInit(_, ps) => AddAllNamesAgrees(players, ps);
    case SName(id, name) =>
      if id in players {
        assert NamesOf(players)[id := name] == NamesOf(players[id := players[id].(name := name)]);
      }
    case _ =>
  }
}

=== FILE: chatprotocol.dfy ===
/** The chat protocol: the messages a chat client and the chat server
    exchange, and the player they describe. The messages follow
    common/src/protocol.rs, except that Init and Login carry a full player
    (name and position) as server/src/server.rs and client/src/client.rs
    build and read them, where protocol.rs and client/src/game.rs carry the
    name alone. */
module ChatProtocol {

  /** A chat participant's position, two integers in [-1000, 1000]. */
  datatype Pos = Pos(x: int, y: int)

  /** A logged-in participant. */
  datatype Player = Player(name: string, pos: Pos)

  /** Client to server. */
  datatype ClientMessage =
    | CLogin(name: string)
    | CLogoff
    | CName(name: string)
    | CSay(text: string)
    | CRemove(id: nat)

  /** Server to client. */
  datatype ServerMessage =
    | SError(message: string)
    | SInit(id: nat, players: seq<(nat, Player)>)
    | SLogin(id: nat, player: Player)
    | SLogoff(id: nat, graceful: bool)
    | SSay(id: nat, text: string)
    | SName(id: nat, name: string)
    | SRemove(id: nat)

  /** What the server hands a client's I/O task: a message, or the order to
      close the connection. */
  datatype ToClient = Send(to: nat, msg: ServerMessage) | Close(to: nat)
}

=== FILE: chatserver.dfy ===
/** The chat server (server/src/server.rs): a table of clients, each either
    connected or logged in, the id counter that hands out ids, and the
    handling of logins, chat messages, renames, removals and disconnects.
    Sends become entries of an outbox; a send to a client whose task has
    ended fails silently in the source and is simply recorded here. A
    HashMap walk takes its order as a parameter. */
module ChatServer {
  import W = Wrappers
  import opened ChatProtocol

  /** MIN_NAME_LENGTH and MAX_NAME_LENGTH, in UTF-8 bytes. */
  const MIN_NAME_LENGTH: nat := 2
  const MAX_NAME_LENGTH: nat := 50

  /** The largest u32, where the id counter wraps. */
  const U32_MAX: nat := 0xFFFF_FFFF

  /** A client's state: connected but anonymous, or logged in as a player. */
  datatype ClientState = Connected | LoggedIn(player: Player)

  /** `GameServer`: the clients by id and the next id to hand out. */
  datatype Server = Server(clients: map<nat, ClientState>, nextId: nat)

  /** `GameServer::new`. */
  const INITIAL: Server := Server(map[], 1)

  // ---------------------------------------------------------------------------
  // Names
  // ---------------------------------------------------------------------------

  /** The UTF-8 length of one character. */
  function Utf8Width(c: char): (n: nat)
    ensures 1 <= n <= 4
  {
    if c as int < 0x80 then 1 else if c as int < 0x800 then 2 else if c as int < 0x1_0000 then 3 else 4
  }

  /** `str::len`: the UTF-8 length of a string, in bytes. */
  function Utf8Len(s: string): (n: nat)
    ensures |s| <= n <= 4 * |s|
    ensures s == [] <==> n == 0
  {
    if s == [] then 0 else Utf8Width(s[0]) + Utf8Len(s[1..])
  }

  /** The UTF-8 length of a concatenation is the sum of the parts'. */
  lemma {:induction false} Utf8LenAppend(a: string, b: string)
    ensures Utf8Len(a + b) == Utf8Len(a) + Utf8Len(b)
  {
    if a == [] {
      assert a + b == b;
    } else {
      assert (a + b)[0] == a[0] && (a + b)[1..] == a[1..] + b;
      Utf8LenAppend(a[1..], b);
    }
  }

  /** Why a name is refused. */
  datatype NameError = TooShort | TooLong

  /** `validate_name`. */
  function ValidateName(name: string): (r: W.Option<NameError>)
    ensures r == W.None <==> MIN_NAME_LENGTH <= Utf8Len(name) <= MAX_NAME_LENGTH
    ensures r == W.Some(TooShort) <==> Utf8Len(name) < MIN_NAME_LENGTH
    ensures r == W.Some(TooLong) <==> Utf8Len(name) > MAX_NAME_LENGTH
  {
    var len := Utf8Len(name);
    if len < MIN_NAME_LENGTH then W.Some(TooShort)
    else if len <= MAX_NAME_LENGTH then W.None
    else W.Some(TooLong)
  }

  /** Every ASCII name of 2 to 50 characters is accepted; so is no name of
      one character or of more than 50 characters that are not ASCII. */
  lemma NameLengthBounds(name: string)
    ensures (forall k :: 0 <= k < |name| ==> name[k] as int < 0x80) ==> Utf8Len(name) == |name|
    ensures |name| < MIN_NAME_LENGTH && (forall k :: 0 <= k < |name| ==> name[k] as int < 0x80) ==>
              ValidateName(name) == W.Some(TooShort)
    ensures |name| > MAX_NAME_LENGTH ==> ValidateName(name) == W.Some(TooLong)
  {
    AsciiLength(name);
  }

  lemma {:induction false} AsciiLength(name: string)
    ensures (forall k :: 0 <= k < |name| ==> name[k] as int < 0x80) ==> Utf8Len(name) == |name|
  {
    if name != [] {
      AsciiLength(name[1..]);
      assert forall k :: 0 <= k < |name[1..]| ==> name[1..][k] == name[k + 1];
    }
  }

  /** `name_error_message`. */
  function NameErrorMessage(e: NameError): string
  {
    match e
    case TooShort => "Name must be at least 2 characters"
    case TooLong => "Name too long (max 50 characters)"
  }

  // ---------------------------------------------------------------------------
  // Ids
  // ---------------------------------------------------------------------------

  /** `checked_add(1).unwrap_or(1)` on a u32: the successor, wrapping to 1. */
  function NextId(n: nat): (m: nat)
    requires 1 <= n <= U32_MAX
    ensures 1 <= m <= U32_MAX
  {
    if n == U32_MAX then 1 else n + 1
  }

  /** How many NextId steps lead from `a` to `b` in the cycle 1..U32_MAX. */
  function Steps(a: nat, b: nat): (d: nat)
    requires 1 <= a <= U32_MAX && 1 <= b <= U32_MAX
    ensures d < U32_MAX && (d == 0 <==> a == b)
  {
    (b - a) % U32_MAX
  }

  lemma StepsNext(a: nat, b: nat)
    requires 1 <= a <= U32_MAX && 1 <= b <= U32_MAX && a != b
    ensures Steps(NextId(a), b) == Steps(a, b) - 1
  {
  }

  lemma StepsNextAll(a: nat)
    requires 1 <= a <= U32_MAX
    ensures forall b :: 1 <= b <= U32_MAX && a != b ==> Steps(NextId(a), b) == Steps(a, b) - 1
  {
    forall b | 1 <= b <= U32_MAX && a != b ensures Steps(NextId(a), b) == Steps(a, b) - 1 {
      StepsNext(a, b);
    }
  }

  /** Some id of 1..U32_MAX is free. */
  ghost predicate HasFreeId(used: set<nat>)
  {
    exists f :: 1 <= f <= U32_MAX && f !in used
  }

  ghost function SomeFree(used: set<nat>): (f: nat)
    requires HasFreeId(used)
    ensures 1 <= f <= U32_MAX && f !in used
  {
    var f :| 1 <= f <= U32_MAX && f !in used; f
  }

  /** `advance_id` from `n`: the first id after `n`, going round the cycle,
      that is not in use (`n` itself once all others are). The source loops
      for ever when every id is taken. */
  function AdvanceId(n: nat, used: set<nat>): (m: nat)
    requires 1 <= n <= U32_MAX && HasFreeId(used)
    ensures 1 <= m <= U32_MAX && m !in used
    ensures forall x :: 1 <= x <= U32_MAX && Steps(NextId(n), x) < Steps(NextId(n), m) ==> x in used
    decreases Steps(NextId(n), SomeFree(used))
  {
    var m := NextId(n);
    if m !in used then m
    else
      StepsNext(m, SomeFree(used));
      var r := AdvanceId(m, used);
      StepsNextAll(m);
      r
  }

  /** The counter comes back to `n` only when every other id is taken. */
  lemma AdvanceLeavesNew(n: nat, used: set<nat>)
    requires 1 <= n <= U32_MAX && HasFreeId(used)
    ensures HasFreeId(used + {n}) ==> AdvanceId(n, used) != n
  {
    if HasFreeId(used + {n}) {
      var f := SomeFree(used + {n});
      assert Steps(NextId(n), n) == U32_MAX - 1;
      assert Steps(NextId(n), f) != U32_MAX - 1;
      assert Steps(NextId(n), AdvanceId(n, used)) <= Steps(NextId(n), f);
    }
  }

  /** The counter's invariant: the next id is a valid u32 id not in use. */
  predicate GoodCounter(s: Server)
  {
    1 <= s.nextId <= U32_MAX && s.nextId !in s.clients
  }

  /** `add_client`: the new client gets the counter's id and is connected;
      the counter advances to the next free id. */
  function AddClient(s: Server): (r: (Server, nat))
    requires GoodCounter(s)
    ensures r.1 == s.nextId && r.0.clients == s.clients[r.1 := Connected]
    ensures r.1 !in s.clients
    ensures HasFreeId(r.0.clients.Keys) ==> GoodCounter(r.0)
  {
    assert HasFreeId(s.clients.Keys) by { assert s.nextId !in s.clients.Keys; }
    var id := s.nextId;
    var next := AdvanceId(id, s.clients.Keys);
    var clients := s.clients[id := Connected];
    AdvanceLeavesNew(id, s.clients.Keys);
    (Server(clients, next), id)
  }

  // ---------------------------------------------------------------------------
  // Queries and sends
  // ---------------------------------------------------------------------------

  /** `get_players`: the logged-in clients in table order. */
  function GetPlayers(clients: map<nat, ClientState>, order: seq<nat>): (ps: seq<(nat, Player)>)
    ensures forall k :: 0 <= k < |ps| ==> ps[k].0 in clients && clients[ps[k].0] == LoggedIn(ps[k].1)
    ensures forall k :: 0 <= k < |ps| ==> ps[k].0 in order
    ensures forall id :: (exists k :: 0 <= k < |ps| && ps[k].0 == id) <==>
              id in order && id in clients && clients[id].LoggedIn?
  {
    if order == [] then []
    else
      var id := order[0];
      var rest := GetPlayers(clients, order[1..]);
      assert forall x :: x in order ==> x == id || x in order[1..];
      if id in clients && clients[id].LoggedIn? then
        var ps := [(id, clients[id].player)] + rest;
        assert forall k :: 0 <= k < |rest| ==> rest[k] == ps[k + 1];
        assert forall k :: 0 < k < |ps| ==> ps[k] == rest[k - 1];
        assert ps[0].0 == id;
        ps
      else rest
  }

  /** `send_to_all`: `msg` to every logged-in client, in table order. */
  function SendToAll(clients: map<nat, ClientState>, order: seq<nat>, msg: ServerMessage): (out: seq<ToClient>)
    ensures forall o :: o in out ==> o.Send? && o.msg == msg && o.to in clients && clients[o.to].LoggedIn?
    ensures forall id :: id in order && id in clients && clients[id].LoggedIn? ==> Send(id, msg) in out
  {
    if order == [] then []
    else
      var id := order[0];
      var rest := SendToAll(clients, order[1..], msg);
      assert forall x :: x in order ==> x == id || x in order[1..];
      if id in clients && clients[id].LoggedIn? then [Send(id, msg)] + rest else rest
  }

  /** `remove_client`: the client goes and its task is told to close. */
  function RemoveClient(s: Server, id: nat): (r: (Server, seq<ToClient>))
    ensures r.0 == s.(clients := s.clients - {id}) && r.1 == [Close(id)]
  {
    (s.(clients := s.clients - {id}), [Close(id)])
  }

  // ---------------------------------------------------------------------------
  // Disconnects
  // ---------------------------------------------------------------------------

  /** `disconnect_client`: an unknown id changes nothing; otherwise the client
      goes and, if it had logged in, the remaining logged-in clients learn
      that it disappeared. */
  function DisconnectClient(s: Server, order: seq<nat>, id: nat): (r: (Server, seq<ToClient>))
    ensures id !in s.clients ==> r == (s, [])
    ensures id in s.clients ==> r.0 == s.(clients := s.clients - {id})
    ensures id in s.clients && s.clients[id].Connected? ==> r.1 == []
    ensures forall o :: o in r.1 ==> o == Send(o.to, SLogoff(id, false)) && o.to != id
    ensures id in s.clients && s.clients[id].LoggedIn? ==>
              forall x :: x in order && x in s.clients && s.clients[x].LoggedIn? && x != id ==> Send(x, SLogoff(id, false)) in r.1
  {
    if id !in s.clients then (s, [])
    else
      var wasLoggedIn := s.clients[id].LoggedIn?;
      var clients := s.clients - {id};
      (s.(clients := clients), if wasLoggedIn then SendToAll(clients, order, SLogoff(id, false)) else [])
  }

  // ---------------------------------------------------------------------------
  // Client messages
  // ---------------------------------------------------------------------------

  /** The draws of a login's random position. */
  datatype Draws = Draws(x: nat, y: nat)

  function DrawPos(d: Draws): (p: Pos)
    ensures -1000 <= p.x <= 1000 && -1000 <= p.y <= 1000
  {
    Pos(W.InRange(d.x, -1000, 1000), W.InRange(d.y, -1000, 1000))
  }

  /** `process_client_login`, for a connected client. A Login with a bad
      name is answered with an error and the client is removed. A good one
      is answered with Init listing the logged-in players, after which the
      client is logged in at a random position and every logged-in client,
      itself included, is told. Anything else before a login removes the
      client. */
  function ProcessClientLogin(s: Server, order: seq<nat>, id: nat, msg: ClientMessage, d: Draws): (r: (Server, seq<ToClient>))
    requires id in s.clients && s.clients[id].Connected?
    ensures !msg.CLogin? ==> r == (s.(clients := s.clients - {id}), [Close(id)])
    ensures msg.CLogin? && ValidateName(msg.name).Some? ==>
              r.0 == s.(clients := s.clients - {id})
              && r.1 == [Send(id, SError("Login failed: " + NameErrorMessage(ValidateName(msg.name).value))), Close(id)]
    ensures msg.CLogin? && ValidateName(msg.name).None? ==>
              && r.0 == s.(clients := s.clients[id := LoggedIn(Player(msg.name, DrawPos(d)))])
              && |r.1| >= 1 && r.1[0] == Send(id, SInit(id, GetPlayers(s.clients, order)))
              && (forall o :: o in r.1[1..] ==>
                    o.Send? && o.msg == SLogin(id, Player(msg.name, DrawPos(d))) && o.to in r.0.clients && r.0.clients[o.to].LoggedIn?)
              && (forall x :: x in order && x in r.0.clients && r.0.clients[x].LoggedIn? ==>
                    Send(x, SLogin(id, Player(msg.name, DrawPos(d)))) in r.1[1..])
  {
    match msg
    case CLogin(name) =>
      (match ValidateName(name)
       case Some(err) =>
         var (s1, out) := RemoveClient(s, id);
         (s1, [Send(id, SError("Login failed: " + NameErrorMessage(err)))] + out)
       case None =>
         var init := Send(id, SInit(id, GetPlayers(s.clients, order)));
         var player := Player(name, DrawPos(d));
         var clients := s.clients[id := LoggedIn(player)];
         var announce := SendToAll(clients, order, SLogin(id, player));
         var out := [init] + announce;
         assert out[1..] == announce;
         (s.(clients := clients), out))
    case _ => RemoveClient(s, id)
  }

  /** The reply to a Remove for `target`, given that the target is known. */
  function RemoveKnown(s: Server, order: seq<nat>, id: nat, target: nat): (r: (Server, seq<ToClient>))
    requires target in s.clients
  {
    if s.clients[target].LoggedIn? then
      var (s1, out) := RemoveClient(s, target);
      (s1, out + SendToAll(s1.clients, order, SRemove(target)))
    else
      (s, [Send(id, SError("Cannot remove " + W.NatToString(target) + ": not found"))])
  }

  /** `process_client_message`, for a logged-in client, as written: a
      second Login removes the client; a Logoff removes it and tells the
      others gracefully; Say is relayed to everybody; a valid Name renames
      and is relayed, an invalid one is refused; Remove takes out a
      logged-in target. The source's `get_logged_in_name` panics on an
      unknown target (None here) before the "not found" reply can be sent. */
  function ProcessClientMessageAsWritten(s: Server, order: seq<nat>, id: nat, msg: ClientMessage): (r: W.Option<(Server, seq<ToClient>)>)
    requires id in s.clients && s.clients[id].LoggedIn?
    ensures r.None? <==> msg.CRemove? && msg.id !in s.clients
    ensures r.Some? ==> r.value == ProcessClientMessage(s, order, id, msg)
  {
    match msg
    case CRemove(target) =>
      if target !in s.clients then W.None else W.Some(RemoveKnown(s, order, id, target))
    case _ => W.Some(ProcessClientMessage(s, order, id, msg))
  }

  /** `process_client_message` with an unknown Remove target answered by the
      "not found" error that the source evidently intends. */
  function ProcessClientMessage(s: Server, order: seq<nat>, id: nat, msg: ClientMessage): (r: (Server, seq<ToClient>))
    requires id in s.clients && s.clients[id].LoggedIn?
    ensures msg.CLogin? ==> r == (s.(clients := s.clients - {id}), [Close(id)])
    ensures msg.CLogoff? ==>
              r.0 == s.(clients := s.clients - {id}) && |r.1| > 0 && r.1[0] == Close(id)
              && (forall o :: o in r.1[1..] ==>
                    o.Send? && o.msg == SLogoff(id, true) && o.to in r.0.clients && r.0.clients[o.to].LoggedIn?)
              && forall x :: x in order && x in r.0.clients && r.0.clients[x].LoggedIn? ==> Send(x, SLogoff(id, true)) in r.1
    ensures msg.CSay? ==> r.0 == s && forall o :: o in r.1 ==>
              o.Send? && o.msg == SSay(id, msg.text) && o.to in s.clients && s.clients[o.to].LoggedIn?
    ensures msg.CSay? ==> forall x :: x in order && x in s.clients && s.clients[x].LoggedIn? ==> Send(x, SSay(id, msg.text)) in r.1
    ensures msg.CName? && ValidateName(msg.name).Some? ==>
              r == (s, [Send(id, SError("Name change failed: " + NameErrorMessage(ValidateName(msg.name).value)))])
    ensures msg.CName? && ValidateName(msg.name).None? ==>
              r.0 == s.(clients := s.clients[id := LoggedIn(s.clients[id].player.(name := msg.name))])
              && (forall o :: o in r.1 ==>
                    o.Send? && o.msg == SName(id, msg.name) && o.to in r.0.clients && r.0.clients[o.to].LoggedIn?)
              && forall x :: x in order && x in r.0.clients && r.0.clients[x].LoggedIn? ==> Send(x, SName(id, msg.name)) in r.1
    ensures msg.CRemove? && (msg.id !in s.clients || s.clients[msg.id].Connected?) ==>
              r == (s, [Send(id, SError("Cannot remove " + W.NatToString(msg.id) + ": not found"))])
    ensures msg.CRemove? && msg.id in s.clients && s.clients[msg.id].LoggedIn? ==>
              && r.0 == s.(clients := s.clients - {msg.id}) && |r.1| > 0 && r.1[0] == Close(msg.id)
              && (forall o :: o in r.1[1..] ==>
                    o.Send? && o.msg == SRemove(msg.id) && o.to in r.0.clients && r.0.clients[o.to].LoggedIn?)
              && forall x :: x in order && x in r.0.clients && r.0.clients[x].LoggedIn? ==> Send(x, SRemove(msg.id)) in r.1
  {
    match msg
    case CLogin(_) => RemoveClient(s, id)
    case CLogoff =>
      var (s1, out) := RemoveClient(s, id);
      (s1, out + SendToAll(s1.clients, order, SLogoff(id, true)))
    case CSay(text) => (s, SendToAll(s.clients, order, SSay(id, text)))
    case CName(name) =>
      (match ValidateName(name)
       case Some(err) => (s, [Send(id, SError("Name change failed: " + NameErrorMessage(err)))])
       case None =>
         var clients := s.clients[id := LoggedIn(s.clients[id].player.(name := name))];
         (s.(clients := clients), SendToAll(clients, order, SName(id, name))))
    case CRemove(target) =>
      if target !in s.clients then (s, [Send(id, SError("Cannot remove " + W.NatToString(target) + ": not found"))])
      else RemoveKnown(s, order, id, target)
  }

  /** `process_client_data` as written: the source asks `is_logged_in`,
      which panics (None here) for an id no longer in the table. Such a
      message is possible: a client's message can already be queued when
      another client's Remove takes it out. */
  function ProcessClientDataAsWritten(s: Server, order: seq<nat>, id: nat, msg: ClientMessage, d: Draws): (r: W.Option<(Server, seq<ToClient>)>)
    ensures id !in s.clients ==> r.None?
    ensures id in s.clients && s.clients[id].Connected? ==> r == W.Some(ProcessClientLogin(s, order, id, msg, d))
    ensures id in s.clients && s.clients[id].LoggedIn? ==> r == ProcessClientMessageAsWritten(s, order, id, msg)
  {
    if id !in s.clients then W.None
    else if s.clients[id].LoggedIn? then ProcessClientMessageAsWritten(s, order, id, msg)
    else W.Some(ProcessClientLogin(s, order, id, msg, d))
  }

  /** `process_client_data` as evidently intended: a message from a client
      that is already gone is dropped, as `disconnect_client` drops a
      repeated disconnect. */
  function ProcessClientData(s: Server, order: seq<nat>, id: nat, msg: ClientMessage, d: Draws): (r: (Server, seq<ToClient>))
    ensures id !in s.clients ==> r == (s, [])
    ensures id in s.clients && s.clients[id].Connected? ==> r == ProcessClientLogin(s, order, id, msg, d)
    ensures id in s.clients && s.clients[id].LoggedIn? ==> r == ProcessClientMessage(s, order, id, msg)
  {
    if id !in s.clients then (s, [])
    else if s.clients[id].LoggedIn? then ProcessClientMessage(s, order, id, msg)
    else ProcessClientLogin(s, order, id, msg, d)
  }

  /** The as-written server panics on a message queued by a client that
      another client's Remove has just taken out: clients 1 and 2 are
      logged in, 1 removes 2, and 2's queued Say arrives. */
  lemma StaleSenderPanics()
    ensures var p1 := Player("ann", Pos(0, 0));
            var p2 := Player("bob", Pos(1, 1));
            var s := Server(map[1 := LoggedIn(p1), 2 := LoggedIn(p2)], 3);
            var after := ProcessClientDataAsWritten(s, [1, 2], 1, CRemove(2), Draws(0, 0));
            && after.Some?
            && ProcessClientDataAsWritten(after.value.0, [1, 2], 2, CSay("hi"), Draws(0, 0)).None?
  {
    var p1 := Player("ann", Pos(0, 0));
    var p2 := Player("bob", Pos(1, 1));
    var s := Server(map[1 := LoggedIn(p1), 2 := LoggedIn(p2)], 3);
    var after := ProcessClientDataAsWritten(s, [1, 2], 1, CRemove(2), Draws(0, 0));
    assert after.value.0.clients == map[1 := LoggedIn(p1)];
  }

  /** The as-written server panics when a logged-in client asks to remove an
      id that is not in the table, instead of answering "not found". */
  lemma UnknownRemoveTargetPanics()
    ensures var s := Server(map[1 := LoggedIn(Player("ann", Pos(0, 0)))], 2);
            ProcessClientDataAsWritten(s, [1], 1, CRemove(7), Draws(0, 0)).None?
  {
  }

  /** The corrected server is total, drops a stale sender's message without
      effect, and answers an unknown Remove target with the error. */
  lemma CorrectedHandlesStaleIds(s: Server, order: seq<nat>, id: nat, target: nat, msg: ClientMessage, d: Draws)
    ensures id !in s.clients ==> ProcessClientData(s, order, id, msg, d) == (s, [])
    ensures id in s.clients && s.clients[id].LoggedIn? && target !in s.clients ==>
              ProcessClientData(s, order, id, CRemove(target), d)
                == (s, [Send(id, SError("Cannot remove " + W.NatToString(target) + ": not found"))])
  {
  }

  // ---------------------------------------------------------------------------
  // Invariants
  // ---------------------------------------------------------------------------

  /** Every logged-in player's name passed validation. */
  predicate NamesValid(s: Server)
  {
    forall id :: id in s.clients && s.clients[id].LoggedIn? ==> ValidateName(s.clients[id].player.name).None?
  }

  /** Handling a message, and a disconnect, keep every name valid and never
      hand out the counter's id. */
  lemma ProcessKeepsInvariants(s: Server, order: seq<nat>, id: nat, msg: ClientMessage, d: Draws)
    requires NamesValid(s) && GoodCounter(s)
    ensures NamesValid(ProcessClientData(s, order, id, msg, d).0) && GoodCounter(ProcessClientData(s, order, id, msg, d).0)
    ensures NamesValid(DisconnectClient(s, order, id).0) && GoodCounter(DisconnectClient(s, order, id).0)
  {
  }

  /** The table walk names each id at most once. */
  predicate WalkOnce(order: seq<nat>)
  {
    forall i, j :: 0 <= i < j < |order| ==> order[i] != order[j]
  }

  /** No id is listed twice. */
  predicate IdsOnce(ps: seq<(nat, Player)>)
  {
    forall i, j :: 0 <= i < j < |ps| ==> ps[i].0 != ps[j].0
  }

  /** A walk naming each id once lists each logged-in client once. */
  lemma {:induction false} GetPlayersOnce(clients: map<nat, ClientState>, order: seq<nat>)
    requires WalkOnce(order)
    ensures IdsOnce(GetPlayers(clients, order))
  {
    if order != [] {
      var tail := order[1..];
      assert WalkOnce(tail) by {
        forall i, j | 0 <= i < j < |tail| ensures tail[i] != tail[j] {
          assert tail[i] == order[i + 1] && tail[j] == order[j + 1];
        }
      }
      GetPlayersOnce(clients, tail);
      var rest := GetPlayers(clients, tail);
      assert order[0] !in tail by {
        forall m | 0 <= m < |tail| ensures tail[m] != order[0] {
          assert tail[m] == order[m + 1];
        }
      }
      var ps := GetPlayers(clients, order);
      if order[0] in clients && clients[order[0]].LoggedIn? {
        assert ps == [(order[0], clients[order[0]].player)] + rest;
        forall i, j | 0 <= i < j < |ps| ensures ps[i].0 != ps[j].0 {
          assert ps[j] == rest[j - 1];
          if i > 0 { assert ps[i] == rest[i - 1]; }
        }
      } else {
        assert ps == rest;
      }
    }
  }

  /** A logged-in client's Init lists exactly the clients logged in before
      it, and each once when the table walk names each id once. */
  lemma InitListsOthers(s: Server, order: seq<nat>, id: nat, name: string, d: Draws)
    requires id in s.clients && s.clients[id].Connected? && ValidateName(name).None?
    ensures var out := ProcessClientLogin(s, order, id, CLogin(name), d).1;
            && out[0].Send? && out[0].msg.SInit?
            && (forall x :: (exists k :: 0 <= k < |out[0].msg.players| && out[0].msg.players[k].0 == x) <==>
                  x in order && x in s.clients && s.clients[x].LoggedIn?)
            && (forall k :: 0 <= k < |out[0].msg.players| ==> out[0].msg.players[k].0 != id)
            && (WalkOnce(order) ==> IdsOnce(out[0].msg.players))
  {
    if WalkOnce(order) {
      GetPlayersOnce(s.clients, order);
      assert ProcessClientLogin(s, order, id, CLogin(name), d).1[0].msg.players == GetPlayers(s.clients, order);
    }
  }
}

=== FILE: clientsync.dfy ===
/** The client's replica of the server's world (client/src/systems/network/):
    the tables of players, items and sentries it has spawned, keyed by the
    server's ids, kept in step with the server's messages. Spawning an
    entity takes the next handle of a counter; Bevy's deferred commands mean
    an entity spawned while a message is handled is not yet seen by the
    queries of that same handler. */
module ClientSync {
  import W = Wrappers
  import opened Protocol
  import Echo

  /** The local record of one player (`PlayerInfo`). */
  datatype PlayerInfo = PlayerInfo(
    entity: nat, hits: int, name: string,
    speedUp: bool, multiShotUp: bool, phasingUp: bool, sentryHuntUp: bool, stunned: bool)

  /** Entity handles by server id, for items and sentries. */
  type Table = map<nat, nat>

  /** Every handle in the tables is below the allocation counter, so a
      newly spawned entity is distinct from all existing ones. */
  ghost predicate HandlesBelow(t: Table, next: nat)
  {
    forall id :: id in t ==> t[id] < next
  }

  /** The same for the player table. */
  ghost predicate PlayerHandlesBelow(ps: map<nat, PlayerInfo>, next: nat)
  {
    forall id :: id in ps ==> ps[id].entity < next
  }

  /** The set of ids of an id-keyed list. */
  function IdSet<T>(s: seq<(nat, T)>): (r: set<nat>)
    ensures forall id :: id in r <==> exists k :: 0 <= k < |s| && s[k].0 == id
  {
    set k | 0 <= k < |s| :: s[k].0
  }

  // ---------------------------------------------------------------------------
  // Items and sentries: key reconciliation
  // ---------------------------------------------------------------------------

  /** The spawn loop of `sync_items` and `sync_sentries`: every listed id
      not yet in the table gets a new entity, once. */
  function SpawnMissing<T>(t: Table, s: seq<(nat, T)>, next: nat): (r: (Table, nat))
    ensures r.0.Keys == t.Keys + IdSet(s)
    ensures forall id :: id in t ==> r.0[id] == t[id]
    ensures r.1 >= next
    ensures forall id :: id in r.0 && id !in t ==> next <= r.0[id] < r.1
    ensures forall a, b :: a in r.0 && b in r.0 && a != b && a !in t && b !in t ==> r.0[a] != r.0[b]
    decreases |s|
  {
    if s == [] then (t, next)
    else if s[0].0 in t then
      var r := SpawnMissing(t, s[1..], next);
      IdSetTail(s);
      r
    else
      var r := SpawnMissing(t[s[0].0 := next], s[1..], next + 1);
      IdSetTail(s);
      r
  }

  lemma IdSetTail<T>(s: seq<(nat, T)>)
    requires s != []
    ensures IdSet(s) == {s[0].0} + IdSet(s[1..])
  {
    assert forall k :: 1 <= k < |s| ==> s[k].0 == s[1..][k - 1].0;
  }

  /** The despawn step: only the ids the server still lists stay. */
  function KeepListed<V>(t: map<nat, V>, ids: set<nat>): (r: map<nat, V>)
    ensures r.Keys == t.Keys * ids
    ensures forall id :: id in r ==> r[id] == t[id]
  {
    map id | id in t && id in ids :: t[id]
  }

  /** What a reconciliation did: the new table, the next free handle, and
      the entities despawned. */
  datatype Synced = Synced(table: Table, next: nat, despawned: set<nat>)

  /** `sync_items` and the table half of `sync_sentries`. */
  function SyncTable<T>(t: Table, s: seq<(nat, T)>, next: nat): (r: Synced)
    ensures r.table.Keys == IdSet(s)
    ensures forall id :: id in t && id in IdSet(s) ==> r.table[id] == t[id]
    ensures r.despawned == set id | id in t && id !in IdSet(s) :: t[id]
    ensures r.next >= next
    ensures HandlesBelow(t, next) ==> HandlesBelow(r.table, r.next)
  {
    var (spawned, next') := SpawnMissing(t, s, next);
    Synced(KeepListed(spawned, IdSet(s)), next', set id | id in t && id !in IdSet(s) :: t[id])
  }

  /** A reconciliation is idempotent: repeating it with the same list
      changes nothing and despawns nothing. */
  lemma SyncTableIdempotent<T>(t: Table, s: seq<(nat, T)>, next: nat)
    ensures var r1 := SyncTable(t, s, next);
            var r2 := SyncTable(r1.table, s, r1.next);
            r2.table == r1.table && r2.next == r1.next && r2.despawned == {}
  {
    var r1 := SyncTable(t, s, next);
    SpawnNothing(r1.table, s, r1.next);
  }

  /** When every listed id is already present, the spawn loop does nothing. */
  lemma {:induction false} SpawnNothing<T>(t: Table, s: seq<(nat, T)>, next: nat)
    requires IdSet(s) <= t.Keys
    ensures SpawnMissing(t, s, next) == (t, next)
    decreases |s|
  {
    if s != [] {
      IdSetTail(s);
      SpawnNothing(t, s[1..], next);
    }
  }

  /** `handle_sentry_message`: an unknown sentry is spawned and entered; a
      known one keeps its entity and only has its state updated. */
  function SentryMessage(t: Table, id: nat, next: nat): (r: (Table, nat))
    ensures r.0.Keys == t.Keys + {id}
    ensures id in t ==> r == (t, next)
    ensures id !in t ==> r == (t[id := next], next + 1)
  {
    if id in t then (t, next) else (t[id := next], next + 1)
  }

  /** `sync_sentries`: the table reconciled as for items, and the ids
      whose entity is handed the server's velocity, which are those listed
      that the reconciled table holds. */
  function SyncSentries(t: Table, s: seq<(nat, SentrySnap)>, next: nat): (r: (Synced, set<nat>))
    ensures r.0 == SyncTable(t, s, next)
    ensures r.1 == IdSet(s)
  {
    var synced := SyncTable(t, s, next);
    (synced, set id | id in synced.table && id in IdSet(s))
  }

  // ---------------------------------------------------------------------------
  // Players
  // ---------------------------------------------------------------------------

  /** A newly spawned player from the server's snapshot. */
  function FromSnap(entity: nat, p: PlayerSnap): PlayerInfo
  {
    PlayerInfo(entity, p.hits, p.name, p.speedUp, p.multiShotUp, p.phasingUp, p.sentryHuntUp, p.stunned)
  }

  /** The spawn loop of `sync_players`. */
  function SpawnPlayers(ps: map<nat, PlayerInfo>, s: seq<(nat, PlayerSnap)>, next: nat): (r: (map<nat, PlayerInfo>, nat))
    ensures r.0.Keys == ps.Keys + IdSet(s)
    ensures forall id :: id in ps ==> r.0[id] == ps[id]
    ensures r.1 >= next
    ensures forall id :: id in r.0 && id !in ps ==> next <= r.0[id].entity < r.1
    ensures forall id :: id in r.0 && id !in ps ==> r.0[id] == FromSnap(r.0[id].entity, First(s, id))
    decreases |s|
  {
    if s == [] then (ps, next)
    else
      IdSetTail(s);
      if s[0].0 in ps then SpawnPlayers(ps, s[1..], next)
      else SpawnPlayers(ps[s[0].0 := FromSnap(next, s[0].1)], s[1..], next + 1)
  }

  /** The first snapshot listed for `id`. */
  function First(s: seq<(nat, PlayerSnap)>, id: nat): PlayerSnap
    requires id in IdSet(s)
    decreases |s|
  {
    IdSetTail(s);
    if s[0].0 == id then s[0].1 else First(s[1..], id)
  }

  /** The last snapshot listed for `id`. */
  function Last(s: seq<(nat, PlayerSnap)>, id: nat): PlayerSnap
    requires id in IdSet(s)
    decreases |s|
  {
    IdSetTail(s);
    if id in IdSet(s[1..]) then Last(s[1..], id) else s[0].1
  }

  /** One snapshot applied to a present player: hits and three power-up
      flags come from the server; the entity, the name, the sentry-hunt
      flag and the stun flag stay. */
  function Refresh(info: PlayerInfo, p: PlayerSnap): PlayerInfo
  {
    info.(hits := p.hits, speedUp := p.speedUp, multiShotUp := p.multiShotUp, phasingUp := p.phasingUp)
  }

  /** The update loop of `sync_players`. */
  function UpdatePlayers(ps: map<nat, PlayerInfo>, s: seq<(nat, PlayerSnap)>): (r: map<nat, PlayerInfo>)
    ensures r.Keys == ps.Keys
    ensures forall id :: id in ps && id !in IdSet(s) ==> r[id] == ps[id]
    ensures forall id :: id in ps && id in IdSet(s) ==> r[id] == Refresh(ps[id], Last(s, id))
    decreases |s|
  {
    if s == [] then ps
    else
      IdSetTail(s);
      var ps1 := if s[0].0 in ps then ps[s[0].0 := Refresh(ps[s[0].0], s[0].1)] else ps;
      RefreshTwice();
      UpdatePlayers(ps1, s[1..])
  }

  /** Refreshing twice keeps only the second refresh. */
  lemma RefreshTwice()
    ensures forall info: PlayerInfo, p, q :: Refresh(Refresh(info, p), q) == Refresh(info, q)
  {
  }

  /** What `sync_players` did: the new table, the next free handle, the
      entities despawned, and the ids whose velocity was overwritten. */
  datatype PlayersSynced = PlayersSynced(players: map<nat, PlayerInfo>, next: nat, despawned: set<nat>, velocityWrites: set<nat>)

  /** `sync_players`. `visible` are the entities the position query finds,
      which never include one spawned by this call. */
  function SyncPlayers(ps: map<nat, PlayerInfo>, s: seq<(nat, PlayerSnap)>, next: nat, myId: nat, visible: set<nat>): (r: PlayersSynced)
    ensures r.players.Keys == IdSet(s)
    ensures r.despawned == set id | id in ps && id !in IdSet(s) :: ps[id].entity
    ensures myId !in r.velocityWrites
    ensures r.velocityWrites == set id | id in ps && id in IdSet(s) && id != myId && ps[id].entity in visible
    ensures r.next >= next
    ensures PlayerHandlesBelow(ps, next) ==> PlayerHandlesBelow(r.players, r.next)
  {
    var (spawned, next') := SpawnPlayers(ps, s, next);
    var kept := KeepListed(spawned, IdSet(s));
    PlayersSynced(
      UpdatePlayers(kept, s), next',
      set id | id in ps && id !in IdSet(s) :: ps[id].entity,
      set id | id in ps && id in IdSet(s) && id != myId && ps[id].entity in visible)
  }

  /** After `sync_players` every listed player holds the server's hits and
      speed, multi-shot and phasing flags from the last listing of it; a
      player already present keeps its entity, name, sentry-hunt and stun
      flags, and a new one takes them from its first listing. */
  lemma SyncPlayersFields(ps: map<nat, PlayerInfo>, s: seq<(nat, PlayerSnap)>, next: nat, myId: nat, visible: set<nat>, id: nat)
    requires id in IdSet(s)
    ensures var r := SyncPlayers(ps, s, next, myId, visible);
            var info := r.players[id];
            var last := Last(s, id);
            && info.hits == last.hits && info.speedUp == last.speedUp
            && info.multiShotUp == last.multiShotUp && info.phasingUp == last.phasingUp
            && (id in ps ==> info.entity == ps[id].entity && info.name == ps[id].name
                             && info.sentryHuntUp == ps[id].sentryHuntUp && info.stunned == ps[id].stunned)
            && (id !in ps ==> info.name == First(s, id).name && info.sentryHuntUp == First(s, id).sentryHuntUp
                              && info.stunned == First(s, id).stunned && next <= info.entity)
  {
  }

  // ---------------------------------------------------------------------------
  // Single-player messages
  // ---------------------------------------------------------------------------

  /** `handle_player_login_message`: a known id is ignored; a new player is
      spawned with hits 0 and the power-up and stun flags the message
      carries. */
  function PlayerLogin(ps: map<nat, PlayerInfo>, id: nat, p: PlayerSnap, next: nat): (r: (map<nat, PlayerInfo>, nat))
    ensures id in ps ==> r == (ps, next)
    ensures id !in ps ==> r.0 == ps[id := FromSnap(next, p).(hits := 0)] && r.1 == next + 1
  {
    if id in ps then (ps, next) else (ps[id := FromSnap(next, p).(hits := 0)], next + 1)
  }

  /** `handle_player_logoff_message`: the player, if present, is removed and
      its entity despawned. */
  function PlayerLogoff(ps: map<nat, PlayerInfo>, id: nat): (r: (map<nat, PlayerInfo>, set<nat>))
    ensures r.0 == ps - {id}
    ensures r.1 == (if id in ps then {ps[id].entity} else {})
  {
    if id in ps then (ps - {id}, {ps[id].entity}) else (ps, {})
  }

  /** Whether a status change is an upgrade the local player hears: no
      change of the stun flag and none of the speed, multi-shot and phasing
      flags switched off. */
  predicate PowerUpSound(old_: PlayerInfo, st: Status)
  {
    old_.stunned == st.stunned
    && !((old_.speedUp && !st.speedUp) || (old_.multiShotUp && !st.multiShotUp) || (old_.phasingUp && !st.phasingUp))
  }

  /** `handle_player_status_message`: a known player's five flags are
      overwritten; the sound plays only for the local player. */
  function PlayerStatus(ps: map<nat, PlayerInfo>, st: Status, myId: nat): (r: (map<nat, PlayerInfo>, bool))
    ensures st.id !in ps ==> r == (ps, false)
    ensures st.id in ps ==>
              && r.0.Keys == ps.Keys
              && r.0[st.id] == ps[st.id].(speedUp := st.speedUp, multiShotUp := st.multiShotUp, phasingUp := st.phasingUp,
                                          sentryHuntUp := st.sentryHuntUp, stunned := st.stunned)
              && (forall other :: other in ps && other != st.id ==> r.0[other] == ps[other])
    ensures r.1 <==> st.id in ps && st.id == myId && PowerUpSound(ps[st.id], st)
  {
    if st.id !in ps then (ps, false)
    else
      var old_ := ps[st.id];
      var sound := st.id == myId && PowerUpSound(old_, st);
      (ps[st.id := old_.(speedUp := st.speedUp, multiShotUp := st.multiShotUp, phasingUp := st.phasingUp,
                         sentryHuntUp := st.sentryHuntUp, stunned := st.stunned)], sound)
  }

  /** The sound marks a gain: when it plays, every flag switched on before is
      still on, and the stun flag did not change. */
  lemma SoundOnlyOnGain(ps: map<nat, PlayerInfo>, st: Status, myId: nat)
    requires PlayerStatus(ps, st, myId).1
    ensures var before := ps[st.id]; var after := PlayerStatus(ps, st, myId).0[st.id];
            && st.id == myId
            && (before.speedUp ==> after.speedUp) && (before.multiShotUp ==> after.multiShotUp)
            && (before.phasingUp ==> after.phasingUp) && before.stunned == after.stunned
  {
  }

  // ---------------------------------------------------------------------------
  // The client as a whole
  // ---------------------------------------------------------------------------

  /** The client's replica: its own id once Init arrived, the three
      tables, the last accepted update number, the entity counter and the
      round-trip estimate. */
  datatype Client = Client(
    myId: W.Option<nat>, players: map<nat, PlayerInfo>, items: Table, sentries: Table,
    lastUpdateSeq: nat, next: nat, rtt: Echo.Rtt, despawned: set<nat>)

  /** `handle_update_message`: an update numbered no later than the last
      accepted one is dropped; otherwise its number is remembered and
      players, items and sentries are reconciled in that order. */
  function HandleUpdate(c: Client, myId: nat, seqNo: nat, players: seq<(nat, PlayerSnap)>,
                        items: seq<(nat, ItemSnap)>, sentries: seq<(nat, SentrySnap)>, visible: set<nat>): (r: Client)
    ensures seqNo <= c.lastUpdateSeq ==> r == c
    ensures seqNo > c.lastUpdateSeq ==>
      && r.lastUpdateSeq == seqNo
      && r.players.Keys == IdSet(players) && r.items.Keys == IdSet(items) && r.sentries.Keys == IdSet(sentries)
      && r.myId == c.myId && r.rtt == c.rtt
  {
    if seqNo <= c.lastUpdateSeq then c
    else
      var p := SyncPlayers(c.players, players, c.next, myId, visible);
      var i := SyncTable(c.items, items, p.next);
      var (s, _) := SyncSentries(c.sentries, sentries, i.next);
      c.(lastUpdateSeq := seqNo, players := p.players, items := i.table, sentries := s.table, next := s.next,
         despawned := c.despawned + p.despawned + i.despawned + s.despawned)
  }

  /** Delivering the same update twice has the effect of delivering it once. */
  lemma UpdateReplayIgnored(c: Client, myId: nat, seqNo: nat, players: seq<(nat, PlayerSnap)>,
                            items: seq<(nat, ItemSnap)>, sentries: seq<(nat, SentrySnap)>, visible: set<nat>)
    ensures var c1 := HandleUpdate(c, myId, seqNo, players, items, sentries, visible);
            HandleUpdate(c1, myId, seqNo, players, items, sentries, visible) == c1
  {
  }

  /** A message as the network system receives it: a server message with
      the instant of arrival and the entities the queries see, or the
      connection's end. */
  datatype Incoming = Message(msg: ServerMsg, now: nat, visible: set<nat>) | Disconnected

  /** `dispatch_message`. Speed, face, shot, hit and sound messages touch
      only the entities' components, which the model does not track. An
      echo reply can only clear the pending request. */
  function Dispatch(c: Client, me: nat, msg: ServerMsg, now: nat, visible: set<nat>): (r: Client)
    requires msg.SEcho? ==> now >= c.rtt.pendingSentAt
    ensures msg.SInit? ==> r == c
    ensures r.myId == c.myId
    ensures r.rtt.pendingSentAt == c.rtt.pendingSentAt || r.rtt.pendingSentAt == 0
    ensures r.lastUpdateSeq >= c.lastUpdateSeq
  {
    match msg
    case SInit(_) => c
    case SLogin(id, p) =>
      var (ps, next) := PlayerLogin(c.players, id, p, c.next);
      c.(players := ps, next := next)
    case SLogoff(id, _) =>
      var (ps, gone) := PlayerLogoff(c.players, id);
      c.(players := ps, despawned := c.despawned + gone)
    case SUpdate(seqNo, players, items, sentries) => HandleUpdate(c, me, seqNo, players, items, sentries, visible)
    case SPlayerStatus(st) => c.(players := PlayerStatus(c.players, st, me).0)
    case SEcho(ts) => c.(rtt := Echo.HandleEcho(c.rtt, ts, now))
    case SSentry(id, _) =>
      var (t, next) := SentryMessage(c.sentries, id, c.next);
      c.(sentries := t, next := next)
    case _ => c
  }

  /** Where a frame of the network system stands: the client, the id an
      Init has queued for insertion at the end of the frame, and whether
      the app was told to exit. */
  datatype FrameState = FrameState(client: Client, queuedId: W.Option<nat>, exit: bool)

  /** Every echo reply of the frame arrives no earlier than `sentAt`. */
  predicate EchoesAfter(evs: seq<Incoming>, sentAt: nat)
  {
    forall k :: 0 <= k < |evs| && evs[k].Message? && evs[k].msg.SEcho? ==> evs[k].now >= sentAt
  }

  /** One incoming event of `network_server_message_system`. `me` is the
      client's own id as the system read it when it started: without it
      every message goes to `handle_init_message`, which only queues an
      Init's id; with it every message is dispatched. */
  function Receive(me: W.Option<nat>, f: FrameState, ev: Incoming): (r: FrameState)
    requires ev.Message? && ev.msg.SEcho? && me.Some? ==> ev.now >= f.client.rtt.pendingSentAt
    ensures ev.Disconnected? ==> r == f.(exit := true)
    ensures ev.Message? && me.None? ==> r.client == f.client && r.exit == f.exit
    ensures ev.Message? && me.None? && ev.msg.SInit? ==> r.queuedId == W.Some(ev.msg.id)
    ensures ev.Message? && me.None? && !ev.msg.SInit? ==> r.queuedId == f.queuedId
    ensures ev.Message? && me.Some? ==> r.queuedId == f.queuedId && r.exit == f.exit
    ensures r.client.myId == f.client.myId && r.client.lastUpdateSeq >= f.client.lastUpdateSeq
    ensures r.client.rtt.pendingSentAt == f.client.rtt.pendingSentAt || r.client.rtt.pendingSentAt == 0
  {
    match ev
    case Disconnected => f.(exit := true)
    case Message(msg, now, visible) =>
      match me
      case None => if msg.SInit? then f.(queuedId := W.Some(msg.id)) else f
      case Some(id) => f.(client := Dispatch(f.client, id, msg, now, visible))
  }

  /** The events of one frame, in order, with the id read at its start. */
  function ReceiveFrom(me: W.Option<nat>, f: FrameState, evs: seq<Incoming>, sentAt: nat): (r: FrameState)
    requires f.client.rtt.pendingSentAt <= sentAt && (me.Some? ==> EchoesAfter(evs, sentAt))
    ensures r.client.rtt.pendingSentAt <= sentAt
    decreases |evs|
  {
    if evs == [] then f
    else ReceiveFrom(me, Receive(me, f, evs[0]), evs[1..], sentAt)
  }

  /** `network_server_message_system` over one frame: the client's id is
      read once when the system starts, and an Init's id, queued by
      `commands.insert_resource`, takes effect only when the frame's
      commands are applied. The bool says whether the app was told to exit. */
  function RunFrame(c: Client, evs: seq<Incoming>): (r: (Client, bool))
    requires c.myId.Some? ==> EchoesAfter(evs, c.rtt.pendingSentAt)
  {
    var f := ReceiveFrom(c.myId, FrameState(c, W.None, false), evs, c.rtt.pendingSentAt);
    (if f.queuedId.Some? then f.client.(myId := f.queuedId) else f.client, f.exit)
  }

  /** The id of the last Init among the events, if any. */
  function LastInit(evs: seq<Incoming>): (r: W.Option<nat>)
    ensures r.Some? <==> exists k :: 0 <= k < |evs| && evs[k].Message? && evs[k].msg.SInit?
    ensures r.Some? ==> exists k :: 0 <= k < |evs| && evs[k].Message? && evs[k].msg.SInit? && evs[k].msg.id == r.value
                                    && forall k2 :: k < k2 < |evs| ==> !(evs[k2].Message? && evs[k2].msg.SInit?)
    decreases |evs|
  {
    if evs == [] then W.None
    else if evs[|evs| - 1].Message? && evs[|evs| - 1].msg.SInit? then W.Some(evs[|evs| - 1].msg.id)
    else
      var r := LastInit(evs[..|evs| - 1]);
      assert forall k :: 0 <= k < |evs| - 1 ==> evs[..|evs| - 1][k] == evs[k];
      r
  }

  /** A frame before login: the messages change nothing but the client's
      id, which afterwards is that of the frame's last Init, or still none;
      the app is told to exit exactly when the connection ended. So a Login
      in the same frame as the Init is dropped. */
  lemma {:induction false} OnlyInitBeforeLogin(c: Client, evs: seq<Incoming>)
    requires c.myId.None?
    ensures RunFrame(c, evs).0 == c.(myId := LastInit(evs))
    ensures RunFrame(c, evs).1 <==> Disconnected in evs
  {
    FrameBeforeLogin(FrameState(c, W.None, false), evs, c.rtt.pendingSentAt);
  }

  lemma {:induction false} FrameBeforeLogin(f: FrameState, evs: seq<Incoming>, sentAt: nat)
    requires f.client.rtt.pendingSentAt <= sentAt
    ensures var r := ReceiveFrom(W.None, f, evs, sentAt);
            && r.client == f.client
            && r.queuedId == (if LastInit(evs).Some? then LastInit(evs) else f.queuedId)
            && (r.exit <==> f.exit || Disconnected in evs)
    decreases |evs|
  {
    if evs != [] {
      var f1 := Receive(W.None, f, evs[0]);
      FrameBeforeLogin(f1, evs[1..], sentAt);
      LastInitCons(evs);
      assert evs == [evs[0]] + evs[1..];
    }
  }

  /** Splitting off the first event: a later Init wins over it. */
  lemma {:induction false} LastInitCons(evs: seq<Incoming>)
    requires evs != []
    ensures LastInit(evs) == (if LastInit(evs[1..]).Some? then LastInit(evs[1..])
                              else if evs[0].Message? && evs[0].msg.SInit? then W.Some(evs[0].msg.id) else W.None)
    decreases |evs|
  {
    var n := |evs|;
    if n > 1 {
      assert evs[1..][n - 2] == evs[n - 1];
      if !(evs[n - 1].Message? && evs[n - 1].msg.SInit?) {
        LastInitCons(evs[..n - 1]);
        assert evs[..n - 1][1..] == evs[1..][..n - 2];
        assert evs[..n - 1][0] == evs[0];
      }
    }
  }

  /** Init followed by a Login in one frame: the client learns its id, but
      the Login is dropped and no player is spawned. */
  lemma InitFrameDropsLogin(c: Client, me: nat, id: nat, p: PlayerSnap, now: nat, visible: set<nat>)
    requires c.myId.None? && id !in c.players
    ensures var r := RunFrame(c, [Message(SInit(me), now, visible), Message(SLogin(id, p), now, visible)]).0;
            r.myId == W.Some(me) && id !in r.players
  {
    var evs := [Message(SInit(me), now, visible), Message(SLogin(id, p), now, visible)];
    OnlyInitBeforeLogin(c, evs);
    assert LastInit(evs[..1]) == W.Some(me);
    assert evs[..1] == [Message(SInit(me), now, visible)];
  }

  /** The number of the last accepted update never goes down over a frame;
      with `UpdateAcceptedIffNewer`, the updates a client takes carry
      strictly increasing numbers. */
  lemma AcceptedUpdatesIncrease(c: Client, evs: seq<Incoming>)
    requires c.myId.Some? ==> EchoesAfter(evs, c.rtt.pendingSentAt)
    ensures RunFrame(c, evs).0.lastUpdateSeq >= c.lastUpdateSeq
  {
    FrameKeepsOrder(c.myId, FrameState(c, W.None, false), evs, c.rtt.pendingSentAt);
  }

  lemma {:induction false} FrameKeepsOrder(me: W.Option<nat>, f: FrameState, evs: seq<Incoming>, sentAt: nat)
    requires f.client.rtt.pendingSentAt <= sentAt && (me.Some? ==> EchoesAfter(evs, sentAt))
    ensures ReceiveFrom(me, f, evs, sentAt).client.lastUpdateSeq >= f.client.lastUpdateSeq
    decreases |evs|
  {
    if evs != [] {
      FrameKeepsOrder(me, Receive(me, f, evs[0]), evs[1..], sentAt);
    }
  }

  /** After login, an update changes the client only when its number is
      above every number accepted before. */
  lemma UpdateAcceptedIffNewer(c: Client, me: nat, seqNo: nat, players: seq<(nat, PlayerSnap)>,
                               items: seq<(nat, ItemSnap)>, sentries: seq<(nat, SentrySnap)>, now: nat, visible: set<nat>)
    requires c.myId == W.Some(me)
    ensures var r := RunFrame(c, [Message(SUpdate(seqNo, players, items, sentries), now, visible)]).0;
            (r != c ==> seqNo > c.lastUpdateSeq && r.lastUpdateSeq == seqNo)
            && (seqNo <= c.lastUpdateSeq ==> r == c)
  {
    var evs := [Message(SUpdate(seqNo, players, items, sentries), now, visible)];
    var f := FrameState(c, W.None, false);
    var f1 := Receive(c.myId, f, evs[0]);
    assert evs[1..] == [];
    assert ReceiveFrom(c.myId, f, evs, c.rtt.pendingSentAt) == f1;
  }

  // ---------------------------------------------------------------------------
  // The earlier client
  // ---------------------------------------------------------------------------

  /** The earlier `PlayerInfo`: entity and hits. */
  datatype OldInfo = OldInfo(entity: nat, hits: int)

  /** The earlier spawn loop of `handle_update_message`. */
  function OldSpawn(ps: map<nat, OldInfo>, s: seq<(nat, PlayerSnap)>, next: nat): (r: (map<nat, OldInfo>, nat))
    ensures r.0.Keys == ps.Keys + IdSet(s)
    ensures forall id :: id in ps ==> r.0[id] == ps[id]
    decreases |s|
  {
    if s == [] then (ps, next)
    else
      IdSetTail(s);
      if s[0].0 in ps then OldSpawn(ps, s[1..], next)
      else OldSpawn(ps[s[0].0 := OldInfo(next, s[0].1.hits)], s[1..], next + 1)
  }

  /** The earlier update loop: hits from the server. */
  function OldRefresh(ps: map<nat, OldInfo>, s: seq<(nat, PlayerSnap)>): (r: map<nat, OldInfo>)
    ensures r.Keys == ps.Keys
    ensures forall id :: id in ps ==> r[id].entity == ps[id].entity
    ensures forall id :: id in ps && id in IdSet(s) ==> r[id].hits == Last(s, id).hits
    ensures forall id :: id in ps && id !in IdSet(s) ==> r[id] == ps[id]
    decreases |s|
  {
    if s == [] then ps
    else
      IdSetTail(s);
      OldRefresh(if s[0].0 in ps then ps[s[0].0 := ps[s[0].0].(hits := s[0].1.hits)] else ps, s[1..])
  }

  /** The earlier `handle_update_message`: no number check; the player table
      ends with exactly the listed ids, present ones keep their entity, and
      every listed player holds the server's hits. */
  function OldUpdate(ps: map<nat, OldInfo>, s: seq<(nat, PlayerSnap)>, next: nat): (r: (map<nat, OldInfo>, nat))
    ensures r.0.Keys == IdSet(s)
    ensures forall id :: id in ps && id in IdSet(s) ==> r.0[id].entity == ps[id].entity
    ensures forall id :: id in IdSet(s) ==> r.0[id].hits == Last(s, id).hits
  {
    var (spawned, next') := OldSpawn(ps, s, next);
    (OldRefresh(KeepListed(spawned, IdSet(s)), s), next')
  }

  /** The earlier login: a known id is ignored, a new one starts with hits 0. */
  function OldLogin(ps: map<nat, OldInfo>, id: nat, next: nat): (r: (map<nat, OldInfo>, nat))
    ensures id in ps ==> r == (ps, next)
    ensures id !in ps ==> r.0 == ps[id := OldInfo(next, 0)] && r.1 == next + 1
  {
    if id in ps then (ps, next) else (ps[id := OldInfo(next, 0)], next + 1)
  }
}

=== FILE: echo.dfy ===
/** The client's round-trip-time measurement: an echo request is sent every
    ECHO_INTERVAL seconds, the matching reply yields one sample, and the
    round-trip time is the mean of the last ten samples. The current client
    (client/src/systems/network/systems.rs) counts time as whole
    nanoseconds; the earlier one (client/src/systems/network.rs) as f64
    seconds, modelled here as reals. */
module Echo {
  import opened Wrappers

  /** ECHO_INTERVAL, in seconds. */
  const ECHO_INTERVAL: real := 10.0

  /** The samples the window keeps. */
  const WINDOW: nat := 10

  /** The range of `u64`: `as_nanos() as u64` keeps the low 64 bits. */
  const U64_MODULUS: nat := 0x1_0000_0000_0000_0000

  /** The sum of a list of durations. */
  function Sum(s: seq<nat>): nat
  {
    if s == [] then 0 else Sum(s[..|s| - 1]) + s[|s| - 1]
  }

  /** The window after a new sample: appended, and the oldest dropped once
      there are more than WINDOW. */
  function Push<T>(window: seq<T>, sample: T): (w: seq<T>)
    ensures |window| <= WINDOW ==> |w| <= WINDOW
    ensures |w| > 0 && w[|w| - 1] == sample
    ensures |window| < WINDOW ==> w == window + [sample]
    ensures |window| >= WINDOW ==> w == window[1..] + [sample]
  {
    var w := window + [sample];
    if |w| > WINDOW then w[1..] else w
  }

  /** `RoundTripTime`: the current estimate, the send instant of the
      outstanding request (0 when none), and the window. All in
      nanoseconds. */
  datatype Rtt = Rtt(rtt: nat, pendingSentAt: nat, measurements: seq<nat>)

  /** The echo system's local state: its timer and whether it has run. */
  datatype EchoTimer = EchoTimer(timer: real, initialized: bool)

  const START: EchoTimer := EchoTimer(0.0, false)

  /** `network_echo_system`: one frame of `delta` seconds ending at `now`.
      Returns the new timer and estimate and the timestamp sent, if any. */
  function EchoTick(t: EchoTimer, r: Rtt, delta: real, now: nat): (res: (EchoTimer, Rtt, Option<nat>))
    ensures var start := if t.initialized then t.timer else ECHO_INTERVAL - 1.0;
            res.2.Some? <==> start + delta >= ECHO_INTERVAL
    ensures res.2.Some? ==> res.0 == EchoTimer(0.0, true) && res.1 == r.(pendingSentAt := now)
                            && res.2.value == now % U64_MODULUS
    ensures res.2.None? ==> res.1 == r && res.0.initialized && res.0.timer >= (if t.initialized then t.timer else ECHO_INTERVAL - 1.0) + delta
  {
    var start := if t.initialized then t.timer else ECHO_INTERVAL - 1.0;
    var timer := start + delta;
    if timer >= ECHO_INTERVAL then (EchoTimer(0.0, true), r.(pendingSentAt := now), Some(now % U64_MODULUS))
    else (EchoTimer(timer, true), r, None)
  }

  /** The first request goes out in the first frame that brings the
      accumulated time to one second, later ones every ECHO_INTERVAL. */
  lemma FirstEchoAfterOneSecond(r: Rtt, delta: real, now: nat)
    ensures EchoTick(START, r, delta, now).2.Some? <==> delta >= 1.0
  {
  }

  /** `handle_echo_message`: a reply is taken only when a request is
      outstanding and the reply carries that request's timestamp. The
      clock never runs backwards, so `now` is not before the send. */
  function HandleEcho(r: Rtt, timestampNanos: nat, now: nat): (res: Rtt)
    requires now >= r.pendingSentAt
  {
    if r.pendingSentAt == 0 then r
    else if timestampNanos != r.pendingSentAt % U64_MODULUS then r
    else
      var window := Push(r.measurements, now - r.pendingSentAt);
      FloorDivision(Sum(window), |window|);
      Rtt(Sum(window) / |window|, 0, window)
  }

  /** Integer division of naturals rounds down. */
  lemma FloorDivision(a: nat, n: nat)
    requires n > 0
    ensures 0 <= a / n && (a / n) * n <= a < (a / n + 1) * n
  {
    var q, m := a / n, a % n;
    assert a == q * n + m && 0 <= m < n;
    assert (q + 1) * n == q * n + n;
  }

  /** A reply is accepted exactly when one is pending and it matches; an
      accepted reply clears the pending request, records the measured time
      as the newest sample, and sets the estimate to the integer mean of the
      window, which never holds more than WINDOW samples. */
  lemma EchoReply(r: Rtt, timestampNanos: nat, now: nat)
    requires now >= r.pendingSentAt && |r.measurements| <= WINDOW
    ensures var res := HandleEcho(r, timestampNanos, now);
            var accepted := r.pendingSentAt != 0 && timestampNanos == r.pendingSentAt % U64_MODULUS;
            && (!accepted ==> res == r)
            && (accepted ==> res.pendingSentAt == 0
                             && 0 < |res.measurements| <= WINDOW
                             && res.measurements[|res.measurements| - 1] == now - r.pendingSentAt
                             && res.rtt * |res.measurements| <= Sum(res.measurements) < (res.rtt + 1) * |res.measurements|)
  {
    if r.pendingSentAt != 0 && timestampNanos == r.pendingSentAt % U64_MODULUS {
      var window := Push(r.measurements, now - r.pendingSentAt);
      FloorDivision(Sum(window), |window|);
    }
  }

  /** Once accepted, the same reply is ignored: nothing is pending any
      more. */
  lemma ReplyTakenOnce(r: Rtt, timestampNanos: nat, now: nat, later: nat)
    requires now >= r.pendingSentAt && later >= now
    ensures var r1 := HandleEcho(r, timestampNanos, now);
            HandleEcho(r1, timestampNanos, later) == r1
  {
  }

  /** Every sample lies between the least and the greatest of the window. */
  lemma {:induction false} MeanBounds(s: seq<nat>, lo: nat, hi: nat)
    requires forall k :: 0 <= k < |s| ==> lo <= s[k] <= hi
    ensures lo * |s| <= Sum(s) <= hi * |s|
  {
    if s != [] {
      var n := |s| - 1;
      MeanBounds(s[..n], lo, hi);
      assert Sum(s) == Sum(s[..n]) + s[n];
      assert lo * |s| == lo * n + lo;
      assert hi * |s| == hi * n + hi;
    }
  }

  /** An integer mean lies between any lower and upper bound of the
      samples. */
  lemma {:induction false} FloorMeanBounds(sum: nat, n: nat, q: nat, lo: nat, hi: nat)
    requires n > 0 && q * n <= sum < (q + 1) * n
    requires lo * n <= sum <= hi * n
    ensures lo <= q <= hi
  {
  }

  /** The estimate lies between the smallest and the largest sample in the
      window. */
  lemma EstimateWithinSamples(r: Rtt, timestampNanos: nat, now: nat, lo: nat, hi: nat)
    requires now >= r.pendingSentAt && |r.measurements| <= WINDOW
    requires r.pendingSentAt != 0 && timestampNanos == r.pendingSentAt % U64_MODULUS
    requires var res := HandleEcho(r, timestampNanos, now);
             forall k :: 0 <= k < |res.measurements| ==> lo <= res.measurements[k] <= hi
    ensures var res := HandleEcho(r, timestampNanos, now); lo <= res.rtt <= hi
  {
    var res := HandleEcho(r, timestampNanos, now);
    EchoReply(r, timestampNanos, now);
    MeanBounds(res.measurements, lo, hi);
    FloorMeanBounds(Sum(res.measurements), |res.measurements|, res.rtt, lo, hi);
  }

  // ---------------------------------------------------------------------------
  // The earlier client: f64 seconds
  // ---------------------------------------------------------------------------

  /** The sum of a list of real durations. */
  function RealSum(s: seq<real>): real
  {
    if s == [] then 0.0 else RealSum(s[..|s| - 1]) + s[|s| - 1]
  }

  /** The mean of a non-empty window. */
  function RealMean(s: seq<real>): (m: real)
    requires |s| > 0
    ensures m * (|s| as real) == RealSum(s)
  {
    var n := |s| as real;
    RealSum(s) / n
  }

  /** The earlier `RoundTripTime` with its window: timestamps in seconds,
      0.0 meaning none pending. */
  datatype OldRtt = OldRtt(rtt: real, pendingTimestamp: real, measurements: seq<real>)

  /** The earlier `handle_echo_message`. */
  function OldHandleEcho(r: OldRtt, timestamp: real, now: real): (res: OldRtt)
    ensures r.pendingTimestamp == 0.0 || timestamp != r.pendingTimestamp ==> res == r
    ensures !(r.pendingTimestamp == 0.0 || timestamp != r.pendingTimestamp) ==>
              && res.pendingTimestamp == 0.0
              && res.measurements == Push(r.measurements, now - r.pendingTimestamp)
              && res.rtt * (|res.measurements| as real) == RealSum(res.measurements)
  {
    if r.pendingTimestamp == 0.0 || timestamp != r.pendingTimestamp then r
    else
      var window := Push(r.measurements, now - r.pendingTimestamp);
      OldRtt(RealMean(window), 0.0, window)
  }
}

=== FILE: ecschat.dfy ===
/** The entity-component version of the chat server (server/src/systems.rs).
    Each client is an entity carrying its id, its channel and a marker,
    Connected or LoggedIn with a position; an index maps ids to entities.
    Bevy defers the commands a system issues to the end of the system, so
    every handler of a frame reads the world as it was when the system
    started, while its spawns, marker changes and despawns pile up on the
    world that comes out. This server speaks only Login and Logoff. */
module EcsChat {
  import W = Wrappers
  import CP = ChatProtocol

  /** An entity's marker components. */
  datatype Marker = Connected | LoggedIn(pos: CP.Pos)

  /** A client entity: its player id and marker. */
  datatype Entity = Entity(id: nat, marker: Marker)

  /** The entities by entity id, the player index, and the next entity id. */
  datatype World = World(entities: map<nat, Entity>, index: map<nat, nat>, nextEntity: nat)

  /** The client messages this server handles. */
  datatype Msg = Login | Logoff

  /** The server messages it sends. */
  datatype Reply =
    | Init(id: nat, pos: CP.Pos, others: seq<(nat, CP.Pos)>)
    | LoginOf(id: nat, pos: CP.Pos)
    | LogoffOf(id: nat, graceful: bool)

  /** A send on the channel of the entity owned by player `to`. */
  datatype Send = Send(to: nat, reply: Reply)

  /** A client's message as the frame sees it, with what the login flow
      needs: whether the Init send succeeds and the position draws. */
  datatype Event = Event(id: nat, msg: Msg, initSent: bool, dx: nat, dy: nat)

  /** The logged-in entities of `w`, in the walk `order` over its entities. */
  function LoggedInOf(w: World, order: seq<nat>): (es: seq<nat>)
    ensures forall e :: e in es <==> e in order && e in w.entities && w.entities[e].marker.LoggedIn?
  {
    if order == [] then []
    else
      var rest := LoggedInOf(w, order[1..]);
      assert forall x :: x in order ==> x == order[0] || x in order[1..];
      if order[0] in w.entities && w.entities[order[0]].marker.LoggedIn? then [order[0]] + rest else rest
  }

  /** `reply` to the owner of each entity of `es` whose player is not `skip`. */
  function SendTo(w: World, es: seq<nat>, skip: W.Option<nat>, reply: Reply): (out: seq<Send>)
    requires forall e :: e in es ==> e in w.entities
    ensures forall s :: s in out ==> s.reply == reply && W.Some(s.to) != skip
    ensures forall e :: e in es && W.Some(w.entities[e].id) != skip ==> Send(w.entities[e].id, reply) in out
    ensures forall s :: s in out ==> exists e :: e in es && w.entities[e].id == s.to
  {
    if es == [] then []
    else
      var rest := SendTo(w, es[1..], skip, reply);
      assert forall x :: x in es ==> x == es[0] || x in es[1..];
      var id := w.entities[es[0]].id;
      if W.Some(id) != skip then [Send(id, reply)] + rest else rest
  }

  // ---------------------------------------------------------------------------
  // Connections
  // ---------------------------------------------------------------------------

  /** A connect: a fresh Connected entity, entered in the index. */
  function Connect(w: World, id: nat): (r: World)
    ensures id in r.index && r.index[id] in r.entities && r.entities[r.index[id]] == Entity(id, Connected)
    ensures Fresh(w) ==> Fresh(r) && r.index[id] !in w.entities
    ensures forall x :: x in w.index && x != id ==> x in r.index && r.index[x] == w.index[x]
  {
    var e := w.nextEntity;
    World(w.entities[e := Entity(id, Connected)], w.index[id := e], e + 1)
  }

  /** The entity ids are all below the next one. */
  predicate Fresh(w: World)
  {
    forall e :: e in w.entities ==> e < w.nextEntity
  }

  /** A disconnect, against the world `start` the system began with: an id
      not in the index changes nothing; otherwise the index entry goes, the
      entity is despawned and, if it was logged in at the start, every other
      entity logged in at the start hears that it disappeared. */
  function Disconnect(start: World, w: World, order: seq<nat>, id: nat): (r: (World, seq<Send>))
    ensures id !in w.index ==> r == (w, [])
    ensures id in w.index ==>
              r.0 == w.(entities := w.entities - {w.index[id]}, index := w.index - {id})
    ensures forall s :: s in r.1 ==> s.reply == LogoffOf(id, false) && s.to != id
    ensures id in w.index && w.index[id] in start.entities && start.entities[w.index[id]].marker.LoggedIn? ==>
              forall e :: e in order && e in start.entities && start.entities[e].marker.LoggedIn? && start.entities[e].id != id ==>
                Send(start.entities[e].id, LogoffOf(id, false)) in r.1
    ensures id in w.index && !(w.index[id] in start.entities && start.entities[w.index[id]].marker.LoggedIn?) ==> r.1 == []
  {
    if id !in w.index then (w, [])
    else
      var e := w.index[id];
      var wasLoggedIn := e in start.entities && start.entities[e].marker.LoggedIn?;
      var w1 := w.(entities := w.entities - {e}, index := w.index - {id});
      (w1, if wasLoggedIn then SendTo(start, LoggedInOf(start, order), W.Some(id), LogoffOf(id, false)) else [])
  }

  /** `handle_connections_system`: the frame's connects, then its
      disconnects, all read against the world the system started with. */
  function HandleConnections(start: World, order: seq<nat>, connects: seq<nat>, disconnects: seq<nat>): (r: (World, seq<Send>))
    ensures forall s :: s in r.1 ==> s.reply.LogoffOf? && !s.reply.graceful
    ensures forall id :: id in connects && id !in disconnects ==> id in r.0.index
    ensures forall id :: id in disconnects ==> id !in r.0.index
  {
    var w := ConnectAll(start, connects);
    DisconnectAll(start, w, order, disconnects)
  }

  function ConnectAll(w: World, ids: seq<nat>): (r: World)
    ensures forall id :: id in ids ==> id in r.index
    ensures forall id :: id in w.index ==> id in r.index
    decreases |ids|
  {
    if ids == [] then w else ConnectAll(Connect(w, ids[0]), ids[1..])
  }

  function DisconnectAll(start: World, w: World, order: seq<nat>, ids: seq<nat>): (r: (World, seq<Send>))
    ensures forall s :: s in r.1 ==> s.reply.LogoffOf? && !s.reply.graceful
    ensures forall id :: id in ids ==> id !in r.0.index
    ensures forall id :: id in w.index && id !in ids ==> id in r.0.index
    ensures r.0.index.Keys <= w.index.Keys
    decreases |ids|
  {
    if ids == [] then (w, [])
    else
      var (w1, out1) := Disconnect(start, w, order, ids[0]);
      var (w2, out2) := DisconnectAll(start, w1, order, ids[1..]);
      (w2, out1 + out2)
  }

  // ---------------------------------------------------------------------------
  // Messages
  // ---------------------------------------------------------------------------

  /** The Init of a login: the logged-in players with their positions, in
      the walk order over the world the system started with. */
  function Others(start: World, order: seq<nat>): (ps: seq<(nat, CP.Pos)>)
    ensures forall k :: 0 <= k < |ps| ==> exists e :: e in order && e in start.entities && start.entities[e] == Entity(ps[k].0, LoggedIn(ps[k].1))
    ensures forall e :: e in order && e in start.entities && start.entities[e].marker.LoggedIn? ==>
              (start.entities[e].id, start.entities[e].marker.pos) in ps
  {
    if order == [] then []
    else
      var rest := Others(start, order[1..]);
      assert forall x :: x in order ==> x == order[0] || x in order[1..];
      var e := order[0];
      if e in start.entities && start.entities[e].marker.LoggedIn? then
        [(start.entities[e].id, start.entities[e].marker.pos)] + rest
      else rest
  }

  /** `id` is in the index and its entity existed when the system started. */
  predicate Known(start: World, id: nat)
  {
    id in start.index && start.index[id] in start.entities
  }

  /** The marker of a known client's entity when the system started. */
  function MarkerAtStart(start: World, id: nat): Marker
    requires Known(start, id)
  {
    start.entities[start.index[id]].marker
  }

  /** One message, against the world `start` the system began with, its
      commands applied to `w`. An id not in the index, or whose entity has
      neither marker at the start, is dropped. A connected client's Login
      gets Init (the players logged in at the start and its random
      position); if that send fails nothing else happens, otherwise its
      entity becomes LoggedIn there and every entity logged in at the start
      hears of it. Any other first message despawns the entity. A logged-in
      client's Login despawns it; its Logoff despawns it and tells the
      others gracefully. The index keeps its entry until the disconnect. */
  function HandleMessage(start: World, w: World, order: seq<nat>, ev: Event): (r: (World, seq<Send>))
    ensures ev.id !in start.index ==> r == (w, [])
    ensures ev.id in start.index && start.index[ev.id] !in start.entities ==> r == (w, [])
    ensures r.0.index == w.index
    ensures Known(start, ev.id) && ev.msg == Logoff ==> r.0.entities == w.entities - {start.index[ev.id]}
    ensures Known(start, ev.id) && MarkerAtStart(start, ev.id).Connected? && ev.msg == Login && !ev.initSent ==>
              r == (w, [])
    ensures Known(start, ev.id) && MarkerAtStart(start, ev.id).Connected? && ev.msg == Logoff ==> r.1 == []
    ensures Known(start, ev.id) && MarkerAtStart(start, ev.id).LoggedIn? && ev.msg == Login ==>
              r == (w.(entities := w.entities - {start.index[ev.id]}), [])
    ensures Known(start, ev.id) && MarkerAtStart(start, ev.id).LoggedIn? && ev.msg == Logoff ==>
              && (forall s :: s in r.1 ==> s.reply == LogoffOf(ev.id, true) && s.to != ev.id)
              && (forall e :: e in order && e in start.entities && start.entities[e].marker.LoggedIn? && start.entities[e].id != ev.id ==>
                    Send(start.entities[e].id, LogoffOf(ev.id, true)) in r.1)
  {
    if ev.id !in start.index then (w, [])
    else
      var e := start.index[ev.id];
      if e !in start.entities then (w, [])
      else
        match start.entities[e].marker
        case Connected =>
          (match ev.msg
           case Login =>
             var pos := CP.Pos(W.InRange(ev.dx, -1000, 1000), W.InRange(ev.dy, -1000, 1000));
             var init := Send(ev.id, Init(ev.id, pos, Others(start, order)));
             if !ev.initSent then (w, [])
             else
               var entities := if e in w.entities then w.entities[e := Entity(ev.id, LoggedIn(pos))] else w.entities;
               (w.(entities := entities), [init] + SendTo(start, LoggedInOf(start, order), W.None, LoginOf(ev.id, pos)))
           case Logoff => (w.(entities := w.entities - {e}), []))
        case LoggedIn(_) =>
          match ev.msg
          case Login => (w.(entities := w.entities - {e}), [])
          case Logoff =>
            (w.(entities := w.entities - {e}), SendTo(start, LoggedInOf(start, order), W.Some(ev.id), LogoffOf(ev.id, true)))
  }

  /** `process_client_messages_system`: the frame's messages in order. */
  function ProcessMessages(start: World, w: World, order: seq<nat>, evs: seq<Event>): (r: (World, seq<Send>))
    ensures r.0.index == w.index
    decreases |evs|
  {
    if evs == [] then (w, [])
    else
      var (w1, out1) := HandleMessage(start, w, order, evs[0]);
      var (w2, out2) := ProcessMessages(start, w1, order, evs[1..]);
      (w2, out1 + out2)
  }

  /** A successful login: the newcomer is sent Init listing exactly the
      players logged in when the system started, and each of them hears of
      the newcomer. */
  lemma LoginAnnounced(start: World, w: World, order: seq<nat>, ev: Event)
    requires ev.id in start.index && start.index[ev.id] in start.entities
    requires start.entities[start.index[ev.id]].marker.Connected? && ev.msg == Login && ev.initSent
    ensures var (r, out) := HandleMessage(start, w, order, ev);
            && |out| > 0 && out[0].to == ev.id && out[0].reply.Init?
            && (forall e :: e in order && e in start.entities && start.entities[e].marker.LoggedIn? ==>
                  (start.entities[e].id, start.entities[e].marker.pos) in out[0].reply.others
                  && Send(start.entities[e].id, LoginOf(ev.id, out[0].reply.pos)) in out[1..])
            && (start.index[ev.id] in w.entities ==> r.entities[start.index[ev.id]].marker.LoggedIn?)
  {
    var e := start.index[ev.id];
    var pos := CP.Pos(W.InRange(ev.dx, -1000, 1000), W.InRange(ev.dy, -1000, 1000));
    var init := Send(ev.id, Init(ev.id, pos, Others(start, order)));
    var rest := SendTo(start, LoggedInOf(start, order), W.None, LoginOf(ev.id, pos));
    assert ([init] + rest)[1..] == rest;
  }

  /** Because every handler reads the world as the system found it, a client
      whose two Logins arrive in the same frame is logged in twice: it gets
      two Inits and the others hear of it twice, where a Login from a
      logged-in client would otherwise despawn it. */
  lemma TwoLoginsInOneFrame()
    ensures var others := Entity(2, LoggedIn(CP.Pos(0, 0)));
            var start := World(map[10 := Entity(1, Connected), 11 := others], map[1 := 10, 2 := 11], 12);
            var ev := Event(1, Login, true, 0, 0);
            var (r, out) := ProcessMessages(start, start, [10, 11], [ev, ev]);
            && |out| == 4 && out[0].reply.Init? && out[2].reply.Init?
            && out[1] == out[3] && out[1].to == 2
            && r.entities[10].marker.LoggedIn?
  {
    var others := Entity(2, LoggedIn(CP.Pos(0, 0)));
    var start := World(map[10 := Entity(1, Connected), 11 := others], map[1 := 10, 2 := 11], 12);
    var order := [10, 11];
    assert order[1..] == [11] && [11][1..] == [];
    assert LoggedInOf(start, [11]) == [11];
    assert LoggedInOf(start, order) == [11];
    assert Others(start, [11]) == [(2, CP.Pos(0, 0))];
    assert Others(start, order) == [(2, CP.Pos(0, 0))];
    var ev := Event(1, Login, true, 0, 0);
    var pos := CP.Pos(W.InRange(0, -1000, 1000), W.InRange(0, -1000, 1000));
    assert SendTo(start, [11], W.None, LoginOf(1, pos)) == [Send(2, LoginOf(1, pos))];
    var (w1, out1) := HandleMessage(start, start, order, ev);
    assert out1 == [Send(1, Init(1, pos, [(2, CP.Pos(0, 0))])), Send(2, LoginOf(1, pos))];
    var (w2, out2) := HandleMessage(start, w1, order, ev);
    assert out2 == out1;
    assert [ev, ev][1..] == [ev] && [ev][1..] == [];
    assert ProcessMessages(start, w2, order, []) == (w2, []);
    assert out2 + [] == out2;
    assert ProcessMessages(start, w1, order, [ev]) == (w2, out2);
    assert ProcessMessages(start, start, order, [ev, ev]) == (w2, out1 + out2);
  }
}

=== FILE: grid.dfy ===
/** The server's map grid: cells with N/S/W/E wall flags, ramp and roof
    flags, the grid constants, and the cell/world coordinate helpers of
    `server/src/map/helpers.rs` (and their older copies in `server/src/map.rs`). */
module MapGrid {
  import opened Wrappers

  const GRID_SIZE: real := 8.0
  const GRID_COLS: int := 10
  const GRID_ROWS: int := 10
  const FIELD_WIDTH: real := GRID_COLS as real * GRID_SIZE
  const FIELD_DEPTH: real := GRID_ROWS as real * GRID_SIZE

  const WALL_THICKNESS: real := 0.3
  const WALL_HEIGHT: real := 4.0
  const ROOF_THICKNESS: real := 0.4
  const ROOF_WALL_THICKNESS: real := 0.1
  /** `std::f32::consts::PI`: the single-precision value nearest to pi, exactly. */
  const PI_F32: real := 3.1415927410125732421875

  /** Attempts made by the random free-cell searches. */
  const MAX_CELL_ATTEMPTS: nat := 100

  /** One grid cell. Rows grow southward (+z), columns eastward (+x). */
  datatype Cell = Cell(
    wallNorth: bool, wallSouth: bool, wallWest: bool, wallEast: bool,
    hasRamp: bool, hasRoof: bool,
    rampBaseNorth: bool, rampBaseSouth: bool, rampBaseWest: bool, rampBaseEast: bool,
    rampTopNorth: bool, rampTopSouth: bool, rampTopWest: bool, rampTopEast: bool)

  /** `GridCell::default()`: every flag false. */
  const EmptyCell: Cell := Cell(false, false, false, false, false, false,
                                false, false, false, false, false, false, false, false)

  /** The grid, indexed `g[row][col]`. */
  type Grid = seq<seq<Cell>>

  /** A grid position as `(row, col)`. */
  type Pos = (int, int)

  predicate Shaped(g: Grid, rows: int, cols: int)
  {
    && rows >= 0 && cols >= 0 && |g| == rows
    && forall r :: 0 <= r < rows ==> |g[r]| == cols
  }

  predicate InGrid(rows: int, cols: int, p: Pos)
  {
    0 <= p.0 < rows && 0 <= p.1 < cols
  }

  /** The grid with cell (r, c) replaced; every other cell is unchanged. */
  function Update(g: Grid, r: int, c: int, cell: Cell): (g': Grid)
    requires 0 <= r < |g| && 0 <= c < |g[r]|
    ensures |g'| == |g|
    ensures forall i :: 0 <= i < |g| ==> |g'[i]| == |g[i]|
    ensures g'[r][c] == cell
    ensures forall i, j :: 0 <= i < |g| && 0 <= j < |g[i]| && (i, j) != (r, c) ==> g'[i][j] == g[i][j]
  {
    g[r := g[r][c := cell]]
  }

  /** The blank grid `vec![vec![GridCell::default(); cols]; rows]`. */
  function Blank(rows: nat, cols: nat): (g: Grid)
    ensures Shaped(g, rows, cols)
    ensures forall r, c :: 0 <= r < rows && 0 <= c < cols ==> g[r][c] == EmptyCell
  {
    seq(rows, _ => seq(cols, _ => EmptyCell))
  }

  // ---------------------------------------------------------------------------
  // World coordinates
  // ---------------------------------------------------------------------------

  datatype Position = Position(x: real, y: real, z: real)

  /** A velocity in metres per second. */
  datatype Velocity = Velocity(x: real, y: real, z: real)

  /** World x of the vertical grid line `col`. */
  function LineX(col: int): real
  {
    col as real * GRID_SIZE - FIELD_WIDTH / 2.0
  }

  /** World z of the horizontal grid line `row`. */
  function LineZ(row: int): real
  {
    row as real * GRID_SIZE - FIELD_DEPTH / 2.0
  }

  /** `grid_coords_from_position`: the (x, z) cell index holding `p`. The cell
      found is the one whose grid lines bracket the position. */
  function GridCoordsFromPosition(p: Position): (r: (int, int))
    ensures LineX(r.0) <= p.x < LineX(r.0 + 1)
    ensures LineZ(r.1) <= p.z < LineZ(r.1 + 1)
  {
    (((p.x + FIELD_WIDTH / 2.0) / GRID_SIZE).Floor, ((p.z + FIELD_DEPTH / 2.0) / GRID_SIZE).Floor)
  }

  /** `cell_center`: the world centre of cell (gx, gz). It lies on the ground,
      strictly inside the cell, and maps back to the same cell. */
  function CellCenter(gx: int, gz: int): (p: Position)
    ensures p.y == 0.0
    ensures LineX(gx) < p.x < LineX(gx + 1) && LineZ(gz) < p.z < LineZ(gz + 1)
    ensures GridCoordsFromPosition(p) == (gx, gz)
  {
    var p := Position((gx as real + 0.5) * GRID_SIZE - FIELD_WIDTH / 2.0, 0.0,
                      (gz as real + 0.5) * GRID_SIZE - FIELD_DEPTH / 2.0);
    assert (p.x + FIELD_WIDTH / 2.0) / GRID_SIZE == gx as real + 0.5;
    assert (p.z + FIELD_DEPTH / 2.0) / GRID_SIZE == gz as real + 0.5;
    p
  }

  // ---------------------------------------------------------------------------
  // Wall counting
  // ---------------------------------------------------------------------------

  datatype Side = North | South | West | East

  /** Reference definition: the sides of a cell that carry a wall. */
  function WallSides(c: Cell): set<Side>
  {
    (if c.wallNorth then {North} else {}) + (if c.wallSouth then {South} else {})
    + (if c.wallWest then {West} else {}) + (if c.wallEast then {East} else {})
  }

  /** `count_cell_walls`: the number of walled sides, at most four. */
  function CountCellWalls(c: Cell): (n: nat)
    ensures n == |WallSides(c)|
    ensures n <= 4
    ensures n == 0 <==> !(c.wallNorth || c.wallSouth || c.wallWest || c.wallEast)
  {
    (if c.wallNorth then 1 else 0) + (if c.wallSouth then 1 else 0)
    + (if c.wallWest then 1 else 0) + (if c.wallEast then 1 else 0)
  }

  // ---------------------------------------------------------------------------
  // Random free-cell search
  // ---------------------------------------------------------------------------

  /** The (x, z) cell drawn at attempt k: two `random_range(0..GRID_*)` draws. */
  function Attempt(rng: Rng, k: nat): (int, int)
  {
    (InRange(rng(2 * k), 0, GRID_COLS - 1), InRange(rng(2 * k + 1), 0, GRID_ROWS - 1))
  }

  /** The index of the first attempt from k on (below MAX_CELL_ATTEMPTS)
      that `accept` takes. */
  function FirstAccepted(rng: Rng, accept: ((int, int)) -> bool, k: nat): (r: Option<nat>)
    requires k <= MAX_CELL_ATTEMPTS
    ensures r.Some? ==> k <= r.value < MAX_CELL_ATTEMPTS && accept(Attempt(rng, r.value))
                        && forall j :: k <= j < r.value ==> !accept(Attempt(rng, j))
    ensures r.None? <==> forall i :: k <= i < MAX_CELL_ATTEMPTS ==> !accept(Attempt(rng, i))
    decreases MAX_CELL_ATTEMPTS - k
  {
    if k == MAX_CELL_ATTEMPTS then None
    else if accept(Attempt(rng, k)) then Some(k)
    else FirstAccepted(rng, accept, k + 1)
  }

  /** The first attempt from k on (below MAX_CELL_ATTEMPTS) that `accept` takes. */
  function FindFrom(rng: Rng, accept: ((int, int)) -> bool, k: nat): (r: Option<(int, int)>)
    requires k <= MAX_CELL_ATTEMPTS
    ensures r.Some? ==> exists i :: k <= i < MAX_CELL_ATTEMPTS && r.value == Attempt(rng, i) && accept(r.value)
                           && forall j :: k <= j < i ==> !accept(Attempt(rng, j))
    ensures r.None? <==> forall i :: k <= i < MAX_CELL_ATTEMPTS ==> !accept(Attempt(rng, i))
  {
    match FirstAccepted(rng, accept, k)
    case None => None
    case Some(i) => Some(Attempt(rng, i))
  }

  /** `find_unoccupied_cell`: a cell of the 10×10 field that is not occupied,
      or None once all 100 attempts hit occupied cells. */
  function FindUnoccupiedCell(rng: Rng, occupied: set<(int, int)>): (r: Option<(int, int)>)
    ensures r.Some? ==> 0 <= r.value.0 < GRID_COLS && 0 <= r.value.1 < GRID_ROWS && r.value !in occupied
    ensures r.Some? ==> exists i :: 0 <= i < MAX_CELL_ATTEMPTS && r.value == Attempt(rng, i)
    ensures r.None? <==> forall i :: 0 <= i < MAX_CELL_ATTEMPTS ==> Attempt(rng, i) in occupied
  {
    FindFrom(rng, c => c !in occupied, 0)
  }

  /** `find_unoccupied_cell_not_ramp`: as above, and the cell is no ramp. */
  function FindUnoccupiedCellNotRamp(rng: Rng, occupied: set<(int, int)>, g: Grid): (r: Option<(int, int)>)
    requires Shaped(g, GRID_ROWS, GRID_COLS)
    ensures r.Some? ==> 0 <= r.value.0 < GRID_COLS && 0 <= r.value.1 < GRID_ROWS && r.value !in occupied
    ensures r.Some? ==> !g[r.value.1][r.value.0].hasRamp
    ensures r.None? <==> forall i :: 0 <= i < MAX_CELL_ATTEMPTS ==>
                          Attempt(rng, i) in occupied || g[Attempt(rng, i).1][Attempt(rng, i).0].hasRamp
  {
    FindFrom(rng, c => c !in occupied && 0 <= c.1 < |g| && 0 <= c.0 < |g[c.1]| && !g[c.1][c.0].hasRamp, 0)
  }
}

=== FILE: hunters.dfy ===
/** The mode machine and the collision stun shared by sentries
    (server/src/systems/sentries/systems.rs and the older
    server/src/systems/sentries.rs) and ghosts (server/src/systems/ghosts.rs).
    The three copies differ only in their constants and in the new sentry's
    clearing of its patrol cells on leaving patrol, so one model serves all,
    with the constants in a `Tuning` record. */
module Hunters {
  import W = Wrappers
  import M = MapGrid
  import opened Protocol
  import B = Broadcast

  datatype Mode = Patrol | Target | PrePatrol

  /** The constants of one kind of hunter: the switch granting everybody the
      hunt power-up, the target and cooldown durations, the stun a hit deals
      and the hits it costs. */
  datatype Tuning = Tuning(alwaysHunt: bool, targetDuration: real, cooldownDuration: real,
                           stunDuration: real, hitPenalty: int)

  /** The sentry constants (SENTRY_TARGET_DURATION, SENTRY_COOLDOWN_DURATION,
      SENTRY_STUN_DURATION, SENTRY_HIT_PENALTY). The ghost constants are not
      part of this model and enter as a `Tuning` argument. */
  const SENTRY: Tuning := Tuning(B.ALWAYS_SENTRY_HUNT, 10.0, 15.0, 3.0, 10)

  predicate ValidTuning(t: Tuning)
  {
    t.targetDuration > 0.0 && t.stunDuration > 0.0
  }

  /** `SentryInfo` without its entity: mode, mode timer, the player followed
      and whether it stands on a cell centre. */
  datatype Hunter = Hunter(mode: Mode, timer: real, follow: W.Option<nat>, atIntersection: bool)

  /** Height of a roof top (WALL_HEIGHT + ROOF_THICKNESS). */
  const ROOF_HEIGHT: real := M.WALL_HEIGHT + M.ROOF_THICKNESS

  /** The player carries the hunt power-up, which makes hunters flee. */
  predicate Hunting(t: Tuning, players: B.Players, id: nat)
  {
    t.alwaysHunt || (id in players && players[id].sentryHuntTimer > 0.0)
  }

  /** The followed player is in the table and hunting. */
  predicate Fleeing(t: Tuning, players: B.Players, h: Hunter)
  {
    h.follow.Some? && h.follow.value in players
    && (t.alwaysHunt || players[h.follow.value].sentryHuntTimer > 0.0)
  }

  /** The followed player may still be chased: logged in and not stunned. */
  predicate ValidTarget(players: B.Players, id: nat)
  {
    id in players && players[id].loggedIn && players[id].stunTimer <= 0.0
  }

  /** `heights` holds the height of each unstunned player with a position
      (the system's `player_data`); a player at roof height has escaped. */
  predicate OnRoof(heights: map<nat, real>, id: nat)
  {
    id in heights && heights[id] >= ROOF_HEIGHT
  }

  /** A step's new hunter state, and whether it left patrol (the new sentry
      then clears its patrol cells from the occupancy grid). */
  datatype StepResult = StepResult(h: Hunter, leftPatrol: bool)

  /** The mode-transition block of the movement system, for one hunter and a
      frame of `delta` seconds. `visible` is what `find_visible_moving_player`
      returns (float geometry, an input here). */
  function ModeStep(t: Tuning, h: Hunter, delta: real, visible: W.Option<nat>,
                    players: B.Players, heights: map<nat, real>): (r: StepResult)
    ensures r.h.atIntersection == h.atIntersection
    ensures r.leftPatrol <==> h.mode == Patrol && r.h.mode == Target
    // Patrol: the timer runs down, and a visible player is chased when it
    // hunts (the hunter flees it) or the cooldown is over.
    ensures h.mode == Patrol ==>
              (r.h.mode == Target <==> visible.Some? && (Hunting(t, players, visible.value) || h.timer - delta <= 0.0))
    ensures h.mode == Patrol && r.h.mode == Target ==>
              r.h.timer == t.targetDuration && r.h.follow == visible
    ensures h.mode == Patrol && r.h.mode != Target ==>
              r.h == h.(timer := h.timer - delta)
    // Target: the timer is refilled while fleeing and runs down otherwise;
    // on timeout or a lost, stunned or escaped target the hunter cools down.
    ensures h.mode == Target ==> r.h.mode != Patrol
    ensures h.mode == Target ==>
              var left := if Fleeing(t, players, h) then t.targetDuration else h.timer - delta;
              (r.h.mode == PrePatrol <==>
                 left <= 0.0
                 || (h.follow.Some? && (!ValidTarget(players, h.follow.value) || OnRoof(heights, h.follow.value))))
              && (r.h.mode == Target ==> r.h == h.(timer := left))
    ensures h.mode == Target && r.h.mode == PrePatrol ==>
              r.h.timer == t.cooldownDuration && r.h.follow == W.None
    // PrePatrol: left to the movement code.
    ensures h.mode == PrePatrol ==> r.h == h && !r.leftPatrol
  {
    match h.mode
    case Patrol =>
      var timer := h.timer - delta;
      if visible.Some? && (Hunting(t, players, visible.value) || timer <= 0.0) then
        StepResult(h.(mode := Target, timer := t.targetDuration, follow := visible), true)
      else
        StepResult(h.(timer := timer), false)
    case Target =>
      var timer := if Fleeing(t, players, h) then t.targetDuration else h.timer - delta;
      var cool := h.(mode := PrePatrol, timer := t.cooldownDuration, follow := W.None);
      if timer <= 0.0 then StepResult(cool, false)
      else if h.follow.Some? && (!ValidTarget(players, h.follow.value) || OnRoof(heights, h.follow.value)) then
        StepResult(cool, false)
      else
        StepResult(h.(timer := timer), false)
    case PrePatrol =>
      StepResult(h, false)
  }

  /** What holds of every hunter between frames: a targeting hunter follows
      somebody and has at most a full target period left. */
  predicate Good(t: Tuning, h: Hunter)
  {
    h.mode == Target ==> h.follow.Some? && 0.0 < h.timer <= t.targetDuration
  }

  /** The mode step keeps `Good` for any non-negative frame time. */
  lemma ModeStepKeepsGood(t: Tuning, h: Hunter, delta: real, visible: W.Option<nat>,
                          players: B.Players, heights: map<nat, real>)
    requires ValidTuning(t) && Good(t, h) && delta >= 0.0
    ensures Good(t, ModeStep(t, h, delta, visible, players, heights).h)
  {
  }

  /** A targeting hunter whose target keeps the hunt power-up never times out. */
  lemma FleeingNeverTimesOut(t: Tuning, h: Hunter, delta: real, visible: W.Option<nat>,
                             players: B.Players, heights: map<nat, real>)
    requires ValidTuning(t) && h.mode == Target && Fleeing(t, players, h)
    requires ValidTarget(players, h.follow.value) && !OnRoof(heights, h.follow.value)
    ensures ModeStep(t, h, delta, visible, players, heights).h == h.(timer := t.targetDuration)
  {
  }

  // ---------------------------------------------------------------------------
  // Collision stun
  // ---------------------------------------------------------------------------

  /** A player the collision check considers: known, not stunned and not
      hunting. */
  predicate Vulnerable(t: Tuning, players: B.Players, pid: nat)
  {
    pid in players && players[pid].stunTimer <= 0.0 && !Hunting(t, players, pid)
  }

  /** Sentry `sid` catches player `pid`: it targets that player and the two
      overlap (`overlaps` holds the overlapping (player, sentry) pairs). */
  predicate Catches(sentries: map<nat, Hunter>, overlaps: set<(nat, nat)>, pid: nat, sid: nat)
  {
    sid in sentries && sentries[sid].mode == Target && sentries[sid].follow == W.Some(pid)
    && (pid, sid) in overlaps
  }

  /** The first sentry of `order` that catches `pid`. */
  function FirstCatcher(sentries: map<nat, Hunter>, order: seq<nat>, overlaps: set<(nat, nat)>, pid: nat): (r: W.Option<nat>)
    ensures r.None? <==> forall sid :: sid in order ==> !Catches(sentries, overlaps, pid, sid)
    ensures r.Some? ==> r.value in order && Catches(sentries, overlaps, pid, r.value)
  {
    if order == [] then W.None
    else if Catches(sentries, overlaps, pid, order[0]) then W.Some(order[0])
    else FirstCatcher(sentries, order[1..], overlaps, pid)
  }

  /** The (player, sentry) hits of one frame, players in query order. */
  function Hits(t: Tuning, players: B.Players, sentries: map<nat, Hunter>, playerOrder: seq<nat>,
                sentryOrder: seq<nat>, overlaps: set<(nat, nat)>): (hits: seq<(nat, nat)>)
    ensures |hits| <= |playerOrder|
    ensures forall k :: 0 <= k < |hits| ==>
              hits[k].0 in playerOrder && Vulnerable(t, players, hits[k].0)
              && hits[k].1 in sentryOrder && Catches(sentries, overlaps, hits[k].0, hits[k].1)
  {
    if playerOrder == [] then []
    else
      var pid := playerOrder[0];
      var rest := Hits(t, players, sentries, playerOrder[1..], sentryOrder, overlaps);
      if !Vulnerable(t, players, pid) then rest
      else
        match FirstCatcher(sentries, sentryOrder, overlaps, pid)
        case None => rest
        case Some(sid) => [(pid, sid)] + rest
  }

  /** The sentries that hit. */
  function HitSentries(hits: seq<(nat, nat)>): (ids: seq<nat>)
    ensures |ids| == |hits| && forall k :: 0 <= k < |hits| ==> ids[k] == hits[k].1
  {
    seq(|hits|, k requires 0 <= k < |hits| => hits[k].1)
  }

  /** A player is hit exactly when it is vulnerable and some sentry catches
      it; then it is hit once, by the first such sentry of the sentry order,
      and no sentry hits twice. */
  lemma {:induction false} HitsExactly(t: Tuning, players: B.Players, sentries: map<nat, Hunter>, playerOrder: seq<nat>,
                                       sentryOrder: seq<nat>, overlaps: set<(nat, nat)>)
    requires Distinct(playerOrder)
    ensures var hits := Hits(t, players, sentries, playerOrder, sentryOrder, overlaps);
            && Distinct(Ids(hits)) && Distinct(HitSentries(hits))
            && forall pid :: pid in Ids(hits) <==>
                 pid in playerOrder && Vulnerable(t, players, pid)
                 && FirstCatcher(sentries, sentryOrder, overlaps, pid).Some?
  {
    var hits := Hits(t, players, sentries, playerOrder, sentryOrder, overlaps);
    if playerOrder != [] {
      var pid := playerOrder[0];
      HitsExactly(t, players, sentries, playerOrder[1..], sentryOrder, overlaps);
      var rest := Hits(t, players, sentries, playerOrder[1..], sentryOrder, overlaps);
      assert pid !in playerOrder[1..];
      if Vulnerable(t, players, pid) && FirstCatcher(sentries, sentryOrder, overlaps, pid).Some? {
        var sid := FirstCatcher(sentries, sentryOrder, overlaps, pid).value;
        assert hits == [(pid, sid)] + rest;
        assert Ids(hits) == [pid] + Ids(rest);
        assert HitSentries(hits) == [sid] + HitSentries(rest);
        forall k | 0 <= k < |rest| ensures rest[k].1 != sid {
          assert rest[k].0 in playerOrder[1..];
        }
      } else {
        assert hits == rest;
      }
    }
  }

  /** The tables after the stun has been applied, and the messages sent. */
  datatype Collision = Collision(players: B.Players, sentries: map<nat, Hunter>, out: seq<Out>)

  /** The hit player: stunned and penalised. */
  function Stunned(t: Tuning, info: B.PlayerInfo): B.PlayerInfo
  {
    info.(stunTimer := t.stunDuration, hits := info.hits - t.hitPenalty)
  }

  /** The hitting sentry: back to the cell centre, timer cleared; it keeps
      the player it followed. */
  function Recoiled(h: Hunter): Hunter
  {
    h.(mode := PrePatrol, timer := 0.0)
  }

  /** Applying the hits in order: the player is stunned and penalised, told
      `SentryHit`, and its status is broadcast to everybody; the sentry
      recoils. `order` is the player table's iteration order. */
  function ApplyHits(t: Tuning, players: B.Players, sentries: map<nat, Hunter>, order: seq<nat>,
                     hits: seq<(nat, nat)>): (c: Collision)
    ensures c.players.Keys == players.Keys && c.sentries.Keys == sentries.Keys
    ensures forall m :: m in c.out ==>
              m.Send? && m.to in players
              && ((m.msg == SSentryHit && m.to in Ids(hits))
                  || (m.msg.SPlayerStatus? && m.msg.status.id in Ids(hits) && m.msg.status.id in players
                      && m.to in order && m.to in B.LoggedIn(players)))
    decreases |hits|
  {
    if hits == [] then Collision(players, sentries, [])
    else
      var (pid, sid) := hits[0];
      var ps := if pid in players then players[pid := Stunned(t, players[pid])] else players;
      var ss := if sid in sentries then sentries[sid := Recoiled(sentries[sid])] else sentries;
      var out := if pid in players then
                   [Send(pid, SSentryHit)] + B.BroadcastToAll(ps, order, SPlayerStatus(B.StatusOf(pid, ps[pid])))
                 else [];
      var rest := ApplyHits(t, ps, ss, order, hits[1..]);
      assert B.LoggedIn(ps) == B.LoggedIn(players);
      assert Ids(hits) == [pid] + Ids(hits[1..]);
      Collision(rest.players, rest.sentries, out + rest.out)
  }

  /** Every logged-in player is told the status of each player hit, as its
      first stun leaves it. */
  lemma {:induction false} ApplyHitsBroadcastsStatus(t: Tuning, players: B.Players, sentries: map<nat, Hunter>,
                                                     order: seq<nat>, hits: seq<(nat, nat)>, pid: nat, x: nat)
    requires pid in Ids(hits) && pid in players && x in order && x in B.LoggedIn(players)
    ensures Send(x, SPlayerStatus(B.StatusOf(pid, Stunned(t, players[pid])))) in ApplyHits(t, players, sentries, order, hits).out
    decreases |hits|
  {
    var (p, sid) := hits[0];
    var ps := if p in players then players[p := Stunned(t, players[p])] else players;
    var ss := if sid in sentries then sentries[sid := Recoiled(sentries[sid])] else sentries;
    assert Ids(hits) == [p] + Ids(hits[1..]);
    assert B.LoggedIn(ps) == B.LoggedIn(players);
    if p == pid {
      assert Send(x, SPlayerStatus(B.StatusOf(pid, ps[pid]))) in B.BroadcastToAll(ps, order, SPlayerStatus(B.StatusOf(pid, ps[pid])));
    } else {
      ApplyHitsBroadcastsStatus(t, ps, ss, order, hits[1..], pid, x);
    }
  }

  /** With each player and each sentry hit at most once, a hit player ends
      stunned for the full stun time and `hitPenalty` hits poorer, a hitting
      sentry ends in PrePatrol with a cleared timer, and nobody else
      changes. */
  lemma {:induction false} ApplyHitsEffect(t: Tuning, players: B.Players, sentries: map<nat, Hunter>, order: seq<nat>,
                                           hits: seq<(nat, nat)>)
    requires Distinct(Ids(hits)) && Distinct(HitSentries(hits))
    ensures var c := ApplyHits(t, players, sentries, order, hits);
            && (forall pid :: pid in players ==>
                  c.players[pid] == (if pid in Ids(hits) then Stunned(t, players[pid]) else players[pid]))
            && (forall sid :: sid in sentries ==>
                  c.sentries[sid] == (if sid in HitSentries(hits) then Recoiled(sentries[sid]) else sentries[sid]))
    decreases |hits|
  {
    if hits != [] {
      var (pid, sid) := hits[0];
      var ps := if pid in players then players[pid := Stunned(t, players[pid])] else players;
      var ss := if sid in sentries then sentries[sid := Recoiled(sentries[sid])] else sentries;
      var tail := hits[1..];
      assert Ids(tail) == Ids(hits)[1..];
      assert HitSentries(tail) == HitSentries(hits)[1..];
      ApplyHitsEffect(t, ps, ss, order, tail);
      assert pid !in Ids(tail) && sid !in HitSentries(tail);
      forall p | p in Ids(hits) ensures p == pid || p in Ids(tail) {
        var k :| 0 <= k < |hits| && Ids(hits)[k] == p;
        if k > 0 { assert Ids(tail)[k - 1] == p; }
      }
      forall s | s in HitSentries(hits) ensures s == sid || s in HitSentries(tail) {
        var k :| 0 <= k < |hits| && HitSentries(hits)[k] == s;
        if k > 0 { assert HitSentries(tail)[k - 1] == s; }
      }
    }
  }

  /** Each known player hit is told `SentryHit`, and nobody else is. */
  lemma {:induction false} ApplyHitsNotifies(t: Tuning, players: B.Players, sentries: map<nat, Hunter>, order: seq<nat>,
                                             hits: seq<(nat, nat)>, pid: nat)
    ensures Send(pid, SSentryHit) in ApplyHits(t, players, sentries, order, hits).out <==>
              pid in Ids(hits) && pid in players
    decreases |hits|
  {
    if hits != [] {
      var (p, sid) := hits[0];
      var ps := if p in players then players[p := Stunned(t, players[p])] else players;
      var ss := if sid in sentries then sentries[sid := Recoiled(sentries[sid])] else sentries;
      ApplyHitsNotifies(t, ps, ss, order, hits[1..], pid);
      assert Ids(hits) == [p] + Ids(hits[1..]);
    }
  }

  /** The collision stun keeps `Good`: it only takes sentries out of Target. */
  lemma ApplyHitsKeepsGood(t: Tuning, players: B.Players, sentries: map<nat, Hunter>, order: seq<nat>,
                           hits: seq<(nat, nat)>)
    requires Distinct(Ids(hits)) && Distinct(HitSentries(hits))
    requires forall sid :: sid in sentries ==> Good(t, sentries[sid])
    ensures var c := ApplyHits(t, players, sentries, order, hits);
            forall sid :: sid in c.sentries ==> Good(t, c.sentries[sid])
  {
    ApplyHitsEffect(t, players, sentries, order, hits);
  }
}

=== FILE: input.dfy ===
/** The chat client's input loop (client/src/input.rs): each line read from
    standard input is trimmed; empty lines are skipped, a line starting with
    '/' is a command, and anything else is sent as Say. End of input acts
    as "/quit". What a line does is returned as an `Action`: the message to
    send, if any, and the lines printed to standard output. */
module ChatInput {
  import W = Wrappers
  import opened ChatProtocol

  /** Rust's `char::is_whitespace`: the Unicode White_Space property. */
  predicate IsWhitespace(c: char)
  {
    var n := c as int;
    (0x09 <= n <= 0x0D) || n == 0x20 || n == 0x85 || n == 0xA0 || n == 0x1680
    || (0x2000 <= n <= 0x200A) || n == 0x2028 || n == 0x2029 || n == 0x202F
    || n == 0x205F || n == 0x3000
  }

  /** The index of the first non-whitespace character of `s` at or after
      k, or |s| when there is none. */
  function ContentStart(s: string, k: nat): (n: nat)
    requires k <= |s|
    ensures k <= n <= |s|
    ensures forall i :: k <= i < n ==> IsWhitespace(s[i])
    ensures n == |s| || !IsWhitespace(s[n])
    decreases |s| - k
  {
    if k < |s| && IsWhitespace(s[k]) then ContentStart(s, k + 1) else k
  }

  /** The index just past the last non-whitespace character of `s` before
      e, or 0 when there is none. */
  function ContentEnd(s: string, e: nat): (n: nat)
    requires e <= |s|
    ensures n <= e
    ensures forall i :: n <= i < e ==> IsWhitespace(s[i])
    ensures n == 0 || !IsWhitespace(s[n - 1])
  {
    if e > 0 && IsWhitespace(s[e - 1]) then ContentEnd(s, e - 1) else e
  }

  /** `s` without its leading whitespace. */
  function TrimStart(s: string): (t: string)
    ensures |t| <= |s| && t == s[|s| - |t|..]
    ensures t == [] || !IsWhitespace(t[0])
    ensures forall i :: 0 <= i < |s| - |t| ==> IsWhitespace(s[i])
  {
    s[ContentStart(s, 0)..]
  }

  /** `s` without its trailing whitespace. */
  function TrimEnd(s: string): (t: string)
    ensures |t| <= |s| && t == s[..|t|]
    ensures t == [] || !IsWhitespace(t[|t| - 1])
    ensures forall i :: |t| <= i < |s| ==> IsWhitespace(s[i])
  {
    s[..ContentEnd(s, |s|)]
  }

  /** `str::trim`. */
  function Trim(s: string): string
  {
    TrimEnd(TrimStart(s))
  }

  /** Trimming cuts a whitespace prefix and a whitespace suffix off `s` and
      leaves neither end of the result whitespace. */
  lemma TrimShape(s: string)
    ensures var t, i := Trim(s), |s| - |TrimStart(s)|;
            i + |t| <= |s| && t == s[i..i + |t|] && BlankOutside(s, i, i + |t|)
    ensures var t := Trim(s); t == [] || (!IsWhitespace(t[0]) && !IsWhitespace(t[|t| - 1]))
  {
    var a := TrimStart(s);
    var t := TrimEnd(a);
    var i := |s| - |a|;
    var j := i + |t|;
    assert t == s[i..j] by {
      assert a == s[i..];
      assert t == a[..|t|];
    }
    assert t != [] ==> !IsWhitespace(t[0]) by {
      if t != [] { assert t[0] == a[0]; }
    }
    assert BlankOutside(s, i, j) by {
      forall k | j <= k < |s| ensures IsWhitespace(s[k]) {
        assert s[k] == a[k - i];
      }
    }
  }

  /** Every character of `s` before index i or from index j on is
      whitespace. */
  ghost predicate BlankOutside(s: string, i: int, j: int)
  {
    && (forall k :: 0 <= k < i && k < |s| ==> IsWhitespace(s[k]))
    && (forall k :: 0 <= j <= k < |s| ==> IsWhitespace(s[k]))
  }

  /** Trimming twice is trimming once. */
  lemma {:induction false} TrimIdempotent(s: string)
    ensures Trim(Trim(s)) == Trim(s)
  {
    var t := Trim(s);
    TrimShape(s);
    assert TrimStart(t) == t;
    assert TrimEnd(t) == t;
  }

  /** `splitn(2, ' ')`: the text up to the first space and, if there is a
      space, everything after it. */
  function SplitOnce(s: string): (r: (string, W.Option<string>))
    ensures ' ' !in r.0
    ensures r.1.None? ==> r.0 == s
    ensures r.1.Some? ==> s == r.0 + " " + r.1.value
  {
    if s == [] then ("", W.None)
    else if s[0] == ' ' then ("", W.Some(s[1..]))
    else
      var (w, rest) := SplitOnce(s[1..]);
      ([s[0]] + w, rest)
  }

  /** A line without a space is all command word. */
  lemma {:induction false} NoSpaceNoSplit(s: string)
    requires ' ' !in s
    ensures SplitOnce(s) == (s, W.None)
  {
    if s != [] {
      assert s[0] != ' ';
      assert ' ' !in s[1..];
      NoSpaceNoSplit(s[1..]);
      assert [s[0]] + s[1..] == s;
    }
  }

  /** The argument of a command: the remainder, trimmed, when non-empty. */
  function Argument(rest: W.Option<string>): (a: W.Option<string>)
    ensures a.Some? <==> rest.Some? && Trim(rest.value) != []
    ensures a.Some? ==> a.value == Trim(rest.value)
  {
    match rest
    case None => W.None
    case Some(r) => if Trim(r) == [] then W.None else W.Some(Trim(r))
  }

  /** What handling one line does: what it sends and what it prints. */
  datatype Action = Action(send: W.Option<ClientMessage>, printed: seq<string>)

  const HINT: string := "Type /help or /? for available commands"

  const HELP: seq<string> := [
    "Available commands:",
    "  /name <new name>  - Change your name",
    "  /login <name>     - Login with a name (for testing)",
    "  /who              - List current participants",
    "  /remove <name>    - Remove a participant from the chat",
    "  /quit             - Exit the chat",
    "  /help or /?       - Show this help message"
  ]

  /** The `/who` listing of the names the client knows. */
  function WhoLines(names: seq<string>): (lines: seq<string>)
    ensures names == [] ==> lines == ["No participants."]
    ensures names != [] ==> (|lines| == |names| + 1 && lines[0] == "Participants:"
                             && forall i :: 0 <= i < |names| ==> lines[i + 1] == "  " + names[i])
  {
    if names == [] then ["No participants."]
    else ["Participants:"] + seq(|names|, i requires 0 <= i < |names| => "  " + names[i])
  }

  /** The commands `command` knows, by their word. */
  datatype Verb = NameVerb | LoginVerb | WhoVerb | RemoveVerb | QuitVerb | HelpVerb | UnknownVerb

  function VerbOf(word: string): Verb
  {
    if word == "name" then NameVerb
    else if word == "login" then LoginVerb
    else if word == "who" then WhoVerb
    else if word == "remove" then RemoveVerb
    else if word == "quit" then QuitVerb
    else if word == "help" || word == "?" then HelpVerb
    else UnknownVerb
  }

  /** `command`: `text` is the whole trimmed line, starting with '/';
      `names` is what the client's participant table lists and `lookup`
      its search by name. Only Name, Login, Remove and Logoff are ever
      sent. */
  function Command(text: string, names: seq<string>, lookup: string -> W.Option<nat>): (a: Action)
    requires |text| > 0
    ensures a.send.Some? ==> !a.send.value.CSay?
    ensures a.send.Some? && (a.send.value.CName? || a.send.value.CLogin?) ==>
              W.Some(a.send.value.name) == Argument(SplitOnce(text[1..]).1)
  {
    var (word, rest) := SplitOnce(text[1..]);
    var arg := Argument(rest);
    match VerbOf(word)
    case NameVerb =>
      if arg.Some? then Action(W.Some(CName(arg.value)), []) else Action(W.None, ["Usage: /name <new name>"])
    case LoginVerb =>
      if arg.Some? then Action(W.Some(CLogin(arg.value)), []) else Action(W.None, ["Usage: /login <name>"])
    case WhoVerb => Action(W.None, WhoLines(names))
    case RemoveVerb =>
      if arg.None? then Action(W.None, ["Usage: /remove <name>"])
      else
        (match lookup(arg.value)
         case Some(id) => Action(W.Some(CRemove(id)), [])
         case None => Action(W.None, ["Participant '" + arg.value + "' not found"]))
    case QuitVerb => Action(W.Some(CLogoff), ["Goodbye!"])
    case HelpVerb => Action(W.None, HELP)
    case UnknownVerb => Action(W.None, ["Unknown command: /" + word, HINT])
  }

  /** A read from standard input: a line, or end of input. */
  datatype Read = Line(text: string) | Eof

  /** One pass of the `user_input` loop: None when the trimmed line is
      empty and is skipped. */
  function HandleRead(rd: Read, names: seq<string>, lookup: string -> W.Option<nat>): (r: W.Option<Action>)
    ensures r.None? <==> rd.Line? && Trim(rd.text) == []
  {
    var raw := if rd.Eof? then "/quit" else rd.text;
    var text := Trim(raw);
    if text == [] then W.None
    else if text[0] == '/' then W.Some(Command(text, names, lookup))
    else W.Some(Action(W.Some(CSay(text)), []))
  }

  /** End of input is handled exactly as the line "/quit": Logoff is sent
      and "Goodbye!" printed. */
  lemma EofIsQuit(names: seq<string>, lookup: string -> W.Option<nat>)
    ensures HandleRead(Eof, names, lookup) == HandleRead(Line("/quit"), names, lookup)
    ensures HandleRead(Eof, names, lookup) == W.Some(Action(W.Some(CLogoff), ["Goodbye!"]))
  {
    QuitRead(Eof, names, lookup);
    QuitRead(Line("/quit"), names, lookup);
  }

  /** End of input and the line "/quit" both quit. */
  lemma QuitRead(rd: Read, names: seq<string>, lookup: string -> W.Option<nat>)
    requires rd == Eof || rd == Line("/quit")
    ensures HandleRead(rd, names, lookup) == W.Some(Action(W.Some(CLogoff), ["Goodbye!"]))
  {
    var raw := if rd.Eof? then "/quit" else rd.text;
    assert raw == "/quit";
    QuitTrimmed();
    assert Trim(raw) == "/quit";
    QuitCommand(names, lookup);
  }

  /** "/quit" has nothing to trim. */
  lemma QuitTrimmed()
    ensures Trim("/quit") == "/quit"
  {
    var q := "/quit";
    assert !IsWhitespace(q[0]) && !IsWhitespace(q[|q| - 1]);
    assert TrimStart(q) == q;
    assert TrimEnd(q) == q;
  }

  /** The command "/quit" sends Logoff and prints the farewell. */
  lemma QuitCommand(names: seq<string>, lookup: string -> W.Option<nat>)
    ensures Command("/quit", names, lookup) == Action(W.Some(CLogoff), ["Goodbye!"])
  {
    var q := "/quit";
    assert q[1..] == "quit";
    NoSpaceNoSplit("quit");
    assert VerbOf("quit") == QuitVerb;
  }

  /** Trimming leaves nothing exactly when every character is whitespace. */
  lemma TrimEmptyIffBlank(s: string)
    ensures Trim(s) == [] <==> forall i :: 0 <= i < |s| ==> IsWhitespace(s[i])
  {
    var a := TrimStart(s);
    var t := TrimEnd(a);
    if t == [] {
      assert a == [];
    } else {
      assert t[0] == a[0] == s[|s| - |a|];
    }
  }

  /** Lines that are blank once trimmed are skipped, and only those. */
  lemma BlankLinesSkipped(text: string, names: seq<string>, lookup: string -> W.Option<nat>)
    ensures HandleRead(Line(text), names, lookup).None? <==> forall i :: 0 <= i < |text| ==> IsWhitespace(text[i])
  {
    var r := HandleRead(Line(text), names, lookup);
    assert r.None? <==> Trim(text) == [];
    TrimEmptyIffBlank(text);
  }

  /** Say carries the trimmed line, which is non-empty and does not start
      with '/'. */
  lemma SayCarriesTrimmedLine(text: string, names: seq<string>, lookup: string -> W.Option<nat>)
    ensures var r := HandleRead(Line(text), names, lookup);
            (r.Some? && r.value.send.Some? && r.value.send.value.CSay?)
            <==> (Trim(text) != [] && Trim(text)[0] != '/')
    ensures var r := HandleRead(Line(text), names, lookup);
            r.Some? && r.value.send.Some? && r.value.send.value.CSay? ==> r.value.send.value.text == Trim(text)
  {
  }

  /** `/name` and `/login` send a name only when the argument, trimmed, is
      non-empty, and the name they send is that trimmed argument: never
      empty, never padded. */
  lemma NamesAreTrimmed(text: string, names: seq<string>, lookup: string -> W.Option<nat>)
    requires |text| > 0
    ensures var a := Command(text, names, lookup);
            a.send.Some? && (a.send.value.CName? || a.send.value.CLogin?) ==>
              a.send.value.name != [] && Trim(a.send.value.name) == a.send.value.name
  {
    ArgumentTrimmed(SplitOnce(text[1..]).1);
  }

  /** A command argument is never empty and has nothing left to trim. */
  lemma ArgumentTrimmed(rest: W.Option<string>)
    ensures var a := Argument(rest); a.Some? ==> a.value != [] && Trim(a.value) == a.value
  {
    if rest.Some? {
      TrimIdempotent(rest.value);
    }
  }

  /** `/remove` sends Remove exactly when its argument names a participant
      the lookup finds, and sends that participant's id. */
  lemma RemoveOnlyKnown(text: string, names: seq<string>, lookup: string -> W.Option<nat>)
    requires |text| > 0 && VerbOf(SplitOnce(text[1..]).0) == RemoveVerb
    ensures var a := Command(text, names, lookup);
            var arg := Argument(SplitOnce(text[1..]).1);
            (a.send.Some? <==> arg.Some? && lookup(arg.value).Some?)
            && (a.send.Some? ==> a.send.value == CRemove(lookup(arg.value).value))
  {
  }

  /** A word that is no command is reported back, with the hint. */
  lemma UnknownCommandReported(text: string, names: seq<string>, lookup: string -> W.Option<nat>)
    requires |text| > 0
    requires VerbOf(SplitOnce(text[1..]).0) == UnknownVerb
    ensures Command(text, names, lookup) == Action(W.None, ["Unknown command: /" + SplitOnce(text[1..]).0, HINT])
  {
  }

  /** A lone "/" is an empty command word, which is reported as an unknown
      command: `splitn` always yields a first part, so the parser's
      "Empty command" arm is never taken. */
  lemma LoneSlashIsUnknown(names: seq<string>, lookup: string -> W.Option<nat>)
    ensures Command("/", names, lookup) == Action(W.None, ["Unknown command: /", HINT])
  {
    assert "/"[1..] == "";
    assert SplitOnce("") == ("", W.None);
    assert VerbOf("") == UnknownVerb;
    assert "Unknown command: /" + "" == "Unknown command: /";
  }
}

=== FILE: items.dfy ===
/** The earlier server's power-up items (server/src/systems/items.rs): a
    spawner that drops an item into a free cell every few seconds, items that
    vanish after their lifetime, collection by the first overlapping player,
    and power-up timers that run down. Who overlaps what is a float
    computation of the source and is an input here. */
module Items {
  import W = Wrappers
  import M = MapGrid
  import opened Protocol
  import B = Broadcast

  /** ITEM_SPAWN_INTERVAL and ITEM_LIFETIME, in seconds. */
  const ITEM_SPAWN_INTERVAL: real := 8.0
  const ITEM_LIFETIME: real := 60.0

  /** The two power-ups of the earlier server. */
  datatype Kind = SpeedPowerUp | MultiShotPowerUp

  /** An item: its kind, the game clock at its spawn, and its position. */
  datatype Item = Item(kind: Kind, spawnTime: real, pos: M.Position)

  type ItemTable = map<nat, Item>

  /** The spawner's state: the accumulated time and the next item id. */
  datatype Spawner = Spawner(timer: real, nextId: nat)

  /** The power-up durations, in seconds; their constants are parameters of the model. */
  datatype Durations = Durations(speed: real, multiShot: real)

  // ---------------------------------------------------------------------------
  // Spawning
  // ---------------------------------------------------------------------------

  /** The cells that hold an item. */
  function OccupiedCells(items: ItemTable): (cells: set<(int, int)>)
    ensures forall id :: id in items ==> M.GridCoordsFromPosition(items[id].pos) in cells
    ensures forall c :: c in cells ==> exists id :: id in items && M.GridCoordsFromPosition(items[id].pos) == c
  {
    set id | id in items :: M.GridCoordsFromPosition(items[id].pos)
  }

  /** `choose_item_type`: a fair coin between the two kinds. */
  function ChooseKind(raw: nat): Kind
  {
    if W.Coin(raw) then Kind.SpeedPowerUp else Kind.MultiShotPowerUp
  }

  /** The spawner's bookkeeping holds: every item id is below the next one. */
  predicate IdsBelow(sp: Spawner, items: ItemTable)
  {
    forall id :: id in items ==> id < sp.nextId
  }

  /** `item_spawn_system`, one frame. Time accumulates; once it reaches the
      interval the timer restarts and, if the search finds a cell free of
      items, a new item of a random kind appears at that cell's centre under
      the next id, stamped with the current time. */
  function SpawnTick(sp: Spawner, items: ItemTable, delta: real, now: real, rng: W.Rng, kindDraw: nat): (r: (Spawner, ItemTable))
    ensures sp.timer + delta < ITEM_SPAWN_INTERVAL ==> r == (sp.(timer := sp.timer + delta), items)
    ensures sp.timer + delta >= ITEM_SPAWN_INTERVAL ==> r.0.timer == 0.0
    ensures M.FindUnoccupiedCell(rng, OccupiedCells(items)).None? ==> r.1 == items && r.0.nextId == sp.nextId
    ensures sp.timer + delta >= ITEM_SPAWN_INTERVAL && M.FindUnoccupiedCell(rng, OccupiedCells(items)).Some? ==>
              && r.0.nextId == sp.nextId + 1 && sp.nextId in r.1 && r.1 == items[sp.nextId := r.1[sp.nextId]]
              && r.1[sp.nextId].spawnTime == now && r.1[sp.nextId].kind == ChooseKind(kindDraw)
              && M.GridCoordsFromPosition(r.1[sp.nextId].pos) == M.FindUnoccupiedCell(rng, OccupiedCells(items)).value
              && M.GridCoordsFromPosition(r.1[sp.nextId].pos) !in OccupiedCells(items)
    ensures r.1 == items || r.1.Keys == items.Keys + {sp.nextId}
    ensures IdsBelow(sp, items) ==> IdsBelow(r.0, r.1)
  {
    var timer := sp.timer + delta;
    if timer < ITEM_SPAWN_INTERVAL then (sp.(timer := timer), items)
    else
      match M.FindUnoccupiedCell(rng, OccupiedCells(items))
      case None => (Spawner(0.0, sp.nextId), items)
      case Some((gx, gz)) =>
        var item := Item(ChooseKind(kindDraw), now, M.CellCenter(gx, gz));
        (Spawner(0.0, sp.nextId + 1), items[sp.nextId := item])
  }

  /** No two items share a cell: spawning keeps that true. */
  predicate OnePerCell(items: ItemTable)
  {
    forall a, b :: a in items && b in items && a != b ==>
      M.GridCoordsFromPosition(items[a].pos) != M.GridCoordsFromPosition(items[b].pos)
  }

  lemma SpawnKeepsOnePerCell(sp: Spawner, items: ItemTable, delta: real, now: real, rng: W.Rng, kindDraw: nat)
    requires IdsBelow(sp, items) && OnePerCell(items)
    ensures OnePerCell(SpawnTick(sp, items, delta, now, rng, kindDraw).1)
  {
  }

  // ---------------------------------------------------------------------------
  // Despawning
  // ---------------------------------------------------------------------------

  /** `item_despawn_system`: the items at least ITEM_LIFETIME old go. */
  function Despawn(items: ItemTable, now: real): (r: ItemTable)
    ensures forall id :: id in r <==> id in items && now - items[id].spawnTime < ITEM_LIFETIME
    ensures forall id :: id in r ==> r[id] == items[id]
  {
    map id | id in items && now - items[id].spawnTime < ITEM_LIFETIME :: items[id]
  }

  /** Despawning twice at the same time removes nothing more, and the clock
      moving on never brings an item back. */
  lemma DespawnMonotone(items: ItemTable, t1: real, t2: real)
    requires t1 <= t2
    ensures Despawn(Despawn(items, t1), t1) == Despawn(items, t1)
    ensures Despawn(items, t2).Keys <= Despawn(items, t1).Keys
  {
  }

  // ---------------------------------------------------------------------------
  // Collection
  // ---------------------------------------------------------------------------

  /** The first player of `order` with a position that overlaps `item`. */
  function FirstCollector(order: seq<nat>, positions: map<nat, M.Position>, overlaps: set<(nat, nat)>, item: nat): (r: W.Option<nat>)
    ensures r.Some? ==> r.value in order && r.value in positions && (r.value, item) in overlaps
    ensures r.None? <==> forall p :: p in order && p in positions ==> (p, item) !in overlaps
    ensures r.Some? ==> exists k :: (0 <= k < |order| && order[k] == r.value &&
              forall j :: 0 <= j < k ==> !(order[j] in positions && (order[j], item) in overlaps))
  {
    if order == [] then W.None
    else if order[0] in positions && (order[0], item) in overlaps then W.Some(order[0])
    else
      var r := FirstCollector(order[1..], positions, overlaps, item);
      assert forall p :: p in order ==> p == order[0] || p in order[1..];
      FirstAfterHead(order, positions, overlaps, item, r);
      r
  }

  /** A first collector of the tail, when the head does not collect, is
      the first of the whole list. */
  lemma FirstAfterHead(order: seq<nat>, positions: map<nat, M.Position>, overlaps: set<(nat, nat)>, item: nat, r: W.Option<nat>)
    requires order != [] && !(order[0] in positions && (order[0], item) in overlaps)
    requires r.Some? ==> exists k :: (0 <= k < |order[1..]| && order[1..][k] == r.value &&
               forall j :: 0 <= j < k ==> !(order[1..][j] in positions && (order[1..][j], item) in overlaps))
    ensures r.Some? ==> exists k :: (0 <= k < |order| && order[k] == r.value &&
              forall j :: 0 <= j < k ==> !(order[j] in positions && (order[j], item) in overlaps))
  {
    if r.Some? {
      var k :| 0 <= k < |order[1..]| && order[1..][k] == r.value &&
               forall j :: 0 <= j < k ==> !(order[1..][j] in positions && (order[1..][j], item) in overlaps);
      assert order[k + 1] == r.value;
      assert forall j :: 0 < j < k + 1 ==> order[j] == order[1..][j - 1];
    }
  }

  /** One collection: the collecting player, the item and its kind. */
  datatype Collection = Collection(player: nat, item: nat, kind: Kind)

  /** The collections of a frame, in item order: each item of `itemOrder`
      goes to its first collector, if it has one. */
  function Collections(items: ItemTable, itemOrder: seq<nat>, playerOrder: seq<nat>,
                       positions: map<nat, M.Position>, overlaps: set<(nat, nat)>): (cs: seq<Collection>)
    ensures forall k :: 0 <= k < |cs| ==>
              && cs[k].item in itemOrder && cs[k].item in items && cs[k].kind == items[cs[k].item].kind
              && FirstCollector(playerOrder, positions, overlaps, cs[k].item) == W.Some(cs[k].player)
    ensures forall i :: (exists k :: 0 <= k < |cs| && cs[k].item == i) <==>
              i in itemOrder && i in items && FirstCollector(playerOrder, positions, overlaps, i).Some?
  {
    if itemOrder == [] then []
    else
      var i := itemOrder[0];
      var rest := Collections(items, itemOrder[1..], playerOrder, positions, overlaps);
      assert forall x :: x in itemOrder ==> x == i || x in itemOrder[1..];
      match FirstCollector(playerOrder, positions, overlaps, i)
      case Some(p) =>
        if i in items then
          var cs := [Collection(p, i, items[i].kind)] + rest;
          assert forall k :: 0 < k < |cs| ==> cs[k] == rest[k - 1];
          assert forall k :: 0 <= k < |rest| ==> rest[k] == cs[k + 1];
          assert cs[0].item == i;
          cs
        else rest
      case None => rest
  }

  /** Whether `cs` grants `p` a power-up of `kind`. */
  predicate Grants(cs: seq<Collection>, p: nat, kind: Kind)
  {
    exists k :: 0 <= k < |cs| && cs[k].player == p && cs[k].kind == kind
  }

  /** The items collections leave behind: those no collection names. */
  function RemoveCollected(items: ItemTable, cs: seq<Collection>): (r: ItemTable)
    ensures forall i :: i in r <==> i in items && forall k :: 0 <= k < |cs| ==> cs[k].item != i
    ensures forall i :: i in r ==> r[i] == items[i]
  {
    map i | i in items && (forall k :: 0 <= k < |cs| ==> cs[k].item != i) :: items[i]
  }

  /** A player's record once it collects an item of `kind`: that timer is
      set to its full duration. */
  function Grant(info: B.PlayerInfo, kind: Kind, d: Durations): B.PlayerInfo
  {
    match kind
    case SpeedPowerUp => info.(speedTimer := d.speed)
    case MultiShotPowerUp => info.(multiShotTimer := d.multiShot)
  }

  /** The player table after the collections, applied in order; a
      collection by a player no longer in the table changes nothing. */
  function GrantAll(players: B.Players, cs: seq<Collection>, d: Durations): (r: B.Players)
    ensures r.Keys == players.Keys
    ensures forall p :: p in players ==>
              r[p] == players[p].(
                speedTimer := if Grants(cs, p, Kind.SpeedPowerUp) then d.speed else players[p].speedTimer,
                multiShotTimer := if Grants(cs, p, Kind.MultiShotPowerUp) then d.multiShot else players[p].multiShotTimer)
    decreases |cs|
  {
    if cs == [] then players
    else
      var c := cs[0];
      var rest := GrantAll(if c.player in players then players[c.player := Grant(players[c.player], c.kind, d)] else players,
                           cs[1..], d);
      GrantsCons(cs);
      rest
  }

  /** Grants over a non-empty list: the head, or the tail. */
  lemma GrantsCons(cs: seq<Collection>)
    requires cs != []
    ensures forall p, kind :: Grants(cs, p, kind) <==>
              (cs[0].player == p && cs[0].kind == kind) || Grants(cs[1..], p, kind)
  {
    forall p, kind | Grants(cs, p, kind)
      ensures (cs[0].player == p && cs[0].kind == kind) || Grants(cs[1..], p, kind)
    {
      var k :| 0 <= k < |cs| && cs[k].player == p && cs[k].kind == kind;
      if k > 0 {
        assert cs[1..][k - 1] == cs[k];
      }
    }
    forall p, kind | Grants(cs[1..], p, kind) ensures Grants(cs, p, kind) {
      var k :| 0 <= k < |cs[1..]| && cs[1..][k].player == p && cs[1..][k].kind == kind;
      assert cs[k + 1] == cs[1..][k];
    }
  }

  /** The collections by players the table knows, in order. */
  function KnownCollections(players: B.Players, cs: seq<Collection>): (ks: seq<Collection>)
    ensures |ks| <= |cs|
  {
    if cs == [] then []
    else
      var rest := KnownCollections(players, cs[1..]);
      if cs[0].player in players then [cs[0]] + rest else rest
  }

  /** The known collections are exactly those of `cs` whose player is in the table. */
  lemma {:induction false} KnownCollectionsExactly(players: B.Players, cs: seq<Collection>)
    ensures forall c :: c in KnownCollections(players, cs) <==> c in cs && c.player in players
    decreases |cs|
  {
    if cs != [] {
      KnownCollectionsExactly(players, cs[1..]);
      assert forall c :: c in cs <==> c == cs[0] || c in cs[1..];
    }
  }

  /** Only the keys of the table decide which collections are known. */
  lemma {:induction false} KnownSameKeys(p1: B.Players, p2: B.Players, cs: seq<Collection>)
    requires p1.Keys == p2.Keys
    ensures KnownCollections(p1, cs) == KnownCollections(p2, cs)
    decreases |cs|
  {
    if cs != [] {
      KnownSameKeys(p1, p2, cs[1..]);
    }
  }

  /** Granting a list with a head: the head's grant, then the rest. */
  lemma GrantAllCons(players: B.Players, c: Collection, rest: seq<Collection>, d: Durations)
    ensures GrantAll(players, [c] + rest, d)
            == GrantAll(if c.player in players then players[c.player := Grant(players[c.player], c.kind, d)] else players, rest, d)
  {
    assert ([c] + rest)[0] == c && ([c] + rest)[1..] == rest;
  }

  /** `m` is the SPowerUp of the `k`th of the collections `ks`: its player's
      flags once `ks` up to and including the `k`th are granted. */
  ghost predicate GrantReported(players: B.Players, ks: seq<Collection>, d: Durations, m: ServerMsg, k: nat)
    requires k < |ks|
  {
    && ks[k].player in GrantAll(players, ks[..k + 1], d)
    && var after := GrantAll(players, ks[..k + 1], d)[ks[k].player];
       m == SPowerUp(ks[k].player, after.speedTimer > 0.0, after.multiShotTimer > 0.0)
  }

  /** `msgs` holds one SPowerUp per collection by a known player, in order,
      each with the flags of that player right after its own collection. */
  ghost predicate ReportsGrants(players: B.Players, cs: seq<Collection>, d: Durations, msgs: seq<ServerMsg>)
  {
    var ks := KnownCollections(players, cs);
    && |msgs| == |ks|
    && forall k :: 0 <= k < |msgs| ==> GrantReported(players, ks, d, msgs[k], k)
  }

  /** The head collection's grant carries a report on the tail over. */
  lemma PowerUpStepAt(players: B.Players, c: Collection, tail: seq<Collection>, d: Durations, m: ServerMsg, k: nat)
    requires c.player in players && 1 <= k <= |tail|
    requires GrantReported(players[c.player := Grant(players[c.player], c.kind, d)], tail, d, m, k - 1)
    ensures GrantReported(players, [c] + tail, d, m, k)
  {
    assert ([c] + tail)[..k + 1] == [c] + tail[..k];
    assert tail[..k] == tail[..(k - 1) + 1];
    GrantAllCons(players, c, tail[..k], d);
    assert ([c] + tail)[k] == tail[k - 1];
  }

  /** The head collection's own report: its player's flags after its grant. */
  lemma PowerUpHead(players: B.Players, c: Collection, tail: seq<Collection>, d: Durations)
    requires c.player in players
    ensures var info := Grant(players[c.player], c.kind, d);
            GrantReported(players, [c] + tail, d, SPowerUp(c.player, info.speedTimer > 0.0, info.multiShotTimer > 0.0), 0)
  {
    assert ([c] + tail)[..1] == [c] + [];
    GrantAllCons(players, c, [], d);
  }

  /** A report for the tail, after the head's grant, extends to the whole list. */
  lemma PowerUpStep(players: B.Players, cs: seq<Collection>, d: Durations, rest: seq<ServerMsg>)
    requires cs != [] && cs[0].player in players
    requires ReportsGrants(players[cs[0].player := Grant(players[cs[0].player], cs[0].kind, d)], cs[1..], d, rest)
    ensures var info := Grant(players[cs[0].player], cs[0].kind, d);
            ReportsGrants(players, cs, d, [SPowerUp(cs[0].player, info.speedTimer > 0.0, info.multiShotTimer > 0.0)] + rest)
  {
    var c := cs[0];
    var info := Grant(players[c.player], c.kind, d);
    var p1 := players[c.player := info];
    var msgs := [SPowerUp(c.player, info.speedTimer > 0.0, info.multiShotTimer > 0.0)] + rest;
    assert forall k :: 1 <= k < |msgs| ==> msgs[k] == rest[k - 1];
    KnownSameKeys(p1, players, cs[1..]);
    var tail := KnownCollections(players, cs[1..]);
    var ks := KnownCollections(players, cs);
    assert ks == [c] + tail;
    PowerUpHead(players, c, tail, d);
    forall k | 1 <= k < |msgs|
      ensures GrantReported(players, ks, d, msgs[k], k)
    {
      PowerUpStepAt(players, c, tail, d, rest[k - 1], k);
    }
  }

  /** The PowerUp messages of the collections: one per collection by a
      known player, carrying that player's flags right after it. */
  function PowerUpMessages(players: B.Players, cs: seq<Collection>, d: Durations): (msgs: seq<ServerMsg>)
    ensures |msgs| <= |cs|
    ensures forall m :: m in msgs ==> m.SPowerUp? && m.id in players && exists k :: 0 <= k < |cs| && cs[k].player == m.id
    ensures ReportsGrants(players, cs, d, msgs)
    decreases |cs|
  {
    if cs == [] then []
    else
      var c := cs[0];
      assert forall k :: 0 < k < |cs| ==> cs[k] == cs[1..][k - 1];
      if c.player in players then
        var info := Grant(players[c.player], c.kind, d);
        var rest := PowerUpMessages(players[c.player := info], cs[1..], d);
        PowerUpStep(players, cs, d, rest);
        [SPowerUp(c.player, info.speedTimer > 0.0, info.multiShotTimer > 0.0)] + rest
      else
        var rest := PowerUpMessages(players, cs[1..], d);
        assert KnownCollections(players, cs) == KnownCollections(players, cs[1..]);
        rest
  }

  /** Each message of `msgs` to every logged-in player, message by message. */
  function BroadcastEach(players: B.Players, order: seq<nat>, msgs: seq<ServerMsg>): (out: seq<Out>)
    ensures forall o :: o in out ==> o.Send? && o.msg in msgs && o.to in LoggedInOf(players, order)
    ensures forall m, id :: m in msgs && id in LoggedInOf(players, order) ==> Send(id, m) in out
  {
    if msgs == [] then []
    else B.BroadcastToAll(players, order, msgs[0]) + BroadcastEach(players, order, msgs[1..])
  }

  /** The logged-in players a walk over `order` finds. */
  function LoggedInOf(players: B.Players, order: seq<nat>): (s: set<nat>)
    ensures forall id :: id in s <==> id in order && id in B.LoggedIn(players)
  {
    set id | id in order && id in B.LoggedIn(players)
  }

  /** `item_collection_system`: every item some player overlaps goes to the
      first such player in table order; the items are removed, the timers
      set, and each PowerUp message goes to every logged-in player. */
  function Collect(items: ItemTable, itemOrder: seq<nat>, players: B.Players, playerOrder: seq<nat>,
                   positions: map<nat, M.Position>, overlaps: set<(nat, nat)>, d: Durations): (r: (ItemTable, B.Players, seq<Out>))
    ensures r.1.Keys == players.Keys
    ensures forall o :: o in r.2 ==> o.Send? && o.msg.SPowerUp? && o.msg.id in players
    ensures var msgs := PowerUpMessages(players, Collections(items, itemOrder, playerOrder, positions, overlaps), d);
            && (forall o :: o in r.2 ==> o.Send? && o.msg in msgs && o.to in LoggedInOf(players, playerOrder))
            && (forall m, x :: m in msgs && x in LoggedInOf(players, playerOrder) ==> Send(x, m) in r.2)
  {
    var cs := Collections(items, itemOrder, playerOrder, positions, overlaps);
    var players1 := GrantAll(players, cs, d);
    assert B.LoggedIn(players1) == B.LoggedIn(players);
    (RemoveCollected(items, cs), players1, BroadcastEach(players1, playerOrder, PowerUpMessages(players, cs, d)))
  }

  /** An item survives collection exactly when no player with a position
      overlaps it; and a player's speed timer is set exactly when it is the
      first collector of some speed item. */
  lemma CollectExactly(items: ItemTable, itemOrder: seq<nat>, players: B.Players, playerOrder: seq<nat>,
                       positions: map<nat, M.Position>, overlaps: set<(nat, nat)>, d: Durations, i: nat, p: nat)
    requires B.Enumerates(itemOrder, items.Keys) && B.Enumerates(playerOrder, players.Keys)
    ensures var r := Collect(items, itemOrder, players, playerOrder, positions, overlaps, d);
            && (i in r.0 <==> i in items && forall q :: q in playerOrder && q in positions ==> (q, i) !in overlaps)
            && (p in players ==>
                  (r.1[p].speedTimer == d.speed || r.1[p].speedTimer == players[p].speedTimer)
                  && ((exists j :: j in items && items[j].kind == Kind.SpeedPowerUp
                                   && FirstCollector(playerOrder, positions, overlaps, j) == W.Some(p))
                      ==> r.1[p].speedTimer == d.speed))
  {
    var cs := Collections(items, itemOrder, playerOrder, positions, overlaps);
    if i in items && !(forall q :: q in playerOrder && q in positions ==> (q, i) !in overlaps) {
      assert FirstCollector(playerOrder, positions, overlaps, i).Some?;
    }
    if p in players {
      if exists j :: j in items && items[j].kind == Kind.SpeedPowerUp && FirstCollector(playerOrder, positions, overlaps, j) == W.Some(p) {
        var j :| j in items && items[j].kind == Kind.SpeedPowerUp && FirstCollector(playerOrder, positions, overlaps, j) == W.Some(p);
        var k :| 0 <= k < |cs| && cs[k].item == j;
        assert Grants(cs, p, Kind.SpeedPowerUp);
      }
    }
  }

  // ---------------------------------------------------------------------------
  // Expiration
  // ---------------------------------------------------------------------------

  /** A timer run down by `delta`, never below zero. */
  function RunDown(t: real, delta: real): (r: real)
    ensures r >= 0.0
    ensures t >= 0.0 && delta >= 0.0 ==> r <= t
    ensures r > 0.0 <==> t - delta > 0.0
  {
    if t - delta > 0.0 then t - delta else 0.0
  }

  /** A player's record after its power-up timers run down by `delta`. */
  function RunDownTimers(info: B.PlayerInfo, delta: real): B.PlayerInfo
  {
    info.(speedTimer := RunDown(info.speedTimer, delta), multiShotTimer := RunDown(info.multiShotTimer, delta))
  }

  /** The PowerUp message carrying a record's flags. */
  function FlagsMessage(id: nat, info: B.PlayerInfo): ServerMsg
  {
    SPowerUp(id, info.speedTimer > 0.0, info.multiShotTimer > 0.0)
  }

  /** Whether a power-up flag differs between two records. */
  predicate FlagsChanged(before: B.PlayerInfo, after: B.PlayerInfo)
  {
    (before.speedTimer > 0.0) != (after.speedTimer > 0.0)
    || (before.multiShotTimer > 0.0) != (after.multiShotTimer > 0.0)
  }

  /** The messages of the expiry walk over `order`: the new flags of each
      player whose flags changed. */
  function ExpiryMessages(players: B.Players, order: seq<nat>, delta: real): (msgs: seq<ServerMsg>)
    requires forall id :: id in order ==> id in players
    ensures forall m :: m in msgs ==> m.SPowerUp? && m.id in order && m == FlagsMessage(m.id, RunDownTimers(players[m.id], delta))
    ensures forall id :: id in order ==>
              (FlagsMessage(id, RunDownTimers(players[id], delta)) in msgs <==>
                 FlagsChanged(players[id], RunDownTimers(players[id], delta)))
  {
    if order == [] then []
    else
      var id := order[0];
      var rest := ExpiryMessages(players, order[1..], delta);
      assert forall x :: x in order ==> x == id || x in order[1..];
      var after := RunDownTimers(players[id], delta);
      if FlagsChanged(players[id], after) then [FlagsMessage(id, after)] + rest else rest
  }

  /** `item_expiration_system`: every player's power-up timers run down,
      and a PowerUp message with the new flags is queued for each player
      whose flags changed, in table order; each goes to every logged-in
      player. */
  function Expire(players: B.Players, order: seq<nat>, delta: real): (r: (B.Players, seq<Out>))
    requires forall id :: id in order ==> id in players
    ensures r.0.Keys == players.Keys
    ensures forall id :: id in players ==> r.0[id] == RunDownTimers(players[id], delta)
    ensures forall o :: o in r.1 ==> o.Send? && o.msg.SPowerUp? && o.msg.id in order
    ensures forall id, to :: id in order && to in LoggedInOf(r.0, order) ==>
              (Send(to, FlagsMessage(id, r.0[id])) in r.1 <==> FlagsChanged(players[id], r.0[id]))
  {
    var players1 := map id | id in players :: RunDownTimers(players[id], delta);
    var msgs := ExpiryMessages(players, order, delta);
    (players1, BroadcastEach(players1, order, msgs))
  }

  /** With time moving forward, expiry only ever switches power-ups off:
      no flag comes on, so every message reports a flag going off. */
  lemma ExpiryOnlyTurnsOff(info: B.PlayerInfo, delta: real)
    requires delta >= 0.0
    ensures var after := RunDownTimers(info, delta);
            && (after.speedTimer > 0.0 ==> info.speedTimer > 0.0)
            && (after.multiShotTimer > 0.0 ==> info.multiShotTimer > 0.0)
            && (FlagsChanged(info, after) ==> !(after.speedTimer > 0.0) || !(after.multiShotTimer > 0.0))
  {
  }
}

=== FILE: lights.dfy ===
/** Wall lights (`generate_wall_lights` in server/src/map/lights.rs): a
    wall gets a light on each side that faces a roofed cell, one per grid
    cell the wall covers. The grid is the full `GRID_ROWS` x `GRID_COLS` grid. */
module Lights {
  import opened MapGrid
  import opened Walls

  /** A light on the side of a wall facing roofed cell `cell`; `sign` is the
      local side (+1 or -1) and `yaw` its heading. Positions are left out. */
  datatype Light = Light(cell: Pos, sign: int, yaw: real)

  /** `f32::round`: to the nearest integer, halves away from zero. */
  function Round(x: real): (n: int)
    ensures x - 0.5 <= n as real <= x + 0.5
  {
    if x >= 0.0 then (x + 0.5).Floor else -((-x + 0.5).Floor)
  }

  function Clamp(v: int, lo: int, hi: int): (r: int)
    requires lo <= hi
    ensures lo <= r <= hi
    ensures lo <= v <= hi ==> r == v
  {
    if v < lo then lo else if v > hi then hi else v
  }

  /** The roof flag of (r, c), false outside the grid. */
  function RoofAt(g: Grid, r: int, c: int): bool
    requires Shaped(g, GRID_ROWS, GRID_COLS)
  {
    InGrid(GRID_ROWS, GRID_COLS, (r, c)) && g[r][c].hasRoof
  }

  /** `light_sides_for_horizontal`: whether the cells south and north of
      horizontal grid line `rowLine` at column `col` carry a roof. */
  function SidesHorizontal(g: Grid, rowLine: int, col: int): (r: (bool, bool))
    requires Shaped(g, GRID_ROWS, GRID_COLS)
    ensures r == (RoofAt(g, rowLine, col), RoofAt(g, rowLine - 1, col))
  {
    if col < 0 || col >= GRID_COLS then (false, false)
    else
      var south := if 0 <= rowLine < GRID_ROWS then g[rowLine][col].hasRoof else false;
      var north := if 0 < rowLine <= GRID_ROWS then g[rowLine - 1][col].hasRoof else false;
      (south, north)
  }

  /** `light_sides_for_vertical`: whether the cells east and west of
      vertical grid line `colLine` in row `row` carry a roof. */
  function SidesVertical(g: Grid, row: int, colLine: int): (r: (bool, bool))
    requires Shaped(g, GRID_ROWS, GRID_COLS)
    ensures r == (RoofAt(g, row, colLine), RoofAt(g, row, colLine - 1))
  {
    if row < 0 || row >= GRID_ROWS then (false, false)
    else
      var east := if 0 <= colLine < GRID_COLS then g[row][colLine].hasRoof else false;
      var west := if 0 < colLine <= GRID_COLS then g[row][colLine - 1].hasRoof else false;
      (east, west)
  }

  /** The heading rule of `push_light`: the wall's yaw on the positive side,
      turned half a circle on the negative side. */
  function LightYaw(wallYaw: real, sign: int): real
  {
    if sign >= 0 then wallYaw else wallYaw + PI_F32
  }

  /** The grid line through world coordinate `v`, rounded; `field` is the
      field's extent along that axis. */
  function LineOf(v: real, field: real): int
  {
    Round((v + field / 2.0) / GRID_SIZE)
  }

  /** `dx.abs() > dz.abs()`. */
  predicate IsHorizontal(w: Wall)
  {
    Abs(w.x2 - w.x1) > Abs(w.z2 - w.z1)
  }

  /** The grid line a wall runs along, and the first and one-past-last cell
      index it covers along that line. */
  function Span(w: Wall): (int, int, int)
  {
    if IsHorizontal(w) then
      (LineOf((w.z1 + w.z2) / 2.0, FIELD_DEPTH),
       Clamp(LineOf(if w.x1 <= w.x2 then w.x1 else w.x2, FIELD_WIDTH), 0, GRID_COLS),
       Clamp(LineOf(if w.x1 <= w.x2 then w.x2 else w.x1, FIELD_WIDTH), 0, GRID_COLS))
    else
      (LineOf((w.x1 + w.x2) / 2.0, FIELD_WIDTH),
       Clamp(LineOf(if w.z1 <= w.z2 then w.z1 else w.z2, FIELD_DEPTH), 0, GRID_ROWS),
       Clamp(LineOf(if w.z1 <= w.z2 then w.z2 else w.z1, FIELD_DEPTH), 0, GRID_ROWS))
  }

  /** The lights for cell index `i` along the line: the positive-side one
      first, then the negative-side one. */
  function CellLights(g: Grid, horizontal: bool, line: int, i: int, yaw: real): seq<Light>
    requires Shaped(g, GRID_ROWS, GRID_COLS)
  {
    if horizontal then
      var (pos, neg) := SidesHorizontal(g, line, i);
      (if pos then [Light((line, i), 1, LightYaw(yaw, 1))] else [])
      + (if neg then [Light((line - 1, i), -1, LightYaw(yaw, -1))] else [])
    else
      var (pos, neg) := SidesVertical(g, i, line);
      (if pos then [Light((i, line), -1, LightYaw(yaw, -1))] else [])
      + (if neg then [Light((i, line - 1), 1, LightYaw(yaw, 1))] else [])
  }

  /** The lights for cell indices `i` up to `end`. */
  function RunLights(g: Grid, horizontal: bool, line: int, i: int, end: int, yaw: real): seq<Light>
    requires Shaped(g, GRID_ROWS, GRID_COLS)
    decreases end - i
  {
    if i >= end then []
    else
      (if 0 <= i < (if horizontal then GRID_COLS else GRID_ROWS) then CellLights(g, horizontal, line, i, yaw) else [])
      + RunLights(g, horizontal, line, i + 1, end, yaw)
  }

  /** The lights of one wall; none when its grid line lies outside the grid. */
  function WallLights(g: Grid, w: Wall, yaw: real): seq<Light>
    requires Shaped(g, GRID_ROWS, GRID_COLS)
  {
    var (line, start, end) := Span(w);
    if line < 0 || line > (if IsHorizontal(w) then GRID_ROWS else GRID_COLS) then []
    else RunLights(g, IsHorizontal(w), line, start, end, yaw)
  }

  /** The cell a light on side `sign` of cell index `i` along `line` faces. */
  function Faced(horizontal: bool, line: int, i: int, sign: int): Pos
  {
    if horizontal then (if sign > 0 then (line, i) else (line - 1, i))
    else (if sign < 0 then (i, line) else (i, line - 1))
  }

  /** The lights of a run are exactly one per roofed cell beside the line,
      on that cell's side, with the yaw rule applied. */
  lemma {:induction false} RunLightsMembers(g: Grid, horizontal: bool, line: int, i: int, end: int, yaw: real)
    requires Shaped(g, GRID_ROWS, GRID_COLS)
    ensures forall l :: l in RunLights(g, horizontal, line, i, end, yaw) <==>
              exists k, sign :: i <= k < end && (sign == 1 || sign == -1)
                                && l == Light(Faced(horizontal, line, k, sign), sign, LightYaw(yaw, sign))
                                && RoofAt(g, Faced(horizontal, line, k, sign).0, Faced(horizontal, line, k, sign).1)
    ensures |RunLights(g, horizontal, line, i, end, yaw)| <= 2 * (if end > i then end - i else 0)
    decreases end - i
  {
    if i < end {
      RunLightsMembers(g, horizontal, line, i + 1, end, yaw);
      var run := RunLights(g, horizontal, line, i, end, yaw);
      forall l | exists k, sign :: i <= k < end && (sign == 1 || sign == -1)
                                   && l == Light(Faced(horizontal, line, k, sign), sign, LightYaw(yaw, sign))
                                   && RoofAt(g, Faced(horizontal, line, k, sign).0, Faced(horizontal, line, k, sign).1)
        ensures l in run
      {
        var k, sign :| i <= k < end && (sign == 1 || sign == -1)
                       && l == Light(Faced(horizontal, line, k, sign), sign, LightYaw(yaw, sign))
                       && RoofAt(g, Faced(horizontal, line, k, sign).0, Faced(horizontal, line, k, sign).1);
        if k == i {
          assert l in CellLights(g, horizontal, line, i, yaw);
        }
      }
      forall l | l in run
        ensures exists k, sign :: i <= k < end && (sign == 1 || sign == -1)
                                  && l == Light(Faced(horizontal, line, k, sign), sign, LightYaw(yaw, sign))
                                  && RoofAt(g, Faced(horizontal, line, k, sign).0, Faced(horizontal, line, k, sign).1)
      {
        if l in RunLights(g, horizontal, line, i + 1, end, yaw) {
        } else {
          var sign := l.sign;
          assert l == Light(Faced(horizontal, line, i, sign), sign, LightYaw(yaw, sign));
        }
      }
    }
  }

  /** Every light of a wall faces a roofed cell on the wall's own grid line,
      and there are at most two per covered cell. */
  lemma WallLightsShape(g: Grid, w: Wall, yaw: real)
    requires Shaped(g, GRID_ROWS, GRID_COLS)
    ensures var (line, start, end) := Span(w);
            forall l :: l in WallLights(g, w, yaw) ==>
              && RoofAt(g, l.cell.0, l.cell.1) && (l.sign == 1 || l.sign == -1)
              && l.yaw == LightYaw(yaw, l.sign)
              && exists k :: start <= k < end && l.cell == Faced(IsHorizontal(w), line, k, l.sign)
    ensures |WallLights(g, w, yaw)| <= 2 * GRID_ROWS + 2 * GRID_COLS
  {
    var (line, start, end) := Span(w);
    RunLightsMembers(g, IsHorizontal(w), line, start, end, yaw);
  }

  /** `generate_wall_lights`: the lights of every wall, in wall order. The
      wall's yaw (`atan2` of its direction) is an input. */
  function GenerateWallLights(g: Grid, walls: seq<Wall>, yawOf: Wall -> real): (ls: seq<Light>)
    requires Shaped(g, GRID_ROWS, GRID_COLS)
    ensures forall k, l :: 0 <= k < |walls| && l in WallLights(g, walls[k], yawOf(walls[k])) ==> l in ls
    ensures forall l :: l in ls ==> exists k :: 0 <= k < |walls| && l in WallLights(g, walls[k], yawOf(walls[k]))
  {
    if walls == [] then []
    else
      var rest := GenerateWallLights(g, walls[1..], yawOf);
      assert forall k :: 1 <= k < |walls| ==> walls[k] == walls[1..][k - 1];
      WallLights(g, walls[0], yawOf(walls[0])) + rest
  }

  /** Every light of the map faces a roofed cell. */
  lemma LightsFaceRoofs(g: Grid, walls: seq<Wall>, yawOf: Wall -> real)
    requires Shaped(g, GRID_ROWS, GRID_COLS)
    ensures forall l :: l in GenerateWallLights(g, walls, yawOf) ==>
              InGrid(GRID_ROWS, GRID_COLS, l.cell) && g[l.cell.0][l.cell.1].hasRoof
  {
    forall l | l in GenerateWallLights(g, walls, yawOf)
      ensures InGrid(GRID_ROWS, GRID_COLS, l.cell) && g[l.cell.0][l.cell.1].hasRoof
    {
      var k :| 0 <= k < |walls| && l in WallLights(g, walls[k], yawOf(walls[k]));
      WallLightsShape(g, walls[k], yawOf(walls[k]));
    }
  }

  lemma FirstLightFacesRoof(g: Grid, walls: seq<Wall>, yawOf: Wall -> real)
    requires Shaped(g, GRID_ROWS, GRID_COLS) && GenerateWallLights(g, walls, yawOf) != []
    ensures var l := GenerateWallLights(g, walls, yawOf)[0];
            InGrid(GRID_ROWS, GRID_COLS, l.cell) && g[l.cell.0][l.cell.1].hasRoof
  {
    LightsFaceRoofs(g, walls, yawOf);
    assert GenerateWallLights(g, walls, yawOf)[0] in GenerateWallLights(g, walls, yawOf);
  }

  /** A grid without roofs gets no lights. */
  lemma NoRoofsNoLights(g: Grid, walls: seq<Wall>, yawOf: Wall -> real)
    requires Shaped(g, GRID_ROWS, GRID_COLS)
    requires forall r, c :: 0 <= r < GRID_ROWS && 0 <= c < GRID_COLS ==> !g[r][c].hasRoof
    ensures GenerateWallLights(g, walls, yawOf) == []
  {
    var ls := GenerateWallLights(g, walls, yawOf);
    if ls != [] {
      FirstLightFacesRoof(g, walls, yawOf);
      assert false;
    }
  }
}

=== FILE: mapgen.dfy ===
/** `generate_grid` (server/src/map/mod.rs, and the same loop in the older
    server/src/map.rs): perimeter walls, ramps, then interior walls tried in
    a shuffled order, each kept only if every non-ramp cell stays reachable;
    finally the wall segments, split into boundary and interior walls. */
module MapGen {
  import opened Wrappers
  import opened MapGrid
  import opened Reachability
  import opened Walls
  import opened Ramps
  import Roofs
  import RoofMerge
  import RoofEdges
  import Lights

  const WALL_NUM_SEGMENTS: nat := 35
  const WALL_2ND_PROBABILITY_RATIO: real := 5.0
  const WALL_3RD_PROBABILITY_RATIO: real := 0.2
  const WALL_MERGE_SEGMENTS: bool := true

  /** ROOF_MERGE_SEGMENTS: whether touching roof slabs are merged. */
  const ROOF_MERGE_SEGMENTS: bool := true
  /** Tolerance of the boundary test. */
  const BOUNDARY_EPS: real := 0.01

  // ---------------------------------------------------------------------------
  // Perimeter
  // ---------------------------------------------------------------------------

  /** A border cell's outward wall flags: row 0 north, last row south,
      column 0 west, last column east. */
  function PerimeterCell(rows: int, cols: int, r: int, c: int): Cell
  {
    EmptyCell.(wallNorth := r == 0, wallSouth := r == rows - 1, wallWest := c == 0, wallEast := c == cols - 1)
  }

  /** The blank grid with its perimeter walls set. */
  function Perimeter(rows: nat, cols: nat): (g: Grid)
    ensures Shaped(g, rows, cols)
    ensures forall r, c :: 0 <= r < rows && 0 <= c < cols ==> g[r][c] == PerimeterCell(rows, cols, r, c)
  {
    seq(rows, r => seq(cols, c => PerimeterCell(rows, cols, r, c)))
  }

  /** Every border cell has its outward wall. */
  predicate HasPerimeter(g: Grid, rows: int, cols: int)
    requires Shaped(g, rows, cols) && rows >= 1 && cols >= 1
  {
    && (forall c :: 0 <= c < cols ==> g[0][c].wallNorth && g[rows - 1][c].wallSouth)
    && (forall r :: 0 <= r < rows ==> g[r][0].wallWest && g[r][cols - 1].wallEast)
  }

  /** The perimeter grid has all its border walls, no interior wall, no
      ramp, and agrees with itself on every shared edge. */
  lemma PerimeterCorrect(rows: nat, cols: nat)
    requires rows >= 1 && cols >= 1
    ensures HasPerimeter(Perimeter(rows, cols), rows, cols)
    ensures Symmetric(Perimeter(rows, cols), rows, cols)
    ensures RampFree(Perimeter(rows, cols), rows, cols)
    ensures forall r, c :: 0 <= r < rows && 0 <= c < cols ==>
              (Perimeter(rows, cols)[r][c].wallNorth <==> r == 0) && (Perimeter(rows, cols)[r][c].wallWest <==> c == 0)
  {
    var g: Grid := Perimeter(rows, cols);
    forall r, c | 0 <= r < rows - 1 && 0 <= c < cols
      ensures g[r][c].wallSouth <==> g[r + 1][c].wallNorth
    {
      assert g[r][c] == PerimeterCell(rows, cols, r, c);
      assert g[r + 1][c] == PerimeterCell(rows, cols, r + 1, c);
    }
    forall r, c | 0 <= r < rows && 0 <= c < cols - 1
      ensures g[r][c].wallEast <==> g[r][c + 1].wallWest
    {
      assert g[r][c] == PerimeterCell(rows, cols, r, c);
      assert g[r][c + 1] == PerimeterCell(rows, cols, r, c + 1);
    }
  }

  // ---------------------------------------------------------------------------
  // Candidate edges
  // ---------------------------------------------------------------------------

  datatype EdgeDir = SouthEdge | EastEdge

  /** An interior edge: the south or east side of cell (row, col). */
  datatype Edge = Edge(row: int, col: int, dir: EdgeDir)

  predicate Interior(e: Edge, rows: int, cols: int)
  {
    match e.dir
    case SouthEdge => 0 <= e.row < rows - 1 && 0 <= e.col < cols
    case EastEdge => 0 <= e.row < rows && 0 <= e.col < cols - 1
  }

  /** The edges of kind `dir` in rows `r`.. and columns `c`.. of a
      `rows`×`cols` block, row by row. */
  function EdgesFrom(rows: int, cols: int, r: int, c: int, dir: EdgeDir): (es: seq<Edge>)
    requires 0 <= r <= rows && 0 <= c <= cols
    ensures forall e :: e in es <==>
              e.dir == dir && (r < e.row < rows || (e.row == r < rows && c <= e.col)) && 0 <= e.col < cols
    ensures |es| == (rows - r) * cols - (if r < rows then c else 0)
    decreases rows - r, cols - c
  {
    if r == rows then []
    else if c == cols then EdgesFrom(rows, cols, r + 1, 0, dir)
    else [Edge(r, c, dir)] + EdgesFrom(rows, cols, r, c + 1, dir)
  }

  /** The candidate list: every south edge above the last row, then every
      east edge left of the last column. */
  function Candidates(rows: nat, cols: nat): (es: seq<Edge>)
    requires rows >= 1 && cols >= 1
    ensures forall e :: e in es <==> Interior(e, rows, cols)
    ensures |es| == (rows - 1) * cols + rows * (cols - 1)
  {
    EdgesFrom(rows - 1, cols, 0, 0, SouthEdge) + EdgesFrom(rows, cols - 1, 0, 0, EastEdge)
  }

  /** The Fisher–Yates shuffle: for i from the last index down to 1, swap
      position i with a drawn j in 0..=i. The result is a permutation. */
  method Shuffle(s: seq<Edge>, rng: Rng) returns (r: seq<Edge>)
    ensures |r| == |s| && multiset(r) == multiset(s)
  {
    r := s;
    if |r| <= 1 {
      return;
    }
    var i := |r| - 1;
    while i >= 1
      invariant 0 <= i < |r| && |r| == |s|
      invariant multiset(r) == multiset(s)
      decreases i
    {
      var j := InRange(rng(i), 0, i);
      r := r[i := r[j]][j := r[i]];
      i := i - 1;
    }
  }

  // ---------------------------------------------------------------------------
  // Placement
  // ---------------------------------------------------------------------------

  /** Whether the edge is already walled (read on the cell's own side). */
  predicate Walled(g: Grid, rows: int, cols: int, e: Edge)
    requires Shaped(g, rows, cols) && Interior(e, rows, cols)
  {
    match e.dir
    case SouthEdge => g[e.row][e.col].wallSouth
    case EastEdge => g[e.row][e.col].wallEast
  }

  /** The ramp test: a wall may not cut off a ramp's base or top, nor split
      two ramp cells. */
  predicate RampBlocked(g: Grid, rows: int, cols: int, e: Edge)
    requires Shaped(g, rows, cols) && Interior(e, rows, cols)
  {
    var cell := g[e.row][e.col];
    match e.dir
    case SouthEdge =>
      || cell.rampBaseSouth || cell.rampTopSouth
      || (e.row + 1 < rows && (g[e.row + 1][e.col].rampBaseNorth || g[e.row + 1][e.col].rampTopNorth))
      || (cell.hasRamp && e.row + 1 < rows && g[e.row + 1][e.col].hasRamp)
    case EastEdge =>
      || cell.rampBaseEast || cell.rampTopEast
      || (e.col + 1 < cols && (g[e.row][e.col + 1].rampBaseWest || g[e.row][e.col + 1].rampTopWest))
      || (cell.hasRamp && e.col + 1 < cols && g[e.row][e.col + 1].hasRamp)
  }

  /** The larger wall count of the two cells the edge separates. */
  function MaxWalls(g: Grid, rows: int, cols: int, e: Edge): (n: nat)
    requires Shaped(g, rows, cols) && Interior(e, rows, cols)
    ensures n <= 4
  {
    var n1 := CountCellWalls(g[e.row][e.col]);
    var n2 := match e.dir
      case SouthEdge => if e.row < rows - 1 then CountCellWalls(g[e.row + 1][e.col]) else 0
      case EastEdge => if e.col < cols - 1 then CountCellWalls(g[e.row][e.col + 1]) else 0;
    if n1 >= n2 then n1 else n2
  }

  /** The probability ratio for the wall count: 1 for a bare pair, the
      second-wall ratio for one wall, the third-wall ratio beyond. */
  function Ratio(maxWalls: nat): real
  {
    if maxWalls == 0 then 1.0
    else if maxWalls == 1 then WALL_2ND_PROBABILITY_RATIO
    else WALL_3RD_PROBABILITY_RATIO
  }

  /** `ratio < 1.0 && !random_bool(ratio)`: only a ratio below one can skip,
      by an arbitrary draw. */
  predicate SkippedByChance(maxWalls: nat, raw: nat)
  {
    Ratio(maxWalls) < 1.0 && !Coin(raw)
  }

  /** A ratio below one, hence a possible skip, occurs exactly for pairs
      where a cell already has two walls or more. */
  lemma SkipOnlyFromTwoWalls(maxWalls: nat, raw: nat)
    ensures SkippedByChance(maxWalls, raw) ==> maxWalls >= 2
    ensures maxWalls < 2 ==> !SkippedByChance(maxWalls, raw)
  {
  }

  /** The cell at (r, c) after the edge is set to `v`: the cell owning the
      edge gets its south or east flag, the neighbour across it (when inside
      the grid) its north or west flag, and every other cell is kept. */
  function EdgeCell(g: Grid, rows: int, cols: int, e: Edge, v: bool, r: int, c: int): Cell
    requires Shaped(g, rows, cols) && 0 <= r < rows && 0 <= c < cols
  {
    var a := g[r][c];
    var south := e.dir == SouthEdge;
    var own := r == e.row && c == e.col;
    a.(wallNorth := if south && r == e.row + 1 && c == e.col then v else a.wallNorth,
       wallSouth := if south && own then v else a.wallSouth,
       wallWest := if !south && r == e.row && c == e.col + 1 then v else a.wallWest,
       wallEast := if !south && own then v else a.wallEast)
  }

  /** Sets (v == true) or clears the edge on both cells it separates. */
  function SetEdge(g: Grid, rows: int, cols: int, e: Edge, v: bool): (g': Grid)
    requires Shaped(g, rows, cols)
    ensures Shaped(g', rows, cols)
    ensures forall r, c :: 0 <= r < rows && 0 <= c < cols ==> g'[r][c] == EdgeCell(g, rows, cols, e, v, r, c)
  {
    seq(rows, r requires 0 <= r < rows => seq(cols, c requires 0 <= c < cols => EdgeCell(g, rows, cols, e, v, r, c)))
  }

  /** Everything but the four wall flags agrees. */
  predicate SameButWalls(a: Cell, b: Cell)
  {
    && a.hasRamp == b.hasRamp && a.hasRoof == b.hasRoof
    && a.rampBaseNorth == b.rampBaseNorth && a.rampBaseSouth == b.rampBaseSouth
    && a.rampBaseWest == b.rampBaseWest && a.rampBaseEast == b.rampBaseEast
    && a.rampTopNorth == b.rampTopNorth && a.rampTopSouth == b.rampTopSouth
    && a.rampTopWest == b.rampTopWest && a.rampTopEast == b.rampTopEast
  }

  /** Every wall flag of `a` is also set in `b`. */
  predicate WallsLe(a: Cell, b: Cell)
  {
    (a.wallNorth ==> b.wallNorth) && (a.wallSouth ==> b.wallSouth) && (a.wallWest ==> b.wallWest) && (a.wallEast ==> b.wallEast)
  }

  /** `g'` has every wall of `g` and differs from it only in wall flags. */
  ghost predicate Grown(g: Grid, g': Grid, rows: int, cols: int)
    requires Shaped(g, rows, cols) && Shaped(g', rows, cols)
  {
    forall r, c :: 0 <= r < rows && 0 <= c < cols ==> WallsLe(g[r][c], g'[r][c]) && SameButWalls(g[r][c], g'[r][c])
  }

  /** Setting or clearing an edge keeps a symmetric grid symmetric: both
      cells the edge separates are written. */
  lemma SetEdgeSymmetric(g: Grid, rows: int, cols: int, e: Edge, v: bool)
    requires Shaped(g, rows, cols) && Interior(e, rows, cols) && Symmetric(g, rows, cols)
    ensures Symmetric(SetEdge(g, rows, cols, e, v), rows, cols)
  {
    var g': Grid := SetEdge(g, rows, cols, e, v);
    forall r, c | 0 <= r < rows - 1 && 0 <= c < cols
      ensures g'[r][c].wallSouth <==> g'[r + 1][c].wallNorth
    {
      assert g'[r][c] == EdgeCell(g, rows, cols, e, v, r, c);
      assert g'[r + 1][c] == EdgeCell(g, rows, cols, e, v, r + 1, c);
    }
    forall r, c | 0 <= r < rows && 0 <= c < cols - 1
      ensures g'[r][c].wallEast <==> g'[r][c + 1].wallWest
    {
      assert g'[r][c] == EdgeCell(g, rows, cols, e, v, r, c);
      assert g'[r][c + 1] == EdgeCell(g, rows, cols, e, v, r, c + 1);
    }
  }

  /** After setting the edge to `v` it reads `v`, and every other interior
      edge reads as before. */
  lemma SetEdgeWalled(g: Grid, rows: int, cols: int, e: Edge, v: bool)
    requires Shaped(g, rows, cols) && Interior(e, rows, cols)
    ensures Walled(SetEdge(g, rows, cols, e, v), rows, cols, e) == v
    ensures forall f :: Interior(f, rows, cols) && f != e ==>
              (Walled(SetEdge(g, rows, cols, e, v), rows, cols, f) <==> Walled(g, rows, cols, f))
  {
    var g': Grid := SetEdge(g, rows, cols, e, v);
    assert g'[e.row][e.col] == EdgeCell(g, rows, cols, e, v, e.row, e.col);
    forall f | Interior(f, rows, cols) && f != e
      ensures Walled(g', rows, cols, f) <==> Walled(g, rows, cols, f)
    {
      assert g'[f.row][f.col] == EdgeCell(g, rows, cols, e, v, f.row, f.col);
    }
  }

  /** Setting an edge only adds walls. */
  lemma SetEdgeGrows(g: Grid, rows: int, cols: int, e: Edge)
    requires Shaped(g, rows, cols)
    ensures Grown(g, SetEdge(g, rows, cols, e, true), rows, cols)
  {
    var g': Grid := SetEdge(g, rows, cols, e, true);
    forall r, c | 0 <= r < rows && 0 <= c < cols
      ensures WallsLe(g[r][c], g'[r][c]) && SameButWalls(g[r][c], g'[r][c])
    {
      assert g'[r][c] == EdgeCell(g, rows, cols, e, true, r, c);
    }
  }

  /** The three facts the placement loop uses about setting an edge. */
  lemma SetEdgeTrue(g: Grid, rows: int, cols: int, e: Edge)
    requires Shaped(g, rows, cols) && Interior(e, rows, cols) && Symmetric(g, rows, cols)
    ensures Symmetric(SetEdge(g, rows, cols, e, true), rows, cols)
    ensures Walled(SetEdge(g, rows, cols, e, true), rows, cols, e)
    ensures forall f :: Interior(f, rows, cols) && f != e ==>
              (Walled(SetEdge(g, rows, cols, e, true), rows, cols, f) <==> Walled(g, rows, cols, f))
    ensures Grown(g, SetEdge(g, rows, cols, e, true), rows, cols)
  {
    SetEdgeSymmetric(g, rows, cols, e, true);
    SetEdgeWalled(g, rows, cols, e, true);
    SetEdgeGrows(g, rows, cols, e);
  }

  /** Adding walls never removes the perimeter. */
  lemma GrownKeepsPerimeter(g0: Grid, g: Grid, rows: int, cols: int)
    requires rows >= 1 && cols >= 1 && Shaped(g0, rows, cols) && Shaped(g, rows, cols)
    requires Grown(g0, g, rows, cols) && HasPerimeter(g0, rows, cols)
    ensures HasPerimeter(g, rows, cols)
  {
    forall c | 0 <= c < cols
      ensures g[0][c].wallNorth && g[rows - 1][c].wallSouth
    {
      assert WallsLe(g0[0][c], g[0][c]) && WallsLe(g0[rows - 1][c], g[rows - 1][c]);
    }
    forall r | 0 <= r < rows
      ensures g[r][0].wallWest && g[r][cols - 1].wallEast
    {
      assert WallsLe(g0[r][0], g[r][0]) && WallsLe(g0[r][cols - 1], g[r][cols - 1]);
    }
  }

  /** Clearing an edge that was just set on a symmetric grid where it was
      open restores that grid exactly. */
  lemma SetEdgeUndo(g: Grid, rows: int, cols: int, e: Edge)
    requires Shaped(g, rows, cols) && Interior(e, rows, cols) && Symmetric(g, rows, cols)
    requires !Walled(g, rows, cols, e)
    ensures SetEdge(SetEdge(g, rows, cols, e, true), rows, cols, e, false) == g
  {
    var g1: Grid := SetEdge(g, rows, cols, e, true);
    var g2: Grid := SetEdge(g1, rows, cols, e, false);
    // the far side of an open edge is open too
    if e.dir == SouthEdge {
      assert !g[e.row + 1][e.col].wallNorth;
    } else {
      assert !g[e.row][e.col + 1].wallWest;
    }
    forall r | 0 <= r < rows
      ensures g2[r] == g[r]
    {
      forall c | 0 <= c < cols
        ensures g2[r][c] == g[r][c]
      {
        assert g2[r][c] == EdgeCell(g1, rows, cols, e, false, r, c);
        assert g1[r][c] == EdgeCell(g, rows, cols, e, true, r, c);
      }
    }
  }

  /** The edges walled in `g'` are those of `g` plus `kept`. */
  ghost predicate WalledExactly(g0: Grid, g: Grid, rows: int, cols: int, kept: set<Edge>)
    requires Shaped(g0, rows, cols) && Shaped(g, rows, cols)
  {
    forall e :: Interior(e, rows, cols) ==> (Walled(g, rows, cols, e) <==> Walled(g0, rows, cols, e) || e in kept)
  }

  /** The interior-wall loop. On a symmetric grid it keeps the grid
      symmetric, only adds walls (so the perimeter stays), places at most
      `WALL_NUM_SEGMENTS` walls, each on a candidate edge that was open and
      not ramp-blocked, and never leaves the grid disconnected: a placement
      stays only when every non-ramp cell is reachable afterwards. */
  method PlaceInteriorWalls(g0: Grid, rows: int, cols: int, edges: seq<Edge>, rng: Rng)
    returns (g: Grid, placed: nat, ghost kept: set<Edge>)
    requires rows >= 1 && cols >= 1 && Shaped(g0, rows, cols) && Symmetric(g0, rows, cols)
    requires forall e :: e in edges ==> Interior(e, rows, cols)
    ensures Shaped(g, rows, cols) && Symmetric(g, rows, cols) && Grown(g0, g, rows, cols)
    ensures placed <= WALL_NUM_SEGMENTS
    ensures |kept| == placed && WalledExactly(g0, g, rows, cols, kept)
    ensures forall e :: e in kept ==> e in edges && !Walled(g0, rows, cols, e) && !RampBlocked(g0, rows, cols, e)
    ensures placed > 0 ==> AllConnected(g, rows, cols)
    ensures AllConnected(g0, rows, cols) ==> AllConnected(g, rows, cols)
  {
    g, placed, kept := g0, 0, {};
    var k := 0;
    while k < |edges|
      invariant 0 <= k <= |edges|
      invariant PlaceInv(g0, g, rows, cols, edges, placed, kept)
    {
      if placed >= WALL_NUM_SEGMENTS {
        break;
      }
      var e := edges[k];
      k := k + 1;
      g, placed, kept := TryEdge(g0, g, rows, cols, edges, placed, kept, e, rng(k - 1));
    }
  }

  /** What the interior-wall loop keeps between candidates. */
  ghost predicate PlaceInv(g0: Grid, g: Grid, rows: int, cols: int, edges: seq<Edge>, placed: nat, kept: set<Edge>)
  {
    && rows >= 1 && cols >= 1 && Shaped(g0, rows, cols)
    && (forall e :: e in edges ==> Interior(e, rows, cols))
    && Shaped(g, rows, cols) && Symmetric(g, rows, cols) && Grown(g0, g, rows, cols)
    && placed <= WALL_NUM_SEGMENTS
    && |kept| == placed && WalledExactly(g0, g, rows, cols, kept)
    && (forall e :: e in kept ==> e in edges && !Walled(g0, rows, cols, e) && !RampBlocked(g0, rows, cols, e))
    && (placed > 0 ==> AllConnected(g, rows, cols))
    && (AllConnected(g0, rows, cols) ==> AllConnected(g, rows, cols))
  }

  /** One candidate edge: skipped when already walled, ramp-blocked or
      passed over by the draw; otherwise walled, and the wall kept only when
      every non-ramp cell stays reachable. */
  method TryEdge(g0: Grid, g: Grid, rows: int, cols: int, edges: seq<Edge>, placed: nat, ghost kept: set<Edge>,
                 e: Edge, draw: nat)
    returns (g2: Grid, placed2: nat, ghost kept2: set<Edge>)
    requires PlaceInv(g0, g, rows, cols, edges, placed, kept) && placed < WALL_NUM_SEGMENTS
    requires e in edges && Interior(e, rows, cols)
    ensures PlaceInv(g0, g2, rows, cols, edges, placed2, kept2)
    ensures placed2 == placed || (placed2 == placed + 1 && kept2 == kept + {e} && g2 == SetEdge(g, rows, cols, e, true))
    ensures placed2 == placed ==> g2 == g
    ensures placed2 == placed + 1 ==> g2 == SetEdge(g, rows, cols, e, true) && AllConnected(g2, rows, cols)
  {
    if Walled(g, rows, cols, e) || RampBlocked(g, rows, cols, e) || SkippedByChance(MaxWalls(g, rows, cols, e), draw) {
      return g, placed, kept;
    }
    var trial := SetEdge(g, rows, cols, e, true);
    SetEdgeTrue(g, rows, cols, e);
    var ok := AllCellsReachable(trial, cols, rows);
    if ok {
      KeepStep(g0, g, rows, cols, edges, placed, kept, e);
      g2, placed2, kept2 := trial, placed + 1, kept + {e};
    } else {
      SetEdgeUndo(g, rows, cols, e);
      g2, placed2, kept2 := SetEdge(trial, rows, cols, e, false), placed, kept;
    }
  }

  /** Keeping a wall on an open, unblocked edge that leaves the grid
      connected keeps the loop's invariant. */
  lemma KeepStep(g0: Grid, g: Grid, rows: int, cols: int, edges: seq<Edge>, placed: nat, kept: set<Edge>, e: Edge)
    requires PlaceInv(g0, g, rows, cols, edges, placed, kept) && placed < WALL_NUM_SEGMENTS
    requires e in edges && Interior(e, rows, cols)
    requires !Walled(g, rows, cols, e) && !RampBlocked(g, rows, cols, e)
    requires AllConnected(SetEdge(g, rows, cols, e, true), rows, cols)
    ensures PlaceInv(g0, SetEdge(g, rows, cols, e, true), rows, cols, edges, placed + 1, kept + {e})
  {
    var trial := SetEdge(g, rows, cols, e, true);
    SetEdgeTrue(g, rows, cols, e);
    RampFlagsKept(g0, g, rows, cols, e);
    GrownTrans(g0, g, trial, rows, cols);
    KeepEdge(g0, g, trial, rows, cols, kept, e);
  }

  lemma GrownTrans(a: Grid, b: Grid, c: Grid, rows: int, cols: int)
    requires Shaped(a, rows, cols) && Shaped(b, rows, cols) && Shaped(c, rows, cols)
    requires Grown(a, b, rows, cols) && Grown(b, c, rows, cols)
    ensures Grown(a, c, rows, cols)
  {
  }

  /** Ramp flags never change while walls are placed. */
  lemma RampFlagsKept(g0: Grid, g: Grid, rows: int, cols: int, e: Edge)
    requires Shaped(g0, rows, cols) && Shaped(g, rows, cols) && Grown(g0, g, rows, cols) && Interior(e, rows, cols)
    ensures RampBlocked(g, rows, cols, e) <==> RampBlocked(g0, rows, cols, e)
  {
    assert SameButWalls(g0[e.row][e.col], g[e.row][e.col]);
    if e.dir == SouthEdge {
      assert SameButWalls(g0[e.row + 1][e.col], g[e.row + 1][e.col]);
    } else {
      assert SameButWalls(g0[e.row][e.col + 1], g[e.row][e.col + 1]);
    }
  }

  lemma KeepEdge(g0: Grid, g: Grid, trial: Grid, rows: int, cols: int, kept: set<Edge>, e: Edge)
    requires Shaped(g0, rows, cols) && Shaped(g, rows, cols) && Interior(e, rows, cols) && Symmetric(g, rows, cols)
    requires WalledExactly(g0, g, rows, cols, kept) && !Walled(g, rows, cols, e)
    requires trial == SetEdge(g, rows, cols, e, true)
    ensures e !in kept && !Walled(g0, rows, cols, e)
    ensures WalledExactly(g0, trial, rows, cols, kept + {e})
  {
    SetEdgeTrue(g, rows, cols, e);
  }

  // ---------------------------------------------------------------------------
  // Boundary and interior walls
  // ---------------------------------------------------------------------------

  /** A wall lying on one of the four field borders (both ends within the
      tolerance of the same border line). */
  predicate AtBoundary(w: Wall)
  {
    var hw, hd := FIELD_WIDTH / 2.0, FIELD_DEPTH / 2.0;
    || (Abs(w.x1 + hw) < BOUNDARY_EPS && Abs(w.x2 + hw) < BOUNDARY_EPS)
    || (Abs(w.x1 - hw) < BOUNDARY_EPS && Abs(w.x2 - hw) < BOUNDARY_EPS)
    || (Abs(w.z1 + hd) < BOUNDARY_EPS && Abs(w.z2 + hd) < BOUNDARY_EPS)
    || (Abs(w.z1 - hd) < BOUNDARY_EPS && Abs(w.z2 - hd) < BOUNDARY_EPS)
  }

  /** `partition`: the boundary walls and the interior walls, each in input
      order; together they are the input. */
  function SplitBoundary(walls: seq<Wall>): (p: (seq<Wall>, seq<Wall>))
    ensures forall w :: w in p.0 ==> AtBoundary(w)
    ensures forall w :: w in p.1 ==> !AtBoundary(w)
    ensures multiset(p.0) + multiset(p.1) == multiset(walls)
  {
    if walls == [] then ([], [])
    else
      var rest := SplitBoundary(walls[1..]);
      assert walls == [walls[0]] + walls[1..];
      if AtBoundary(walls[0]) then ([walls[0]] + rest.0, rest.1) else (rest.0, [walls[0]] + rest.1)
  }

  /** Placing ramps touches no wall flag. */
  lemma RampsKeepWalls(g0: Grid, g1: Grid, rows: int, cols: int)
    requires rows >= 1 && cols >= 1 && Shaped(g0, rows, cols) && Shaped(g1, rows, cols)
    requires FrameKept(g0, g1, rows, cols) && Symmetric(g0, rows, cols) && HasPerimeter(g0, rows, cols)
    ensures Symmetric(g1, rows, cols) && HasPerimeter(g1, rows, cols)
  {
    forall r, c | 0 <= r < rows && 0 <= c < cols
      ensures SameExceptRamps(g1[r][c], g0[r][c])
    {
    }
  }

  /** A permutation of interior edges holds interior edges only. */
  lemma ShuffledInterior(s: seq<Edge>, t: seq<Edge>, rows: int, cols: int)
    requires multiset(t) == multiset(s) && forall e :: e in s ==> Interior(e, rows, cols)
    ensures forall e :: e in t ==> Interior(e, rows, cols)
  {
    forall e | e in t
      ensures Interior(e, rows, cols)
    {
      assert e in multiset(t);
    }
  }

  // ---------------------------------------------------------------------------
  // The generator
  // ---------------------------------------------------------------------------

  /** What `generate_grid` returns: the walled grid, the ramps, the lower
      walls and their boundary/interior split, the interior walls placed,
      the roof cells with the grid that marks them, the roof slabs, the
      roof-edge walls and the wall lights. */
  datatype Layout = Layout(
    grid: Grid, ramps: seq<Ramp>, lowerWalls: seq<Wall>, boundaryWalls: seq<Wall>, interiorWalls: seq<Wall>,
    placed: nat, roofCells: set<Pos>, roofedGrid: Grid, roofs: seq<Roofs.Roof>, roofWalls: seq<Wall>,
    lights: seq<Lights.Light>)

  /** `generate_grid` on the 10×10 field. The walled grid keeps its
      perimeter, is symmetric, carries at most 35 interior walls, none
      blocking a ramp, and stays connected once a wall is placed; the
      boundary and interior walls split the lower walls. No ramp cell gets
      a roof, and the roofed grid differs from the walled one only in the
      roof flags of the roof cells. The roofs are merged until no two of
      them pass the merge test, each with ordered corners and the roof
      thickness; the roof-edge walls and the lights are those of the
      roofed grid. The random draws of the ramps, the shuffle, the wall
      ratio and the roof growth are oracles, and so is the `atan2` yaw of a
      wall. */
  method GenerateGrid(rngRamps: Rng, rngShuffle: Rng, rngWalls: Rng, rngRoofs: nat -> real, yawOf: Wall -> real)
    returns (layout: Layout)
    requires forall k :: 0.0 <= rngRoofs(k) < 1.0
    ensures Shaped(layout.grid, GRID_ROWS, GRID_COLS)
    ensures HasPerimeter(layout.grid, GRID_ROWS, GRID_COLS) && Symmetric(layout.grid, GRID_ROWS, GRID_COLS)
    ensures layout.placed <= WALL_NUM_SEGMENTS && |layout.ramps| <= RAMP_COUNT
    ensures layout.placed > 0 ==> AllConnected(layout.grid, GRID_ROWS, GRID_COLS)
    ensures WallsClearOfRamps(layout.grid, GRID_ROWS, GRID_COLS)
    ensures multiset(layout.boundaryWalls) + multiset(layout.interiorWalls) == multiset(layout.lowerWalls)
    ensures forall w :: w in layout.boundaryWalls ==> AtBoundary(w)
    ensures forall w :: w in layout.interiorWalls ==> !AtBoundary(w)
    ensures layout.roofCells <= OpenCells(layout.grid, GRID_ROWS, GRID_COLS)
    ensures RoofsMarked(layout.grid, layout.roofedGrid, layout.roofCells)
    ensures |layout.roofs| <= 3 * |layout.roofCells| && RoofsMerged(layout.roofs)
    ensures layout.roofWalls == RoofEdges.RoofEdgeWalls(layout.roofedGrid, GRID_ROWS, GRID_COLS)
    ensures layout.lights == Lights.GenerateWallLights(layout.roofedGrid, layout.lowerWalls, yawOf)
  {
    var g, ramps, placed := GridStage(rngRamps, rngShuffle, rngWalls);
    var lower, boundary, interior := WallStage(g);
    var roofs, roofed, roofCells := RoofStage(g, rngRoofs);
    var roofWalls := RoofEdges.RoofEdgeWalls(roofed, GRID_ROWS, GRID_COLS);
    var lights := Lights.GenerateWallLights(roofed, lower, yawOf);
    layout := Layout(g, ramps, lower, boundary, interior, placed, roofCells, roofed, roofs, roofWalls, lights);
  }

  /** The lower walls of the walled grid, merged, and their split into
      boundary and interior walls. */
  method WallStage(g: Grid) returns (lower: seq<Wall>, boundary: seq<Wall>, interior: seq<Wall>)
    requires Shaped(g, GRID_ROWS, GRID_COLS)
    ensures multiset(boundary) + multiset(interior) == multiset(lower)
    ensures forall w :: w in boundary ==> AtBoundary(w)
    ensures forall w :: w in interior ==> !AtBoundary(w)
  {
    lower := GenerateWalls(g, GRID_COLS, GRID_ROWS);
    if WALL_MERGE_SEGMENTS && !WALL_OVERLAP {
      lower := MergeWalls(lower, MERGE_EPS);
    }
    var (b, i) := SplitBoundary(lower);
    boundary, interior := b, i;
  }

  /** `roofed` is `g` with the roof flag set on the cells of `cells`, and
      nothing else changed. */
  ghost predicate RoofsMarked(g: Grid, roofed: Grid, cells: set<Pos>)
  {
    && Shaped(g, GRID_ROWS, GRID_COLS) && Shaped(roofed, GRID_ROWS, GRID_COLS)
    && forall r, c :: 0 <= r < GRID_ROWS && 0 <= c < GRID_COLS ==>
         roofed[r][c] == g[r][c].(hasRoof := g[r][c].hasRoof || (r, c) in cells)
  }

  /** Merged roofs: each with ordered corners and the roof thickness, and
      no two that pass the merge test. */
  ghost predicate RoofsMerged(roofs: seq<Roofs.Roof>)
  {
    && (forall k :: 0 <= k < |roofs| ==> RoofMerge.Ordered(roofs[k]) && roofs[k].thickness == ROOF_THICKNESS)
    && forall a, b :: 0 <= a < |roofs| && 0 <= b < |roofs| && a != b ==>
         !RoofMerge.Mergeable(roofs[a], roofs[b], RoofMerge.ROOF_MERGE_EPS)
  }

  /** The roof half of `generate_grid`: roofs grown on the walled grid,
      then merged. */
  method RoofStage(g: Grid, rngRoofs: nat -> real) returns (roofs: seq<Roofs.Roof>, roofed: Grid, roofCells: set<Pos>)
    requires Shaped(g, GRID_ROWS, GRID_COLS)
    requires forall k :: 0.0 <= rngRoofs(k) < 1.0
    ensures roofCells <= OpenCells(g, GRID_ROWS, GRID_COLS)
    ensures RoofsMarked(g, roofed, roofCells)
    ensures |roofs| <= 3 * |roofCells| && RoofsMerged(roofs)
  {
    var slabs;
    slabs, roofed, roofCells := Roofs.GenerateIndividualRoofs(g, GRID_ROWS, GRID_COLS, rngRoofs);
    assert ROOF_MERGE_SEGMENTS && !Roofs.OVERLAP_ROOFS;
    roofs := RoofMerge.MergeRoofs(slabs, RoofMerge.ROOF_MERGE_EPS);
    forall k | 0 <= k < |roofs| ensures roofs[k].thickness == ROOF_THICKNESS {
      assert RoofMerge.ThicknessOfSome(roofs[k].thickness, slabs);
    }
  }

  /** The grid half of `generate_grid`: perimeter, ramps, then interior
      walls on the shuffled candidate edges. */
  method GridStage(rngRamps: Rng, rngShuffle: Rng, rngWalls: Rng) returns (g: Grid, ramps: seq<Ramp>, placed: nat)
    ensures Shaped(g, GRID_ROWS, GRID_COLS)
    ensures HasPerimeter(g, GRID_ROWS, GRID_COLS) && Symmetric(g, GRID_ROWS, GRID_COLS)
    ensures placed <= WALL_NUM_SEGMENTS && |ramps| <= RAMP_COUNT
    ensures placed > 0 ==> AllConnected(g, GRID_ROWS, GRID_COLS)
    ensures WallsClearOfRamps(g, GRID_ROWS, GRID_COLS)
  {
    var rows, cols := GRID_ROWS, GRID_COLS;
    var g1;
    g1, ramps := RampStage(rngRamps);
    var edges := Candidates(rows, cols);
    edges := Shuffle(edges, rngShuffle);
    ShuffledInterior(Candidates(rows, cols), edges, rows, cols);
    ghost var kept;
    g, placed, kept := PlaceInteriorWalls(g1, rows, cols, edges, rngWalls);
    GrownKeepsPerimeter(g1, g, rows, cols);
    InteriorWallsClear(g1, g, rows, cols, kept, edges);
  }

  /** The perimeter grid with its ramps: the perimeter and the symmetry
      kept, at most RAMP_COUNT ramps, and no interior wall yet. */
  method RampStage(rngRamps: Rng) returns (g1: Grid, ramps: seq<Ramp>)
    ensures Shaped(g1, GRID_ROWS, GRID_COLS)
    ensures HasPerimeter(g1, GRID_ROWS, GRID_COLS) && Symmetric(g1, GRID_ROWS, GRID_COLS)
    ensures |ramps| <= RAMP_COUNT
    ensures forall e :: Interior(e, GRID_ROWS, GRID_COLS) ==> !Walled(g1, GRID_ROWS, GRID_COLS, e)
  {
    var rows, cols := GRID_ROWS, GRID_COLS;
    var g0 := Perimeter(rows, cols);
    PerimeterCorrect(rows, cols);
    var (g, rs, fps) := GenerateRamps(g0, cols, rows, rngRamps);
    GenerateRampsCorrect(g0, cols, rows, rngRamps);
    RampsKeepWalls(g0, g, rows, cols);
    forall e | Interior(e, rows, cols) ensures !Walled(g, rows, cols, e) {
      assert SameExceptRamps(g[e.row][e.col], g0[e.row][e.col]);
    }
    g1, ramps := g, rs;
  }

  /** No interior wall blocks a ramp. */
  ghost predicate WallsClearOfRamps(g: Grid, rows: int, cols: int)
    requires Shaped(g, rows, cols)
  {
    forall e :: Interior(e, rows, cols) && Walled(g, rows, cols, e) ==> !RampBlocked(g, rows, cols, e)
  }

  /** No interior wall of the final grid blocks a ramp: the ramp grid has
      no interior wall, and every placed wall passed the ramp test, whose
      answer placing never changes. */
  lemma InteriorWallsClear(g1: Grid, g: Grid, rows: int, cols: int, kept: set<Edge>, edges: seq<Edge>)
    requires rows >= 1 && cols >= 1 && Shaped(g1, rows, cols) && Shaped(g, rows, cols)
    requires forall e :: Interior(e, rows, cols) ==> !Walled(g1, rows, cols, e)
    requires Grown(g1, g, rows, cols) && WalledExactly(g1, g, rows, cols, kept)
    requires forall e :: e in edges ==> Interior(e, rows, cols)
    requires forall e :: e in kept ==> e in edges && !RampBlocked(g1, rows, cols, e)
    ensures WallsClearOfRamps(g, rows, cols)
  {
    forall e | Interior(e, rows, cols) && Walled(g, rows, cols, e) ensures !RampBlocked(g, rows, cols, e) {
      RampFlagsKept(g1, g, rows, cols, e);
    }
  }
}

=== FILE: navigation.dfy ===
/** Grid navigation of the sentries (server/src/systems/sentries/navigation.rs):
    the direction type, its velocity and opposite, the blocked test against
    walls, the field edge, ramps and other sentries, and the filters the
    movement code chooses a direction from. */
module Navigation {
  import W = Wrappers
  import M = MapGrid
  import R = Reachability
  import Walls

  /** A grid direction; `None` is standing still. East is +x (next column),
      south is +z (next row). */
  datatype GridDirection = None | East | North | West | South

  /** `GridDirection::ALL`: the four moving directions in their fixed order. */
  const ALL: seq<GridDirection> := [East, North, West, South]

  /** Patrol speed in metres per second. */
  const SENTRY_SPEED: real := 6.0

  /** `to_velocity`: patrol speed along the direction, nothing vertical. */
  function ToVelocity(d: GridDirection): (v: M.Velocity)
    ensures v.y == 0.0
    ensures d == None <==> v == M.Velocity(0.0, 0.0, 0.0)
    ensures d != None ==> (v.x == 0.0) != (v.z == 0.0)
  {
    match d
    case None => M.Velocity(0.0, 0.0, 0.0)
    case East => M.Velocity(SENTRY_SPEED, 0.0, 0.0)
    case North => M.Velocity(0.0, 0.0, -SENTRY_SPEED)
    case West => M.Velocity(-SENTRY_SPEED, 0.0, 0.0)
    case South => M.Velocity(0.0, 0.0, SENTRY_SPEED)
  }

  /** `opposite`: turning round; standing still stays still. */
  function Opposite(d: GridDirection): (o: GridDirection)
    ensures o == None <==> d == None
    ensures d != None ==> o != d
  {
    match d
    case None => None
    case East => West
    case North => South
    case West => East
    case South => North
  }

  /** `direction_from_velocity`: the sign of x decides first, then the sign
      of z; a velocity without either is `None`. */
  function DirectionFromVelocity(v: M.Velocity): (d: GridDirection)
    ensures d == East <==> v.x > 0.0
    ensures d == West <==> v.x < 0.0
    ensures d == North <==> v.x == 0.0 && v.z < 0.0
    ensures d == South <==> v.x == 0.0 && v.z > 0.0
  {
    if v.x > 0.0 then East
    else if v.x < 0.0 then West
    else if v.z < 0.0 then North
    else if v.z > 0.0 then South
    else None
  }

  /** Turning round twice is the identity, and the opposite of a velocity is
      its negation. */
  lemma OppositeInvolution(d: GridDirection)
    ensures Opposite(Opposite(d)) == d
    ensures ToVelocity(Opposite(d)) == M.Velocity(-ToVelocity(d).x, 0.0, -ToVelocity(d).z)
  {
  }

  /** A direction survives the trip through its velocity. */
  lemma VelocityRoundTrip(d: GridDirection)
    ensures DirectionFromVelocity(ToVelocity(d)) == d
  {
  }

  /** The cell one step along `d` from column `x`, row `z`, as (x, z). */
  function Next(d: GridDirection, x: int, z: int): (int, int)
  {
    match d
    case North => (x, z - 1)
    case South => (x, z + 1)
    case East => (x + 1, z)
    case West => (x - 1, z)
    case None => (x, z)
  }

  /** The wall flag of `cell` on the side `d` faces. */
  predicate WallOn(cell: M.Cell, d: GridDirection)
  {
    match d
    case None => false
    case East => cell.wallEast
    case North => cell.wallNorth
    case West => cell.wallWest
    case South => cell.wallSouth
  }

  /** The sentry occupancy grid, indexed `[row][col]`. */
  type SentryGrid = seq<seq<W.Option<nat>>>

  predicate GridsShaped(g: M.Grid, occ: SentryGrid)
  {
    M.Shaped(g, M.GRID_ROWS, M.GRID_COLS)
    && |occ| == M.GRID_ROWS && forall r :: 0 <= r < M.GRID_ROWS ==> |occ[r]| == M.GRID_COLS
  }

  predicate InField(x: int, z: int)
  {
    0 <= x < M.GRID_COLS && 0 <= z < M.GRID_ROWS
  }

  /** `is_blocked`: standing still is never blocked; a move is blocked by a
      wall on that side, by leaving the field, by a ramp cell, or by a cell
      another sentry holds. A cell the sentry holds itself does not block. */
  predicate IsBlocked(d: GridDirection, g: M.Grid, x: int, z: int, occ: SentryGrid, id: nat)
    requires GridsShaped(g, occ) && InField(x, z)
  {
    if d == None then false
    else if WallOn(g[z][x], d) then true
    else
      var (nx, nz) := Next(d, x, z);
      if !InField(nx, nz) then true
      else if g[nz][nx].hasRamp then true
      else occ[nz][nx].Some? && occ[nz][nx].value != id
  }

  /** Each cause blocks on its own, and an unblocked move lands on a free,
      ramp-less cell of the field with no wall in between. */
  lemma BlockedCauses(d: GridDirection, g: M.Grid, x: int, z: int, occ: SentryGrid, id: nat)
    requires GridsShaped(g, occ) && InField(x, z)
    ensures d == None ==> !IsBlocked(d, g, x, z, occ, id)
    ensures d != None && WallOn(g[z][x], d) ==> IsBlocked(d, g, x, z, occ, id)
    ensures d != None && !InField(Next(d, x, z).0, Next(d, x, z).1) ==> IsBlocked(d, g, x, z, occ, id)
    ensures d != None && InField(Next(d, x, z).0, Next(d, x, z).1) ==>
              var (nx, nz) := Next(d, x, z);
              && (g[nz][nx].hasRamp ==> IsBlocked(d, g, x, z, occ, id))
              && (occ[nz][nx] == W.Some(id) ==> (IsBlocked(d, g, x, z, occ, id) <==> WallOn(g[z][x], d) || g[nz][nx].hasRamp))
              && (occ[nz][nx].Some? && occ[nz][nx].value != id ==> IsBlocked(d, g, x, z, occ, id))
    ensures d != None && !IsBlocked(d, g, x, z, occ, id) ==>
              var (nx, nz) := Next(d, x, z);
              && InField(nx, nz) && !WallOn(g[z][x], d) && !g[nz][nx].hasRamp
              && (occ[nz][nx] == W.None || occ[nz][nx] == W.Some(id))
  {
  }

  /** Sentries walk the generator's graph: on a non-ramp cell an unblocked
      move is a step of the reachability search of the map generator. */
  lemma UnblockedIsStep(d: GridDirection, g: M.Grid, x: int, z: int, occ: SentryGrid, id: nat)
    requires GridsShaped(g, occ) && InField(x, z) && !g[z][x].hasRamp
    requires d != None && !IsBlocked(d, g, x, z, occ, id)
    ensures R.Step(g, M.GRID_ROWS, M.GRID_COLS, (z, x), (Next(d, x, z).1, Next(d, x, z).0))
  {
  }

  /** On a grid whose walls agree on both sides of each edge, a sentry that
      may move one way from a non-ramp cell it alone holds may move straight
      back. */
  lemma MoveReversible(d: GridDirection, g: M.Grid, x: int, z: int, occ: SentryGrid, id: nat)
    requires GridsShaped(g, occ) && InField(x, z) && Walls.Symmetric(g, M.GRID_ROWS, M.GRID_COLS)
    requires !g[z][x].hasRamp && (occ[z][x] == W.None || occ[z][x] == W.Some(id))
    requires d != None && !IsBlocked(d, g, x, z, occ, id)
    ensures var (nx, nz) := Next(d, x, z);
            InField(nx, nz) && Next(Opposite(d), nx, nz) == (x, z)
            && !IsBlocked(Opposite(d), g, nx, nz, occ, id)
  {
  }

  /** Order-preserving filter of `ds` by "not blocked". */
  function Unblocked(ds: seq<GridDirection>, g: M.Grid, x: int, z: int, occ: SentryGrid, id: nat): (r: seq<GridDirection>)
    requires GridsShaped(g, occ) && InField(x, z)
    ensures |r| <= |ds|
    ensures forall d :: d in r <==> d in ds && !IsBlocked(d, g, x, z, occ, id)
  {
    if ds == [] then []
    else
      var rest := Unblocked(ds[1..], g, x, z, occ, id);
      if IsBlocked(ds[0], g, x, z, occ, id) then rest else [ds[0]] + rest
  }

  /** `r` lists, in their order in `ds`, exactly the elements of `ds` that `keep` accepts. */
  predicate IsFilter(r: seq<GridDirection>, ds: seq<GridDirection>, keep: GridDirection -> bool)
  {
    if ds == [] then r == []
    else if keep(ds[0]) then |r| > 0 && r[0] == ds[0] && IsFilter(r[1..], ds[1..], keep)
    else IsFilter(r, ds[1..], keep)
  }

  /** `valid_directions`: the unblocked directions among ALL, in ALL's order;
      never `None`, and at most four. The source asserts the cell is in the
      field. */
  function ValidDirections(g: M.Grid, x: int, z: int, occ: SentryGrid, id: nat): (r: seq<GridDirection>)
    requires GridsShaped(g, occ) && InField(x, z)
    ensures |r| <= 4 && None !in r
    ensures forall d :: d in r <==> d != None && !IsBlocked(d, g, x, z, occ, id)
    ensures IsFilter(r, ALL, d => !IsBlocked(d, g, x, z, occ, id))
  {
    UnblockedIsFilter(ALL, g, x, z, occ, id);
    Unblocked(ALL, g, x, z, occ, id)
  }

  lemma {:induction false} UnblockedIsFilter(ds: seq<GridDirection>, g: M.Grid, x: int, z: int, occ: SentryGrid, id: nat)
    requires GridsShaped(g, occ) && InField(x, z)
    ensures IsFilter(Unblocked(ds, g, x, z, occ, id), ds, d => !IsBlocked(d, g, x, z, occ, id))
  {
    if ds != [] {
      UnblockedIsFilter(ds[1..], g, x, z, occ, id);
      var rest := Unblocked(ds[1..], g, x, z, occ, id);
      if !IsBlocked(ds[0], g, x, z, occ, id) {
        assert ([ds[0]] + rest)[1..] == rest;
      }
    }
  }

  /** `ahead_directions`: the given directions without the way back. */
  function AheadDirections(valid: seq<GridDirection>, current: GridDirection): (r: seq<GridDirection>)
    ensures |r| <= |valid|
    ensures forall d :: d in r <==> d in valid && d != Opposite(current)
    ensures IsFilter(r, valid, d => d != Opposite(current))
  {
    if valid == [] then []
    else
      var rest := AheadDirections(valid[1..], current);
      assert valid[0] != Opposite(current) ==> ([valid[0]] + rest)[1..] == rest;
      if valid[0] == Opposite(current) then rest else [valid[0]] + rest
  }

  /** Dropping the way back removes at most one entry from a list without
      repeats. */
  lemma AheadDropsAtMostOne(valid: seq<GridDirection>, current: GridDirection)
    requires forall i, j :: 0 <= i < j < |valid| ==> valid[i] != valid[j]
    ensures |valid| - 1 <= |AheadDirections(valid, current)|
    ensures Opposite(current) !in valid ==> AheadDirections(valid, current) == valid
  {
    if valid != [] {
      AheadDropsAtMostOne(valid[1..], current);
      if valid[0] == Opposite(current) {
        assert Opposite(current) !in valid[1..];
        AheadNothingToDrop(valid[1..], current);
      }
    }
  }

  lemma AheadNothingToDrop(valid: seq<GridDirection>, current: GridDirection)
    requires Opposite(current) !in valid
    ensures AheadDirections(valid, current) == valid
  {
    if valid != [] {
      AheadNothingToDrop(valid[1..], current);
    }
  }

  /** `pick_direction`: nothing from an empty list, otherwise the entry a
      random index draws. Generic, so the four-direction type of the older
      sentries shares it. */
  function PickDirection<D>(raw: nat, options: seq<D>): (r: W.Option<D>)
    ensures r.None? <==> options == []
    ensures r.Some? ==> r.value in options
  {
    if options == [] then W.None else W.Some(options[raw % |options|])
  }

  /** Every option can be drawn. */
  lemma PickReachesAll<D>(options: seq<D>, i: nat)
    requires i < |options|
    ensures PickDirection(i, options) == W.Some(options[i])
  {
  }
}

=== FILE: netserver.dfy ===
/** The game server's connection handling (server/src/systems/network/):
    routing client events, the login flow with its initial update and spawn
    position, the messages of logged-in players with the shot throttle, and
    the periodic state broadcast with its wrapping sequence number. The
    parts of the earlier server/src/systems/network.rs that differ are
    modelled alongside. */
module NetServer {
  import W = Wrappers
  import M = MapGrid
  import opened Protocol
  import B = Broadcast

  /** The server's tables. `entities` holds the players whose entity is
      alive; `bodies` the components of those that have them. Items and
      sentries are read for the update. */
  datatype World = World(
    players: B.Players, entities: set<nat>, bodies: map<nat, B.Body>,
    items: map<nat, B.ItemInfo>, sentries: map<nat, SentrySnap>)

  /** The iteration orders of the player, item and sentry tables. */
  datatype Orders = Orders(players: seq<nat>, items: seq<nat>, sentries: seq<nat>)

  ghost predicate OrdersFit(w: World, o: Orders)
  {
    B.Enumerates(o.players, w.players.Keys) && B.Enumerates(o.items, w.items.Keys)
    && B.Enumerates(o.sentries, w.sentries.Keys)
  }

  /** Every sentry the walk visits has its components (the source expects so). */
  predicate SentriesListed(w: World, o: Orders)
  {
    forall s :: s in o.sentries ==> s in w.sentries
  }

  /** A projectile request of an accepted shot: shooter, aim and whether the
      multi-shot power-up fans it out (the spawn geometry is not modelled). */
  datatype ShotRequest = ShotRequest(id: nat, faceDir: real, facePitch: real, multiShot: bool)

  /** The result of handling one event. */
  datatype Outcome = Outcome(w: World, out: seq<Out>, shots: seq<ShotRequest>)

  /** What the network task reports for a client. */
  datatype ClientEvent = Disconnected | Message(msg: ClientMsg)

  /** The environment the login flow reads: whether the Init send succeeds,
      the random draws of the spawn position, and the trigonometry of the
      initial facing. */
  datatype LoginEnv = LoginEnv(initSent: bool, cellDraws: W.Rng, offsetDraws: nat -> real,
                               atan2: (real, real) -> real)

  // ---------------------------------------------------------------------------
  // Event routing
  // ---------------------------------------------------------------------------

  /** `network_client_message_system`, one event: unknown ids are skipped; a
      disconnect removes the player and, if it was logged in, tells the
      others non-gracefully; a message goes to the login flow or, once
      logged in, to the message handler. The player table changes at once,
      but component inserts and despawns are queued until the system ends:
      positions, speeds and facings are read from `view`, the components as
      the frame began, while `w.entities` and `w.bodies` collect the queued
      writes in order. */
  function HandleEvent(w: World, view: map<nat, B.Body>, o: Orders, id: nat, ev: ClientEvent, now: real,
                       g: M.Grid, env: LoginEnv): (r: Outcome)
    requires M.Shaped(g, M.GRID_ROWS, M.GRID_COLS) && SentriesListed(w, o)
    ensures r.w.items == w.items && r.w.sentries == w.sentries
    ensures forall x :: x != id ==> (x in r.w.players <==> x in w.players) && (x in r.w.players ==> r.w.players[x] == w.players[x])
    ensures id !in w.players ==> r == Outcome(w, [], [])
    ensures id in w.players && ev.Disconnected? ==> r == Disconnect(w, o, id)
    ensures id in w.players && ev.Message? && !w.players[id].loggedIn ==>
              r == HandleLogin(w, view, o, id, ev.msg, g, env)
    ensures id in w.players && ev.Message? && w.players[id].loggedIn ==>
              r == Dispatch(w, view, o, id, ev.msg, now)
  {
    if id !in w.players then Outcome(w, [], [])
    else
      match ev
      case Disconnected => Disconnect(w, o, id)
      case Message(msg) =>
        if w.players[id].loggedIn then Dispatch(w, view, o, id, msg, now)
        else HandleLogin(w, view, o, id, msg, g, env)
  }

  /** The login environments of the events after the first. */
  function Later(env: nat -> LoginEnv): (later: nat -> LoginEnv)
    ensures forall k: nat :: later(k) == env(k + 1)
  {
    (k: nat) => env(k + 1)
  }

  /** The events of one frame, in arrival order, each seeing the player table
      the earlier ones left and the components of `view`; the i-th event's
      login environment is `env(i)`. */
  function HandleEvents(w: World, view: map<nat, B.Body>, o: Orders, evs: seq<(nat, ClientEvent)>, now: real,
                        g: M.Grid, env: nat -> LoginEnv): (r: Outcome)
    requires M.Shaped(g, M.GRID_ROWS, M.GRID_COLS) && SentriesListed(w, o)
    ensures r.w.items == w.items && r.w.sentries == w.sentries
    ensures forall x :: x in r.w.players ==> x in w.players
    ensures forall m :: m in r.out && m.Send? && m.msg.SSpeed? ==> m.msg.id in view && m.msg.pos == view[m.msg.id].pos
    ensures forall s :: s in r.shots ==> s.id in view
    decreases |evs|
  {
    if evs == [] then Outcome(w, [], [])
    else
      var first := HandleEvent(w, view, o, evs[0].0, evs[0].1, now, g, env(0));
      EventReadsView(w, view, o, evs[0].0, evs[0].1, now, g, env(0));
      var rest := HandleEvents(first.w, view, o, evs[1..], now, g, Later(env));
      Outcome(rest.w, first.out + rest.out, first.shots + rest.shots)
  }

  /** `r` passes on a position only from `view`, and asks for projectiles
      only for a player with a body in `view`. */
  predicate ReadsView(r: Outcome, view: map<nat, B.Body>)
  {
    && (forall m :: m in r.out && m.Send? && m.msg.SSpeed? ==> m.msg.id in view && m.msg.pos == view[m.msg.id].pos)
    && (forall s :: s in r.shots ==> s.id in view)
  }

  /** The login flow passes on no speed change and asks for no projectile. */
  lemma LoginReadsView(w: World, view: map<nat, B.Body>, o: Orders, id: nat, msg: ClientMsg, g: M.Grid, env: LoginEnv)
    requires M.Shaped(g, M.GRID_ROWS, M.GRID_COLS) && id in w.players && SentriesListed(w, o)
    ensures ReadsView(HandleLogin(w, view, o, id, msg, g, env), view)
  {
    LoginMessages(w, view, o, id, msg, g, env);
  }

  /** An event passes on a position only from `view`, and asks for
      projectiles only for a player with a body in `view`. */
  lemma EventReadsView(w: World, view: map<nat, B.Body>, o: Orders, id: nat, ev: ClientEvent, now: real,
                       g: M.Grid, env: LoginEnv)
    requires M.Shaped(g, M.GRID_ROWS, M.GRID_COLS) && SentriesListed(w, o)
    ensures ReadsView(HandleEvent(w, view, o, id, ev, now, g, env), view)
  {
    if id in w.players && ev.Message? {
      if !w.players[id].loggedIn {
        assert HandleEvent(w, view, o, id, ev, now, g, env) == HandleLogin(w, view, o, id, ev.msg, g, env);
        LoginReadsView(w, view, o, id, ev.msg, g, env);
      } else {
        assert HandleEvent(w, view, o, id, ev, now, g, env) == Dispatch(w, view, o, id, ev.msg, now);
        DispatchReadsView(w, view, o, id, ev.msg, now);
      }
    }
  }

  /** The message handler passes on a position only from `view`, and asks
      for projectiles only for a player with a body in `view`. */
  lemma DispatchReadsView(w: World, view: map<nat, B.Body>, o: Orders, id: nat, msg: ClientMsg, now: real)
    requires id in w.players
    ensures ReadsView(Dispatch(w, view, o, id, msg, now), view)
  {
    if msg.CShot? {
      assert Dispatch(w, view, o, id, msg, now) == HandleShot(w, view, o, id, msg.faceDir, msg.facePitch, now);
    }
  }

  /** The login flow's messages do not depend on the component writes
      already queued: it reads the components of `view` only. */
  lemma LoginUnreadQueued(w: World, entities: set<nat>, bodies: map<nat, B.Body>, view: map<nat, B.Body>, o: Orders,
                          id: nat, msg: ClientMsg, g: M.Grid, env: LoginEnv)
    requires M.Shaped(g, M.GRID_ROWS, M.GRID_COLS) && id in w.players && SentriesListed(w, o)
    ensures var r1 := HandleLogin(w, view, o, id, msg, g, env);
            var r2 := HandleLogin(w.(entities := entities, bodies := bodies), view, o, id, msg, g, env);
            r1.out == r2.out && r1.shots == r2.shots && r1.w.players == r2.w.players
  {
    if msg.CLogin? {
      var w1 := LoggedInAs(w, id, msg.name);
      var w2 := LoggedInAs(w.(entities := entities, bodies := bodies), id, msg.name);
      assert w2 == w1.(entities := entities, bodies := bodies);
    }
  }

  /** What one event sends and which projectiles it asks for, and the player
      table it leaves, do not depend on the component writes already queued. */
  lemma QueuedWritesUnreadOnce(w: World, entities: set<nat>, bodies: map<nat, B.Body>, view: map<nat, B.Body>, o: Orders,
                               id: nat, ev: ClientEvent, now: real, g: M.Grid, env: LoginEnv)
    requires M.Shaped(g, M.GRID_ROWS, M.GRID_COLS) && SentriesListed(w, o)
    ensures var r1 := HandleEvent(w, view, o, id, ev, now, g, env);
            var r2 := HandleEvent(w.(entities := entities, bodies := bodies), view, o, id, ev, now, g, env);
            r1.out == r2.out && r1.shots == r2.shots && r1.w.players == r2.w.players
  {
    var w2 := w.(entities := entities, bodies := bodies);
    if id in w.players && ev.Message? {
      if !w.players[id].loggedIn {
        LoginUnreadQueued(w, entities, bodies, view, o, id, ev.msg, g, env);
      } else {
        assert HandleEvent(w, view, o, id, ev, now, g, env) == Dispatch(w, view, o, id, ev.msg, now);
        assert HandleEvent(w2, view, o, id, ev, now, g, env) == Dispatch(w2, view, o, id, ev.msg, now);
        DispatchUnreadQueued(w, entities, bodies, view, o, id, ev.msg, now);
      }
    }
  }

  /** The message handler's messages and projectile requests do not depend
      on the component writes already queued. */
  lemma DispatchUnreadQueued(w: World, entities: set<nat>, bodies: map<nat, B.Body>, view: map<nat, B.Body>, o: Orders,
                             id: nat, msg: ClientMsg, now: real)
    requires id in w.players
    ensures var r1 := Dispatch(w, view, o, id, msg, now);
            var r2 := Dispatch(w.(entities := entities, bodies := bodies), view, o, id, msg, now);
            r1.out == r2.out && r1.shots == r2.shots && r1.w.players == r2.w.players
  {
  }

  /** Over a whole frame, too, the queued component writes are never read
      back: the same messages go out and the same projectiles are asked for. */
  lemma {:induction false} QueuedWritesUnread(w: World, entities: set<nat>, bodies: map<nat, B.Body>, view: map<nat, B.Body>,
                                              o: Orders, evs: seq<(nat, ClientEvent)>, now: real, g: M.Grid, env: nat -> LoginEnv)
    requires M.Shaped(g, M.GRID_ROWS, M.GRID_COLS) && SentriesListed(w, o)
    ensures var r1 := HandleEvents(w, view, o, evs, now, g, env);
            var r2 := HandleEvents(w.(entities := entities, bodies := bodies), view, o, evs, now, g, env);
            r1.out == r2.out && r1.shots == r2.shots && r1.w.players == r2.w.players
    decreases |evs|
  {
    if evs != [] {
      var w2 := w.(entities := entities, bodies := bodies);
      var f1 := HandleEvent(w, view, o, evs[0].0, evs[0].1, now, g, env(0));
      var f2 := HandleEvent(w2, view, o, evs[0].0, evs[0].1, now, g, env(0));
      QueuedWritesUnreadOnce(w, entities, bodies, view, o, evs[0].0, evs[0].1, now, g, env(0));
      assert f2.w == f1.w.(entities := f2.w.entities, bodies := f2.w.bodies);
      QueuedWritesUnread(f1.w, f2.w.entities, f2.w.bodies, view, o, evs[1..], now, g, Later(env));
    }
  }

  /** A Login and a speed change in the same frame: the new speed lands on
      the fresh body, but it is not passed on, since the body was not there
      when the frame began. */
  lemma LoginThenSpeed(w: World, o: Orders, id: nat, name: string, speed: Speed, now: real, g: M.Grid, env: nat -> LoginEnv)
    requires M.Shaped(g, M.GRID_ROWS, M.GRID_COLS) && SentriesListed(w, o)
    requires id in w.players && !w.players[id].loggedIn && id !in w.bodies && env(0).initSent
    ensures var r := HandleEvents(w, w.bodies, o, [(id, Message(CLogin(name))), (id, Message(CSpeed(speed)))], now, g, env);
            && id in r.w.bodies && r.w.bodies[id].speed == speed
            && forall m :: m in r.out ==> !(m.Send? && m.msg.SSpeed?)
  {
    var e2 := (id, Message(CSpeed(speed)));
    var f := HandleEvent(w, w.bodies, o, id, Message(CLogin(name)), now, g, env(0));
    assert f == HandleLogin(w, w.bodies, o, id, CLogin(name), g, env(0));
    LoginMessages(w, w.bodies, o, id, CLogin(name), g, env(0));
    assert id in f.w.bodies && f.w.players[id].loggedIn;
    var s := HandleEvent(f.w, w.bodies, o, id, Message(CSpeed(speed)), now, g, Later(env)(0));
    assert s == Dispatch(f.w, w.bodies, o, id, CSpeed(speed), now);
    assert s.out == [] && s.w.bodies == f.w.bodies[id := f.w.bodies[id].(speed := speed)];
    SecondOfTwo(w, w.bodies, o, (id, Message(CLogin(name))), e2, now, g, env);
  }

  /** A frame of two events: the second event runs on the world the first
      leaves, and their messages and projectile requests follow each other. */
  lemma SecondOfTwo(w: World, view: map<nat, B.Body>, o: Orders, e1: (nat, ClientEvent), e2: (nat, ClientEvent),
                    now: real, g: M.Grid, env: nat -> LoginEnv)
    requires M.Shaped(g, M.GRID_ROWS, M.GRID_COLS) && SentriesListed(w, o)
    ensures var f := HandleEvent(w, view, o, e1.0, e1.1, now, g, env(0));
            var s := HandleEvent(f.w, view, o, e2.0, e2.1, now, g, Later(env)(0));
            HandleEvents(w, view, o, [e1, e2], now, g, env) == Outcome(s.w, f.out + s.out, f.shots + s.shots)
  {
    var evs := [e1, e2];
    assert evs[1..] == [e2] && [e2][1..] == [];
    var f := HandleEvent(w, view, o, e1.0, e1.1, now, g, env(0));
    var s := HandleEvent(f.w, view, o, e2.0, e2.1, now, g, Later(env)(0));
    assert HandleEvents(s.w, view, o, [], now, g, Later(Later(env))) == Outcome(s.w, [], []);
    assert HandleEvents(f.w, view, o, [e2], now, g, Later(env)) == Outcome(s.w, s.out + [], s.shots + []);
    assert s.out + [] == s.out && s.shots + [] == s.shots;
  }

  /** A Login and a shot in the same frame: the shot is recorded and told to
      the others, but no projectile is asked for. */
  lemma LoginThenShot(w: World, o: Orders, id: nat, name: string, dir: real, pitch: real, now: real,
                      g: M.Grid, env: nat -> LoginEnv)
    requires M.Shaped(g, M.GRID_ROWS, M.GRID_COLS) && SentriesListed(w, o)
    requires id in w.players && !w.players[id].loggedIn && id !in w.bodies && !Throttled(w.players[id], now)
    ensures var r := HandleEvents(w, w.bodies, o, [(id, Message(CLogin(name))), (id, Message(CShot(dir, pitch)))], now, g, env);
            && r.shots == [] && id in r.w.players && r.w.players[id].lastShotTime == W.Some(now)
  {
    var f := HandleEvent(w, w.bodies, o, id, Message(CLogin(name)), now, g, env(0));
    assert f == HandleLogin(w, w.bodies, o, id, CLogin(name), g, env(0));
    assert f.w.players[id].loggedIn && f.shots == [];
    var s := HandleEvent(f.w, w.bodies, o, id, Message(CShot(dir, pitch)), now, g, Later(env)(0));
    assert s == HandleShot(f.w, w.bodies, o, id, dir, pitch, now);
    SecondOfTwo(w, w.bodies, o, (id, Message(CLogin(name))), (id, Message(CShot(dir, pitch))), now, g, env);
  }

  /** A Logoff and a speed change in the same frame: the entity is gone when
      the frame ends, yet the change is still passed on, with the position
      the frame began with. */
  lemma LogoffThenSpeed(w: World, o: Orders, id: nat, speed: Speed, now: real, g: M.Grid, env: nat -> LoginEnv)
    requires M.Shaped(g, M.GRID_ROWS, M.GRID_COLS) && SentriesListed(w, o)
    requires id in w.players && w.players[id].loggedIn && id in w.bodies
    ensures var r := HandleEvents(w, w.bodies, o, [(id, Message(CLogoff)), (id, Message(CSpeed(speed)))], now, g, env);
            && id !in r.w.entities && id !in r.w.bodies
            && forall x :: Send(x, SSpeed(id, speed, w.bodies[id].pos)) in r.out <==>
                 x in o.players && x in B.LoggedIn(w.players) && x != id
  {
    var f := HandleEvent(w, w.bodies, o, id, Message(CLogoff), now, g, env(0));
    assert f == Dispatch(w, w.bodies, o, id, CLogoff, now);
    var s := HandleEvent(f.w, w.bodies, o, id, Message(CSpeed(speed)), now, g, Later(env)(0));
    assert s == Dispatch(f.w, w.bodies, o, id, CSpeed(speed), now);
    SecondOfTwo(w, w.bodies, o, (id, Message(CLogoff)), (id, Message(CSpeed(speed))), now, g, env);
  }

  /** A known player disconnects: its record and entity go, and the logged-in
      others learn of it non-gracefully, but only if it had logged in. */
  function Disconnect(w: World, o: Orders, id: nat): (r: Outcome)
    requires id in w.players
    ensures r.w == w.(players := w.players - {id}, entities := w.entities - {id}, bodies := w.bodies - {id})
    ensures r.shots == []
    ensures !w.players[id].loggedIn ==> r.out == []
    ensures w.players[id].loggedIn ==>
              forall x :: Send(x, SLogoff(id, false)) in r.out <==> x in o.players && x in B.LoggedIn(w.players) && x != id
    ensures forall m :: m in r.out ==> m == Send(m.to, SLogoff(id, false))
  {
    var players := w.players - {id};
    var w2 := w.(players := players, entities := w.entities - {id}, bodies := w.bodies - {id});
    if w.players[id].loggedIn then
      Outcome(w2, B.BroadcastToOthers(players, o.players, id, SLogoff(id, false)), [])
    else
      Outcome(w2, [], [])
  }

  // ---------------------------------------------------------------------------
  // Login
  // ---------------------------------------------------------------------------

  /** The name a login gets: the one given, or "Player {id}" for an empty one. */
  function LoginName(id: nat, given: string): (name: string)
    ensures name != ""
    ensures given != "" ==> name == given
  {
    if given == "" then "Player " + W.NatToString(id) else given
  }

  /** A fresh player's speed: idle (level 0), moving toward the origin. */
  const INITIAL_SPEED: Speed := Speed(0, M.PI_F32)

  /** The snapshot without player `id`. */
  function Without(s: seq<(nat, PlayerSnap)>, id: nat): (r: seq<(nat, PlayerSnap)>)
    ensures forall x :: x in Ids(r) <==> x in Ids(s) && x != id
    ensures Distinct(Ids(s)) ==> Distinct(Ids(r))
  {
    if s == [] then []
    else
      var rest := Without(s[1..], id);
      assert Ids(s) == [s[0].0] + Ids(s[1..]);
      if s[0].0 == id then rest
      else
        assert Ids([s[0]] + rest) == [s[0].0] + Ids(rest);
        assert Distinct(Ids(s)) ==> s[0].0 !in Ids(s[1..]);
        [s[0]] + rest
  }

  /** The world once player `id` has logged in under the name `given` asks for. */
  function LoggedInAs(w: World, id: nat, given: string): (w1: World)
    requires id in w.players
    ensures w1 == w.(players := w1.players) && w1.players.Keys == w.players.Keys
    ensures w1.players[id].loggedIn && w1.players[id].name == LoginName(id, given) && w1.players[id].hits == w.players[id].hits
    ensures forall x :: x in w.players && x != id ==> w1.players[x] == w.players[x]
  {
    w.(players := w.players[id := w.players[id].(loggedIn := true, name := LoginName(id, given))])
  }

  /** `handle_login_message`. A Login marks the player logged in under its
      name (a default for an empty one) and sends Init; when that send fails
      nothing else happens. Otherwise the player gets a spawn position, the
      initial update (sequence 0: the others' snapshot, then itself, then
      items and sentries), its components (queued), and the others get a
      Login. The spawn search and the snapshot read the updated player table
      and the components of `view`. Any other message is ignored: the Login
      may still be on its way. */
  function HandleLogin(w: World, view: map<nat, B.Body>, o: Orders, id: nat, msg: ClientMsg, g: M.Grid, env: LoginEnv): (r: Outcome)
    requires M.Shaped(g, M.GRID_ROWS, M.GRID_COLS)
    requires id in w.players && SentriesListed(w, o)
    ensures !msg.CLogin? ==> r == Outcome(w, [], [])
    ensures r.shots == []
    ensures msg.CLogin? ==>
              && id in r.w.players && r.w.players[id].loggedIn
              && r.w.players == w.players[id := w.players[id].(loggedIn := true, name := LoginName(id, msg.name))]
              && r.w.entities == w.entities && r.w.items == w.items && r.w.sentries == w.sentries
              && r.shots == []
    ensures msg.CLogin? && !env.initSent ==> r.w.bodies == w.bodies && r.out == []
    ensures msg.CLogin? && env.initSent ==> id in r.w.bodies
  {
    match msg
    case CLogin(given) =>
      var w1 := LoggedInAs(w, id, given);
      if !env.initSent then Outcome(w1, [], [])
      else
        var player := LoginSnap(w1.players, w.sentries, view, id, given, g, env);
        var update := InitialUpdate(w1, view, o, id, player);
        var body := B.Body(player.pos, INITIAL_SPEED, player.faceDir);
        Outcome(w1.(bodies := w.bodies[id := body]), [Send(id, SInit(id)), Send(id, update)]
                    + B.BroadcastToOthers(w1.players, o.players, id, SLogin(id, player)), [])
    case _ => Outcome(w, [], [])
  }

  /** The login flow sends only Init, the initial update and Login
      announcements. */
  lemma LoginMessages(w: World, view: map<nat, B.Body>, o: Orders, id: nat, msg: ClientMsg, g: M.Grid, env: LoginEnv)
    requires M.Shaped(g, M.GRID_ROWS, M.GRID_COLS) && id in w.players && SentriesListed(w, o)
    ensures forall m :: m in HandleLogin(w, view, o, id, msg, g, env).out ==>
              m.Send? && (m.msg.SInit? || m.msg.SUpdate? || m.msg.SLogin?)
  {
    if msg.CLogin? && env.initSent {
      var w1 := LoggedInAs(w, id, msg.name);
      var player := LoginSnap(w1.players, w.sentries, view, id, msg.name, g, env);
      var announce := B.BroadcastToOthers(w1.players, o.players, id, SLogin(id, player));
      var out := HandleLogin(w, view, o, id, msg, g, env).out;
      var head := [Send(id, SInit(id)), Send(id, InitialUpdate(w1, view, o, id, player))];
      assert out == head + announce;
      forall m | m in out
        ensures m.Send? && (m.msg.SInit? || m.msg.SUpdate? || m.msg.SLogin?)
      {
        if m !in announce {
          assert m in head;
        }
      }
    }
  }

  /** The newcomer as replicated: name, spawn position, idle speed, facing
      the origin, its hits and no power-up. */
  function LoginSnap(players: B.Players, sentries: map<nat, SentrySnap>, view: map<nat, B.Body>, id: nat, given: string,
                     g: M.Grid, env: LoginEnv): (p: PlayerSnap)
    requires M.Shaped(g, M.GRID_ROWS, M.GRID_COLS) && id in players
    ensures p.name == LoginName(id, given) && p.hits == players[id].hits
    ensures p.speed == INITIAL_SPEED
    ensures !p.stunned && !p.speedUp && !p.multiShotUp && !p.phasingUp && !p.sentryHuntUp
  {
    var pos := SpawnPosition(g, Occupants(players, sentries, view), env.cellDraws, env.offsetDraws);
    PlayerSnap(LoginName(id, given), pos, INITIAL_SPEED, env.atan2(-pos.x, -pos.z), players[id].hits,
               false, false, false, false, false)
  }

  /** The positions a spawn keeps away from: the logged-in players with
      components as the frame began, and the sentries. */
  function Occupants(players: B.Players, sentries: map<nat, SentrySnap>, view: map<nat, B.Body>): set<M.Position>
  {
    (set id | id in players && players[id].loggedIn && id in view :: view[id].pos)
    + (set id | id in sentries :: sentries[id].pos)
  }

  /** The occupants are exactly the positions of the logged-in players with
      components as the frame began and of the sentries. */
  lemma OccupantsExactly(players: B.Players, sentries: map<nat, SentrySnap>, view: map<nat, B.Body>, p: M.Position)
    ensures p in Occupants(players, sentries, view) <==>
              (exists id :: id in players && players[id].loggedIn && id in view && view[id].pos == p)
              || (exists id :: id in sentries && sentries[id].pos == p)
  {
  }

  /** The initial update of a login: sequence number 0, every other
      logged-in player with components, then the newcomer, then the shown
      items and the sentries. */
  function InitialUpdate(w: World, view: map<nat, B.Body>, o: Orders, id: nat, player: PlayerSnap): (m: ServerMsg)
    requires SentriesListed(w, o)
  {
    var others := Without(B.Snapshot(w.players, view, o.players), id);
    SUpdate(0, others + [(id, player)], B.CollectItems(w.items, o.items), B.CollectSentries(o.sentries, w.sentries))
  }

  /** The initial update lists the newcomer exactly once, last, and lists
      every other logged-in player with components. */
  lemma InitialUpdateListsNewcomerOnce(w: World, view: map<nat, B.Body>, o: Orders, id: nat, player: PlayerSnap)
    requires OrdersFit(w, o)
    ensures var m := InitialUpdate(w, view, o, id, player);
            && |m.players| > 0 && m.players[|m.players| - 1] == (id, player)
            && Distinct(Ids(m.players))
            && forall x :: x in Ids(m.players) <==> x == id || (x in B.LoggedIn(w.players) && x in view)
  {
    var others := Without(B.Snapshot(w.players, view, o.players), id);
    var all := others + [(id, player)];
    assert Ids(all) == Ids(others) + [id];
    DistinctSnoc(Ids(others), id);
  }

  /** A successful login sends Init and then the initial update to the
      newcomer, queues its body at the spawn position, and announces it, and
      nothing else, to exactly the other logged-in players. */
  lemma LoginAnnounced(w: World, view: map<nat, B.Body>, o: Orders, id: nat, name: string, g: M.Grid, env: LoginEnv)
    requires M.Shaped(g, M.GRID_ROWS, M.GRID_COLS) && id in w.players && SentriesListed(w, o) && env.initSent
    ensures var w1 := LoggedInAs(w, id, name);
            var snap := LoginSnap(w1.players, w.sentries, view, id, name, g, env);
            var r := HandleLogin(w, view, o, id, CLogin(name), g, env);
            && |r.out| >= 2 && r.out[0] == Send(id, SInit(id))
            && r.out[1] == Send(id, InitialUpdate(w1, view, o, id, snap))
            && r.w.bodies == w.bodies[id := B.Body(snap.pos, INITIAL_SPEED, snap.faceDir)]
            && (forall m :: m in r.out[2..] ==> m == Send(m.to, SLogin(id, snap)))
            && forall x :: Send(x, SLogin(id, snap)) in r.out[2..] <==>
                 x in o.players && x in B.LoggedIn(w.players) && x != id
  {
    var w1 := LoggedInAs(w, id, name);
    var r := HandleLogin(w, view, o, id, CLogin(name), g, env);
    var player := LoginSnap(w1.players, w.sentries, view, id, name, g, env);
    var update := InitialUpdate(w1, view, o, id, player);
    var announce := B.BroadcastToOthers(w1.players, o.players, id, SLogin(id, player));
    assert r.out == [Send(id, SInit(id)), Send(id, update)] + announce;
    assert r.out[2..] == announce;
    OthersStayLoggedIn(w.players, id, w1.players[id]);
  }

  /** Changing one player's record leaves who else is logged in alone. */
  lemma OthersStayLoggedIn(players: B.Players, id: nat, info: B.PlayerInfo)
    ensures forall x :: x != id ==> (x in B.LoggedIn(players[id := info]) <==> x in B.LoggedIn(players))
  {
  }

  /** A failed Init send leaves the player logged in under its name but
      without components, and nothing is sent. */
  lemma LoginInitFailure(w: World, view: map<nat, B.Body>, o: Orders, id: nat, name: string, g: M.Grid, env: LoginEnv)
    requires M.Shaped(g, M.GRID_ROWS, M.GRID_COLS) && id in w.players && SentriesListed(w, o) && !env.initSent
    ensures var r := HandleLogin(w, view, o, id, CLogin(name), g, env);
            r.out == [] && r.w.bodies == w.bodies && r.w.players[id].loggedIn
  {
  }

  // ---------------------------------------------------------------------------
  // Spawn position
  // ---------------------------------------------------------------------------

  /** The least distance, in metres, a spawn keeps from players and sentries. */
  const MIN_DISTANCE: real := 10.0

  /** Half the side of the inner half of a cell, where spawns land. */
  const SPAWN_RANGE: real := M.GRID_SIZE * 0.5 / 2.0

  /** The ramp-free cells of `row`, which is row `r`, from column `c` on, in order. */
  function FreeInRow(row: seq<M.Cell>, r: int, c: int): (cells: seq<(int, int)>)
    ensures forall p :: p in cells <==> p.0 == r && c <= p.1 < c + |row| && !row[p.1 - c].hasRamp
    decreases |row|
  {
    if row == [] then []
    else
      var rest := FreeInRow(row[1..], r, c + 1);
      assert forall k :: 0 <= k < |row| - 1 ==> row[1..][k] == row[k + 1];
      (if row[0].hasRamp then [] else [(r, c)]) + rest
  }

  /** The ramp-free cells of `rows`, numbered from row `r` on, in row-major order. */
  function FreeCellsOf(rows: seq<seq<M.Cell>>, r: int): (cells: seq<(int, int)>)
    ensures forall p :: p in cells <==>
              r <= p.0 < r + |rows| && 0 <= p.1 < |rows[p.0 - r]| && !rows[p.0 - r][p.1].hasRamp
    decreases |rows|
  {
    if rows == [] then []
    else
      var rest := FreeCellsOf(rows[1..], r + 1);
      assert forall k :: 0 <= k < |rows| - 1 ==> rows[1..][k] == rows[k + 1];
      FreeInRow(rows[0], r, 0) + rest
  }

  /** `valid_cells`: the ramp-free cells of the grid as (row, col), in
      row-major order. */
  function FreeCells(g: M.Grid): (cells: seq<(int, int)>)
    requires M.Shaped(g, M.GRID_ROWS, M.GRID_COLS)
    ensures forall p :: p in cells <==> 0 <= p.0 < M.GRID_ROWS && 0 <= p.1 < M.GRID_COLS && !g[p.0][p.1].hasRamp
  {
    FreeCellsOf(g, 0)
  }

  /** An offset draw clamped into [-SPAWN_RANGE, SPAWN_RANGE]. */
  function Offset(v: real): (o: real)
    ensures -SPAWN_RANGE <= o <= SPAWN_RANGE
  {
    if v < -SPAWN_RANGE then -SPAWN_RANGE else if v > SPAWN_RANGE then SPAWN_RANGE else v
  }

  /** `q` lies closer than MIN_DISTANCE to `pos` on the ground plane. */
  predicate TooClose(pos: M.Position, q: M.Position)
  {
    (pos.x - q.x) * (pos.x - q.x) + (pos.z - q.z) * (pos.z - q.z) < MIN_DISTANCE * MIN_DISTANCE
  }

  /** `pos` keeps MIN_DISTANCE from every position in `others`. */
  predicate FarFrom(pos: M.Position, others: set<M.Position>)
  {
    forall q :: q in others ==> !TooClose(pos, q)
  }

  /** The candidate of attempt `a`: a drawn free cell's centre moved by two
      drawn offsets. */
  function Candidate(cells: seq<(int, int)>, cellDraws: W.Rng, offsetDraws: nat -> real, a: nat): (pos: M.Position)
    requires cells != []
  {
    var (row, col) := cells[cellDraws(a) % |cells|];
    var center := M.CellCenter(col, row);
    M.Position(center.x + Offset(offsetDraws(2 * a)), 0.0, center.z + Offset(offsetDraws(2 * a + 1)))
  }

  /** A spawn position lies in the inner half of a ramp-free cell. */
  predicate InsideFreeCell(g: M.Grid, pos: M.Position)
    requires M.Shaped(g, M.GRID_ROWS, M.GRID_COLS)
  {
    exists row, col :: 0 <= row < M.GRID_ROWS && 0 <= col < M.GRID_COLS && !g[row][col].hasRamp
      && M.CellCenter(col, row).x - SPAWN_RANGE <= pos.x <= M.CellCenter(col, row).x + SPAWN_RANGE
      && M.CellCenter(col, row).z - SPAWN_RANGE <= pos.z <= M.CellCenter(col, row).z + SPAWN_RANGE
      && pos.y == 0.0
  }

  /** Attempts a.. of the search; the origin when they run out. */
  function SpawnFrom(g: M.Grid, cells: seq<(int, int)>, others: set<M.Position>, cellDraws: W.Rng,
                     offsetDraws: nat -> real, a: nat): (pos: M.Position)
    requires M.Shaped(g, M.GRID_ROWS, M.GRID_COLS) && cells != []
    requires forall p :: p in cells ==> 0 <= p.0 < M.GRID_ROWS && 0 <= p.1 < M.GRID_COLS && !g[p.0][p.1].hasRamp
    ensures pos == M.Position(0.0, 0.0, 0.0) || (InsideFreeCell(g, pos) && FarFrom(pos, others))
    decreases M.MAX_CELL_ATTEMPTS - a
  {
    if a >= M.MAX_CELL_ATTEMPTS then M.Position(0.0, 0.0, 0.0)
    else
      var pos := Candidate(cells, cellDraws, offsetDraws, a);
      if FarFrom(pos, others) then
        var (row, col) := cells[cellDraws(a) % |cells|];
        assert cells[cellDraws(a) % |cells|] in cells;
        assert InsideFreeCell(g, pos) by {
          assert 0 <= row < M.GRID_ROWS && 0 <= col < M.GRID_COLS && !g[row][col].hasRamp;
        }
        pos
      else SpawnFrom(g, cells, others, cellDraws, offsetDraws, a + 1)
  }

  /** `generate_player_spawn_position`: the origin when every cell is a
      ramp or a hundred draws all land too close to somebody; otherwise a
      point of the inner half of a ramp-free cell, at least MIN_DISTANCE
      from every logged-in player and every sentry. */
  function SpawnPosition(g: M.Grid, others: set<M.Position>, cellDraws: W.Rng, offsetDraws: nat -> real): (pos: M.Position)
    requires M.Shaped(g, M.GRID_ROWS, M.GRID_COLS)
    ensures pos == M.Position(0.0, 0.0, 0.0) || (InsideFreeCell(g, pos) && FarFrom(pos, others))
    ensures FreeCells(g) == [] ==> pos == M.Position(0.0, 0.0, 0.0)
  {
    var cells := FreeCells(g);
    if cells == [] then M.Position(0.0, 0.0, 0.0)
    else SpawnFrom(g, cells, others, cellDraws, offsetDraws, 0)
  }

  /** The first attempt that lands far enough from everybody is taken. */
  lemma SpawnTakesFirstFarCandidate(g: M.Grid, others: set<M.Position>, cellDraws: W.Rng, offsetDraws: nat -> real, a: nat)
    requires M.Shaped(g, M.GRID_ROWS, M.GRID_COLS) && FreeCells(g) != [] && a < M.MAX_CELL_ATTEMPTS
    requires forall b :: 0 <= b < a ==> !FarFrom(Candidate(FreeCells(g), cellDraws, offsetDraws, b), others)
    requires FarFrom(Candidate(FreeCells(g), cellDraws, offsetDraws, a), others)
    ensures SpawnPosition(g, others, cellDraws, offsetDraws) == Candidate(FreeCells(g), cellDraws, offsetDraws, a)
  {
    var cells := FreeCells(g);
    SpawnFromReaches(g, cells, others, cellDraws, offsetDraws, 0, a);
  }

  lemma {:induction false} SpawnFromReaches(g: M.Grid, cells: seq<(int, int)>, others: set<M.Position>, cellDraws: W.Rng,
                                            offsetDraws: nat -> real, b: nat, a: nat)
    requires M.Shaped(g, M.GRID_ROWS, M.GRID_COLS) && cells != []
    requires forall p :: p in cells ==> 0 <= p.0 < M.GRID_ROWS && 0 <= p.1 < M.GRID_COLS && !g[p.0][p.1].hasRamp
    requires b <= a < M.MAX_CELL_ATTEMPTS
    requires forall c :: b <= c < a ==> !FarFrom(Candidate(cells, cellDraws, offsetDraws, c), others)
    requires FarFrom(Candidate(cells, cellDraws, offsetDraws, a), others)
    ensures SpawnFrom(g, cells, others, cellDraws, offsetDraws, b) == Candidate(cells, cellDraws, offsetDraws, a)
    decreases a - b
  {
    if b < a {
      SpawnFromReaches(g, cells, others, cellDraws, offsetDraws, b + 1, a);
    }
  }

  // ---------------------------------------------------------------------------
  // Messages of logged-in players
  // ---------------------------------------------------------------------------

  /** PROJECTILE_COOLDOWN_TIME: the least time between two shots, in seconds. */
  const PROJECTILE_COOLDOWN_TIME: real := 0.1

  /** `process_message_logged_in`. A second Login closes the connection; a
      Logoff queues the entity's despawn and tells the others gracefully;
      speed and facing changes are queued for the body and passed on to the
      others (speed only when the body was there as the frame began, with
      that position); a shot goes through the throttle; an echo is returned
      to its sender unchanged. A queued write to an entity already despawned
      is dropped. */
  function Dispatch(w: World, view: map<nat, B.Body>, o: Orders, id: nat, msg: ClientMsg, now: real): (r: Outcome)
    requires id in w.players
    ensures msg.CLogin? ==> r == Outcome(w, [Close(id)], [])
    ensures msg.CLogoff? ==>
              && r.w == w.(entities := w.entities - {id}, bodies := w.bodies - {id}) && r.shots == []
              && (forall m :: m in r.out ==> m == Send(m.to, SLogoff(id, true)))
              && forall x :: Send(x, SLogoff(id, true)) in r.out <==> x in o.players && x in B.LoggedIn(w.players) && x != id
    ensures msg.CEcho? ==> r == Outcome(w, [Send(id, SEcho(msg.timestampNanos))], [])
    ensures msg.CSpeed? ==>
              && r.w == w.(bodies := if id in w.bodies then w.bodies[id := w.bodies[id].(speed := msg.speed)] else w.bodies)
              && r.shots == []
              && (id !in view ==> r.out == [])
              && (id in view ==>
                    && (forall m :: m in r.out ==> m == Send(m.to, SSpeed(id, msg.speed, view[id].pos)))
                    && forall x :: Send(x, SSpeed(id, msg.speed, view[id].pos)) in r.out <==>
                         x in o.players && x in B.LoggedIn(w.players) && x != id)
    ensures msg.CFace? ==>
              && r.w == w.(bodies := if id in w.bodies then w.bodies[id := w.bodies[id].(faceDir := msg.dir)] else w.bodies)
              && r.shots == []
              && (forall m :: m in r.out ==> m == Send(m.to, SFace(id, msg.dir)))
              && forall x :: Send(x, SFace(id, msg.dir)) in r.out <==> x in o.players && x in B.LoggedIn(w.players) && x != id
    ensures msg.CShot? ==> r == HandleShot(w, view, o, id, msg.faceDir, msg.facePitch, now)
  {
    match msg
    case CLogin(_) => Outcome(w, [Close(id)], [])
    case CLogoff =>
      Outcome(w.(entities := w.entities - {id}, bodies := w.bodies - {id}),
              B.BroadcastToOthers(w.players, o.players, id, SLogoff(id, true)), [])
    case CSpeed(speed) =>
      var bodies := if id in w.bodies then w.bodies[id := w.bodies[id].(speed := speed)] else w.bodies;
      var out := if id in view then B.BroadcastToOthers(w.players, o.players, id, SSpeed(id, speed, view[id].pos)) else [];
      Outcome(w.(bodies := bodies), out, [])
    case CFace(dir) =>
      var bodies := if id in w.bodies then w.bodies[id := w.bodies[id].(faceDir := dir)] else w.bodies;
      Outcome(w.(bodies := bodies), B.BroadcastToOthers(w.players, o.players, id, SFace(id, dir)), [])
    case CShot(faceDir, facePitch) => HandleShot(w, view, o, id, faceDir, facePitch, now)
    case CEcho(ts) => Outcome(w, [Send(id, SEcho(ts))], [])
  }

  /** A shot at `now` comes within PROJECTILE_COOLDOWN_TIME of the last
      accepted one; never before the first accepted shot. */
  predicate Throttled(info: B.PlayerInfo, now: real)
  {
    info.lastShotTime.Some? && now - info.lastShotTime.value < PROJECTILE_COOLDOWN_TIME
  }

  /** `handle_shot`: a shot from an unknown player, or within
      PROJECTILE_COOLDOWN_TIME of the last accepted one, is dropped
      entirely. An accepted shot records the time, queues the shooter's new
      facing, asks for its projectiles (fanned out under multi-shot) when
      the shooter's body was there as the frame began, and tells the others. */
  function HandleShot(w: World, view: map<nat, B.Body>, o: Orders, id: nat, faceDir: real, facePitch: real, now: real): (r: Outcome)
    ensures id !in w.players || Throttled(w.players[id], now) ==> r == Outcome(w, [], [])
    ensures id in w.players && !Throttled(w.players[id], now) ==>
              && r.w.players == w.players[id := w.players[id].(lastShotTime := W.Some(now))]
              && r.w.entities == w.entities && r.w.items == w.items && r.w.sentries == w.sentries
              && (id in w.bodies ==> r.w.bodies == w.bodies[id := w.bodies[id].(faceDir := faceDir)])
              && (id !in w.bodies ==> r.w.bodies == w.bodies)
              && (id in view ==> r.shots == [ShotRequest(id, faceDir, facePitch,
                                                         B.ALWAYS_MULTI_SHOT || w.players[id].multiShotTimer > 0.0)])
              && (id !in view ==> r.shots == [])
              && (forall m :: m in r.out ==> m == Send(m.to, SShot(id, faceDir, facePitch)))
              && forall x :: Send(x, SShot(id, faceDir, facePitch)) in r.out <==>
                   x in o.players && x in B.LoggedIn(w.players) && x != id
  {
    if id !in w.players then Outcome(w, [], [])
    else
      var info := w.players[id];
      if Throttled(info, now) then Outcome(w, [], [])
      else
        var players := w.players[id := info.(lastShotTime := W.Some(now))];
        var multi := B.ALWAYS_MULTI_SHOT || info.multiShotTimer > 0.0;
        var bodies := if id in w.bodies then w.bodies[id := w.bodies[id].(faceDir := faceDir)] else w.bodies;
        var shots := if id in view then [ShotRequest(id, faceDir, facePitch, multi)] else [];
        assert B.LoggedIn(players) == B.LoggedIn(w.players);
        Outcome(w.(players := players, bodies := bodies),
                B.BroadcastToOthers(players, o.players, id, SShot(id, faceDir, facePitch)), shots)
  }

  /** Two shots through the throttle are at least PROJECTILE_COOLDOWN_TIME
      apart: right after an accepted shot at `t1`, a shot at `t2` is accepted
      only if `t2 - t1 >= PROJECTILE_COOLDOWN_TIME`. */
  lemma ShotsSpacedOut(w: World, view: map<nat, B.Body>, o: Orders, id: nat, d1: real, p1: real, t1: real,
                       d2: real, p2: real, t2: real)
    requires id in w.players && !Throttled(w.players[id], t1)
    ensures var w1 := HandleShot(w, view, o, id, d1, p1, t1).w;
            HandleShot(w1, view, o, id, d2, p2, t2).out != [] || HandleShot(w1, view, o, id, d2, p2, t2).shots != [] ==>
              t2 - t1 >= PROJECTILE_COOLDOWN_TIME
  {
  }

  /** A freshly connected player's first shot is never throttled, whatever
      the clock reads. */
  lemma FirstShotAccepted(w: World, id: nat, now: real)
    ensures !Throttled(Connect(w, id).players[id], now)
  {
  }

  // ---------------------------------------------------------------------------
  // State broadcast
  // ---------------------------------------------------------------------------

  /** UPDATE_BROADCAST_INTERVAL, in seconds. */
  const UPDATE_BROADCAST_INTERVAL: real := 0.25

  /** 2^32: the sequence number is a u32 and wraps. */
  const U32_MODULUS: nat := 0x1_0000_0000

  /** The broadcast system's local state: accumulated time and sequence number. */
  datatype Ticker = Ticker(timer: real, seqNo: nat)

  /** `network_broadcast_state_system`, one frame. Time accumulates; once it
      reaches the interval the timer restarts and the sequence number
      advances (wrapping at 2^32), and an update goes to every logged-in
      player, if there is one. */
  function BroadcastTick(tk: Ticker, delta: real, w: World, o: Orders): (r: (Ticker, seq<Out>))
    requires SentriesListed(w, o)
    ensures tk.timer + delta < UPDATE_BROADCAST_INTERVAL ==> r == (Ticker(tk.timer + delta, tk.seqNo), [])
    ensures tk.timer + delta >= UPDATE_BROADCAST_INTERVAL ==>
              r.0 == Ticker(0.0, (tk.seqNo + 1) % U32_MODULUS)
              && (B.LoggedIn(w.players) == {} ==> r.1 == [])
              && (forall m :: m in r.1 ==>
                    m.Send? && m.to in B.LoggedIn(w.players)
                    && m.msg == SUpdate(r.0.seqNo, B.Snapshot(w.players, w.bodies, o.players),
                                        B.CollectItems(w.items, o.items), B.CollectSentries(o.sentries, w.sentries)))
    ensures tk.seqNo < U32_MODULUS ==> r.0.seqNo < U32_MODULUS
  {
    var timer := tk.timer + delta;
    if timer < UPDATE_BROADCAST_INTERVAL then (Ticker(timer, tk.seqNo), [])
    else
      var seqNo := (tk.seqNo + 1) % U32_MODULUS;
      if B.LoggedIn(w.players) == {} then (Ticker(0.0, seqNo), [])
      else
        var msg := SUpdate(seqNo, B.Snapshot(w.players, w.bodies, o.players),
                           B.CollectItems(w.items, o.items), B.CollectSentries(o.sentries, w.sentries));
        (Ticker(0.0, seqNo), B.BroadcastToAll(w.players, o.players, msg))
  }

  /** Each update reaches every logged-in player exactly once. */
  lemma TickReachesEveryoneOnce(tk: Ticker, delta: real, w: World, o: Orders)
    requires OrdersFit(w, o) && tk.timer + delta >= UPDATE_BROADCAST_INTERVAL
    ensures var out := BroadcastTick(tk, delta, w, o).1;
            Distinct(B.Addressees(out)) && forall x :: x in B.Addressees(out) <==> x in B.LoggedIn(w.players)
  {
    var out := BroadcastTick(tk, delta, w, o).1;
    if B.LoggedIn(w.players) != {} {
      var msg := SUpdate((tk.seqNo + 1) % U32_MODULUS, B.Snapshot(w.players, w.bodies, o.players),
                         B.CollectItems(w.items, o.items), B.CollectSentries(o.sentries, w.sentries));
      B.BroadcastReachesEachOnce(w.players, o.players, 0, msg);
    }
  }

  // ---------------------------------------------------------------------------
  // The earlier server (server/src/systems/network.rs)
  // ---------------------------------------------------------------------------

  /** `network_accept_connections_system`: a new connection is a player not
      yet logged in, nameless, with no hits, every timer at zero and no shot
      yet. */
  function Connect(w: World, id: nat): (r: World)
    ensures id in r.players && id in r.entities && !r.players[id].loggedIn
    ensures r.players[id].hits == 0 && r.players[id].name == ""
    ensures r.players[id].speedTimer == 0.0 && r.players[id].multiShotTimer == 0.0 && r.players[id].stunTimer == 0.0
    ensures r.players[id].lastShotTime == W.None
    ensures forall x :: x != id ==> (x in r.players <==> x in w.players) && (x in r.players ==> r.players[x] == w.players[x])
  {
    w.(players := w.players[id := B.PlayerInfo(false, "", 0, 0.0, 0.0, 0.0, 0.0, 0.0, W.None)],
       entities := w.entities + {id})
  }

  /** POWER_UP_MULTI_SHOT_MULTIPLER: the projectiles of a multi-shot. */
  const MULTI_SHOT_MULTIPLIER: nat := 5

  /** The earlier `handle_shot`: no throttle; a running multi-shot timer
      fires MULTI_SHOT_MULTIPLIER projectiles, otherwise one. */
  function OldShotCount(players: B.Players, id: nat): (n: nat)
    ensures n == MULTI_SHOT_MULTIPLIER <==> id in players && players[id].multiShotTimer > 0.0
    ensures n == 1 <==> !(id in players && players[id].multiShotTimer > 0.0)
  {
    if id in players && players[id].multiShotTimer > 0.0 then MULTI_SHOT_MULTIPLIER else 1
  }

  /** The earlier server despawns a player that sends Login again, where
      the later one closes its connection. */
  function OldRepeatedLogin(w: World, id: nat): (r: World)
    ensures id !in r.entities && id !in r.bodies && r.players == w.players
  {
    w.(entities := w.entities - {id}, bodies := w.bodies - {id})
  }
}

=== FILE: oldnavigation.dfy ===
/** The direction helpers and the spawn rule of the earlier sentries
    (server/src/systems/sentries.rs) and of the ghosts
    (server/src/systems/ghosts.rs), which share them: four directions only,
    a direction blocked by the cell's own wall flag, ramps and the field edge
    checked separately, and a panic when a filter leaves nothing. */
module OldNavigation {
  import W = Wrappers
  import M = MapGrid
  import H = Hunters
  import N = Navigation

  datatype GridDirection = East | North | West | South

  const ALL: seq<GridDirection> := [East, North, West, South]

  /** `to_velocity` at the given speed (SENTRY_SPEED for sentries, the ghost
      speed for ghosts). */
  function ToVelocity(d: GridDirection, speed: real): (v: M.Velocity)
    requires speed > 0.0
    ensures v.y == 0.0 && (v.x == 0.0) != (v.z == 0.0)
    ensures v.x * v.x + v.z * v.z == speed * speed
  {
    match d
    case East => M.Velocity(speed, 0.0, 0.0)
    case North => M.Velocity(0.0, 0.0, -speed)
    case West => M.Velocity(-speed, 0.0, 0.0)
    case South => M.Velocity(0.0, 0.0, speed)
  }

  function Opposite(d: GridDirection): (o: GridDirection)
    ensures o != d
  {
    match d
    case East => West
    case North => South
    case West => East
    case South => North
  }

  /** `direction_from_velocity`: x before z; nothing for a standing velocity. */
  function DirectionFromVelocity(v: M.Velocity): (d: W.Option<GridDirection>)
    ensures d == W.None <==> v.x == 0.0 && v.z == 0.0
    ensures d == W.Some(East) <==> v.x > 0.0
    ensures d == W.Some(West) <==> v.x < 0.0
    ensures d == W.Some(North) <==> v.x == 0.0 && v.z < 0.0
    ensures d == W.Some(South) <==> v.x == 0.0 && v.z > 0.0
  {
    if v.x > 0.0 then W.Some(East)
    else if v.x < 0.0 then W.Some(West)
    else if v.z < 0.0 then W.Some(North)
    else if v.z > 0.0 then W.Some(South)
    else W.None
  }

  /** Turning round is an involution, and any direction survives the trip
      through its velocity. */
  lemma DirectionAlgebra(d: GridDirection, speed: real)
    requires speed > 0.0
    ensures Opposite(Opposite(d)) == d
    ensures DirectionFromVelocity(ToVelocity(d, speed)) == W.Some(d)
  {
  }

  /** `is_blocked`: the cell's wall flag on that side. */
  predicate IsBlocked(d: GridDirection, cell: M.Cell)
  {
    match d
    case East => cell.wallEast
    case North => cell.wallNorth
    case West => cell.wallWest
    case South => cell.wallSouth
  }

  /** The blocked directions are exactly the cell's walled sides. */
  lemma BlockedIsWalled(cell: M.Cell)
    ensures (set d | d in ALL && IsBlocked(d, cell)) ==
            (set s | s in M.WallSides(cell) :: match s
                                               case North => North
                                               case South => South
                                               case West => West
                                               case East => East)
  {
    var l := set d | d in ALL && IsBlocked(d, cell);
    var r := set s | s in M.WallSides(cell) :: match s
                                               case North => North
                                               case South => South
                                               case West => West
                                               case East => East;
    forall d | d in l ensures d in r {
      match d
      case East => assert M.East in M.WallSides(cell);
      case North => assert M.North in M.WallSides(cell);
      case West => assert M.West in M.WallSides(cell);
      case South => assert M.South in M.WallSides(cell);
    }
  }

  function Next(d: GridDirection, x: int, z: int): (int, int)
  {
    match d
    case East => (x + 1, z)
    case North => (x, z - 1)
    case West => (x - 1, z)
    case South => (x, z + 1)
  }

  predicate InField(x: int, z: int)
  {
    0 <= x < M.GRID_COLS && 0 <= z < M.GRID_ROWS
  }

  /** `direction_leads_to_ramp`: leaving the field counts as a ramp;
      otherwise it is the neighbour's ramp flag. The source asserts the
      current cell is in the field. */
  predicate LeadsToRamp(g: M.Grid, x: int, z: int, d: GridDirection)
    requires M.Shaped(g, M.GRID_ROWS, M.GRID_COLS) && InField(x, z)
  {
    var (nx, nz) := Next(d, x, z);
    !InField(nx, nz) || g[nz][nx].hasRamp
  }

  /** Order-preserving filter of `ds` by `keep`. */
  function Filter(ds: seq<GridDirection>, keep: GridDirection -> bool): (r: seq<GridDirection>)
    ensures |r| <= |ds|
    ensures forall d :: d in r <==> d in ds && keep(d)
  {
    if ds == [] then []
    else
      var rest := Filter(ds[1..], keep);
      assert forall d :: d in ds[1..] ==> d in ds;
      if keep(ds[0]) then [ds[0]] + rest else rest
  }

  /** Direction `d` is open from cell (x, z) and leads neither onto a ramp
      nor off the field. */
  predicate Usable(g: M.Grid, x: int, z: int, d: GridDirection)
    requires M.Shaped(g, M.GRID_ROWS, M.GRID_COLS) && InField(x, z)
  {
    !IsBlocked(d, g[z][x]) && !LeadsToRamp(g, x, z, d)
  }

  /** The directions of `ds` without a wall on that side of `cell`, in order. */
  function OpenOf(ds: seq<GridDirection>, cell: M.Cell): (r: seq<GridDirection>)
    ensures |r| <= |ds|
    ensures forall d :: d in r <==> d in ds && !IsBlocked(d, cell)
  {
    if ds == [] then []
    else
      var rest := OpenOf(ds[1..], cell);
      assert forall d :: d in ds[1..] ==> d in ds;
      if !IsBlocked(ds[0], cell) then [ds[0]] + rest else rest
  }

  /** The directions of `ds` that lead neither onto a ramp nor off the field, in order. */
  function RampSafeOf(ds: seq<GridDirection>, g: M.Grid, x: int, z: int): (r: seq<GridDirection>)
    requires M.Shaped(g, M.GRID_ROWS, M.GRID_COLS) && InField(x, z)
    ensures |r| <= |ds|
    ensures forall d :: d in r <==> d in ds && !LeadsToRamp(g, x, z, d)
  {
    if ds == [] then []
    else
      var rest := RampSafeOf(ds[1..], g, x, z);
      assert forall d :: d in ds[1..] ==> d in ds;
      if !LeadsToRamp(g, x, z, ds[0]) then [ds[0]] + rest else rest
  }

  /** `valid_directions`: the open directions of the cell (ALL's order) that
      do not lead onto a ramp or off the field; nothing (the source panics)
      when no direction is open or every open one leads to a ramp. */
  function ValidDirections(g: M.Grid, x: int, z: int): (r: W.Option<seq<GridDirection>>)
    requires M.Shaped(g, M.GRID_ROWS, M.GRID_COLS) && InField(x, z)
    ensures r.Some? ==> r.value != [] && |r.value| <= 4
    ensures r.Some? ==> forall d :: d in r.value <==> Usable(g, x, z, d)
    ensures r.None? <==> forall d :: !Usable(g, x, z, d)
  {
    var open := OpenOf(ALL, g[z][x]);
    var safe := RampSafeOf(open, g, x, z);
    AllDirections();
    if open == [] then W.None
    else if safe == [] then W.None
    else
      assert Usable(g, x, z, safe[0]);
      W.Some(safe)
  }

  /** ALL lists every direction. */
  lemma AllDirections()
    ensures forall d :: d in ALL
  {
    forall d ensures d in ALL {
      match d
      case East => assert ALL[0] == d;
      case North => assert ALL[1] == d;
      case West => assert ALL[2] == d;
      case South => assert ALL[3] == d;
    }
  }

  /** `forward_directions`: the valid directions without the way back. */
  function ForwardDirections(valid: seq<GridDirection>, current: GridDirection): (r: seq<GridDirection>)
    ensures forall d :: d in r <==> d in valid && d != Opposite(current)
    ensures current in valid ==> current in r
  {
    Filter(valid, d => d != Opposite(current))
  }

  // ---------------------------------------------------------------------------
  // Spawning
  // ---------------------------------------------------------------------------

  /** A spawned hunter: id, cell (x, z), position, velocity and state. */
  datatype Spawned = Spawned(id: nat, x: int, z: int, pos: M.Position, vel: M.Velocity, h: H.Hunter)

  /** Draw k of the cell search lands on a ramp-free cell. */
  predicate NonRampDraw(rng: W.Rng, g: M.Grid, k: nat)
    requires M.Shaped(g, M.GRID_ROWS, M.GRID_COLS)
  {
    var (x, z) := M.Attempt(rng, k);
    !g[z][x].hasRamp
  }

  /** From draw k on, the cell search eventually succeeds. */
  ghost predicate Eventually(rng: W.Rng, g: M.Grid, k: nat)
    requires M.Shaped(g, M.GRID_ROWS, M.GRID_COLS)
  {
    exists j :: j >= k && NonRampDraw(rng, g, j)
  }

  /** The cell search of one spawn: redraw until a ramp-free cell comes up.
      The source loops for as long as that takes; the model asks of the
      generator that it does come up. */
  method FindSpawnCell(rng: W.Rng, g: M.Grid, k: nat) returns (x: int, z: int, next: nat)
    requires M.Shaped(g, M.GRID_ROWS, M.GRID_COLS) && Eventually(rng, g, k)
    ensures InField(x, z) && !g[z][x].hasRamp && next > k
  {
    ghost var j :| j >= k && NonRampDraw(rng, g, j);
    var a := k;
    while true
      invariant k <= a <= j
      decreases j - a
    {
      var (cx, cz) := M.Attempt(rng, a);
      if !g[cz][cx].hasRamp {
        return cx, cz, a + 1;
      }
      a := a + 1;
    }
  }

  /** `sentries_spawn_system` (and the ghost twin): nothing when hunters
      exist already; otherwise hunters 0..n-1, each on a ramp-free cell
      centre, in Patrol with a zero timer, at an intersection and moving
      along a valid direction. Nothing (the source panics) when a chosen
      cell offers no valid direction. */
  method SpawnHunters(n: nat, existing: bool, g: M.Grid, rng: W.Rng, dirs: W.Rng, speed: real)
    returns (r: W.Option<seq<Spawned>>)
    requires M.Shaped(g, M.GRID_ROWS, M.GRID_COLS) && speed > 0.0
    requires forall k :: Eventually(rng, g, k)
    ensures existing ==> r == W.Some([])
    ensures r.Some? && !existing ==> |r.value| == n
    ensures r.Some? ==> forall i :: 0 <= i < |r.value| ==> GoodSpawn(g, r.value[i], i, speed)
  {
    if existing {
      return W.Some([]);
    }
    var out: seq<Spawned> := [];
    var k := 0;
    for i := 0 to n
      invariant |out| == i
      invariant forall j :: 0 <= j < i ==> GoodSpawn(g, out[j], j, speed)
    {
      var x, z, next := FindSpawnCell(rng, g, k);
      k := next;
      var valid := ValidDirections(g, x, z);
      if valid.None? {
        return W.None;
      }
      var d := N.PickDirection(dirs(i), valid.value);
      if d.None? {
        return W.None;
      }
      var s := Spawned(i, x, z, M.CellCenter(x, z), ToVelocity(d.value, speed),
                       H.Hunter(H.Patrol, 0.0, W.None, true));
      out := out + [s];
    }
    return W.Some(out);
  }

  /** What a spawned hunter satisfies. */
  ghost predicate GoodSpawn(g: M.Grid, s: Spawned, i: nat, speed: real)
    requires M.Shaped(g, M.GRID_ROWS, M.GRID_COLS) && speed > 0.0
  {
    && s.id == i && InField(s.x, s.z) && !g[s.z][s.x].hasRamp
    && s.pos == M.CellCenter(s.x, s.z)
    && s.h == H.Hunter(H.Patrol, 0.0, W.None, true)
    && exists d :: s.vel == ToVelocity(d, speed) && Usable(g, s.x, s.z, d)
  }
}

=== FILE: oldwalls.dfy ===
/** The earlier wall generator (server/src/walls.rs): random grid edges
    become wall segments, skipping edges already placed and edges that
    would give a neighbouring cell a fourth wall. */
module OldWalls {
  import opened Wrappers
  import opened MapGrid

  datatype Orientation = Horizontal | Vertical

  /** A wall by its centre and orientation. */
  datatype OldWall = OldWall(x: real, z: real, orientation: Orientation)

  /** A grid edge: column line `x` and row line `z`; a horizontal edge lies
      on row line `z` over column `x`, a vertical one on column line `x`
      beside row `z`. */
  datatype GridEdge = GridEdge(x: int, z: int, horizontal: bool)

  /** The most walls a cell may get. */
  const MAX_CELL_WALLS: nat := 3

  /** The edges the draws can produce. */
  predicate ValidEdge(e: GridEdge)
  {
    if e.horizontal then 0 <= e.z <= GRID_ROWS && 0 <= e.x < GRID_COLS
    else 0 <= e.x <= GRID_COLS && 0 <= e.z < GRID_ROWS
  }

  /** Edge `e` is one of the four sides of cell (r, c). */
  predicate Borders(e: GridEdge, r: int, c: int)
  {
    if e.horizontal then e.x == c && (e.z == r || e.z == r + 1)
    else e.z == r && (e.x == c || e.x == c + 1)
  }

  /** Reference count: the placed edges bordering cell (r, c). */
  function CountBorders(placed: seq<GridEdge>, r: int, c: int): nat
  {
    if placed == [] then 0
    else CountBorders(placed[..|placed| - 1], r, c) + (if Borders(placed[|placed| - 1], r, c) then 1 else 0)
  }

  /** The wall centred on edge `e`. */
  function WallAt(e: GridEdge): OldWall
  {
    if e.horizontal then
      OldWall((e.x as real + 0.5) * GRID_SIZE - FIELD_WIDTH / 2.0, e.z as real * GRID_SIZE - FIELD_DEPTH / 2.0, Horizontal)
    else
      OldWall(e.x as real * GRID_SIZE - FIELD_WIDTH / 2.0, (e.z as real + 0.5) * GRID_SIZE - FIELD_DEPTH / 2.0, Vertical)
  }

  /** The generator's state: walls pushed, edges placed (in order) and the
      per-cell wall count, indexed `count[row][col]`. */
  datatype OldState = OldState(walls: seq<OldWall>, placed: seq<GridEdge>, count: seq<seq<nat>>)

  predicate CountShaped(count: seq<seq<nat>>)
  {
    |count| == GRID_ROWS && forall r :: 0 <= r < GRID_ROWS ==> |count[r]| == GRID_COLS
  }

  /** What the generator keeps: one wall per placed edge, at that edge; no
      edge twice; the count is the number of placed edges around each cell
      and never passes three. */
  ghost predicate Inv(s: OldState)
  {
    && |s.walls| == |s.placed|
    && (forall k :: 0 <= k < |s.placed| ==> ValidEdge(s.placed[k]) && s.walls[k] == WallAt(s.placed[k]))
    && (forall i, j :: 0 <= i < j < |s.placed| ==> s.placed[i] != s.placed[j])
    && CountShaped(s.count)
    && (forall r, c :: 0 <= r < GRID_ROWS && 0 <= c < GRID_COLS ==>
          s.count[r][c] == CountBorders(s.placed, r, c) && s.count[r][c] <= MAX_CELL_WALLS)
  }

  /** Both cells beside `e` (those inside the grid) have fewer than three walls. */
  predicate Room(count: seq<seq<nat>>, e: GridEdge)
    requires CountShaped(count) && ValidEdge(e)
  {
    if e.horizontal then
      (e.z < GRID_ROWS ==> count[e.z][e.x] < MAX_CELL_WALLS) && (e.z > 0 ==> count[e.z - 1][e.x] < MAX_CELL_WALLS)
    else
      (e.x < GRID_COLS ==> count[e.z][e.x] < MAX_CELL_WALLS) && (e.x > 0 ==> count[e.z][e.x - 1] < MAX_CELL_WALLS)
  }

  /** The count after placing `e`: one more for each cell it borders. */
  function Bump(count: seq<seq<nat>>, e: GridEdge): (c2: seq<seq<nat>>)
    requires CountShaped(count)
    ensures CountShaped(c2)
    ensures forall r, c :: 0 <= r < GRID_ROWS && 0 <= c < GRID_COLS ==>
              c2[r][c] == count[r][c] + (if Borders(e, r, c) then 1 else 0)
  {
    seq(GRID_ROWS, r requires 0 <= r < GRID_ROWS =>
      seq(GRID_COLS, c requires 0 <= c < GRID_COLS => count[r][c] + (if Borders(e, r, c) then 1 else 0)))
  }

  /** The edge drawn by attempt `a`: a coin for the orientation, then the
      row line and column (horizontal) or column line and row (vertical). */
  function Draw(rng: Rng, a: nat): (e: GridEdge)
    ensures ValidEdge(e)
  {
    var horizontal := Coin(rng(3 * a));
    if horizontal then
      var z := InRange(rng(3 * a + 1), 0, GRID_ROWS);
      var x := InRange(rng(3 * a + 2), 0, GRID_COLS - 1);
      GridEdge(x, z, true)
    else
      var x := InRange(rng(3 * a + 1), 0, GRID_COLS);
      var z := InRange(rng(3 * a + 2), 0, GRID_ROWS - 1);
      GridEdge(x, z, false)
  }

  /** One attempt: a placed edge or one without room is skipped; otherwise
      the edge is placed, the counts raised and its wall pushed. */
  function Step(s: OldState, e: GridEdge): OldState
    requires CountShaped(s.count) && ValidEdge(e)
  {
    if e in s.placed then s
    else if !Room(s.count, e) then s
    else OldState(s.walls + [WallAt(e)], s.placed + [e], Bump(s.count, e))
  }

  lemma CountSnoc(placed: seq<GridEdge>, e: GridEdge, r: int, c: int)
    ensures CountBorders(placed + [e], r, c) == CountBorders(placed, r, c) + (if Borders(e, r, c) then 1 else 0)
  {
    assert (placed + [e])[..|placed|] == placed;
  }

  /** An attempt keeps the invariant and pushes at most one wall; it pushes
      one exactly when the edge is new and has room. */
  lemma StepKeeps(s: OldState, e: GridEdge)
    requires Inv(s) && ValidEdge(e)
    ensures Inv(Step(s, e))
    ensures |Step(s, e).walls| == |s.walls| + (if e !in s.placed && Room(s.count, e) then 1 else 0)
  {
    if e !in s.placed && Room(s.count, e) {
      PlaceKeeps(s, e, Bump(s.count, e));
    }
  }

  /** Placing a new edge with room, with the counts raised around it,
      keeps the invariant. */
  lemma PlaceKeeps(s: OldState, e: GridEdge, count: seq<seq<nat>>)
    requires Inv(s) && ValidEdge(e) && e !in s.placed && Room(s.count, e)
    requires CountShaped(count)
    requires forall r, c :: 0 <= r < GRID_ROWS && 0 <= c < GRID_COLS ==>
               count[r][c] == s.count[r][c] + (if Borders(e, r, c) then 1 else 0)
    ensures Inv(OldState(s.walls + [WallAt(e)], s.placed + [e], count))
  {
    var placed := s.placed + [e];
    forall r, c | 0 <= r < GRID_ROWS && 0 <= c < GRID_COLS
      ensures count[r][c] == CountBorders(placed, r, c) && count[r][c] <= MAX_CELL_WALLS
    {
      CountSnoc(s.placed, e, r, c);
    }
    forall i, j | 0 <= i < j < |placed| ensures placed[i] != placed[j] {
      if j == |s.placed| {
        assert placed[i] == s.placed[i];
      }
    }
  }

  /** The empty start. */
  function Start(): (s: OldState)
    ensures Inv(s)
  {
    OldState([], [], seq(GRID_ROWS, _ => seq(GRID_COLS, _ => 0)))
  }

  /** `generate_walls`: at most `numSegments` walls from at most ten
      attempts per segment; one wall per placed edge, no edge twice, and no
      cell with more than three walls around it. */
  method GenerateOldWalls(numSegments: nat, rng: Rng) returns (walls: seq<OldWall>, ghost placed: seq<GridEdge>)
    ensures |walls| <= numSegments && |walls| == |placed|
    ensures forall k :: 0 <= k < |placed| ==> ValidEdge(placed[k]) && walls[k] == WallAt(placed[k])
    ensures forall i, j :: 0 <= i < j < |placed| ==> placed[i] != placed[j]
    ensures forall r, c :: 0 <= r < GRID_ROWS && 0 <= c < GRID_COLS ==> CountBorders(placed, r, c) <= MAX_CELL_WALLS
  {
    var s := Start();
    var attempts := 0;
    var maxAttempts := numSegments * 10;
    while |s.walls| < numSegments && attempts < maxAttempts
      invariant Inv(s) && |s.walls| <= numSegments
      decreases maxAttempts - attempts
    {
      var e := Draw(rng, attempts);
      attempts := attempts + 1;
      StepKeeps(s, e);
      s := Step(s, e);
    }
    walls, placed := s.walls, s.placed;
  }
}

=== FILE: protocol.dfy ===
/** The game's wire messages, as the server and the client code build and
    read them. The game's own protocol module is not part of this model
    (common/src/protocol.rs here is the chat protocol); the fields are those
    the code uses. The map layout and the f32 payloads the model
    does not inspect are kept as plain values. */
module Protocol {
  import M = MapGrid

  /** A movement speed: the speed level (an index into the source's
      `SpeedLevel`) and the direction of movement. */
  datatype Speed = Speed(level: nat, moveDir: real)

  /** A replicated player. */
  datatype PlayerSnap = PlayerSnap(
    name: string, pos: M.Position, speed: Speed, faceDir: real, hits: int,
    speedUp: bool, multiShotUp: bool, phasingUp: bool, sentryHuntUp: bool, stunned: bool)

  datatype ItemType = SpeedPowerUp | MultiShotPowerUp | PhasingPowerUp | SentryHuntPowerUp | Cookie

  /** A replicated item. */
  datatype ItemSnap = ItemSnap(itemType: ItemType, pos: M.Position)

  /** A replicated sentry. */
  datatype SentrySnap = SentrySnap(pos: M.Position, vel: M.Velocity)

  /** The power-up and stun flags of one player. */
  datatype Status = Status(id: nat, speedUp: bool, multiShotUp: bool, phasingUp: bool, sentryHuntUp: bool, stunned: bool)

  /** Server to client. */
  datatype ServerMsg =
    | SInit(id: nat)
    | SUpdate(seqNo: nat, players: seq<(nat, PlayerSnap)>, items: seq<(nat, ItemSnap)>, sentries: seq<(nat, SentrySnap)>)
    | SLogin(id: nat, player: PlayerSnap)
    | SLogoff(id: nat, graceful: bool)
    | SSpeed(id: nat, speed: Speed, pos: M.Position)
    | SFace(id: nat, dir: real)
    | SShot(id: nat, faceDir: real, facePitch: real)
    | SEcho(timestampNanos: nat)
    | SPlayerStatus(status: Status)
    | SSentryHit
    | SSentry(id: nat, sentry: SentrySnap)
    | SPowerUp(id: nat, speedUp: bool, multiShotUp: bool)  // the earlier server's status message

  /** Client to server. */
  datatype ClientMsg =
    | CLogin(name: string)
    | CLogoff
    | CSpeed(speed: Speed)
    | CFace(dir: real)
    | CShot(faceDir: real, facePitch: real)
    | CEcho(timestampNanos: nat)

  /** The ids of an id-keyed list, in its order. */
  function Ids<T>(s: seq<(nat, T)>): (ids: seq<nat>)
    ensures |ids| == |s| && forall k :: 0 <= k < |s| ==> ids[k] == s[k].0
  {
    seq(|s|, k requires 0 <= k < |s| => s[k].0)
  }

  /** No id occurs twice in `ids`. */
  predicate Distinct(ids: seq<nat>)
  {
    forall i, j :: 0 <= i < j < |ids| ==> ids[i] != ids[j]
  }

  /** Appending a fresh id keeps a list free of repeats. */
  lemma DistinctSnoc(ids: seq<nat>, x: nat)
    requires Distinct(ids) && x !in ids
    ensures Distinct(ids + [x])
  {
  }

  /** Putting a fresh id in front keeps a list free of repeats. */
  lemma DistinctCons(x: nat, ids: seq<nat>)
    ensures Distinct(ids) && x !in ids ==> Distinct([x] + ids)
  {
  }

  /** The tail of a list free of repeats is free of them and misses the
      head. */
  lemma DistinctTail(ids: seq<nat>)
    requires ids != []
    ensures Distinct(ids) ==> Distinct(ids[1..]) && ids[0] !in ids[1..]
  {
  }

  /** The ids of an entry put in front of a list. */
  lemma IdsCons<T>(x: (nat, T), rest: seq<(nat, T)>)
    ensures Ids([x] + rest) == [x.0] + Ids(rest)
  {
  }

  /** What the server hands to a client's channel: a message, or the order
      to close the connection. */
  datatype Out = Send(to: nat, msg: ServerMsg) | Close(to: nat)
}

=== FILE: ramps.dfy ===
/** `generate_ramps` (server/src/map/ramps.rs, and the identical older copy
    in server/src/map.rs): up to five 2×1 ramp footprints, each wholly in the
    ring of cells one or two cells from the border and kept three cells
    clear of every earlier ramp, marked on the grid with base and top flags
    at opposite ends. */
module Ramps {
  import opened Wrappers
  import opened MapGrid

  const RAMP_COUNT: nat := 5
  const RAMP_LENGTH_CELLS: int := 2
  const RAMP_WIDTH_CELLS: int := 1
  const RAMP_MIN_SEPARATION_CELLS: int := 3
  const MAX_RAMP_ATTEMPTS: nat := 100

  /** `Ramp`: the low corner (x1, y1, z1) and the high corner (x2, y2, z2). */
  datatype Ramp = Ramp(x1: real, y1: real, z1: real, x2: real, y2: real, z2: real)

  /** One drawn footprint: columns col0..colEnd-1, rows row0..rowEnd-1, and
      which end is high. */
  datatype Footprint = Footprint(alongX: bool, col0: int, row0: int, colEnd: int, rowEnd: int, highAtEnd: bool)

  predicate Covers(fp: Footprint, r: int, c: int)
  {
    fp.row0 <= r < fp.rowEnd && fp.col0 <= c < fp.colEnd
  }

  function Min(a: int, b: int): int { if a <= b then a else b }
  function MaxI(a: int, b: int): int { if a >= b then a else b }

  /** The size guard as the source writes it. */
  predicate GuardAsWritten(rows: int, cols: int)
  {
    cols >= RAMP_LENGTH_CELLS + 2 && rows >= RAMP_WIDTH_CELLS + 2
  }

  /** The guard the draws need: a footprint may lie along either axis, so
      both dimensions must fit the ramp's length. */
  predicate Guard(rows: int, cols: int)
  {
    cols >= RAMP_LENGTH_CELLS + 2 && rows >= RAMP_LENGTH_CELLS + 2
  }

  /** The inclusive range of the first row drawn for a footprint along z,
      `1..=(rows - RAMP_LENGTH_CELLS - 1)`. */
  function ZRowRange(rows: int): (int, int)
  {
    (1, rows - RAMP_LENGTH_CELLS - 1)
  }

  /** The guard as written admits a 3-row grid, on which the row range of a
      footprint along z is empty, so the draw `random_range(1..=0)` panics. */
  lemma GuardAdmitsEmptyDraw()
    ensures GuardAsWritten(3, 4)
    ensures ZRowRange(3).0 > ZRowRange(3).1
  {
  }

  /** Under the corrected guard every draw range is non-empty. */
  lemma GuardMakesDrawsNonEmpty(rows: int, cols: int)
    requires Guard(rows, cols)
    ensures GuardAsWritten(rows, cols)
    ensures ZRowRange(rows).0 <= ZRowRange(rows).1
    ensures 1 <= cols - RAMP_LENGTH_CELLS - 1 && 1 <= rows - RAMP_WIDTH_CELLS - 1
    ensures 1 <= cols - RAMP_WIDTH_CELLS - 1
  {
  }

  /** The footprint drawn at attempt `a` (draws 4a..4a+3: orientation,
      first column, first row, high end). */
  function Candidate(rng: Rng, a: nat, rows: int, cols: int): (fp: Footprint)
    requires Guard(rows, cols)
    ensures fp.alongX ==> fp.colEnd == fp.col0 + RAMP_LENGTH_CELLS && fp.rowEnd == fp.row0 + RAMP_WIDTH_CELLS
    ensures !fp.alongX ==> fp.colEnd == fp.col0 + RAMP_WIDTH_CELLS && fp.rowEnd == fp.row0 + RAMP_LENGTH_CELLS
    ensures 1 <= fp.col0 && fp.colEnd <= cols - 1 && 1 <= fp.row0 && fp.rowEnd <= rows - 1
  {
    var alongX := Coin(rng(4 * a));
    var high := Coin(rng(4 * a + 3));
    if alongX then
      var c0 := InRange(rng(4 * a + 1), 1, cols - RAMP_LENGTH_CELLS - 1);
      var r0 := InRange(rng(4 * a + 2), 1, rows - RAMP_WIDTH_CELLS - 1);
      Footprint(true, c0, r0, c0 + RAMP_LENGTH_CELLS, r0 + RAMP_WIDTH_CELLS, high)
    else
      var c0 := InRange(rng(4 * a + 1), 1, cols - RAMP_WIDTH_CELLS - 1);
      var r0 := InRange(rng(4 * a + 2), 1, rows - RAMP_LENGTH_CELLS - 1);
      Footprint(false, c0, r0, c0 + RAMP_WIDTH_CELLS, r0 + RAMP_LENGTH_CELLS, high)
  }

  /** Distance of cell (r, c) from the nearest border cell line. */
  function BorderDistance(rows: int, cols: int, r: int, c: int): int
  {
    Min(Min(Min(c, cols - 1 - c), r), rows - 1 - r)
  }

  /** Every footprint cell is one or two cells from the nearest border. */
  predicate InZone(fp: Footprint, rows: int, cols: int)
  {
    forall r, c :: fp.row0 <= r < fp.rowEnd && fp.col0 <= c < fp.colEnd ==> 1 <= BorderDistance(rows, cols, r, c) <= 2
  }

  /** The footprint padded by the separation and clamped to the grid. */
  predicate InPadded(fp: Footprint, rows: int, cols: int, r: int, c: int)
  {
    && MaxI(fp.row0 - RAMP_MIN_SEPARATION_CELLS, 0) <= r < Min(fp.rowEnd + RAMP_MIN_SEPARATION_CELLS, rows)
    && MaxI(fp.col0 - RAMP_MIN_SEPARATION_CELLS, 0) <= c < Min(fp.colEnd + RAMP_MIN_SEPARATION_CELLS, cols)
  }

  /** Some ramp cell lies in the padded footprint. */
  predicate Overlaps(g: Grid, rows: int, cols: int, fp: Footprint)
    requires Shaped(g, rows, cols)
  {
    exists r, c :: MaxI(fp.row0 - RAMP_MIN_SEPARATION_CELLS, 0) <= r < Min(fp.rowEnd + RAMP_MIN_SEPARATION_CELLS, rows)
                && MaxI(fp.col0 - RAMP_MIN_SEPARATION_CELLS, 0) <= c < Min(fp.colEnd + RAMP_MIN_SEPARATION_CELLS, cols)
                && g[r][c].hasRamp
  }

  /** The cell (r, c) after marking footprint `fp`: footprint cells become
      ramps, and the end rows or columns get their base and top flags. */
  function MarkCell(cell: Cell, fp: Footprint, r: int, c: int): Cell
  {
    if !Covers(fp, r, c) then cell
    else
      var first := if fp.alongX then c == fp.col0 else r == fp.row0;
      var last := if fp.alongX then c == fp.colEnd - 1 else r == fp.rowEnd - 1;
      var cell := cell.(hasRamp := true);
      if fp.alongX then
        if fp.highAtEnd then
          cell.(rampBaseWest := cell.rampBaseWest || first, rampTopEast := cell.rampTopEast || last)
        else
          cell.(rampBaseEast := cell.rampBaseEast || last, rampTopWest := cell.rampTopWest || first)
      else
        if fp.highAtEnd then
          cell.(rampBaseNorth := cell.rampBaseNorth || first, rampTopSouth := cell.rampTopSouth || last)
        else
          cell.(rampBaseSouth := cell.rampBaseSouth || last, rampTopNorth := cell.rampTopNorth || first)
  }

  function Mark(g: Grid, rows: int, cols: int, fp: Footprint): (g': Grid)
    requires Shaped(g, rows, cols)
    ensures Shaped(g', rows, cols)
    ensures forall r, c :: 0 <= r < rows && 0 <= c < cols ==> g'[r][c] == MarkCell(g[r][c], fp, r, c)
  {
    seq(rows, r requires 0 <= r < rows => seq(cols, c requires 0 <= c < cols => MarkCell(g[r][c], fp, r, c)))
  }

  /** The ramp geometry of a footprint: the low corner first. */
  function RampOf(fp: Footprint): (ramp: Ramp)
    ensures ramp.y1 == 0.0 && ramp.y2 == WALL_HEIGHT + ROOF_THICKNESS
    ensures fp.highAtEnd ==>
              ramp.x1 == LineX(fp.col0) && ramp.z1 == LineZ(fp.row0) && ramp.x2 == LineX(fp.colEnd) && ramp.z2 == LineZ(fp.rowEnd)
    ensures !fp.highAtEnd ==>
              ramp.x1 == LineX(fp.colEnd) && ramp.z1 == LineZ(fp.rowEnd) && ramp.x2 == LineX(fp.col0) && ramp.z2 == LineZ(fp.row0)
  {
    var xs, zs, xe, ze := LineX(fp.col0), LineZ(fp.row0), LineX(fp.colEnd), LineZ(fp.rowEnd);
    if fp.highAtEnd then Ramp(xs, 0.0, zs, xe, WALL_HEIGHT + ROOF_THICKNESS, ze)
    else Ramp(xe, 0.0, ze, xs, WALL_HEIGHT + ROOF_THICKNESS, zs)
  }

  predicate AnyRampFlag(cell: Cell)
  {
    || cell.hasRamp
    || cell.rampBaseNorth || cell.rampBaseSouth || cell.rampBaseWest || cell.rampBaseEast
    || cell.rampTopNorth || cell.rampTopSouth || cell.rampTopWest || cell.rampTopEast
  }

  /** Everything but the ramp flags agrees. */
  predicate SameExceptRamps(a: Cell, b: Cell)
  {
    a.wallNorth == b.wallNorth && a.wallSouth == b.wallSouth && a.wallWest == b.wallWest
    && a.wallEast == b.wallEast && a.hasRoof == b.hasRoof
  }

  /** The range of rows (along x) or columns (along z) across a footprint. */
  function AcrossLo(fp: Footprint): int { if fp.alongX then fp.row0 else fp.col0 }
  function AcrossHi(fp: Footprint): int { if fp.alongX then fp.rowEnd else fp.colEnd }

  /** The base and top flags on row (along x) or column (along z) `k` of a
      footprint: base at the low end, top at the high end. */
  predicate EndsMarkedAt(g: Grid, rows: int, cols: int, fp: Footprint, k: int)
    requires Shaped(g, rows, cols)
    requires 0 <= fp.row0 < fp.rowEnd <= rows && 0 <= fp.col0 < fp.colEnd <= cols
    requires AcrossLo(fp) <= k < AcrossHi(fp)
  {
    if fp.alongX then
      if fp.highAtEnd then g[k][fp.col0].rampBaseWest && g[k][fp.colEnd - 1].rampTopEast
      else g[k][fp.colEnd - 1].rampBaseEast && g[k][fp.col0].rampTopWest
    else
      if fp.highAtEnd then g[fp.row0][k].rampBaseNorth && g[fp.rowEnd - 1][k].rampTopSouth
      else g[fp.rowEnd - 1][k].rampBaseSouth && g[fp.row0][k].rampTopNorth
  }

  /** The base and top flags of a footprint, on its two opposite ends. */
  predicate EndsMarked(g: Grid, rows: int, cols: int, fp: Footprint)
    requires Shaped(g, rows, cols)
    requires 0 <= fp.row0 < fp.rowEnd <= rows && 0 <= fp.col0 < fp.colEnd <= cols
  {
    forall k :: AcrossLo(fp) <= k < AcrossHi(fp) ==> EndsMarkedAt(g, rows, cols, fp, k)
  }

  /** Some accepted footprint covers (r, c). */
  ghost predicate AnyCovers(fps: seq<Footprint>, r: int, c: int)
  {
    exists i :: 0 <= i < |fps| && Covers(fps[i], r, c)
  }

  lemma AnyCoversAppend(fps: seq<Footprint>, fp: Footprint, r: int, c: int)
    ensures AnyCovers(fps + [fp], r, c) <==> AnyCovers(fps, r, c) || Covers(fp, r, c)
  {
    var fps' := fps + [fp];
    if AnyCovers(fps, r, c) {
      var i :| 0 <= i < |fps| && Covers(fps[i], r, c);
      assert fps'[i] == fps[i];
    }
    if Covers(fp, r, c) {
      assert fps'[|fps|] == fp;
    }
  }

  /** Only ramp flags differ from the original grid. */
  ghost predicate FrameKept(g0: Grid, g: Grid, rows: int, cols: int)
    requires Shaped(g0, rows, cols) && Shaped(g, rows, cols)
  {
    forall r, c :: 0 <= r < rows && 0 <= c < cols ==> SameExceptRamps(g[r][c], g0[r][c])
  }

  /** Exactly the covered cells carry ramp flags, and all of them are ramps. */
  ghost predicate FlagsExact(g: Grid, rows: int, cols: int, fps: seq<Footprint>)
    requires Shaped(g, rows, cols)
  {
    forall r, c :: 0 <= r < rows && 0 <= c < cols ==>
      (AnyRampFlag(g[r][c]) <==> AnyCovers(fps, r, c)) && (g[r][c].hasRamp <==> AnyCovers(fps, r, c))
  }

  /** A footprint inside the border ring, in the zone. */
  predicate WellPlaced(fp: Footprint, rows: int, cols: int)
  {
    && 1 <= fp.col0 < fp.colEnd <= cols - 1 && 1 <= fp.row0 < fp.rowEnd <= rows - 1
    && InZone(fp, rows, cols)
  }

  ghost predicate AllEndsMarked(g: Grid, rows: int, cols: int, fps: seq<Footprint>)
    requires Shaped(g, rows, cols)
  {
    forall i :: 0 <= i < |fps| ==> WellPlaced(fps[i], rows, cols) && EndsMarked(g, rows, cols, fps[i])
  }

  /** No footprint has a cell in the padded area of a later one. */
  ghost predicate Separated(rows: int, cols: int, fps: seq<Footprint>)
  {
    forall i, j :: 0 <= i < j < |fps| ==> Apart(fps[i], fps[j], rows, cols)
  }

  /** No cell of `a` lies in the padded area of `b`. */
  ghost predicate Apart(a: Footprint, b: Footprint, rows: int, cols: int)
  {
    forall r, c :: Covers(a, r, c) ==> !InPadded(b, rows, cols, r, c)
  }

  /** What the placement loop keeps, starting from a ramp-free grid `g0`. */
  ghost predicate Placed(g0: Grid, g: Grid, rows: int, cols: int, fps: seq<Footprint>)
  {
    && Shaped(g0, rows, cols) && Shaped(g, rows, cols)
    && FrameKept(g0, g, rows, cols)
    && FlagsExact(g, rows, cols, fps)
    && AllEndsMarked(g, rows, cols, fps)
    && Separated(rows, cols, fps)
  }

  predicate RampFree(g: Grid, rows: int, cols: int)
    requires Shaped(g, rows, cols)
  {
    forall r, c :: 0 <= r < rows && 0 <= c < cols ==> !AnyRampFlag(g[r][c])
  }

  /** Every flag set in `a` is set in `b`. */
  predicate FlagsLe(a: Cell, b: Cell)
  {
    && (a.rampBaseNorth ==> b.rampBaseNorth) && (a.rampBaseSouth ==> b.rampBaseSouth)
    && (a.rampBaseWest ==> b.rampBaseWest) && (a.rampBaseEast ==> b.rampBaseEast)
    && (a.rampTopNorth ==> b.rampTopNorth) && (a.rampTopSouth ==> b.rampTopSouth)
    && (a.rampTopWest ==> b.rampTopWest) && (a.rampTopEast ==> b.rampTopEast)
  }

  /** Marking a footprint sets its own end flags. */
  lemma MarkSetsEnds(g: Grid, rows: int, cols: int, fp: Footprint)
    requires Shaped(g, rows, cols) && WellPlaced(fp, rows, cols)
    ensures EndsMarked(Mark(g, rows, cols, fp), rows, cols, fp)
  {
    var g': Grid := Mark(g, rows, cols, fp);
    forall k | AcrossLo(fp) <= k < AcrossHi(fp)
      ensures EndsMarkedAt(g', rows, cols, fp, k)
    {
      if fp.alongX {
        assert g'[k][fp.col0] == MarkCell(g[k][fp.col0], fp, k, fp.col0);
        assert g'[k][fp.colEnd - 1] == MarkCell(g[k][fp.colEnd - 1], fp, k, fp.colEnd - 1);
      } else {
        assert g'[fp.row0][k] == MarkCell(g[fp.row0][k], fp, fp.row0, k);
        assert g'[fp.rowEnd - 1][k] == MarkCell(g[fp.rowEnd - 1][k], fp, fp.rowEnd - 1, k);
      }
    }
  }

  lemma EndsMonotone(g: Grid, g': Grid, rows: int, cols: int, fp: Footprint)
    requires Shaped(g, rows, cols) && Shaped(g', rows, cols) && WellPlaced(fp, rows, cols)
    requires forall r, c :: 0 <= r < rows && 0 <= c < cols ==> FlagsLe(g[r][c], g'[r][c])
    requires EndsMarked(g, rows, cols, fp)
    ensures EndsMarked(g', rows, cols, fp)
  {
    forall k | AcrossLo(fp) <= k < AcrossHi(fp)
      ensures EndsMarkedAt(g', rows, cols, fp, k)
    {
      assert EndsMarkedAt(g, rows, cols, fp, k);
      if fp.alongX {
        assert FlagsLe(g[k][fp.col0], g'[k][fp.col0]) && FlagsLe(g[k][fp.colEnd - 1], g'[k][fp.colEnd - 1]);
      } else {
        assert FlagsLe(g[fp.row0][k], g'[fp.row0][k]) && FlagsLe(g[fp.rowEnd - 1][k], g'[fp.rowEnd - 1][k]);
      }
    }
  }

  lemma MarkEnds(g: Grid, rows: int, cols: int, fps: seq<Footprint>, fp: Footprint)
    requires Shaped(g, rows, cols) && AllEndsMarked(g, rows, cols, fps) && WellPlaced(fp, rows, cols)
    ensures AllEndsMarked(Mark(g, rows, cols, fp), rows, cols, fps + [fp])
  {
    var g' := Mark(g, rows, cols, fp);
    assert forall r, c :: 0 <= r < rows && 0 <= c < cols ==> FlagsLe(g[r][c], g'[r][c]);
    var fps' := fps + [fp];
    MarkSetsEnds(g, rows, cols, fp);
    forall i | 0 <= i < |fps'|
      ensures WellPlaced(fps'[i], rows, cols) && EndsMarked(g', rows, cols, fps'[i])
    {
      if i < |fps| {
        assert fps'[i] == fps[i];
        EndsMonotone(g, g', rows, cols, fps[i]);
      } else {
        assert fps'[i] == fp;
      }
    }
  }

  lemma MarkFlags(g: Grid, rows: int, cols: int, fps: seq<Footprint>, fp: Footprint)
    requires Shaped(g, rows, cols) && FlagsExact(g, rows, cols, fps)
    ensures FlagsExact(Mark(g, rows, cols, fp), rows, cols, fps + [fp])
  {
    forall r, c | 0 <= r < rows && 0 <= c < cols
      ensures AnyCovers(fps + [fp], r, c) <==> AnyCovers(fps, r, c) || Covers(fp, r, c)
    {
      AnyCoversAppend(fps, fp, r, c);
    }
  }

  lemma MarkSeparated(g: Grid, rows: int, cols: int, fps: seq<Footprint>, fp: Footprint)
    requires Shaped(g, rows, cols) && FlagsExact(g, rows, cols, fps) && Separated(rows, cols, fps)
    requires forall i :: 0 <= i < |fps| ==> WellPlaced(fps[i], rows, cols)
    requires !Overlaps(g, rows, cols, fp)
    ensures Separated(rows, cols, fps + [fp])
  {
    var fps' := fps + [fp];
    forall i, j | 0 <= i < j < |fps'| ensures Apart(fps'[i], fps'[j], rows, cols) {
      assert fps'[i] == fps[i];
      if j == |fps| {
        forall r, c | Covers(fps[i], r, c) ensures !InPadded(fp, rows, cols, r, c) {
          assert WellPlaced(fps[i], rows, cols);
          assert AnyCovers(fps, r, c);
          assert g[r][c].hasRamp;
        }
      } else {
        assert fps'[j] == fps[j];
      }
    }
  }

  /** Marking an accepted footprint keeps `Placed`. */
  lemma MarkKeepsPlaced(g0: Grid, g: Grid, rows: int, cols: int, fps: seq<Footprint>, fp: Footprint)
    requires Placed(g0, g, rows, cols, fps)
    requires WellPlaced(fp, rows, cols) && !Overlaps(g, rows, cols, fp)
    ensures Placed(g0, Mark(g, rows, cols, fp), rows, cols, fps + [fp])
  {
    MarkEnds(g, rows, cols, fps, fp);
    MarkFlags(g, rows, cols, fps, fp);
    MarkSeparated(g, rows, cols, fps, fp);
  }

  /** One attempt of the placement loop: the candidate is accepted, marked
      and recorded when it lies in the zone and clear of every ramp cell in
      its padded area; otherwise nothing changes. */
  function Attempt(g: Grid, rows: int, cols: int, rng: Rng, a: nat, fps: seq<Footprint>): (res: (Grid, seq<Footprint>))
    requires Shaped(g, rows, cols) && Guard(rows, cols)
    ensures Shaped(res.0, rows, cols)
    ensures res.1 == fps || res.1 == fps + [Candidate(rng, a, rows, cols)]
  {
    var fp := Candidate(rng, a, rows, cols);
    if !InZone(fp, rows, cols) || Overlaps(g, rows, cols, fp) then (g, fps)
    else (Mark(g, rows, cols, fp), fps + [fp])
  }

  lemma AttemptKeepsPlaced(g0: Grid, g: Grid, rows: int, cols: int, rng: Rng, a: nat, fps: seq<Footprint>)
    requires Guard(rows, cols) && Placed(g0, g, rows, cols, fps)
    ensures var step := Attempt(g, rows, cols, rng, a, fps); Placed(g0, step.0, rows, cols, step.1)
  {
    var fp := Candidate(rng, a, rows, cols);
    if InZone(fp, rows, cols) && !Overlaps(g, rows, cols, fp) {
      assert WellPlaced(fp, rows, cols);
      MarkKeepsPlaced(g0, g, rows, cols, fps, fp);
    }
  }

  /** The placement loop from attempt `a` on, with the footprints `fps`
      accepted so far: it stops at `RAMP_COUNT` ramps or after
      `MAX_RAMP_ATTEMPTS` attempts. */
  function PlaceFrom(g: Grid, rows: int, cols: int, rng: Rng, a: nat, fps: seq<Footprint>): (res: (Grid, seq<Footprint>))
    requires Shaped(g, rows, cols) && Guard(rows, cols)
    requires |fps| <= RAMP_COUNT && a <= MAX_RAMP_ATTEMPTS
    ensures Shaped(res.0, rows, cols)
    ensures |fps| <= |res.1| <= RAMP_COUNT && res.1[..|fps|] == fps
    ensures |res.1| - |fps| <= MAX_RAMP_ATTEMPTS - a
    decreases MAX_RAMP_ATTEMPTS - a
  {
    if |fps| >= RAMP_COUNT || a >= MAX_RAMP_ATTEMPTS then
      assert fps[..|fps|] == fps;
      (g, fps)
    else
      var step := Attempt(g, rows, cols, rng, a, fps);
      var res := PlaceFrom(step.0, rows, cols, rng, a + 1, step.1);
      assert res.1[..|fps|] == res.1[..|step.1|][..|fps|];
      res
  }

  lemma PlaceFromKeepsPlaced(g0: Grid, g: Grid, rows: int, cols: int, rng: Rng, a: nat, fps: seq<Footprint>)
    requires Guard(rows, cols) && |fps| <= RAMP_COUNT && a <= MAX_RAMP_ATTEMPTS
    requires Placed(g0, g, rows, cols, fps)
    ensures var res := PlaceFrom(g, rows, cols, rng, a, fps); Placed(g0, res.0, rows, cols, res.1)
  {
    var inv := (h: Grid, hs: seq<Footprint>) => Placed(g0, h, rows, cols, hs);
    forall h: Grid, hs: seq<Footprint>, b: nat | Shaped(h, rows, cols) && inv(h, hs)
      ensures var step := Attempt(h, rows, cols, rng, b, hs); inv(step.0, step.1)
    {
      AttemptKeepsPlaced(g0, h, rows, cols, rng, b, hs);
    }
    PlaceFromInduction(inv, g, rows, cols, rng, a, fps);
  }

  /** Whatever every attempt keeps, the placement loop keeps. */
  lemma {:induction false} PlaceFromInduction(inv: (Grid, seq<Footprint>) -> bool, g: Grid, rows: int, cols: int,
                                              rng: Rng, a: nat, fps: seq<Footprint>)
    requires Shaped(g, rows, cols) && Guard(rows, cols) && |fps| <= RAMP_COUNT && a <= MAX_RAMP_ATTEMPTS
    requires forall h: Grid, hs: seq<Footprint>, b: nat {:trigger inv(h, hs), Attempt(h, rows, cols, rng, b, hs)}
               | Shaped(h, rows, cols) && inv(h, hs) :: var step := Attempt(h, rows, cols, rng, b, hs); inv(step.0, step.1)
    requires inv(g, fps)
    ensures var res := PlaceFrom(g, rows, cols, rng, a, fps); inv(res.0, res.1)
    decreases MAX_RAMP_ATTEMPTS - a
  {
    if |fps| < RAMP_COUNT && a < MAX_RAMP_ATTEMPTS {
      var step := Attempt(g, rows, cols, rng, a, fps);
      assert inv(step.0, step.1);
      PlaceFromInduction(inv, step.0, rows, cols, rng, a + 1, step.1);
      PlaceFromStep(g, rows, cols, rng, a, fps);
    } else {
      assert PlaceFrom(g, rows, cols, rng, a, fps) == (g, fps);
    }
  }

  /** One turn of the placement loop. */
  lemma PlaceFromStep(g: Grid, rows: int, cols: int, rng: Rng, a: nat, fps: seq<Footprint>)
    requires Shaped(g, rows, cols) && Guard(rows, cols)
    requires |fps| < RAMP_COUNT && a < MAX_RAMP_ATTEMPTS
    ensures var step := Attempt(g, rows, cols, rng, a, fps);
            PlaceFrom(g, rows, cols, rng, a, fps) == PlaceFrom(step.0, rows, cols, rng, a + 1, step.1)
  {
  }

  function MapRamps(fps: seq<Footprint>): (rs: seq<Ramp>)
    ensures |rs| == |fps| && forall i :: 0 <= i < |fps| ==> rs[i] == RampOf(fps[i])
  {
    if fps == [] then [] else [RampOf(fps[0])] + MapRamps(fps[1..])
  }

  /** `generate_ramps`: the marked grid, the ramps, and (for the statements
      below) the accepted footprints. A grid too small for a footprint gets
      no ramps. */
  function GenerateRamps(g: Grid, cols: int, rows: int, rng: Rng): (res: (Grid, seq<Ramp>, seq<Footprint>))
    requires Shaped(g, rows, cols)
    ensures Shaped(res.0, rows, cols)
    ensures !Guard(rows, cols) ==> res.0 == g && res.1 == [] && res.2 == []
    ensures |res.1| == |res.2| <= RAMP_COUNT
    ensures forall i :: 0 <= i < |res.2| ==> res.1[i] == RampOf(res.2[i])
  {
    if !Guard(rows, cols) then (g, [], [])
    else
      var (g', fps) := PlaceFrom(g, rows, cols, rng, 0, []);
      (g', MapRamps(fps), fps)
  }

  /** On a ramp-free grid, `generate_ramps` marks exactly the cells of the
      accepted footprints, changes nothing but ramp flags, puts each
      footprint in the border ring with its base and top on opposite ends,
      and keeps every footprint out of the padded area of every later one. */
  lemma GenerateRampsCorrect(g: Grid, cols: int, rows: int, rng: Rng)
    requires Shaped(g, rows, cols) && RampFree(g, rows, cols)
    ensures Placed(g, GenerateRamps(g, cols, rows, rng).0, rows, cols, GenerateRamps(g, cols, rows, rng).2)
  {
    if Guard(rows, cols) {
      PlaceFromKeepsPlaced(g, g, rows, cols, rng, 0, []);
    }
  }
}

=== FILE: reach.dfy ===
/** `all_cells_reachable` (server/src/map/grid.rs, and its older copy in
    server/src/map.rs): a breadth-first search over the non-ramp cells from the
    first non-ramp cell in row-major order. A step leaves a cell through a side
    on which THAT cell has no wall and enters an in-range non-ramp neighbour. */
module Reachability {
  import opened Wrappers
  import opened MapGrid

  /** A cell the search may stand on. */
  predicate Open(g: Grid, rows: int, cols: int, p: Pos)
    requires Shaped(g, rows, cols)
  {
    InGrid(rows, cols, p) && !g[p.0][p.1].hasRamp
  }

  /** One search step from `a` to `b`, exactly as the four direction tests. */
  predicate Step(g: Grid, rows: int, cols: int, a: Pos, b: Pos)
    requires Shaped(g, rows, cols)
  {
    && Open(g, rows, cols, a) && Open(g, rows, cols, b)
    && var cell := g[a.0][a.1];
    || (b == (a.0 - 1, a.1) && !cell.wallNorth)
    || (b == (a.0 + 1, a.1) && !cell.wallSouth)
    || (b == (a.0, a.1 - 1) && !cell.wallWest)
    || (b == (a.0, a.1 + 1) && !cell.wallEast)
  }

  ghost predicate IsPath(g: Grid, rows: int, cols: int, path: seq<Pos>)
    requires Shaped(g, rows, cols)
  {
    |path| > 0 && forall i :: 0 <= i < |path| - 1 ==> Step(g, rows, cols, path[i], path[i + 1])
  }

  /** Reference definition: some path of steps leads from `a` to `b`. */
  ghost predicate Reaches(g: Grid, rows: int, cols: int, a: Pos, b: Pos)
    requires Shaped(g, rows, cols)
  {
    exists path :: IsPath(g, rows, cols, path) && path[0] == a && path[|path| - 1] == b
  }

  /** The cells the search must reach. */
  function OpenCells(g: Grid, rows: int, cols: int): (s: set<Pos>)
    requires Shaped(g, rows, cols)
    ensures forall p :: p in s <==> Open(g, rows, cols, p)
  {
    set r, c | 0 <= r < rows && 0 <= c < cols && !g[r][c].hasRamp :: (r, c)
  }

  /** Row-major order on grid positions. */
  predicate Before(p: Pos, q: Pos)
  {
    p.0 < q.0 || (p.0 == q.0 && p.1 < q.1)
  }

  /** The first open cell at or after (r, c) in row-major order. */
  function FirstOpenFrom(g: Grid, rows: int, cols: int, r: int, c: int): (res: Option<Pos>)
    requires Shaped(g, rows, cols) && 0 <= r <= rows && 0 <= c <= cols
    ensures res.Some? ==> Open(g, rows, cols, res.value) && !Before(res.value, (r, c))
    ensures res.Some? ==> forall p :: !Before(p, (r, c)) && Before(p, res.value) ==> !Open(g, rows, cols, p)
    ensures res.None? ==> forall p :: !Before(p, (r, c)) ==> !Open(g, rows, cols, p)
    decreases rows - r, cols - c
  {
    if r == rows then None
    else if c == cols then FirstOpenFrom(g, rows, cols, r + 1, 0)
    else if !g[r][c].hasRamp then Some((r, c))
    else FirstOpenFrom(g, rows, cols, r, c + 1)
  }

  /** The search start: the first non-ramp cell in row-major order. */
  function StartCell(g: Grid, rows: int, cols: int): (res: Option<Pos>)
    requires Shaped(g, rows, cols)
    ensures res.Some? ==> Open(g, rows, cols, res.value)
    ensures res.Some? ==> forall p :: Before(p, res.value) ==> !Open(g, rows, cols, p)
    ensures res.None? <==> OpenCells(g, rows, cols) == {}
  {
    FirstOpenFrom(g, rows, cols, 0, 0)
  }

  /** What `all_cells_reachable` decides: degenerate dimensions and grids
      without a non-ramp cell pass; otherwise every non-ramp cell must be
      reachable from the start cell. */
  ghost predicate AllConnected(g: Grid, rows: int, cols: int)
    requires rows <= 0 || cols <= 0 || Shaped(g, rows, cols)
  {
    || rows <= 0 || cols <= 0
    || StartCell(g, rows, cols).None?
    || forall p :: Open(g, rows, cols, p) ==> Reaches(g, rows, cols, StartCell(g, rows, cols).value, p)
  }

  /** A set closed under steps. */
  ghost predicate Closed(g: Grid, rows: int, cols: int, s: set<Pos>)
    requires Shaped(g, rows, cols)
  {
    forall v, w :: v in s && Step(g, rows, cols, v, w) ==> w in s
  }

  /** A path that starts in a step-closed set never leaves it. */
  lemma {:induction false} PathStaysClosed(g: Grid, rows: int, cols: int, s: set<Pos>, path: seq<Pos>)
    requires Shaped(g, rows, cols)
    requires Closed(g, rows, cols, s) && IsPath(g, rows, cols, path) && path[0] in s
    ensures path[|path| - 1] in s
    decreases |path|
  {
    if |path| > 1 {
      var front := path[..|path| - 1];
      assert IsPath(g, rows, cols, front) by {
        forall i | 0 <= i < |front| - 1
          ensures Step(g, rows, cols, front[i], front[i + 1])
        {
          assert front[i] == path[i] && front[i + 1] == path[i + 1];
        }
      }
      PathStaysClosed(g, rows, cols, s, front);
      assert Step(g, rows, cols, path[|path| - 2], path[|path| - 1]);
    }
  }

  lemma SubsetSize<T>(a: set<T>, b: set<T>)
    requires a <= b
    ensures |a| <= |b| && |b - a| == |b| - |a|
    ensures |a| == |b| ==> a == b
  {
    assert a * b == a && a + b == b;
    assert |b - a| + |a| == |b|;
  }

  /** The extension of a path by one step. */
  lemma Extend(g: Grid, rows: int, cols: int, path: seq<Pos>, w: Pos)
    requires Shaped(g, rows, cols)
    requires IsPath(g, rows, cols, path) && Step(g, rows, cols, path[|path| - 1], w)
    ensures IsPath(g, rows, cols, path + [w])
  {
    var p := path + [w];
    forall i | 0 <= i < |p| - 1
      ensures Step(g, rows, cols, p[i], p[i + 1])
    {
      if i < |path| - 1 {
        assert p[i] == path[i] && p[i + 1] == path[i + 1];
      }
    }
  }

  /** Every visited cell carries a path from the start that leads to it. */
  ghost predicate PathsOk(g: Grid, rows: int, cols: int, start: Pos, visited: set<Pos>, paths: map<Pos, seq<Pos>>)
    requires Shaped(g, rows, cols)
  {
    forall v :: v in visited ==>
      (v in paths && IsPath(g, rows, cols, paths[v]) && paths[v][0] == start && paths[v][|paths[v]| - 1] == v)
  }

  /** The neighbour of `p` across side `d`. */
  function Neighbour(p: Pos, d: Side): Pos
  {
    match d
    case North => (p.0 - 1, p.1)
    case South => (p.0 + 1, p.1)
    case West => (p.0, p.1 - 1)
    case East => (p.0, p.1 + 1)
  }

  /** Every step goes to one of the four neighbours. */
  lemma StepNeighbour(g: Grid, rows: int, cols: int, a: Pos, b: Pos)
    requires Shaped(g, rows, cols) && Step(g, rows, cols, a, b)
    ensures b == Neighbour(a, North) || b == Neighbour(a, South) || b == Neighbour(a, West) || b == Neighbour(a, East)
  {
  }

  /** The search state grew from (v, q) to (v', q'): the queue was only
      appended to, by exactly the newly visited cells. */
  ghost predicate Grew(v: set<Pos>, q: seq<Pos>, v': set<Pos>, q': seq<Pos>)
  {
    && v <= v' && |q| <= |q'| && q'[..|q|] == q
    && |q'| - |q| == |v'| - |v|
    && (forall x :: x in q' ==> x in q || x in v')
    && (forall x :: x in v' && x !in v ==> x in q')
  }

  lemma GrewTrans(v: set<Pos>, q: seq<Pos>, v': set<Pos>, q': seq<Pos>, v'': set<Pos>, q'': seq<Pos>)
    requires Grew(v, q, v', q') && Grew(v', q', v'', q'')
    ensures Grew(v, q, v'', q'')
  {
    assert q''[..|q|] == q''[..|q'|][..|q|];
  }

  /** One direction test of the search loop: enqueue the neighbour across
      side `d` when the range check and `cur`'s wall flag let the search
      through, the neighbour is unvisited, and it is not a ramp. */
  method Visit(g: Grid, rows: int, cols: int, ghost start: Pos, cur: Pos, d: Side,
               visited: set<Pos>, queue: seq<Pos>, ghost paths: map<Pos, seq<Pos>>)
    returns (visited': set<Pos>, queue': seq<Pos>, ghost paths': map<Pos, seq<Pos>>)
    requires Shaped(g, rows, cols)
    requires Open(g, rows, cols, cur) && cur in visited && visited <= OpenCells(g, rows, cols)
    requires PathsOk(g, rows, cols, start, visited, paths)
    ensures visited <= visited' <= OpenCells(g, rows, cols)
    ensures PathsOk(g, rows, cols, start, visited', paths')
    ensures Step(g, rows, cols, cur, Neighbour(cur, d)) ==> Neighbour(cur, d) in visited'
    ensures (visited' == visited && queue' == queue)
         || (Neighbour(cur, d) !in visited && visited' == visited + {Neighbour(cur, d)}
             && queue' == queue + [Neighbour(cur, d)])
    ensures Grew(visited, queue, visited', queue')
  {
    var cell := g[cur.0][cur.1];
    var n := Neighbour(cur, d);
    var sideOpen := match d
      case North => cur.0 > 0 && !cell.wallNorth
      case South => cur.0 < rows - 1 && !cell.wallSouth
      case West => cur.1 > 0 && !cell.wallWest
      case East => cur.1 < cols - 1 && !cell.wallEast;
    visited', queue', paths' := visited, queue, paths;
    if sideOpen && n !in visited {
      if !g[n.0][n.1].hasRamp {
        Extend(g, rows, cols, paths[cur], n);
        paths' := paths[n := paths[cur] + [n]];
        visited' := visited + {n};
        queue' := queue + [n];
      }
    }
  }

  /** The body of the search loop for the popped cell `cur`: the four
      direction tests. Afterwards every step out of `cur` ends in a visited
      cell, and the queue grew by exactly the newly visited cells. */
  method Expand(g: Grid, rows: int, cols: int, ghost start: Pos, cur: Pos,
                visited: set<Pos>, queue: seq<Pos>, ghost paths: map<Pos, seq<Pos>>)
    returns (visited': set<Pos>, queue': seq<Pos>, ghost paths': map<Pos, seq<Pos>>)
    requires Shaped(g, rows, cols)
    requires Open(g, rows, cols, cur) && cur in visited && visited <= OpenCells(g, rows, cols)
    requires PathsOk(g, rows, cols, start, visited, paths)
    ensures visited <= visited' <= OpenCells(g, rows, cols)
    ensures PathsOk(g, rows, cols, start, visited', paths')
    ensures forall w :: Step(g, rows, cols, cur, w) ==> w in visited'
    ensures Grew(visited, queue, visited', queue')
  {
    var v1, q1, p1 := Visit(g, rows, cols, start, cur, North, visited, queue, paths);
    var v2, q2, p2 := Visit(g, rows, cols, start, cur, South, v1, q1, p1);
    var v3, q3, p3 := Visit(g, rows, cols, start, cur, West, v2, q2, p2);
    visited', queue', paths' := Visit(g, rows, cols, start, cur, East, v3, q3, p3);
    GrewTrans(visited, queue, v1, q1, v2, q2);
    GrewTrans(visited, queue, v2, q2, v3, q3);
    GrewTrans(visited, queue, v3, q3, visited', queue');
    forall w | Step(g, rows, cols, cur, w)
      ensures w in visited'
    {
      StepNeighbour(g, rows, cols, cur, w);
    }
  }

  /** Once every open cell is visited, every open cell is reachable. */
  lemma AllVisited(g: Grid, rows: int, cols: int, start: Pos, visited: set<Pos>, paths: map<Pos, seq<Pos>>)
    requires Shaped(g, rows, cols) && rows > 0 && cols > 0
    requires StartCell(g, rows, cols) == Some(start)
    requires visited == OpenCells(g, rows, cols) && PathsOk(g, rows, cols, start, visited, paths)
    ensures AllConnected(g, rows, cols)
  {
    forall p | Open(g, rows, cols, p)
      ensures Reaches(g, rows, cols, start, p)
    {
      assert p in visited;
      assert IsPath(g, rows, cols, paths[p]) && paths[p][0] == start && paths[p][|paths[p]| - 1] == p;
    }
  }

  /** A step-closed visited set that misses an open cell refutes connectivity. */
  lemma SomeMissed(g: Grid, rows: int, cols: int, start: Pos, visited: set<Pos>)
    requires Shaped(g, rows, cols) && rows > 0 && cols > 0
    requires StartCell(g, rows, cols) == Some(start) && start in visited
    requires visited <= OpenCells(g, rows, cols) && |visited| < |OpenCells(g, rows, cols)|
    requires Closed(g, rows, cols, visited)
    ensures !AllConnected(g, rows, cols)
  {
    SubsetSize(visited, OpenCells(g, rows, cols));
    assert |OpenCells(g, rows, cols) - visited| > 0;
    var missing :| missing in OpenCells(g, rows, cols) - visited;
    if Reaches(g, rows, cols, start, missing) {
      var path :| IsPath(g, rows, cols, path) && path[0] == start && path[|path| - 1] == missing;
      PathStaysClosed(g, rows, cols, visited, path);
    }
    assert !Reaches(g, rows, cols, start, missing);
  }

  /** `all_cells_reachable`. The result is exactly `AllConnected`; every cell
      is enqueued at most once, so the loop pops at most |OpenCells| cells. */
  method AllCellsReachable(g: Grid, cols: int, rows: int) returns (r: bool)
    requires rows <= 0 || cols <= 0 || Shaped(g, rows, cols)
    ensures r <==> AllConnected(g, rows, cols)
  {
    if cols <= 0 || rows <= 0 {
      return true;
    }
    var targetCount := |OpenCells(g, rows, cols)|;
    var startOpt := StartCell(g, rows, cols);
    if startOpt.None? {
      return true;
    }
    var start := startOpt.value;
    var visited: set<Pos> := {start};
    var queue: seq<Pos> := [start];
    ghost var paths: map<Pos, seq<Pos>> := map[start := [start]];
    ghost var pops := 0;

    while queue != []
      invariant start in visited && visited <= OpenCells(g, rows, cols)
      invariant forall q :: q in queue ==> q in visited
      invariant PathsOk(g, rows, cols, start, visited, paths)
      invariant forall v, w :: v in visited && v !in queue && Step(g, rows, cols, v, w) ==> w in visited
      invariant pops + |queue| == |visited| <= targetCount
      decreases targetCount - |visited|, |queue|
    {
      var cur := queue[0];
      queue := queue[1..];
      pops := pops + 1;
      assert cur in OpenCells(g, rows, cols);
      visited, queue, paths := Expand(g, rows, cols, start, cur, visited, queue, paths);
      SubsetSize(visited, OpenCells(g, rows, cols));
      if |visited| == targetCount {
        AllVisited(g, rows, cols, start, visited, paths);
        return true;
      }
    }
    r := |visited| == targetCount;
    if r {
      SubsetSize(visited, OpenCells(g, rows, cols));
      AllVisited(g, rows, cols, start, visited, paths);
    } else {
      SomeMissed(g, rows, cols, start, visited);
    }
  }
}

=== FILE: roofedges.dfy ===
/** Guard walls along roof edges (`generate_roof_edge_walls` in
    server/src/map/collision.rs): a thin wall on each side of a roofed cell
    that leads neither onto another roof nor down a ramp whose top faces it,
    so that nobody walks off a roof. */
module RoofEdges {
  import opened MapGrid
  import opened Walls

  /** Side `s` of cell `p` continues onto a roof or onto a ramp top that
      faces `p`. */
  predicate Continues(g: Grid, rows: int, cols: int, p: Pos, s: Side)
    requires Shaped(g, rows, cols) && InGrid(rows, cols, p)
  {
    var (r, c) := p;
    match s
    case North => r > 0 && (g[r - 1][c].hasRoof || g[r - 1][c].rampTopSouth)
    case South => r < rows - 1 && (g[r + 1][c].hasRoof || g[r + 1][c].rampTopNorth)
    case West => c > 0 && (g[r][c - 1].hasRoof || g[r][c - 1].rampTopEast)
    case East => c < cols - 1 && (g[r][c + 1].hasRoof || g[r][c + 1].rampTopWest)
  }

  /** Side `s` of roofed cell `p` gets a guard wall. */
  predicate Guarded(g: Grid, rows: int, cols: int, p: Pos, s: Side)
    requires Shaped(g, rows, cols) && InGrid(rows, cols, p)
  {
    g[p.0][p.1].hasRoof && !Continues(g, rows, cols, p, s)
  }

  /** The wall along side `s` of cell `p`. */
  function EdgeWall(p: Pos, s: Side): (w: Wall)
    ensures w.width == ROOF_WALL_THICKNESS
    ensures s == North || s == South ==> w.z1 == w.z2 && w.x2 - w.x1 == GRID_SIZE
    ensures s == West || s == East ==> w.x1 == w.x2 && w.z2 - w.z1 == GRID_SIZE
  {
    var x1 := LineX(p.1);
    var x2 := LineX(p.1 + 1);
    var z1 := LineZ(p.0);
    var z2 := LineZ(p.0 + 1);
    match s
    case North => Wall(x1, z1, x2, z1, ROOF_WALL_THICKNESS)
    case South => Wall(x1, z2, x2, z2, ROOF_WALL_THICKNESS)
    case West => Wall(x1, z1, x1, z2, ROOF_WALL_THICKNESS)
    case East => Wall(x2, z1, x2, z2, ROOF_WALL_THICKNESS)
  }

  /** The guard walls of one cell, in the order north, south, west, east. */
  function CellGuards(g: Grid, rows: int, cols: int, p: Pos): (ws: seq<Wall>)
    requires Shaped(g, rows, cols) && InGrid(rows, cols, p)
    ensures |ws| <= 4
    ensures !g[p.0][p.1].hasRoof ==> ws == []
    ensures forall k :: 0 <= k < |ws| ==> ws[k].width == ROOF_WALL_THICKNESS
  {
    var ws := (if Guarded(g, rows, cols, p, North) then [EdgeWall(p, North)] else [])
      + (if Guarded(g, rows, cols, p, South) then [EdgeWall(p, South)] else [])
      + (if Guarded(g, rows, cols, p, West) then [EdgeWall(p, West)] else [])
      + (if Guarded(g, rows, cols, p, East) then [EdgeWall(p, East)] else []);
    ws
  }

  /** A cell's guard walls are exactly the walls along its guarded sides. */
  lemma CellGuardsMembers(g: Grid, rows: int, cols: int, p: Pos, w: Wall)
    requires Shaped(g, rows, cols) && InGrid(rows, cols, p)
    ensures w in CellGuards(g, rows, cols, p) <==> exists s :: Guarded(g, rows, cols, p, s) && w == EdgeWall(p, s)
  {
    if w in CellGuards(g, rows, cols, p) {
      assert w == EdgeWall(p, North) || w == EdgeWall(p, South) || w == EdgeWall(p, West) || w == EdgeWall(p, East);
    }
  }

  /** Roofed cells at or after (r, c) in row-major order. */
  function RoofedFrom(g: Grid, rows: int, cols: int, r: int, c: int): nat
    requires Shaped(g, rows, cols) && 0 <= r <= rows && 0 <= c <= cols
    decreases rows - r, cols - c
  {
    if r == rows then 0
    else if c == cols then RoofedFrom(g, rows, cols, r + 1, 0)
    else (if g[r][c].hasRoof then 1 else 0) + RoofedFrom(g, rows, cols, r, c + 1)
  }

  /** `q` is at or after (r, c) in row-major order. */
  predicate AtOrAfter(q: Pos, r: int, c: int)
  {
    q.0 > r || (q.0 == r && q.1 >= c)
  }

  /** The guard walls of the cells at or after (r, c), in the scan's
      row-major order. */
  function GuardsFrom(g: Grid, rows: int, cols: int, r: int, c: int): (ws: seq<Wall>)
    requires Shaped(g, rows, cols) && 0 <= r <= rows && 0 <= c <= cols
    ensures |ws| <= 4 * RoofedFrom(g, rows, cols, r, c)
  {
    var t := GuardTable(g, rows, cols);
    FlattenLength(g, t, rows, cols, r, c);
    Flatten(t, rows, cols, r, c)
  }

  /** A table with at most four walls per roofed cell and none elsewhere
      flattens to at most four walls per roofed cell. */
  lemma {:induction false} FlattenLength(g: Grid, t: seq<seq<seq<Wall>>>, rows: int, cols: int, r: int, c: int)
    requires Shaped(g, rows, cols) && Rect(t, rows, cols) && 0 <= r <= rows && 0 <= c <= cols
    requires forall i, j :: 0 <= i < rows && 0 <= j < cols ==> |t[i][j]| <= 4
    requires forall i, j :: 0 <= i < rows && 0 <= j < cols && !g[i][j].hasRoof ==> t[i][j] == []
    ensures |Flatten(t, rows, cols, r, c)| <= 4 * RoofedFrom(g, rows, cols, r, c)
    decreases rows - r, cols - c
  {
    if r == rows {
    } else if c == cols {
      FlattenLength(g, t, rows, cols, r + 1, 0);
    } else {
      FlattenLength(g, t, rows, cols, r, c + 1);
      FlattenLengthStep(g, t, rows, cols, r, c);
    }
  }

  /** One cell of the scan: the bound carries over from the next cell. */
  lemma FlattenLengthStep(g: Grid, t: seq<seq<seq<Wall>>>, rows: int, cols: int, r: int, c: int)
    requires Shaped(g, rows, cols) && Rect(t, rows, cols) && 0 <= r < rows && 0 <= c < cols
    requires |t[r][c]| <= 4 && (!g[r][c].hasRoof ==> t[r][c] == [])
    requires |Flatten(t, rows, cols, r, c + 1)| <= 4 * RoofedFrom(g, rows, cols, r, c + 1)
    ensures |Flatten(t, rows, cols, r, c)| <= 4 * RoofedFrom(g, rows, cols, r, c)
  {
    assert |Flatten(t, rows, cols, r, c)| == |t[r][c]| + |Flatten(t, rows, cols, r, c + 1)|;
  }

  /** `generate_roof_edge_walls`: at most four walls per roofed cell. */
  function RoofEdgeWalls(g: Grid, rows: int, cols: int): (ws: seq<Wall>)
    requires Shaped(g, rows, cols)
    ensures |ws| <= 4 * RoofedFrom(g, rows, cols, 0, 0)
    ensures forall k :: 0 <= k < |ws| ==> ws[k].width == ROOF_WALL_THICKNESS
  {
    GuardWidths(g, rows, cols);
    GuardsFrom(g, rows, cols, 0, 0)
  }

  /** Every guard wall has the roof-wall thickness. */
  lemma GuardWidths(g: Grid, rows: int, cols: int)
    requires Shaped(g, rows, cols)
    ensures var ws := GuardsFrom(g, rows, cols, 0, 0);
            forall k :: 0 <= k < |ws| ==> ws[k].width == ROOF_WALL_THICKNESS
  {
    var t := GuardTable(g, rows, cols);
    var ws := Flatten(t, rows, cols, 0, 0);
    forall k | 0 <= k < |ws| ensures ws[k].width == ROOF_WALL_THICKNESS {
      FlattenMember(t, rows, cols, 0, 0, ws[k]);
      var i, j :| 0 <= i < rows && 0 <= j < cols && AtOrAfter((i, j), 0, 0) && ws[k] in t[i][j];
      assert ws[k] in CellGuards(g, rows, cols, (i, j));
    }
  }

  /** Membership: a wall is emitted exactly when it is one of the guard
      walls of some cell. */
  lemma GuardsMembers(g: Grid, rows: int, cols: int, r: int, c: int)
    requires Shaped(g, rows, cols) && 0 <= r <= rows && 0 <= c <= cols
    ensures forall w :: w in GuardsFrom(g, rows, cols, r, c) <==> GuardAtOrAfter(g, rows, cols, r, c, w)
  {
    forall w ensures w in GuardsFrom(g, rows, cols, r, c) <==> GuardAtOrAfter(g, rows, cols, r, c, w) {
      GuardsMember(g, rows, cols, r, c, w);
    }
  }

  /** Membership of one wall: the scan is the row-major flattening of the
      table of per-cell guard walls. */
  lemma GuardsMember(g: Grid, rows: int, cols: int, r: int, c: int, w: Wall)
    requires Shaped(g, rows, cols) && 0 <= r <= rows && 0 <= c <= cols
    ensures w in GuardsFrom(g, rows, cols, r, c) <==> GuardAtOrAfter(g, rows, cols, r, c, w)
  {
    FlattenMember(GuardTable(g, rows, cols), rows, cols, r, c, w);
    TableGuard(g, GuardTable(g, rows, cols), rows, cols, r, c, w);
  }

  /** A wall in the guard table at or after (r, c) is a guard wall of a cell
      there, and the other way round. */
  lemma TableGuard(g: Grid, t: seq<seq<seq<Wall>>>, rows: int, cols: int, r: int, c: int, w: Wall)
    requires Shaped(g, rows, cols) && Rect(t, rows, cols)
    requires forall i, j :: 0 <= i < rows && 0 <= j < cols ==> t[i][j] == CellGuards(g, rows, cols, (i, j))
    ensures InTableFrom(t, rows, cols, r, c, w) <==> GuardAtOrAfter(g, rows, cols, r, c, w)
  {
    if InTableFrom(t, rows, cols, r, c, w) {
      var i, j :| 0 <= i < rows && 0 <= j < cols && AtOrAfter((i, j), r, c) && w in t[i][j];
      assert InGrid(rows, cols, (i, j)) && w in CellGuards(g, rows, cols, (i, j));
    }
    if GuardAtOrAfter(g, rows, cols, r, c, w) {
      var p :| InGrid(rows, cols, p) && AtOrAfter(p, r, c) && w in CellGuards(g, rows, cols, p);
      assert w in t[p.0][p.1] && AtOrAfter((p.0, p.1), r, c);
    }
  }

  /** A row-major table of wall lists with `rows` rows of `cols` cells. */
  predicate Rect(t: seq<seq<seq<Wall>>>, rows: int, cols: int)
  {
    |t| == rows && cols >= 0 && forall i :: 0 <= i < rows ==> |t[i]| == cols
  }

  /** The guard walls of every cell, by row and column. */
  function GuardTable(g: Grid, rows: int, cols: int): (t: seq<seq<seq<Wall>>>)
    requires Shaped(g, rows, cols)
    ensures Rect(t, rows, cols)
    ensures forall i, j :: 0 <= i < rows && 0 <= j < cols ==> t[i][j] == CellGuards(g, rows, cols, (i, j))
  {
    seq(rows, i requires 0 <= i < rows => seq(cols, j requires 0 <= j < cols => CellGuards(g, rows, cols, (i, j))))
  }

  /** The lists of the cells at or after (r, c), concatenated in row-major
      order. */
  function Flatten(t: seq<seq<seq<Wall>>>, rows: int, cols: int, r: int, c: int): seq<Wall>
    requires Rect(t, rows, cols) && 0 <= r <= rows && 0 <= c <= cols
    decreases rows - r, cols - c
  {
    if r == rows then []
    else if c == cols then Flatten(t, rows, cols, r + 1, 0)
    else t[r][c] + Flatten(t, rows, cols, r, c + 1)
  }

  /** `w` is in the list of some cell at or after (r, c). */
  ghost predicate InTableFrom(t: seq<seq<seq<Wall>>>, rows: int, cols: int, r: int, c: int, w: Wall)
    requires Rect(t, rows, cols)
  {
    exists i, j :: 0 <= i < rows && 0 <= j < cols && AtOrAfter((i, j), r, c) && w in t[i][j]
  }

  /** The flattening holds exactly the walls of the cells it covers. */
  lemma {:induction false} FlattenMember(t: seq<seq<seq<Wall>>>, rows: int, cols: int, r: int, c: int, w: Wall)
    requires Rect(t, rows, cols) && 0 <= r <= rows && 0 <= c <= cols
    ensures w in Flatten(t, rows, cols, r, c) <==> InTableFrom(t, rows, cols, r, c, w)
    decreases rows - r, cols - c
  {
    if r == rows {
    } else if c == cols {
      FlattenMember(t, rows, cols, r + 1, 0, w);
      if InTableFrom(t, rows, cols, r, c, w) {
        var i, j :| 0 <= i < rows && 0 <= j < cols && AtOrAfter((i, j), r, c) && w in t[i][j];
        assert AtOrAfter((i, j), r + 1, 0);
      }
    } else {
      FlattenMember(t, rows, cols, r, c + 1, w);
      if InTableFrom(t, rows, cols, r, c, w) {
        var i, j :| 0 <= i < rows && 0 <= j < cols && AtOrAfter((i, j), r, c) && w in t[i][j];
        assert (i, j) == (r, c) || AtOrAfter((i, j), r, c + 1);
      }
      if w in t[r][c] {
        assert AtOrAfter((r, c), r, c);
      } else if InTableFrom(t, rows, cols, r, c + 1, w) {
        var i, j :| 0 <= i < rows && 0 <= j < cols && AtOrAfter((i, j), r, c + 1) && w in t[i][j];
        assert AtOrAfter((i, j), r, c);
      }
    }
  }

  /** The wall `w` is a guard wall of some cell at or after (r, c). */
  ghost predicate GuardAtOrAfter(g: Grid, rows: int, cols: int, r: int, c: int, w: Wall)
    requires Shaped(g, rows, cols)
  {
    exists p :: InGrid(rows, cols, p) && AtOrAfter(p, r, c) && w in CellGuards(g, rows, cols, p)
  }

  /** The side of the neighbour across side `s`. */
  function Across(s: Side): Side
  {
    match s
    case North => South
    case South => North
    case West => East
    case East => West
  }

  function Beyond(p: Pos, s: Side): Pos
  {
    match s
    case North => (p.0 - 1, p.1)
    case South => (p.0 + 1, p.1)
    case West => (p.0, p.1 - 1)
    case East => (p.0, p.1 + 1)
  }

  /** Two cell sides give the same wall only when they are the same side, or
      the two faces of one grid edge. */
  lemma EdgeWallShared(p: Pos, s: Side, q: Pos, t: Side)
    ensures EdgeWall(p, s) == EdgeWall(q, t) <==> (q, t) == (p, s) || (q, t) == (Beyond(p, s), Across(s))
  {
  }

  /** A guard wall never lies along a side of a roofed cell that continues
      onto a roof or a facing ramp top. */
  lemma GuardNotOnContinuingSide(g: Grid, rows: int, cols: int, p: Pos, s: Side, q: Pos, t: Side)
    requires Shaped(g, rows, cols) && InGrid(rows, cols, p) && InGrid(rows, cols, q)
    requires g[p.0][p.1].hasRoof && Guarded(g, rows, cols, q, t)
    ensures EdgeWall(p, s) == EdgeWall(q, t) ==> !Continues(g, rows, cols, p, s)
  {
    EdgeWallShared(p, s, q, t);
  }

  /** No roof can be walked off: a side of a roofed cell carries a guard
      wall exactly when it does not continue onto a roof or a facing ramp top. */
  lemma RoofsEnclosed(g: Grid, rows: int, cols: int, p: Pos, s: Side)
    requires Shaped(g, rows, cols) && InGrid(rows, cols, p) && g[p.0][p.1].hasRoof
    ensures EdgeWall(p, s) in RoofEdgeWalls(g, rows, cols) <==> !Continues(g, rows, cols, p, s)
  {
    GuardsMembers(g, rows, cols, 0, 0);
    if !Continues(g, rows, cols, p, s) {
      assert Guarded(g, rows, cols, p, s);
      CellGuardsMembers(g, rows, cols, p, EdgeWall(p, s));
      assert AtOrAfter(p, 0, 0);
    } else {
      forall q | InGrid(rows, cols, q) && AtOrAfter(q, 0, 0)
        ensures EdgeWall(p, s) !in CellGuards(g, rows, cols, q)
      {
        CellGuardsMembers(g, rows, cols, q, EdgeWall(p, s));
        forall t | Guarded(g, rows, cols, q, t) ensures EdgeWall(p, s) != EdgeWall(q, t) {
          GuardNotOnContinuingSide(g, rows, cols, p, s, q, t);
        }
      }
    }
  }

  /** A grid without roofs gets no guard walls. */
  lemma NoRoofsNoGuards(g: Grid, rows: int, cols: int, r: int, c: int)
    requires Shaped(g, rows, cols) && 0 <= r <= rows && 0 <= c <= cols
    requires forall i, j :: 0 <= i < rows && 0 <= j < cols ==> !g[i][j].hasRoof
    ensures GuardsFrom(g, rows, cols, r, c) == []
  {
    FlattenEmpty(GuardTable(g, rows, cols), rows, cols, r, c);
  }

  /** A table of empty lists flattens to nothing. */
  lemma {:induction false} FlattenEmpty(t: seq<seq<seq<Wall>>>, rows: int, cols: int, r: int, c: int)
    requires Rect(t, rows, cols) && 0 <= r <= rows && 0 <= c <= cols
    requires forall i, j :: 0 <= i < rows && 0 <= j < cols ==> t[i][j] == []
    ensures Flatten(t, rows, cols, r, c) == []
    decreases rows - r, cols - c
  {
    if r == rows {
    } else if c == cols {
      FlattenEmpty(t, rows, cols, r + 1, 0);
    } else {
      FlattenEmpty(t, rows, cols, r, c + 1);
    }
  }
}

=== FILE: roofmerge.dfy ===
/** `merge_roofs` (server/src/map/roofs.rs, and the same code with a tighter
    tolerance in server/src/map.rs): normalise every roof's corners, then
    repeat merging rounds until a round merges nothing. In a round each
    unused roof in turn becomes an accumulator that absorbs, pass after
    pass, every unused roof of the same thickness that shares its z span and
    touches it in x, or shares its x span and touches it in z. */
module RoofMerge {
  import opened Walls
  import opened Roofs

  /** Tolerance of server/src/map/roofs.rs. */
  const ROOF_MERGE_EPS: real := 0.01

  function MinR(a: real, b: real): (m: real)
    ensures m <= a && m <= b && (m == a || m == b)
  {
    if a <= b then a else b
  }

  /** Corners ordered: x1 <= x2 and z1 <= z2. */
  predicate Ordered(r: Roof)
  {
    r.x1 <= r.x2 && r.z1 <= r.z2
  }

  /** `b` lies within `a`'s rectangle. */
  predicate Inside(b: Roof, a: Roof)
  {
    a.x1 <= b.x1 && b.x2 <= a.x2 && a.z1 <= b.z1 && b.z2 <= a.z2
  }

  /** The normalising swap of both corner pairs. */
  function NormalizeRoof(r: Roof): (n: Roof)
    ensures Ordered(n) && n.thickness == r.thickness
    ensures {n.x1, n.x2} == {r.x1, r.x2} && {n.z1, n.z2} == {r.z1, r.z2}
    ensures Ordered(r) ==> n == r
  {
    var r1 := if r.x1 > r.x2 then r.(x1 := r.x2, x2 := r.x1) else r;
    if r1.z1 > r1.z2 then r1.(z1 := r1.z2, z2 := r1.z1) else r1
  }

  /** `(a - b).abs() < eps`, written without the case split. */
  predicate Near(a: real, b: real, eps: real)
    ensures Near(a, b, eps) <==> Abs(a - b) < eps
  {
    a - b < eps && b - a < eps
  }

  /** The merge test of the inner loop. */
  predicate Mergeable(acc: Roof, b: Roof, eps: real)
  {
    var sameThickness := Near(acc.thickness, b.thickness, eps);
    var sameZSpan := Near(acc.z1, b.z1, eps) && Near(acc.z2, b.z2, eps);
    var adjacentX := Near(acc.x2, b.x1, eps) || Near(b.x2, acc.x1, eps);
    var sameXSpan := Near(acc.x1, b.x1, eps) && Near(acc.x2, b.x2, eps);
    var adjacentZ := Near(acc.z2, b.z1, eps) || Near(b.z2, acc.z1, eps);
    sameThickness && ((sameZSpan && adjacentX) || (sameXSpan && adjacentZ))
  }

  /** The test does not depend on which roof is the accumulator. */
  lemma MergeableSymmetric(a: Roof, b: Roof, eps: real)
    ensures Mergeable(a, b, eps) <==> Mergeable(b, a, eps)
  {
  }

  /** The accumulator after absorbing `b`: the bounding box of both, keeping
      the accumulator's thickness. */
  function Union(acc: Roof, b: Roof): (u: Roof)
    ensures Inside(acc, u) && Inside(b, u) && u.thickness == acc.thickness
    ensures Ordered(acc) ==> Ordered(u)
    ensures forall c :: Inside(acc, c) && Inside(b, c) ==> Inside(u, c)
  {
    Roof(MinR(acc.x1, b.x1), MinR(acc.z1, b.z1), Max(acc.x2, b.x2), Max(acc.z2, b.z2), acc.thickness)
  }

  /** `n` copies of `v`. */
  function Fill<T>(n: nat, v: T): (s: seq<T>)
    ensures |s| == n && forall k :: 0 <= k < n ==> s[k] == v
  {
    if n == 0 then [] else Fill(n - 1, v) + [v]
  }

  function CountTrue(s: seq<bool>): (n: nat)
    ensures n <= |s|
  {
    if s == [] then 0 else (if s[0] then 1 else 0) + CountTrue(s[1..])
  }

  /** Marking one more entry raises the count by one. */
  lemma {:induction false} CountMark(s: seq<bool>, j: int)
    requires 0 <= j < |s| && !s[j]
    ensures CountTrue(s[j := true]) == CountTrue(s) + 1
  {
    if j > 0 {
      assert s[j := true][1..] == s[1..][j - 1 := true];
      CountMark(s[1..], j - 1);
    }
  }

  /** All entries marked means the count is the length. */
  lemma {:induction false} CountAll(s: seq<bool>)
    requires forall k :: 0 <= k < |s| ==> s[k]
    ensures CountTrue(s) == |s|
  {
    if s != [] {
      CountAll(s[1..]);
    }
  }

  /** Nothing marked means a zero count. */
  lemma {:induction false} CountNone(s: seq<bool>)
    requires forall k :: 0 <= k < |s| ==> !s[k]
    ensures CountTrue(s) == 0
  {
    if s != [] {
      CountNone(s[1..]);
    }
  }

  /** Each corner coordinate of `o` is the same coordinate of some roof of
      `src`: `o` reaches no further than those roofs do. */
  ghost predicate CornersFrom(o: Roof, src: seq<Roof>)
  {
    && (exists k :: 0 <= k < |src| && o.x1 == src[k].x1)
    && (exists k :: 0 <= k < |src| && o.z1 == src[k].z1)
    && (exists k :: 0 <= k < |src| && o.x2 == src[k].x2)
    && (exists k :: 0 <= k < |src| && o.z2 == src[k].z2)
  }

  /** Every roof of `dst` takes its corners from `src`. */
  ghost predicate AllCornersFrom(dst: seq<Roof>, src: seq<Roof>)
  {
    forall m {:trigger CornersFrom(dst[m], src)} :: 0 <= m < |dst| ==> CornersFrom(dst[m], src)
  }

  /** A roof of the list takes its corners from the list. */
  lemma CornersFromSelf(src: seq<Roof>, i: int)
    requires 0 <= i < |src|
    ensures CornersFrom(src[i], src)
  {
  }

  lemma AllCornersSelf(src: seq<Roof>)
    ensures AllCornersFrom(src, src)
  {
    forall m | 0 <= m < |src| ensures CornersFrom(src[m], src) {
      CornersFromSelf(src, m);
    }
  }

  /** Absorbing a roof of the list keeps the corners within the list's. */
  lemma CornersUnion(acc: Roof, src: seq<Roof>, j: int)
    requires 0 <= j < |src| && CornersFrom(acc, src)
    ensures CornersFrom(Union(acc, src[j]), src)
  {
    var u := Union(acc, src[j]);
    if u.x1 != acc.x1 { assert u.x1 == src[j].x1; }
    if u.z1 != acc.z1 { assert u.z1 == src[j].z1; }
    if u.x2 != acc.x2 { assert u.x2 == src[j].x2; }
    if u.z2 != acc.z2 { assert u.z2 == src[j].z2; }
  }

  /** Corner provenance composes across rounds. */
  lemma CornersTrans(src: seq<Roof>, mid: seq<Roof>, dst: seq<Roof>)
    requires AllCornersFrom(mid, src) && AllCornersFrom(dst, mid)
    ensures AllCornersFrom(dst, src)
  {
    forall m | 0 <= m < |dst| ensures CornersFrom(dst[m], src) {
      var o := dst[m];
      assert CornersFrom(dst[m], mid);
      var a :| 0 <= a < |mid| && o.x1 == mid[a].x1;
      var b :| 0 <= b < |mid| && o.z1 == mid[b].z1;
      var c :| 0 <= c < |mid| && o.x2 == mid[c].x2;
      var d :| 0 <= d < |mid| && o.z2 == mid[d].z2;
      assert CornersFrom(mid[a], src) && CornersFrom(mid[b], src) && CornersFrom(mid[c], src) && CornersFrom(mid[d], src);
    }
  }

  /** `used2` marks everything `used` marks. */
  predicate MarksMore(used: seq<bool>, used2: seq<bool>)
  {
    |used2| == |used| && forall k :: 0 <= k < |used| && used[k] ==> used2[k]
  }

  /** The roofs absorbed between `used` and `used2` lie inside `acc` and
      are within the tolerance of its thickness `th`. */
  ghost predicate AbsorbedInto(roofs: seq<Roof>, used: seq<bool>, used2: seq<bool>, acc: Roof, th: real, eps: real)
    requires |used| == |roofs| && |used2| == |roofs|
  {
    forall k :: 0 <= k < |roofs| && used2[k] && !used[k] ==> Inside(roofs[k], acc) && Near(th, roofs[k].thickness, eps)
  }

  /** One pass `for j in 0..len` of the inner loop. */
  method Pass(roofs: seq<Roof>, used: seq<bool>, acc: Roof, eps: real)
    returns (acc2: Roof, used2: seq<bool>, merged: bool)
    requires |used| == |roofs|
    ensures MarksMore(used, used2)
    ensures CornersFrom(acc, roofs) ==> CornersFrom(acc2, roofs)
    ensures merged <==> CountTrue(used2) > CountTrue(used)
    ensures !merged ==> acc2 == acc && used2 == used
    ensures !merged ==> forall j :: 0 <= j < |roofs| && !used[j] ==> !Mergeable(acc, roofs[j], eps)
    ensures Inside(acc, acc2) && acc2.thickness == acc.thickness
    ensures (Ordered(acc) && forall k :: 0 <= k < |roofs| ==> Ordered(roofs[k])) ==> Ordered(acc2)
    ensures AbsorbedInto(roofs, used, used2, acc2, acc.thickness, eps)
  {
    acc2, used2, merged := acc, used, false;
    var j := 0;
    while j < |roofs|
      invariant 0 <= j <= |roofs|
      invariant MarksMore(used, used2)
      invariant CornersFrom(acc, roofs) ==> CornersFrom(acc2, roofs)
      invariant merged <==> CountTrue(used2) > CountTrue(used)
      invariant CountTrue(used2) >= CountTrue(used)
      invariant !merged ==> acc2 == acc && used2 == used
      invariant !merged ==> forall k :: 0 <= k < j && !used[k] ==> !Mergeable(acc, roofs[k], eps)
      invariant Inside(acc, acc2) && acc2.thickness == acc.thickness
      invariant (Ordered(acc) && forall k :: 0 <= k < |roofs| ==> Ordered(roofs[k])) ==> Ordered(acc2)
      invariant AbsorbedInto(roofs, used, used2, acc2, acc.thickness, eps)
    {
      if !used2[j] && Mergeable(acc2, roofs[j], eps) {
        CountMark(used2, j);
        if CornersFrom(acc, roofs) {
          CornersUnion(acc2, roofs, j);
        }
        acc2 := Union(acc2, roofs[j]);
        used2 := used2[j := true];
        merged := true;
      }
      j := j + 1;
    }
  }

  /** `while merged_this_round { … }`: passes until one absorbs nothing.
      Afterwards no unused roof can be merged into the accumulator, and
      `m` roofs were absorbed. */
  method Grow(roofs: seq<Roof>, used: seq<bool>, acc: Roof, eps: real)
    returns (acc2: Roof, used2: seq<bool>, any: bool, ghost m: nat)
    requires |used| == |roofs|
    ensures any <==> m > 0
    ensures MarksMore(used, used2)
    ensures CornersFrom(acc, roofs) ==> CornersFrom(acc2, roofs)
    ensures CountTrue(used2) == CountTrue(used) + m
    ensures m == 0 ==> acc2 == acc && used2 == used
    ensures forall j :: 0 <= j < |roofs| && !used2[j] ==> !Mergeable(acc2, roofs[j], eps)
    ensures Inside(acc, acc2) && acc2.thickness == acc.thickness
    ensures (Ordered(acc) && forall k :: 0 <= k < |roofs| ==> Ordered(roofs[k])) ==> Ordered(acc2)
    ensures AbsorbedInto(roofs, used, used2, acc2, acc.thickness, eps)
  {
    acc2, used2, any, m := acc, used, false, 0;
    var merged := true;
    while merged
      invariant any <==> m > 0
      invariant MarksMore(used, used2)
      invariant CornersFrom(acc, roofs) ==> CornersFrom(acc2, roofs)
      invariant CountTrue(used2) == CountTrue(used) + m
      invariant m == 0 ==> acc2 == acc && used2 == used
      invariant !merged ==> forall j :: 0 <= j < |roofs| && !used2[j] ==> !Mergeable(acc2, roofs[j], eps)
      invariant Inside(acc, acc2) && acc2.thickness == acc.thickness
      invariant (Ordered(acc) && forall k :: 0 <= k < |roofs| ==> Ordered(roofs[k])) ==> Ordered(acc2)
      invariant AbsorbedInto(roofs, used, used2, acc2, acc.thickness, eps)
      decreases |roofs| - CountTrue(used2), if merged then 1 else 0
    {
      var a3, u3, mg := Pass(roofs, used2, acc2, eps);
      m := m + (CountTrue(u3) - CountTrue(used2));
      acc2, used2, merged := a3, u3, mg;
      any := any || mg;
    }
  }

  /** Every roof of `src` lies inside some roof of `dst`. */
  ghost predicate CoveredBy(src: seq<Roof>, dst: seq<Roof>)
  {
    forall k :: 0 <= k < |src| ==> InsideSome(src[k], dst)
  }

  ghost predicate InsideSome(r: Roof, dst: seq<Roof>)
  {
    exists m :: 0 <= m < |dst| && Inside(r, dst[m])
  }

  /** Every roof of `dst` has the thickness of some roof of `src`. */
  ghost predicate ThicknessFrom(src: seq<Roof>, dst: seq<Roof>)
  {
    forall m {:trigger ThicknessOfSome(dst[m].thickness, src)} :: 0 <= m < |dst| ==> ThicknessOfSome(dst[m].thickness, src)
  }

  ghost predicate ThicknessOfSome(t: real, src: seq<Roof>)
  {
    exists k :: 0 <= k < |src| && t == src[k].thickness
  }

  predicate AllOrdered(s: seq<Roof>)
  {
    forall k :: 0 <= k < |s| ==> Ordered(s[k])
  }

  /** No two roofs (first before second) pass the merge test. */
  predicate Stable(s: seq<Roof>, eps: real)
  {
    forall a, b :: 0 <= a < b < |s| ==> !Mergeable(s[a], s[b], eps)
  }

  /** `r` lies inside a roof of `out` whose thickness is within the
      tolerance of its own. */
  ghost predicate AbsorbedBy(r: Roof, out: seq<Roof>, eps: real)
  {
    exists m :: 0 <= m < |out| && Inside(r, out[m]) && Near(out[m].thickness, r.thickness, eps)
  }

  /** No roof before `i` passes the merge test with a later one. */
  predicate StableBefore(s: seq<Roof>, i: int, eps: real)
  {
    forall a, b :: 0 <= a < i && a < b < |s| ==> !Mergeable(s[a], s[b], eps)
  }

  /** One round of the outer loop. It returns fewer roofs exactly when it
      merged something; a round that merges nothing returns its input, in
      which then no pair passes the merge test. Each input roof ends inside
      an output roof of a thickness within the tolerance, each output roof
      takes its thickness and each corner coordinate from input roofs, and
      corner order is kept. */
  method Round(roofs: seq<Roof>, eps: real) returns (out: seq<Roof>, changed: bool)
    requires eps > 0.0
    ensures |out| <= |roofs|
    ensures changed <==> |out| < |roofs|
    ensures !changed ==> out == roofs && Stable(roofs, eps)
    ensures forall k :: 0 <= k < |roofs| ==> AbsorbedBy(roofs[k], out, eps)
    ensures ThicknessFrom(roofs, out)
    ensures AllCornersFrom(out, roofs)
    ensures AllOrdered(roofs) ==> AllOrdered(out)
  {
    var n := |roofs|;
    var used := Fill(n, false);
    out, changed := [], false;
    ghost var merges: nat := 0;
    ghost var owner: seq<int> := Fill(n, 0);
    ghost var origin: seq<int> := [];
    RoundStart(roofs, eps, used, owner);
    out, changed := RoundFrom(roofs, eps, 0, used, out, changed, merges, owner, origin);
  }

  /** The rest of a round, from roof `i` on, with the round's result. */
  method RoundFrom(roofs: seq<Roof>, eps: real, i: int, used: seq<bool>, out: seq<Roof>, changed: bool,
                   ghost merges: nat, ghost owner: seq<int>, ghost origin: seq<int>)
    returns (out2: seq<Roof>, changed2: bool)
    requires eps > 0.0 && RoundInv(roofs, eps, i, used, out, changed, merges, owner, origin)
    requires AllCornersFrom(out, roofs)
    ensures |out2| <= |roofs|
    ensures changed2 <==> |out2| < |roofs|
    ensures !changed2 ==> out2 == roofs && Stable(roofs, eps)
    ensures forall k :: 0 <= k < |roofs| ==> AbsorbedBy(roofs[k], out2, eps)
    ensures ThicknessFrom(roofs, out2)
    ensures AllCornersFrom(out2, roofs)
    ensures AllOrdered(roofs) ==> AllOrdered(out2)
    decreases |roofs| - i
  {
    if i == |roofs| {
      RoundDone(roofs, eps, used, out, changed, merges, owner, origin);
      return out, changed;
    }
    var used1, out1, changed1, merges1, owner1, origin1 := RoundStep(roofs, eps, i, used, out, changed, merges, owner, origin);
    out2, changed2 := RoundFrom(roofs, eps, i + 1, used1, out1, changed1, merges1, owner1, origin1);
  }

  /** Before the first roof: nothing used, nothing output. */
  lemma RoundStart(roofs: seq<Roof>, eps: real, used: seq<bool>, owner: seq<int>)
    requires |used| == |roofs| && |owner| == |roofs| && forall k :: 0 <= k < |used| ==> !used[k]
    ensures RoundInv(roofs, eps, 0, used, [], false, 0, owner, [])
    ensures AllCornersFrom([], roofs)
  {
    CountNone(used);
    assert roofs[..0] == [];
  }

  /** One turn of a round: skip a used roof, or take an unused one. */
  method RoundStep(roofs: seq<Roof>, eps: real, i: int, used: seq<bool>, out: seq<Roof>, changed: bool,
                   ghost merges: nat, ghost owner: seq<int>, ghost origin: seq<int>)
    returns (used2: seq<bool>, out2: seq<Roof>, changed2: bool,
             ghost merges2: nat, ghost owner2: seq<int>, ghost origin2: seq<int>)
    requires eps > 0.0 && RoundInv(roofs, eps, i, used, out, changed, merges, owner, origin)
    requires i < |roofs| && AllCornersFrom(out, roofs)
    ensures RoundInv(roofs, eps, i + 1, used2, out2, changed2, merges2, owner2, origin2)
    ensures AllCornersFrom(out2, roofs)
  {
    if used[i] {
      SkipStep(roofs, eps, i, used, out, changed, merges, owner, origin);
      return used, out, changed, merges, owner, origin;
    }
    used2, out2, changed2, merges2, owner2, origin2 := RoundTake(roofs, eps, i, used, out, changed, merges, owner, origin);
  }

  /** The body of a round for a roof not yet used: grow it and keep the
      round's invariant. */
  method RoundTake(roofs: seq<Roof>, eps: real, i: int, used: seq<bool>, out: seq<Roof>, changed: bool,
                   ghost merges: nat, ghost owner: seq<int>, ghost origin: seq<int>)
    returns (used2: seq<bool>, out2: seq<Roof>, changed2: bool,
             ghost merges2: nat, ghost owner2: seq<int>, ghost origin2: seq<int>)
    requires eps > 0.0 && RoundInv(roofs, eps, i, used, out, changed, merges, owner, origin)
    requires i < |roofs| && !used[i] && AllCornersFrom(out, roofs)
    ensures RoundInv(roofs, eps, i + 1, used2, out2, changed2, merges2, owner2, origin2)
    ensures AllCornersFrom(out2, roofs)
  {
    var n := |roofs|;
    var any;
    ghost var m;
    used2, out2, any, m := TakeRoof(roofs, used, out, i, eps);
    owner2 := seq(n, k requires 0 <= k < n => if used2[k] && !used[k] then |out| else owner[k]);
    TakeStep(roofs, eps, i, used, out, changed, merges, owner, origin, used2, out2, any, m, owner2);
    CornersStep(roofs, out, out2);
    origin2 := origin + [i];
    merges2 := merges + m;
    changed2 := changed || any;
  }

  lemma RoundDone(roofs: seq<Roof>, eps: real, used: seq<bool>, out: seq<Roof>, changed: bool,
                  merges: nat, owner: seq<int>, origin: seq<int>)
    requires RoundInv(roofs, eps, |roofs|, used, out, changed, merges, owner, origin)
    ensures |out| <= |roofs|
    ensures changed <==> |out| < |roofs|
    ensures !changed ==> out == roofs && Stable(roofs, eps)
    ensures forall k :: 0 <= k < |roofs| ==> AbsorbedBy(roofs[k], out, eps)
    ensures ThicknessFrom(roofs, out)
    ensures AllOrdered(roofs) ==> AllOrdered(out)
  {
    CountDone(used, |out|, merges);
    if !changed {
      StableDone(roofs, eps, out);
    }
    OwnedAll(roofs, used, out, owner, eps);
    OriginsAll(roofs, out, origin);
  }

  /** With every roof used, the output and the merges account for all of
      them. */
  lemma CountDone(used: seq<bool>, n: nat, merges: nat)
    requires forall k :: 0 <= k < |used| ==> used[k]
    requires n + merges == CountTrue(used)
    ensures n + merges == |used|
  {
    CountAll(used);
  }

  /** A round without merges copied every roof, none of which passes the
      merge test with a later one. */
  lemma StableDone(roofs: seq<Roof>, eps: real, out: seq<Roof>)
    requires out == roofs[..|roofs|] && StableBefore(roofs, |roofs|, eps)
    ensures out == roofs && Stable(roofs, eps)
  {
    assert roofs[..|roofs|] == roofs;
  }

  /** The loop invariant of a round after the first `i` roofs. */
  ghost predicate RoundInv(roofs: seq<Roof>, eps: real, i: int, used: seq<bool>, out: seq<Roof>, changed: bool,
                           merges: nat, owner: seq<int>, origin: seq<int>)
  {
    && 0 <= i <= |roofs| && |used| == |roofs|
    && (forall k :: 0 <= k < i ==> used[k])
    && |out| + merges == CountTrue(used)
    && (changed <==> merges > 0)
    && (merges == 0 ==> out == roofs[..i] && forall k :: i <= k < |roofs| ==> !used[k])
    && (merges == 0 ==> StableBefore(roofs, i, eps))
    && Owned(roofs, used, out, owner, eps)
    && Origins(roofs, out, origin)
    && (AllOrdered(roofs) ==> AllOrdered(out))
  }

  lemma SkipStep(roofs: seq<Roof>, eps: real, i: int, used: seq<bool>, out: seq<Roof>, changed: bool,
                 merges: nat, owner: seq<int>, origin: seq<int>)
    requires RoundInv(roofs, eps, i, used, out, changed, merges, owner, origin) && i < |roofs| && used[i]
    ensures RoundInv(roofs, eps, i + 1, used, out, changed, merges, owner, origin)
  {
  }

  lemma TakeStep(roofs: seq<Roof>, eps: real, i: int, used: seq<bool>, out: seq<Roof>, changed: bool,
                 merges: nat, owner: seq<int>, origin: seq<int>,
                 used2: seq<bool>, out2: seq<Roof>, any: bool, m: nat, owner2: seq<int>)
    requires RoundInv(roofs, eps, i, used, out, changed, merges, owner, origin) && i < |roofs| && !used[i]
    requires MarksMore(used, used2) && used2[i]
    requires |out2| == |out| + 1 && out2[..|out|] == out
    requires CountTrue(used2) == CountTrue(used) + 1 + m
    requires any <==> m > 0
    requires m == 0 ==> out2 == out + [roofs[i]] && used2 == used[i := true]
    requires m == 0 ==> forall b :: 0 <= b < |roofs| && !used2[b] ==> !Mergeable(roofs[i], roofs[b], eps)
    requires out2[|out|].thickness == roofs[i].thickness
    requires forall k :: 0 <= k < |roofs| && used2[k] && !used[k] ==>
               Inside(roofs[k], out2[|out|]) && Near(out2[|out|].thickness, roofs[k].thickness, eps)
    requires AllOrdered(roofs) && AllOrdered(out) ==> AllOrdered(out2)
    requires |owner2| == |roofs|
    requires forall k :: 0 <= k < |roofs| ==> owner2[k] == if used2[k] && !used[k] then |out| else owner[k]
    ensures RoundInv(roofs, eps, i + 1, used2, out2, changed || any, merges + m, owner2, origin + [i])
  {
    OwnedStep(roofs, used, out, owner, used2, out2, owner2, eps);
    if merges + m == 0 {
      StableStep(roofs, eps, i, used2);
      assert roofs[..i + 1] == roofs[..i] + [roofs[i]];
    }
    OriginsStep(roofs, out, origin, out2, i);
  }

  lemma CornersStep(roofs: seq<Roof>, out: seq<Roof>, out2: seq<Roof>)
    requires AllCornersFrom(out, roofs)
    requires |out2| == |out| + 1 && out2[..|out|] == out && CornersFrom(out2[|out|], roofs)
    ensures AllCornersFrom(out2, roofs)
  {
    forall q | 0 <= q < |out2| ensures CornersFrom(out2[q], roofs) {
      if q < |out| {
        assert out2[q] == out[q];
      }
    }
  }

  lemma StableStep(roofs: seq<Roof>, eps: real, i: int, used2: seq<bool>)
    requires 0 <= i < |roofs| && |used2| == |roofs| && StableBefore(roofs, i, eps)
    requires forall k :: i < k < |roofs| ==> !used2[k]
    requires forall b :: 0 <= b < |roofs| && !used2[b] ==> !Mergeable(roofs[i], roofs[b], eps)
    ensures StableBefore(roofs, i + 1, eps)
  {
    forall a, b | 0 <= a < i + 1 && a < b < |roofs|
      ensures !Mergeable(roofs[a], roofs[b], eps)
    {
      if a == i {
        assert !used2[b];
      }
    }
  }

  lemma OriginsStep(roofs: seq<Roof>, out: seq<Roof>, origin: seq<int>, out2: seq<Roof>, i: int)
    requires Origins(roofs, out, origin) && 0 <= i < |roofs|
    requires |out2| == |out| + 1 && out2[..|out|] == out && out2[|out|].thickness == roofs[i].thickness
    ensures Origins(roofs, out2, origin + [i])
  {
    var origin2 := origin + [i];
    forall q | 0 <= q < |out2|
      ensures 0 <= origin2[q] < |roofs| && out2[q].thickness == roofs[origin2[q]].thickness
    {
      if q < |out| {
        assert out2[q] == out[q];
      }
    }
  }

  /** Every used roof has an owner in `out` that contains it, of a thickness
      within the tolerance. */
  ghost predicate Owned(roofs: seq<Roof>, used: seq<bool>, out: seq<Roof>, owner: seq<int>, eps: real)
  {
    |used| == |roofs| && |owner| == |roofs|
    && forall k :: 0 <= k < |roofs| && used[k] ==>
         0 <= owner[k] < |out| && Inside(roofs[k], out[owner[k]]) && Near(out[owner[k]].thickness, roofs[k].thickness, eps)
  }

  /** Every output roof names an input roof of the same thickness. */
  ghost predicate Origins(roofs: seq<Roof>, out: seq<Roof>, origin: seq<int>)
  {
    |origin| == |out| && forall m :: 0 <= m < |out| ==> 0 <= origin[m] < |roofs| && out[m].thickness == roofs[origin[m]].thickness
  }

  lemma OwnedStep(roofs: seq<Roof>, used: seq<bool>, out: seq<Roof>, owner: seq<int>,
                  used2: seq<bool>, out2: seq<Roof>, owner2: seq<int>, eps: real)
    requires Owned(roofs, used, out, owner, eps) && MarksMore(used, used2)
    requires |out2| == |out| + 1 && out2[..|out|] == out
    requires forall k :: 0 <= k < |roofs| && used2[k] && !used[k] ==>
               Inside(roofs[k], out2[|out|]) && Near(out2[|out|].thickness, roofs[k].thickness, eps)
    requires |owner2| == |roofs|
    requires forall k :: 0 <= k < |roofs| ==> owner2[k] == if used2[k] && !used[k] then |out| else owner[k]
    ensures Owned(roofs, used2, out2, owner2, eps)
  {
    forall k | 0 <= k < |roofs| && used2[k]
      ensures 0 <= owner2[k] < |out2| && Inside(roofs[k], out2[owner2[k]])
              && Near(out2[owner2[k]].thickness, roofs[k].thickness, eps)
    {
      if used[k] {
        assert out2[owner[k]] == out[owner[k]];
      }
    }
  }

  lemma OwnedAll(roofs: seq<Roof>, used: seq<bool>, out: seq<Roof>, owner: seq<int>, eps: real)
    requires Owned(roofs, used, out, owner, eps) && forall k :: 0 <= k < |used| ==> used[k]
    ensures forall k :: 0 <= k < |roofs| ==> AbsorbedBy(roofs[k], out, eps)
  {
    forall k | 0 <= k < |roofs|
      ensures AbsorbedBy(roofs[k], out, eps)
    {
      assert used[k];
      assert Inside(roofs[k], out[owner[k]]);
    }
  }

  lemma OriginsAll(roofs: seq<Roof>, out: seq<Roof>, origin: seq<int>)
    requires Origins(roofs, out, origin)
    ensures ThicknessFrom(roofs, out)
  {
    forall m | 0 <= m < |out|
      ensures ThicknessOfSome(out[m].thickness, roofs)
    {
      assert out[m].thickness == roofs[origin[m]].thickness;
    }
  }

  /** The body of the round for an unused roof `i`: it seeds the
      accumulator, grows it and appends it to the output. */
  method TakeRoof(roofs: seq<Roof>, used: seq<bool>, out: seq<Roof>, i: int, eps: real)
    returns (used2: seq<bool>, out2: seq<Roof>, any: bool, ghost m: nat)
    requires eps > 0.0 && 0 <= i < |roofs| && |used| == |roofs| && !used[i]
    ensures MarksMore(used, used2) && used2[i]
    ensures |out2| == |out| + 1 && out2[..|out|] == out
    ensures CountTrue(used2) == CountTrue(used) + 1 + m
    ensures any <==> m > 0
    ensures m == 0 ==> out2 == out + [roofs[i]] && used2 == used[i := true]
    ensures m == 0 ==> forall b :: 0 <= b < |roofs| && !used2[b] ==> !Mergeable(roofs[i], roofs[b], eps)
    ensures out2[|out|].thickness == roofs[i].thickness
    ensures CornersFrom(out2[|out|], roofs)
    ensures forall k :: 0 <= k < |roofs| && used2[k] && !used[k] ==>
              Inside(roofs[k], out2[|out|]) && Near(out2[|out|].thickness, roofs[k].thickness, eps)
    ensures AllOrdered(roofs) && AllOrdered(out) ==> AllOrdered(out2)
  {
    var acc := roofs[i];
    CornersFromSelf(roofs, i);
    CountMark(used, i);
    var used1 := used[i := true];
    var acc2;
    acc2, used2, any, m := Grow(roofs, used1, acc, eps);
    out2 := out + [acc2];
    assert out2[|out|] == acc2;
  }

  lemma CoverTrans(src: seq<Roof>, mid: seq<Roof>, dst: seq<Roof>, eps: real)
    requires CoveredBy(src, mid) && forall k :: 0 <= k < |mid| ==> AbsorbedBy(mid[k], dst, eps)
    ensures CoveredBy(src, dst)
  {
    forall k | 0 <= k < |src|
      ensures InsideSome(src[k], dst)
    {
      var a :| 0 <= a < |mid| && Inside(src[k], mid[a]);
      assert AbsorbedBy(mid[a], dst, eps);
      var b :| 0 <= b < |dst| && Inside(mid[a], dst[b]) && Near(dst[b].thickness, mid[a].thickness, eps);
      assert Inside(src[k], dst[b]);
    }
  }

  lemma ThicknessTrans(src: seq<Roof>, mid: seq<Roof>, dst: seq<Roof>)
    requires ThicknessFrom(src, mid) && ThicknessFrom(mid, dst)
    ensures ThicknessFrom(src, dst)
  {
    forall m | 0 <= m < |dst|
      ensures ThicknessOfSome(dst[m].thickness, src)
    {
      assert ThicknessOfSome(dst[m].thickness, mid);
      var a :| 0 <= a < |mid| && dst[m].thickness == mid[a].thickness;
      assert ThicknessOfSome(mid[a].thickness, src);
    }
  }

  /** Every roof of a stable list fails the merge test with every other. */
  lemma StablePairs(s: seq<Roof>, eps: real)
    requires Stable(s, eps)
    ensures forall a, b :: 0 <= a < |s| && 0 <= b < |s| && a != b ==> !Mergeable(s[a], s[b], eps)
  {
    forall a, b | 0 <= a < |s| && 0 <= b < |s| && a != b
      ensures !Mergeable(s[a], s[b], eps)
    {
      if b < a {
        MergeableSymmetric(s[a], s[b], eps);
      }
    }
  }

  /** The roofs with their corners normalised, in order. */
  function NormalizeAll(roofs: seq<Roof>): (norm: seq<Roof>)
    ensures |norm| == |roofs| && forall k :: 0 <= k < |roofs| ==> norm[k] == NormalizeRoof(roofs[k])
  {
    seq(|roofs|, k requires 0 <= k < |roofs| => NormalizeRoof(roofs[k]))
  }

  /** `merge_roofs`: never more roofs than given, every roof with ordered
      corners, every given roof (normalised) inside some result roof, every
      result thickness one of the given thicknesses and every result corner
      coordinate one of the normalised given ones, and no two result roofs
      that the merge test would still join. */
  method MergeRoofs(roofs: seq<Roof>, eps: real) returns (out: seq<Roof>)
    requires eps > 0.0
    ensures |out| <= |roofs|
    ensures AllOrdered(out)
    ensures forall k :: 0 <= k < |roofs| ==> InsideSome(NormalizeRoof(roofs[k]), out)
    ensures ThicknessFrom(roofs, out)
    ensures AllCornersFrom(out, NormalizeAll(roofs))
    ensures forall a, b :: 0 <= a < |out| && 0 <= b < |out| && a != b ==> !Mergeable(out[a], out[b], eps)
  {
    var norm := NormalizeAll(roofs);
    NormalizedStart(roofs, norm);
    AllCornersSelf(norm);
    out := norm;
    var changed := true;
    while changed
      invariant |out| <= |roofs| && AllOrdered(out)
      invariant CoveredBy(norm, out) && ThicknessFrom(roofs, out)
      invariant AllCornersFrom(out, norm)
      invariant !changed ==> Stable(out, eps)
      decreases |out| + (if changed then 1 else 0)
    {
      var next, ch := Round(out, eps);
      CoverTrans(norm, out, next, eps);
      ThicknessTrans(roofs, out, next);
      CornersTrans(norm, out, next);
      out, changed := next, ch;
    }
    StablePairs(out, eps);
  }

  lemma NormalizedStart(roofs: seq<Roof>, norm: seq<Roof>)
    requires |norm| == |roofs| && forall k :: 0 <= k < |roofs| ==> norm[k] == NormalizeRoof(roofs[k])
    ensures AllOrdered(norm) && CoveredBy(norm, norm) && ThicknessFrom(roofs, norm)
  {
    forall k | 0 <= k < |norm|
      ensures InsideSome(norm[k], norm) && ThicknessOfSome(norm[k].thickness, roofs)
    {
      assert Inside(norm[k], norm[k]);
      assert norm[k].thickness == roofs[k].thickness;
    }
  }
}

=== FILE: roofs.dfy ===
/** Roof cells and roof slabs (`generate_individual_roofs` in
    server/src/map/roofs.rs). Phase 1 joins every cell in front of a ramp
    top to its nearest such cell by a shortest path over non-ramp cells;
    phase 2 adds cells with two walls or two roofed open neighbours until
    there are `ROOF_NUM_SEGMENTS` roof cells or no candidate is left; each
    roof cell then becomes one slab plus up to two edge fillers, and its
    `has_roof` flag is set. */
module Roofs {
  import opened Wrappers
  import opened MapGrid
  import opened Reachability
  import Walls

  /** `Roof`: a slab over the rectangle (x1, z1)–(x2, z2). */
  datatype Roof = Roof(x1: real, z1: real, x2: real, z2: real, thickness: real)

  const ROOF_NUM_SEGMENTS: nat := 45
  /** Overlap mode (every slab grown on all four sides) is off. */
  const OVERLAP_ROOFS: bool := false
  /** Inset of edge fillers from the corners. */
  const CORNER_EPS: real := 0.01

  // ---------------------------------------------------------------------------
  // Phase 1: cells in front of ramp tops
  // ---------------------------------------------------------------------------

  /** Cell `q` has a ramp top on the side facing `p`, and `p` is an in-grid
      cell without a ramp: `p` is pushed as a ramp-top-adjacent cell. */
  predicate Sends(g: Grid, rows: int, cols: int, q: Pos, p: Pos)
    requires Shaped(g, rows, cols)
  {
    && InGrid(rows, cols, q) && Open(g, rows, cols, p)
    && var cell := g[q.0][q.1];
    || (cell.rampTopNorth && q.0 > 0 && p == (q.0 - 1, q.1))
    || (cell.rampTopSouth && q.0 < rows - 1 && p == (q.0 + 1, q.1))
    || (cell.rampTopWest && q.1 > 0 && p == (q.0, q.1 - 1))
    || (cell.rampTopEast && q.1 < cols - 1 && p == (q.0, q.1 + 1))
  }

  /** The pushes made for cell `q`, in the order north, south, west, east. */
  function CellSeeds(g: Grid, rows: int, cols: int, q: Pos): (s: seq<Pos>)
    requires Shaped(g, rows, cols) && InGrid(rows, cols, q)
    ensures forall p :: p in s <==> Sends(g, rows, cols, q, p)
  {
    var cell := g[q.0][q.1];
    var n := (q.0 - 1, q.1);
    var so := (q.0 + 1, q.1);
    var w := (q.0, q.1 - 1);
    var e := (q.0, q.1 + 1);
    (if cell.rampTopNorth && q.0 > 0 && !g[n.0][n.1].hasRamp then [n] else [])
    + (if cell.rampTopSouth && q.0 < rows - 1 && !g[so.0][so.1].hasRamp then [so] else [])
    + (if cell.rampTopWest && q.1 > 0 && !g[w.0][w.1].hasRamp then [w] else [])
    + (if cell.rampTopEast && q.1 < cols - 1 && !g[e.0][e.1].hasRamp then [e] else [])
  }

  /** `q` is at or after (r, c) in row-major order. */
  predicate AtOrAfter(q: Pos, r: int, c: int)
  {
    q.0 > r || (q.0 == r && q.1 >= c)
  }

  /** The pushes of the cells at or after (r, c), in row-major order. */
  function SeedsFrom(g: Grid, rows: int, cols: int, r: int, c: int): (s: seq<Pos>)
    requires Shaped(g, rows, cols) && 0 <= r <= rows && 0 <= c <= cols
    ensures forall p :: p in s ==> Open(g, rows, cols, p)
    ensures forall p :: p in s <==> exists q :: AtOrAfter(q, r, c) && Sends(g, rows, cols, q, p)
    decreases rows - r, cols - c
  {
    if r == rows then []
    else if c == cols then SeedsFrom(g, rows, cols, r + 1, 0)
    else
      var s := CellSeeds(g, rows, cols, (r, c)) + SeedsFrom(g, rows, cols, r, c + 1);
      forall p | exists q :: AtOrAfter(q, r, c) && Sends(g, rows, cols, q, p)
        ensures p in s
      {
        var q :| AtOrAfter(q, r, c) && Sends(g, rows, cols, q, p);
        if q != (r, c) {
          assert AtOrAfter(q, r, c + 1);
        }
      }
      s
  }

  /** The ramp-top-adjacent list: every open cell in front of a ramp top, once
      per ramp top that faces it. */
  function Seeds(g: Grid, rows: int, cols: int): (s: seq<Pos>)
    requires Shaped(g, rows, cols)
    ensures forall p :: p in s ==> Open(g, rows, cols, p)
    ensures forall p :: p in s <==> exists q :: Sends(g, rows, cols, q, p)
  {
    var s := SeedsFrom(g, rows, cols, 0, 0);
    forall p | exists q :: Sends(g, rows, cols, q, p)
      ensures p in s
    {
      var q :| Sends(g, rows, cols, q, p);
      assert AtOrAfter(q, 0, 0);
    }
    s
  }

  function IAbs(x: int): nat
  {
    if x < 0 then -x else x
  }

  /** Manhattan distance. */
  function Dist(a: Pos, b: Pos): nat
  {
    IAbs(a.0 - b.0) + IAbs(a.1 - b.1)
  }

  /** `best` is the first index below `j` (other than `i`) at minimal
      distance from `s[i]`, or None when there is no such index. */
  ghost predicate BestSoFar(s: seq<Pos>, i: int, j: int, best: Option<nat>)
    requires 0 <= i < |s| && 0 <= j <= |s|
  {
    match best
    case None => j == 0 || (j == 1 && i == 0)
    case Some(b) =>
      && b < j && b != i
      && (forall k :: 0 <= k < j && k != i ==> Dist(s[i], s[b]) <= Dist(s[i], s[k]))
      && (forall k :: 0 <= k < b && k != i ==> Dist(s[i], s[b]) < Dist(s[i], s[k]))
  }

  /** The scan over `j` of the nearest-target search. */
  function NearestFrom(s: seq<Pos>, i: int, j: int, best: Option<nat>): (r: Option<nat>)
    requires 0 <= i < |s| && 0 <= j <= |s| && (best.Some? ==> best.value < j && best.value != i)
    ensures r.Some? ==> r.value < |s| && r.value != i
    decreases |s| - j
  {
    if j == |s| then best
    else if j == i then NearestFrom(s, i, j + 1, best)
    else if best.None? || Dist(s[i], s[j]) < Dist(s[i], s[best.value]) then NearestFrom(s, i, j + 1, Some(j))
    else NearestFrom(s, i, j + 1, best)
  }

  lemma {:induction false} NearestFromCorrect(s: seq<Pos>, i: int, j: int, best: Option<nat>)
    requires 0 <= i < |s| && 0 <= j <= |s| && (best.Some? ==> best.value < j && best.value != i)
    requires BestSoFar(s, i, j, best)
    ensures BestSoFar(s, i, |s|, NearestFrom(s, i, j, best))
    decreases |s| - j
  {
    if j == |s| {
    } else if j == i {
      NearestFromCorrect(s, i, j + 1, best);
    } else if best.None? || Dist(s[i], s[j]) < Dist(s[i], s[best.value]) {
      if best.Some? {
        forall k | 0 <= k < j + 1 && k != i
          ensures Dist(s[i], s[j]) <= Dist(s[i], s[k])
        {
          if k < j {
            assert Dist(s[i], s[best.value]) <= Dist(s[i], s[k]);
          }
        }
        assert BestSoFar(s, i, j + 1, Some(j));
      }
      NearestFromCorrect(s, i, j + 1, Some(j));
    } else {
      NearestFromCorrect(s, i, j + 1, best);
    }
  }

  /** The nearest other ramp-top-adjacent cell by Manhattan distance (the
      first one on ties), None when `s[i]` is the only entry. */
  function Nearest(s: seq<Pos>, i: int): (r: Option<nat>)
    requires 0 <= i < |s|
    ensures r.Some? ==> r.value < |s| && r.value != i
  {
    NearestFrom(s, i, 0, None)
  }

  /** Nearest is None exactly for a one-entry list; otherwise it names the
      first entry other than `i` at minimal distance. */
  lemma NearestCorrect(s: seq<Pos>, i: int)
    requires 0 <= i < |s|
    ensures Nearest(s, i).None? <==> |s| == 1
    ensures Nearest(s, i).Some? ==>
              (forall k :: 0 <= k < |s| && k != i ==> Dist(s[i], s[Nearest(s, i).value]) <= Dist(s[i], s[k]))
              && (forall k :: 0 <= k < Nearest(s, i).value && k != i ==>
                    Dist(s[i], s[Nearest(s, i).value]) < Dist(s[i], s[k]))
  {
    NearestFromCorrect(s, i, 0, None);
  }

  // ---------------------------------------------------------------------------
  // Phase 1: shortest path between two such cells
  // ---------------------------------------------------------------------------

  /** Four-neighbours. */
  predicate Adjacent(a: Pos, b: Pos)
  {
    Dist(a, b) == 1
  }

  /** A chain of open cells, each adjacent to the next. */
  ghost predicate Chain(g: Grid, rows: int, cols: int, path: seq<Pos>)
    requires Shaped(g, rows, cols)
  {
    && (forall k :: 0 <= k < |path| ==> Open(g, rows, cols, path[k]))
    && (forall k :: 0 <= k < |path| - 1 ==> Adjacent(path[k], path[k + 1]))
  }

  /** The search state: every queued cell is visited, every visited cell is
      open and queued once (`rank` gives its place), and every visited cell
      but the start has a parent that is adjacent and queued before it. */
  ghost predicate SearchState(g: Grid, rows: int, cols: int, start: Pos, visited: set<Pos>,
                              parent: map<Pos, Pos>, queue: seq<Pos>, rank: map<Pos, nat>)
    requires Shaped(g, rows, cols)
  {
    && start in visited && visited <= OpenCells(g, rows, cols)
    && rank.Keys == visited && |queue| == |visited|
    && (forall k :: 0 <= k < |queue| ==> queue[k] in visited)
    && (forall x :: x in rank ==> rank[x] < |queue| && queue[rank[x]] == x)
    && rank[start] == 0
    && (forall x :: x in parent ==> x in visited && x != start && parent[x] in visited
                                    && Adjacent(parent[x], x) && rank[parent[x]] < rank[x])
    && (forall x :: x in visited && x != start ==> x in parent)
  }

  /** One neighbour test of the search: enqueue an unvisited in-grid
      non-ramp cell with `cur` as its parent. */
  method Enqueue(g: Grid, rows: int, cols: int, ghost start: Pos, cur: Pos, n: Pos,
                 visited: set<Pos>, parent: map<Pos, Pos>, queue: seq<Pos>, ghost rank: map<Pos, nat>)
    returns (visited': set<Pos>, parent': map<Pos, Pos>, queue': seq<Pos>, ghost rank': map<Pos, nat>)
    requires Shaped(g, rows, cols) && SearchState(g, rows, cols, start, visited, parent, queue, rank)
    requires cur in visited && Adjacent(cur, n)
    ensures SearchState(g, rows, cols, start, visited', parent', queue', rank')
    ensures visited <= visited' && |queue| <= |queue'| && queue'[..|queue|] == queue
  {
    visited', parent', queue', rank' := visited, parent, queue, rank;
    if 0 <= n.0 < rows && 0 <= n.1 < cols && n !in visited && !g[n.0][n.1].hasRamp {
      visited' := visited + {n};
      parent' := parent[n := cur];
      rank' := rank[n := |queue|];
      queue' := queue + [n];
      assert queue'[..|queue|] == queue;
    }
  }

  /** The breadth-first search from `start` over in-grid non-ramp cells
      (walls are ignored), stopping when `target` leaves the queue. */
  method Search(g: Grid, rows: int, cols: int, start: Pos, target: Pos)
    returns (found: bool, visited: set<Pos>, parent: map<Pos, Pos>, ghost queue: seq<Pos>, ghost rank: map<Pos, nat>)
    requires Shaped(g, rows, cols) && Open(g, rows, cols, start)
    ensures SearchState(g, rows, cols, start, visited, parent, queue, rank)
    ensures found ==> target in visited
  {
    visited := {start};
    parent := map[];
    var q := [start];
    rank := map[start := 0];
    var head := 0;
    found := false;
    while head < |q|
      invariant SearchState(g, rows, cols, start, visited, parent, q, rank)
      invariant 0 <= head <= |q|
      invariant found ==> target in visited
      decreases |OpenCells(g, rows, cols)| - head
    {
      SubsetSize(visited, OpenCells(g, rows, cols));
      var cur := q[head];
      head := head + 1;
      if cur == target {
        found := true;
        break;
      }
      visited, parent, q, rank := Enqueue(g, rows, cols, start, cur, (cur.0 - 1, cur.1), visited, parent, q, rank);
      visited, parent, q, rank := Enqueue(g, rows, cols, start, cur, (cur.0 + 1, cur.1), visited, parent, q, rank);
      visited, parent, q, rank := Enqueue(g, rows, cols, start, cur, (cur.0, cur.1 - 1), visited, parent, q, rank);
      visited, parent, q, rank := Enqueue(g, rows, cols, start, cur, (cur.0, cur.1 + 1), visited, parent, q, rank);
    }
    queue := q;
  }

  /** What the walk back needs of the search state: every visited cell
      other than the start has a visited, adjacent parent of lower rank. */
  ghost predicate ParentsLead(g: Grid, rows: int, cols: int, start: Pos, visited: set<Pos>,
                              parent: map<Pos, Pos>, rank: map<Pos, nat>)
    requires Shaped(g, rows, cols)
  {
    && start in visited && visited <= OpenCells(g, rows, cols) && rank.Keys == visited
    && (forall x :: x in visited && x != start ==>
          x in parent && parent[x] in visited && Adjacent(parent[x], x) && rank[parent[x]] < rank[x])
  }

  lemma StateLeads(g: Grid, rows: int, cols: int, start: Pos, visited: set<Pos>,
                   parent: map<Pos, Pos>, queue: seq<Pos>, rank: map<Pos, nat>)
    requires Shaped(g, rows, cols) && SearchState(g, rows, cols, start, visited, parent, queue, rank)
    ensures ParentsLead(g, rows, cols, start, visited, parent, rank)
  {
  }

  lemma ChainSnoc(g: Grid, rows: int, cols: int, path: seq<Pos>, p: Pos)
    requires Shaped(g, rows, cols) && Chain(g, rows, cols, path) && Open(g, rows, cols, p)
    requires |path| > 0 ==> Adjacent(path[|path| - 1], p)
    ensures Chain(g, rows, cols, path + [p])
  {
  }

  /** The walk back along the parents from `target` to `start`. */
  method TraceBack(g: Grid, rows: int, cols: int, start: Pos, target: Pos, ghost visited: set<Pos>,
                   parent: map<Pos, Pos>, ghost rank: map<Pos, nat>)
    returns (path: seq<Pos>)
    requires Shaped(g, rows, cols) && ParentsLead(g, rows, cols, start, visited, parent, rank)
    requires target in visited
    ensures |path| >= 1 && path[0] == target && path[|path| - 1] == start && Chain(g, rows, cols, path)
  {
    path := [];
    var current := target;
    while current != start
      invariant current in visited
      invariant |path| == 0 ==> current == target
      invariant |path| > 0 ==> path[0] == target && Adjacent(path[|path| - 1], current)
      invariant Chain(g, rows, cols, path)
      decreases rank[current]
    {
      ChainSnoc(g, rows, cols, path, current);
      path := path + [current];
      if current in parent {
        var next := parent[current];
        assert Adjacent(current, next) by {
          assert Adjacent(next, current);
        }
        assert path[|path| - 1] == current;
        current := next;
      } else {
        assert false;
        break;
      }
    }
    ChainSnoc(g, rows, cols, path, start);
    path := path + [start];
  }

  /** `find_path`: a found path runs from `target` to `start` through open,
      pairwise adjacent cells; when the target is not met it is empty. */
  method ShortestRoofPath(g: Grid, rows: int, cols: int, start: Pos, target: Pos)
    returns (found: bool, path: seq<Pos>)
    requires Shaped(g, rows, cols) && Open(g, rows, cols, start)
    ensures found ==> |path| >= 1 && path[0] == target && path[|path| - 1] == start && Chain(g, rows, cols, path)
    ensures !found ==> path == []
  {
    var visited, parent;
    ghost var queue, rank;
    found, visited, parent, queue, rank := Search(g, rows, cols, start, target);
    path := [];
    if found {
      StateLeads(g, rows, cols, start, visited, parent, queue, rank);
      path := TraceBack(g, rows, cols, start, target, visited, parent, rank);
    }
  }

  /** The cells of a path, as a set. */
  function SetOf(path: seq<Pos>): (r: set<Pos>)
    ensures forall p :: p in r <==> p in path
  {
    set p | p in path
  }

  /** The cells of a list of paths. */
  ghost function CellsOf(paths: seq<seq<Pos>>): set<Pos>
  {
    set k, j | 0 <= k < |paths| && 0 <= j < |paths[k]| :: paths[k][j]
  }

  lemma CellsOfSnoc(paths: seq<seq<Pos>>, path: seq<Pos>)
    ensures CellsOf(paths + [path]) == CellsOf(paths) + SetOf(path)
  {
    var ps := paths + [path];
    forall x | x in CellsOf(ps) ensures x in CellsOf(paths) + SetOf(path) {
      var k, j :| 0 <= k < |ps| && 0 <= j < |ps[k]| && ps[k][j] == x;
      if k < |paths| {
        assert paths[k][j] == x;
      }
    }
    forall x | x in CellsOf(paths) + SetOf(path) ensures x in CellsOf(ps) {
      if x in CellsOf(paths) {
        var k, j :| 0 <= k < |paths| && 0 <= j < |paths[k]| && paths[k][j] == x;
        assert ps[k][j] == x;
      } else {
        var j :| 0 <= j < |path| && path[j] == x;
        assert ps[|paths|][j] == x;
      }
    }
  }

  /** Every path joins the seed `from[k]` (its last cell) to that seed's
      nearest other seed (its first cell) through open adjacent cells. */
  ghost predicate Joined(g: Grid, rows: int, cols: int, seeds: seq<Pos>, paths: seq<seq<Pos>>, from: seq<nat>)
    requires Shaped(g, rows, cols)
  {
    && |from| == |paths|
    && forall k :: 0 <= k < |paths| ==>
         && from[k] < |seeds| && Nearest(seeds, from[k]).Some?
         && |paths[k]| >= 1 && Chain(g, rows, cols, paths[k])
         && paths[k][0] == seeds[Nearest(seeds, from[k]).value]
         && paths[k][|paths[k]| - 1] == seeds[from[k]]
  }

  /** Phase 1: each seed not yet on a roof is joined to its nearest other
      seed by a shortest path, and the path's cells become roof cells. The
      roof is exactly the cells of those paths, so it lies on open cells, and
      it stays empty when there are fewer than two seeds. */
  method ConnectSeeds(g: Grid, rows: int, cols: int)
    returns (roof: set<Pos>, ghost paths: seq<seq<Pos>>, ghost from: seq<nat>)
    requires Shaped(g, rows, cols)
    ensures roof == CellsOf(paths) && Joined(g, rows, cols, Seeds(g, rows, cols), paths, from)
    ensures roof <= OpenCells(g, rows, cols)
    ensures |Seeds(g, rows, cols)| <= 1 ==> roof == {}
  {
    var seeds := Seeds(g, rows, cols);
    roof, paths, from := {}, [], [];
    for i := 0 to |seeds|
      invariant roof == CellsOf(paths) && Joined(g, rows, cols, seeds, paths, from)
      invariant roof <= OpenCells(g, rows, cols)
    {
      var start := seeds[i];
      if start in roof {
        continue;
      }
      var nearest := Nearest(seeds, i);
      if nearest.Some? {
        var found, path := ShortestRoofPath(g, rows, cols, start, seeds[nearest.value]);
        if found {
          CellsOfSnoc(paths, path);
          roof := roof + SetOf(path);
          paths := paths + [path];
          from := from + [i];
        }
      }
    }
    assert paths != [] ==> from[0] < |seeds| && Nearest(seeds, from[0]).Some?;
  }

  // ---------------------------------------------------------------------------
  // Phase 2: weighted filling
  // ---------------------------------------------------------------------------

  /** Extra weight per roofed neighbour. */
  const ROOF_NEIGHBOR_PREFERENCE: real := 4.0

  function B(b: bool): nat { if b then 1 else 0 }

  /** Roofed neighbours of `p` not separated from it by one of `p`'s walls. */
  function RoofNeighbours(g: Grid, rows: int, cols: int, roof: set<Pos>, p: Pos): (n: nat)
    requires Shaped(g, rows, cols) && InGrid(rows, cols, p)
    ensures n <= 4
  {
    var cell := g[p.0][p.1];
    B(p.0 > 0 && !cell.wallNorth && (p.0 - 1, p.1) in roof)
    + B(p.0 < rows - 1 && !cell.wallSouth && (p.0 + 1, p.1) in roof)
    + B(p.1 > 0 && !cell.wallWest && (p.0, p.1 - 1) in roof)
    + B(p.1 < cols - 1 && !cell.wallEast && (p.0, p.1 + 1) in roof)
  }

  /** An open cell without a roof that has two walls or two roofed neighbours. */
  predicate Candidate(g: Grid, rows: int, cols: int, roof: set<Pos>, p: Pos)
    requires Shaped(g, rows, cols)
  {
    && Open(g, rows, cols, p) && p !in roof
    && (CountCellWalls(g[p.0][p.1]) >= 2 || RoofNeighbours(g, rows, cols, roof, p) >= 2)
  }

  /** A candidate's weight: 1 with two walls (else 0.5), times one plus four
      per roofed neighbour. */
  function Weight(g: Grid, rows: int, cols: int, roof: set<Pos>, p: Pos): (w: real)
    requires Shaped(g, rows, cols) && InGrid(rows, cols, p)
    ensures w >= 0.5
  {
    var factor := 1.0 + RoofNeighbours(g, rows, cols, roof, p) as real * ROOF_NEIGHBOR_PREFERENCE;
    if CountCellWalls(g[p.0][p.1]) >= 2 then factor else 0.5 * factor
  }

  /** The candidates at or after (r, c), in row-major order. */
  function CandidatesFrom(g: Grid, rows: int, cols: int, roof: set<Pos>, r: int, c: int): (s: seq<Pos>)
    requires Shaped(g, rows, cols) && 0 <= r <= rows && 0 <= c <= cols
    ensures forall p :: p in s <==> Candidate(g, rows, cols, roof, p) && AtOrAfter(p, r, c)
    decreases rows - r, cols - c
  {
    if r == rows then []
    else if c == cols then CandidatesFrom(g, rows, cols, roof, r + 1, 0)
    else
      var rest := CandidatesFrom(g, rows, cols, roof, r, c + 1);
      if Candidate(g, rows, cols, roof, (r, c)) then [(r, c)] + rest else rest
  }

  function CandidateList(g: Grid, rows: int, cols: int, roof: set<Pos>): (s: seq<Pos>)
    requires Shaped(g, rows, cols)
    ensures forall p :: p in s <==> Candidate(g, rows, cols, roof, p)
  {
    CandidatesFrom(g, rows, cols, roof, 0, 0)
  }

  function Weights(g: Grid, rows: int, cols: int, roof: set<Pos>, s: seq<Pos>): (ws: seq<real>)
    requires Shaped(g, rows, cols) && forall k :: 0 <= k < |s| ==> InGrid(rows, cols, s[k])
    ensures |ws| == |s| && forall k :: 0 <= k < |s| ==> ws[k] == Weight(g, rows, cols, roof, s[k])
  {
    seq(|s|, k requires 0 <= k < |s| => Weight(g, rows, cols, roof, s[k]))
  }

  function Total(ws: seq<real>): real
  {
    if ws == [] then 0.0 else ws[0] + Total(ws[1..])
  }

  /** The scan `pick -= weight; if pick <= 0 { take it }`: the index taken,
      or None when the scan runs off the end. */
  function Pick(ws: seq<real>, pick: real): (r: Option<nat>)
    ensures r.Some? ==> r.value < |ws|
  {
    if ws == [] then None
    else if pick - ws[0] <= 0.0 then Some(0)
    else match Pick(ws[1..], pick - ws[0])
      case None => None
      case Some(k) => Some(k + 1)
  }

  lemma TotalSnoc(ws: seq<real>, k: nat)
    requires k < |ws|
    ensures Total(ws[..k + 1]) == Total(ws[..k]) + ws[k]
  {
    if k > 0 {
      assert ws[..k + 1][1..] == ws[1..][..k];
      assert ws[..k][1..] == ws[1..][..k - 1];
      TotalSnoc(ws[1..], k - 1);
    } else {
      assert ws[..1][1..] == [];
    }
  }

  /** With positive weights and a draw in [0, total), the scan always takes
      an index, and the draw falls in that index's share: past the weights
      before it (strictly, unless it is the first) and within its own. */
  lemma {:induction false} PickCorrect(ws: seq<real>, pick: real)
    requires forall k :: 0 <= k < |ws| ==> ws[k] > 0.0
    requires 0.0 <= pick < Total(ws)
    ensures Pick(ws, pick).Some?
    ensures var k := Pick(ws, pick).value;
            && Total(ws[..k]) <= pick <= Total(ws[..k + 1])
            && (k > 0 ==> Total(ws[..k]) < pick)
  {
    if pick - ws[0] <= 0.0 {
      assert ws[..0] == [];
      assert ws[..1][1..] == [];
    } else {
      PickCorrect(ws[1..], pick - ws[0]);
      var k := Pick(ws[1..], pick - ws[0]).value;
      assert ws[..k + 1][1..] == ws[1..][..k];
      assert ws[..k + 2][1..] == ws[1..][..k + 1];
    }
  }

  /** The draw `random_range(0.0..total)` from a unit draw `u` in [0, 1). */
  function Scaled(u: real, total: real): real
  {
    u * total
  }

  lemma TotalPositive(ws: seq<real>)
    requires |ws| > 0 && forall k :: 0 <= k < |ws| ==> ws[k] > 0.0
    ensures Total(ws) > 0.0
  {
    if |ws| > 1 {
      TotalPositive(ws[1..]);
    }
  }

  lemma ScaledInRange(u: real, total: real)
    requires 0.0 <= u < 1.0 && total > 0.0
    ensures 0.0 <= Scaled(u, total) < total
  {
  }

  /** One round of phase 2: the weighted draw among the candidates, or
      None when there is no candidate. */
  method ChooseCandidate(g: Grid, rows: int, cols: int, roof: set<Pos>, u: real) returns (r: Option<Pos>)
    requires Shaped(g, rows, cols) && 0.0 <= u < 1.0
    ensures r.Some? ==> Candidate(g, rows, cols, roof, r.value)
    ensures r.None? ==> forall p :: !Candidate(g, rows, cols, roof, p)
  {
    var cands := CandidateList(g, rows, cols, roof);
    if cands == [] {
      return None;
    }
    assert forall k :: 0 <= k < |cands| ==> cands[k] in cands;
    var ws := Weights(g, rows, cols, roof, cands);
    TotalPositive(ws);
    ScaledInRange(u, Total(ws));
    var pick := Scaled(u, Total(ws));
    PickCorrect(ws, pick);
    r := Some(cands[Pick(ws, pick).value]);
  }

  /** What phase 2 keeps: the roof grows from `roof0` by `added`, each cell
      a candidate when it was taken, within the open cells and the target. */
  ghost predicate FillInv(g: Grid, rows: int, cols: int, roof0: set<Pos>, roof: set<Pos>, added: seq<Pos>)
    requires Shaped(g, rows, cols)
  {
    && roof0 <= roof <= OpenCells(g, rows, cols)
    && roof == roof0 + SetOf(added)
    && (forall k :: 0 <= k < |added| ==>
          Candidate(g, rows, cols, roof0 + SetOf(added[..k]), added[k]))
    && (|roof0| >= ROOF_NUM_SEGMENTS ==> roof == roof0)
    && (|roof0| < ROOF_NUM_SEGMENTS ==> |roof| <= ROOF_NUM_SEGMENTS)
  }

  /** Phase 2: while there are fewer than `ROOF_NUM_SEGMENTS` roof cells,
      take a weighted random candidate, stopping early when none is left.
      The roof only grows, by cells that were candidates when taken, in
      order `added`; it never passes the target unless phase 1 did. */
  method FillRoofs(g: Grid, rows: int, cols: int, roof0: set<Pos>, draws: nat -> real)
    returns (roof: set<Pos>, ghost added: seq<Pos>)
    requires Shaped(g, rows, cols) && roof0 <= OpenCells(g, rows, cols)
    requires forall k :: 0.0 <= draws(k) < 1.0
    ensures roof0 <= roof <= OpenCells(g, rows, cols)
    ensures roof == roof0 + SetOf(added)
    ensures forall k :: 0 <= k < |added| ==>
              Candidate(g, rows, cols, roof0 + SetOf(added[..k]), added[k])
    ensures |roof| >= ROOF_NUM_SEGMENTS || forall p :: !Candidate(g, rows, cols, roof, p)
    ensures |roof0| >= ROOF_NUM_SEGMENTS ==> roof == roof0
    ensures |roof0| < ROOF_NUM_SEGMENTS ==> |roof| <= ROOF_NUM_SEGMENTS
  {
    roof, added := roof0, [];
    var round := 0;
    while |roof| < ROOF_NUM_SEGMENTS
      invariant FillInv(g, rows, cols, roof0, roof, added)
      decreases |OpenCells(g, rows, cols)| - |roof|
    {
      SubsetSize(roof, OpenCells(g, rows, cols));
      var choice := ChooseCandidate(g, rows, cols, roof, draws(round));
      if choice.None? {
        break;
      }
      FillStep(g, rows, cols, roof0, roof, added, choice.value);
      roof := roof + {choice.value};
      added := added + [choice.value];
      round := round + 1;
      SubsetSize(roof, OpenCells(g, rows, cols));
    }
  }

  lemma FillStep(g: Grid, rows: int, cols: int, roof0: set<Pos>, roof: set<Pos>, added: seq<Pos>, p: Pos)
    requires Shaped(g, rows, cols) && FillInv(g, rows, cols, roof0, roof, added)
    requires |roof| < ROOF_NUM_SEGMENTS && Candidate(g, rows, cols, roof, p)
    ensures FillInv(g, rows, cols, roof0, roof + {p}, added + [p])
    ensures |roof + {p}| == |roof| + 1
  {
    AddedStep(g, rows, cols, roof0, added, p);
    assert SetOf(added + [p]) == SetOf(added) + {p};
  }

  lemma AddedStep(g: Grid, rows: int, cols: int, roof0: set<Pos>, added: seq<Pos>, p: Pos)
    requires Shaped(g, rows, cols)
    requires forall k :: 0 <= k < |added| ==>
               Candidate(g, rows, cols, roof0 + SetOf(added[..k]), added[k])
    requires Candidate(g, rows, cols, roof0 + SetOf(added), p)
    ensures var a := added + [p];
            forall k :: 0 <= k < |a| ==> Candidate(g, rows, cols, roof0 + SetOf(a[..k]), a[k])
  {
    var a := added + [p];
    forall k | 0 <= k < |a|
      ensures Candidate(g, rows, cols, roof0 + SetOf(a[..k]), a[k])
    {
      if k < |added| {
        assert a[..k] == added[..k];
      } else {
        assert a[..k] == added;
      }
    }
  }

  // ---------------------------------------------------------------------------
  // Slabs
  // ---------------------------------------------------------------------------

  /** Which of the eight surrounding cells carry a roof, and whether the
      north and south neighbours are ramps. */
  datatype Around = Around(w: bool, e: bool, n: bool, s: bool,
                           nw: bool, ne: bool, sw: bool, se: bool,
                           northRamp: bool, southRamp: bool)

  function Surroundings(g: Grid, rows: int, cols: int, roof: set<Pos>, p: Pos): Around
    requires Shaped(g, rows, cols) && InGrid(rows, cols, p)
  {
    var (r, c) := p;
    Around(c > 0 && (r, c - 1) in roof, c < cols - 1 && (r, c + 1) in roof,
           r > 0 && (r - 1, c) in roof, r < rows - 1 && (r + 1, c) in roof,
           r > 0 && c > 0 && (r - 1, c - 1) in roof, r > 0 && c < cols - 1 && (r - 1, c + 1) in roof,
           r < rows - 1 && c > 0 && (r + 1, c - 1) in roof, r < rows - 1 && c < cols - 1 && (r + 1, c + 1) in roof,
           r > 0 && g[r - 1][c].hasRamp, r < rows - 1 && g[r + 1][c].hasRamp)
  }

  /** A side grows outward by half a wall thickness unless a roof is there;
      the north (south) side also stays put when a diagonal roof is north
      (south) of the cell. */
  predicate GrowN(a: Around) { !a.n && !(a.nw || a.ne) }
  predicate GrowS(a: Around) { !a.s && !(a.sw || a.se) }

  function Ext(b: bool): real { if b then Walls.HALF_T else 0.0 }

  /** The slab over cell `p`: in overlap mode the cell grown by half a wall
      thickness on all sides, otherwise grown only where no roof borders it. */
  function Slab(p: Pos, a: Around, overlap: bool): Roof
  {
    if overlap then
      Roof(LineX(p.1) - Walls.HALF_T, LineZ(p.0) - Walls.HALF_T,
           LineX(p.1 + 1) + Walls.HALF_T, LineZ(p.0 + 1) + Walls.HALF_T, ROOF_THICKNESS)
    else
      Roof(LineX(p.1) - Ext(!a.w), LineZ(p.0) - Ext(GrowN(a)),
           LineX(p.1 + 1) + Ext(!a.e), LineZ(p.0 + 1) + Ext(GrowS(a)), ROOF_THICKNESS)
  }

  /** Inset of fillers from a diagonal roof. */
  const PAD: real := Walls.HALF_T - CORNER_EPS

  /** The thin strips filling the gap north (south) of a cell whose side was
      held back only by a diagonal roof, inset at the diagonal's end. */
  function Fillers(p: Pos, a: Around, overlap: bool): (f: seq<Roof>)
    ensures |f| <= 2
  {
    var m := Slab(p, a, overlap);
    if overlap || PAD <= 0.0 then []
    else
      var north := if !GrowN(a) && !a.n && !a.northRamp && (a.nw || a.ne) then
        var fx1 := if a.nw then m.x1 + PAD else m.x1;
        var fx2 := if a.ne then m.x2 - PAD else m.x2;
        if fx2 > fx1 then [Roof(fx1, m.z1 - PAD, fx2, m.z1, ROOF_THICKNESS)] else []
      else [];
      var south := if !GrowS(a) && !a.s && !a.southRamp && (a.sw || a.se) then
        var fx1 := if a.sw then m.x1 + PAD else m.x1;
        var fx2 := if a.se then m.x2 - PAD else m.x2;
        if fx2 > fx1 then [Roof(fx1, m.z2, fx2, m.z2 + PAD, ROOF_THICKNESS)] else []
      else [];
      north + south
  }

  /** A slab covers its cell and reaches at most half a wall thickness past
      it; a filler is a proper strip of depth `PAD` lying along the slab's
      north or south edge, within the slab's width. */
  lemma SlabShape(p: Pos, a: Around, overlap: bool)
    ensures var m := Slab(p, a, overlap);
            && m.x1 <= LineX(p.1) && LineX(p.1 + 1) <= m.x2
            && m.z1 <= LineZ(p.0) && LineZ(p.0 + 1) <= m.z2
            && LineX(p.1) - Walls.HALF_T <= m.x1 && m.x2 <= LineX(p.1 + 1) + Walls.HALF_T
            && LineZ(p.0) - Walls.HALF_T <= m.z1 && m.z2 <= LineZ(p.0 + 1) + Walls.HALF_T
            && m.thickness == ROOF_THICKNESS
    ensures forall f :: f in Fillers(p, a, overlap) ==>
              && !overlap && f.x1 < f.x2 && f.z2 - f.z1 == PAD && f.thickness == ROOF_THICKNESS
              && Slab(p, a, overlap).x1 <= f.x1 && f.x2 <= Slab(p, a, overlap).x2
              && (f.z2 == Slab(p, a, overlap).z1 || f.z1 == Slab(p, a, overlap).z2)
  {
  }

  /** Two slabs overlap in no interior point. */
  predicate Apart(a: Roof, b: Roof)
  {
    a.x2 <= b.x1 || b.x2 <= a.x1 || a.z2 <= b.z1 || b.z2 <= a.z1
  }

  /** Without overlap mode, the slabs of two different roof cells never
      overlap: neighbours meet edge to edge, diagonal neighbours are held
      back on their north/south sides, and farther cells are a cell apart. */
  lemma SlabsApart(g: Grid, rows: int, cols: int, roof: set<Pos>, p: Pos, q: Pos)
    requires Shaped(g, rows, cols) && InGrid(rows, cols, p) && InGrid(rows, cols, q)
    requires p in roof && q in roof && p != q
    ensures Apart(Slab(p, Surroundings(g, rows, cols, roof, p), false),
                  Slab(q, Surroundings(g, rows, cols, roof, q), false))
  {
    var a := Surroundings(g, rows, cols, roof, p);
    var b := Surroundings(g, rows, cols, roof, q);
    if q.1 >= p.1 + 2 || p.1 >= q.1 + 2 || q.0 >= p.0 + 2 || p.0 >= q.0 + 2 {
    } else if q.0 == p.0 {
      if q.1 == p.1 + 1 { assert a.e && b.w; } else { assert a.w && b.e; }
    } else if q.0 == p.0 + 1 {
      if q.1 == p.1 { assert a.s && b.n; }
      else if q.1 == p.1 + 1 { assert a.se && b.nw; }
      else { assert a.sw && b.ne; }
    } else {
      if q.1 == p.1 { assert a.n && b.s; }
      else if q.1 == p.1 + 1 { assert a.ne && b.sw; }
      else { assert a.nw && b.se; }
    }
  }

  // ---------------------------------------------------------------------------
  // Assembling the roofs
  // ---------------------------------------------------------------------------

  /** The roof cells at or after (r, c), in row-major order. */
  function RoofCellsFrom(roof: set<Pos>, rows: int, cols: int, r: int, c: int): (s: seq<Pos>)
    requires 0 <= r <= rows && 0 <= c <= cols
    ensures forall p :: p in s <==> p in roof && InGrid(rows, cols, p) && AtOrAfter(p, r, c)
    ensures forall i, j :: 0 <= i < j < |s| ==> s[i] != s[j]
    ensures |s| <= |roof|
    decreases rows - r, cols - c
  {
    if r == rows then []
    else if c == cols then RoofCellsFrom(roof, rows, cols, r + 1, 0)
    else
      var rest := RoofCellsFrom(roof, rows, cols, r, c + 1);
      if (r, c) in roof then
        assert (r, c) !in rest;
        assert SetOf(rest) <= roof - {(r, c)};
        SubsetSize(SetOf(rest), roof - {(r, c)});
        NoDupSize(rest);
        [(r, c)] + rest
      else
        assert SetOf(rest) <= roof;
        SubsetSize(SetOf(rest), roof);
        NoDupSize(rest);
        rest
  }

  /** A row-major list has no repeats, so it is as long as its set. */
  lemma NoDupSize(s: seq<Pos>)
    requires forall i, j :: 0 <= i < j < |s| ==> s[i] != s[j]
    ensures |SetOf(s)| == |s|
  {
    if s != [] {
      NoDupSize(s[1..]);
      assert SetOf(s) == {s[0]} + SetOf(s[1..]);
    }
  }

  /** The slab and fillers of each listed cell, in order. */
  function SlabsOf(g: Grid, rows: int, cols: int, roof: set<Pos>, cells: seq<Pos>, overlap: bool): (out: seq<Roof>)
    requires Shaped(g, rows, cols) && forall k :: 0 <= k < |cells| ==> InGrid(rows, cols, cells[k])
  {
    if cells == [] then []
    else
      var a := Surroundings(g, rows, cols, roof, cells[0]);
      [Slab(cells[0], a, overlap)] + Fillers(cells[0], a, overlap)
      + SlabsOf(g, rows, cols, roof, cells[1..], overlap)
  }

  /** Each cell yields its slab and at most two fillers, all of roof
      thickness, and every cell's slab is in the list. */
  lemma {:induction false} SlabsOfShape(g: Grid, rows: int, cols: int, roof: set<Pos>, cells: seq<Pos>, overlap: bool)
    requires Shaped(g, rows, cols) && forall k :: 0 <= k < |cells| ==> InGrid(rows, cols, cells[k])
    ensures var out := SlabsOf(g, rows, cols, roof, cells, overlap);
            && |cells| <= |out| <= 3 * |cells|
            && (forall k :: 0 <= k < |out| ==> out[k].thickness == ROOF_THICKNESS)
            && (forall k :: 0 <= k < |cells| ==>
                  Slab(cells[k], Surroundings(g, rows, cols, roof, cells[k]), overlap) in out)
  {
    if cells != [] {
      SlabsOfShape(g, rows, cols, roof, cells[1..], overlap);
      var a := Surroundings(g, rows, cols, roof, cells[0]);
      SlabShape(cells[0], a, overlap);
      var out := SlabsOf(g, rows, cols, roof, cells, overlap);
      var rest := SlabsOf(g, rows, cols, roof, cells[1..], overlap);
      var head := [Slab(cells[0], a, overlap)] + Fillers(cells[0], a, overlap);
      assert out == head + rest;
      forall k | 0 <= k < |out| ensures out[k].thickness == ROOF_THICKNESS {
        if k >= |head| {
          assert out[k] == rest[k - |head|];
        } else if k > 0 {
          assert out[k] in Fillers(cells[0], a, overlap);
        }
      }
      forall k | 0 <= k < |cells|
        ensures Slab(cells[k], Surroundings(g, rows, cols, roof, cells[k]), overlap) in out
      {
        if k > 0 {
          assert cells[k] == cells[1..][k - 1];
        }
      }
    }
  }

  /** `has_roof` set on every roof cell; nothing else changes. */
  function MarkRoofs(g: Grid, rows: int, cols: int, roof: set<Pos>): (g': Grid)
    requires Shaped(g, rows, cols)
    ensures Shaped(g', rows, cols)
    ensures forall r, c :: 0 <= r < rows && 0 <= c < cols ==>
              g'[r][c] == g[r][c].(hasRoof := g[r][c].hasRoof || (r, c) in roof)
  {
    seq(rows, r requires 0 <= r < rows =>
      seq(cols, c requires 0 <= c < cols => g[r][c].(hasRoof := g[r][c].hasRoof || (r, c) in roof)))
  }

  /** The slabs and fillers of all roof cells, cells taken in row-major order. */
  function RoofSlabs(g: Grid, rows: int, cols: int, roof: set<Pos>, overlap: bool): seq<Roof>
    requires Shaped(g, rows, cols)
  {
    var cells := RoofCellsFrom(roof, rows, cols, 0, 0);
    assert forall k :: 0 <= k < |cells| ==> cells[k] in cells;
    SlabsOf(g, rows, cols, roof, cells, overlap)
  }

  /** For roof cells inside the grid: one slab and up to two fillers per
      cell, all of roof thickness, and every cell's slab is present. */
  lemma RoofSlabsShape(g: Grid, rows: int, cols: int, roof: set<Pos>, overlap: bool)
    requires Shaped(g, rows, cols) && roof <= OpenCells(g, rows, cols)
    ensures var out := RoofSlabs(g, rows, cols, roof, overlap);
            && |roof| <= |out| <= 3 * |roof|
            && (forall k :: 0 <= k < |out| ==> out[k].thickness == ROOF_THICKNESS)
            && (forall p :: p in roof ==> Slab(p, Surroundings(g, rows, cols, roof, p), overlap) in out)
  {
    var cells := RoofCellsFrom(roof, rows, cols, 0, 0);
    assert SetOf(cells) == roof;
    NoDupSize(cells);
    assert forall k :: 0 <= k < |cells| ==> cells[k] in cells;
    SlabsOfShape(g, rows, cols, roof, cells, overlap);
    var out := RoofSlabs(g, rows, cols, roof, overlap);
    forall p | p in roof ensures Slab(p, Surroundings(g, rows, cols, roof, p), overlap) in out {
      var k :| 0 <= k < |cells| && cells[k] == p;
    }
  }

  /** `generate_individual_roofs`: the roof cells are open (no ramp gets a
      roof); each roof cell gives one slab and up to two fillers; the grid
      changes only in `has_roof`, which is set on the roof cells. */
  method GenerateIndividualRoofs(g: Grid, rows: int, cols: int, draws: nat -> real)
    returns (roofs: seq<Roof>, g': Grid, roof: set<Pos>)
    requires Shaped(g, rows, cols)
    requires forall k :: 0.0 <= draws(k) < 1.0
    ensures roof <= OpenCells(g, rows, cols)
    ensures |roof| >= ROOF_NUM_SEGMENTS || forall p :: !Candidate(g, rows, cols, roof, p)
    ensures Shaped(g', rows, cols)
    ensures forall r, c :: 0 <= r < rows && 0 <= c < cols ==>
              g'[r][c] == g[r][c].(hasRoof := g[r][c].hasRoof || (r, c) in roof)
    ensures |roof| <= |roofs| <= 3 * |roof|
    ensures forall k :: 0 <= k < |roofs| ==> roofs[k].thickness == ROOF_THICKNESS
    ensures forall p :: p in roof ==> Slab(p, Surroundings(g, rows, cols, roof, p), OVERLAP_ROOFS) in roofs
  {
    var phase1;
    ghost var paths, from, added;
    phase1, paths, from := ConnectSeeds(g, rows, cols);
    roof, added := FillRoofs(g, rows, cols, phase1, draws);
    roofs := RoofSlabs(g, rows, cols, roof, OVERLAP_ROOFS);
    RoofSlabsShape(g, rows, cols, roof, OVERLAP_ROOFS);
    g' := MarkRoofs(g, rows, cols, roof);
  }
}

=== FILE: skybox.dfy ===
/** The skybox conversion (client/src/systems/skybox.rs): a 4×3 "cross"
    image, laid out as

            [top]
    [left][front][right][back]
            [bottom]

    is cut into the six faces of a cubemap, row by row, in RGBA bytes. The
    conversion runs once, as soon as the cross image has loaded. */
module Skybox {
  import W = Wrappers

  const BYTES_PER_PIXEL: nat := 4

  /** The cross tile each cubemap face is cut from, in face units
      (column, row). Faces are ordered +X, −X, +Y, −Y, +Z, −Z and come from
      the right, left, top, bottom, front and back tiles. */
  function Tile(face: nat): (t: (nat, nat))
    requires face < 6
    ensures t.0 <= 3 && t.1 <= 2
    ensures t.1 != 1 ==> t.0 == 1
  {
    [(2, 1), (0, 1), (1, 0), (1, 2), (1, 1), (3, 1)][face]
  }

  /** The byte offset in the cross image of row `y` of face `face`. */
  function SrcOffset(face: nat, y: nat, width: nat, faceSize: nat): nat
    requires face < 6
  {
    ((Tile(face).1 * faceSize + y) * width + Tile(face).0 * faceSize) * BYTES_PER_PIXEL
  }

  /** The byte offset in the cubemap of row `y` of face `face`. */
  function DstOffset(face: nat, y: nat, faceSize: nat): nat
  {
    face * faceSize * faceSize * BYTES_PER_PIXEL + y * faceSize * BYTES_PER_PIXEL
  }

  /** Byte `i` of row `y` of face `face` in the cubemap. */
  function DstByte(face: nat, y: nat, i: nat, faceSize: nat): nat
  {
    DstOffset(face, y, faceSize) + i
  }

  /** Byte `i` of row `y` of face `face` in the cross image. */
  function SrcByte(face: nat, y: nat, i: nat, width: nat, faceSize: nat): nat
    requires face < 6
  {
    SrcOffset(face, y, width, faceSize) + i
  }

  /** The cubemap's buffer: six square faces. */
  function CubemapSize(faceSize: nat): nat
  {
    faceSize * faceSize * BYTES_PER_PIXEL * 6
  }

  /** Rows are numbered face by face: row `y` of face `face` is cubemap row
      `face·faceSize + y`. */
  lemma {:induction false} DstIsRowIndex(face: nat, y: nat, faceSize: nat)
    ensures DstOffset(face, y, faceSize) == (face * faceSize + y) * (faceSize * BYTES_PER_PIXEL)
  {
    calc {
      DstOffset(face, y, faceSize);
      face * faceSize * faceSize * 4 + y * faceSize * 4;
      { assert face * faceSize * faceSize * 4 == (face * faceSize) * (faceSize * 4); }
      (face * faceSize) * (faceSize * 4) + y * (faceSize * 4);
      (face * faceSize + y) * (faceSize * 4);
    }
  }

  /** A row `k` rows before another ends where that one starts, or
      earlier: distinct rows write disjoint ranges. */
  lemma {:induction false} RowsDisjoint(f1: nat, y1: nat, f2: nat, y2: nat, faceSize: nat)
    requires y1 < faceSize && y2 < faceSize
    requires f1 < f2 || (f1 == f2 && y1 < y2)
    ensures DstOffset(f1, y1, faceSize) + faceSize * BYTES_PER_PIXEL <= DstOffset(f2, y2, faceSize)
  {
    DstIsRowIndex(f1, y1, faceSize);
    DstIsRowIndex(f2, y2, faceSize);
    var k1 := f1 * faceSize + y1;
    var k2 := f2 * faceSize + y2;
    assert k1 + 1 <= k2 by {
      if f1 < f2 {
        assert (f1 + 1) * faceSize <= f2 * faceSize by { MulMono(f1 + 1, f2, faceSize); }
      }
    }
    MulMono(k1 + 1, k2, faceSize * 4);
  }

  lemma MulMono(a: nat, b: nat, c: nat)
    requires a <= b
    ensures a * c <= b * c
  {
  }

  /** Every row of every face is written inside the cubemap's buffer. */
  lemma {:induction false} DstInBounds(face: nat, y: nat, faceSize: nat)
    requires face < 6 && y < faceSize
    ensures DstOffset(face, y, faceSize) + faceSize * BYTES_PER_PIXEL <= CubemapSize(faceSize)
  {
    DstIsRowIndex(face, y, faceSize);
    MulMono(face * faceSize + y + 1, 6 * faceSize, faceSize * 4);
    assert face * faceSize + y + 1 <= 6 * faceSize by { MulMono(face + 1, 6, faceSize); }
  }

  /** With the height of three faces, every row the conversion reads lies
      inside the cross image's data. */
  lemma {:induction false} RowInBounds(face: nat, y: nat, width: nat, height: nat, faceSize: nat)
    requires faceSize == width / 4 && height >= 3 * faceSize
    requires face < 6 && y < faceSize
    ensures SrcOffset(face, y, width, faceSize) + faceSize * BYTES_PER_PIXEL <= width * height * BYTES_PER_PIXEL
  {
    var (tx, ty) := Tile(face);
    var r := ty * faceSize + y;
    assert r + 1 <= height by { MulMono(ty + 1, 3, faceSize); }
    assert tx * faceSize + faceSize <= width by { MulMono(tx + 1, 4, faceSize); }
    MulMono(r + 1, height, width);
    assert r * width + tx * faceSize + faceSize <= (r + 1) * width;
  }

  /** The last row of the bottom face fits only if the image is three faces
      high. */
  lemma {:induction false} BottomRowNeedsHeight(width: nat, height: nat, faceSize: nat)
    requires faceSize == width / 4 && faceSize > 0
    requires SrcOffset(3, faceSize - 1, width, faceSize) + faceSize * BYTES_PER_PIXEL <= width * height * BYTES_PER_PIXEL
    ensures height >= 3 * faceSize
  {
    var r := 3 * faceSize - 1;
    assert SrcOffset(3, faceSize - 1, width, faceSize) == (r * width + faceSize) * 4;
    assert r * width + 2 * faceSize <= width * height;
    if height <= r {
      MulMono(height, r, width);
    }
  }

  /** A row outside the data means the image is less than three faces high. */
  lemma RowOutsideMeansShort(face: nat, y: nat, width: nat, height: nat, faceSize: nat)
    requires faceSize == width / 4 && face < 6 && y < faceSize
    requires SrcOffset(face, y, width, faceSize) + faceSize * BYTES_PER_PIXEL > width * height * BYTES_PER_PIXEL
    ensures height < 3 * faceSize
  {
    if height >= 3 * faceSize {
      RowInBounds(face, y, width, height, faceSize);
    }
  }

  /** Every earlier row of the cubemap holds the bytes of its cross row. */
  ghost predicate Copied(out: seq<bv8>, data: seq<bv8>, width: nat, faceSize: nat, face: nat, y: nat)
  {
    forall f: nat, yy: nat, i: nat {:trigger DstByte(f, yy, i, faceSize)} ::
      f < 6 && yy < faceSize && i < faceSize * BYTES_PER_PIXEL && (f < face || (f == face && yy < y))
      ==> DstByte(f, yy, i, faceSize) < |out| && SrcByte(f, yy, i, width, faceSize) < |data|
          && out[DstByte(f, yy, i, faceSize)] == data[SrcByte(f, yy, i, width, faceSize)]
  }

  /** `create_cubemap_from_cross` on an image of `width`×`height` pixels:
      None when it panics, which is when the image has no data or is less
      than three faces high, since the height check only logs. Otherwise
      the cubemap holds, for each face, row and byte, the byte of that row
      in the face's tile of the cross. */
  method CreateCubemap(width: nat, height: nat, data: W.Option<seq<bv8>>) returns (r: W.Option<seq<bv8>>)
    requires data.Some? ==> |data.value| == width * height * BYTES_PER_PIXEL
    ensures r.Some? <==> data.Some? && (width / 4 == 0 || height >= 3 * (width / 4))
    ensures r.Some? ==> |r.value| == CubemapSize(width / 4)
    ensures r.Some? ==> Copied(r.value, data.value, width, width / 4, 6, 0)
  {
    if data.None? {
      return W.None;
    }
    var src := data.value;
    var fs := width / 4;
    var out: seq<bv8> := [];
    var face := 0;
    while face < 6
      invariant 0 <= face <= 6
      invariant |out| == DstOffset(face, 0, fs)
      invariant Copied(out, src, width, fs, face, 0)
      invariant face > 3 && fs > 0 ==> SrcOffset(3, fs - 1, width, fs) + fs * BYTES_PER_PIXEL <= |src|
    {
      var next := CopyFace(out, src, width, height, face);
      if next.None? {
        return W.None;
      }
      out := next.value;
      face := face + 1;
    }
    assert DstOffset(6, 0, fs) == CubemapSize(fs) by {
      assert 6 * fs * fs * 4 == fs * fs * 4 * 6;
    }
    if fs > 0 {
      BottomRowNeedsHeight(width, height, fs);
    }
    return W.Some(out);
  }

  /** The rows of one face appended to the cubemap built so far; None when
      a row lies outside the cross image, which happens only when the image
      is less than three faces high. */
  method CopyFace(out: seq<bv8>, src: seq<bv8>, width: nat, height: nat, face: nat) returns (r: W.Option<seq<bv8>>)
    requires face < 6 && |src| == width * height * BYTES_PER_PIXEL
    requires |out| == DstOffset(face, 0, width / 4)
    requires Copied(out, src, width, width / 4, face, 0)
    ensures r.None? ==> height < 3 * (width / 4)
    ensures r.Some? ==> |r.value| == DstOffset(face + 1, 0, width / 4)
    ensures r.Some? ==> Copied(r.value, src, width, width / 4, face + 1, 0)
    ensures r.Some? && face == 3 && width / 4 > 0 ==>
              SrcOffset(3, width / 4 - 1, width, width / 4) + width / 4 * BYTES_PER_PIXEL <= |src|
  {
    var fs := width / 4;
    var rowBytes := fs * BYTES_PER_PIXEL;
    var acc := out;
    var y := 0;
    while y < fs
      invariant 0 <= y <= fs
      invariant |acc| == DstOffset(face, y, fs)
      invariant Copied(acc, src, width, fs, face, y)
      invariant face == 3 && y == fs && fs > 0 ==> SrcOffset(3, fs - 1, width, fs) + rowBytes <= |src|
    {
      var srcOffset := SrcOffset(face, y, width, fs);
      if srcOffset + rowBytes > |src| {
        RowOutsideMeansShort(face, y, width, height, fs);
        return W.None;
      }
      CopyRow(acc, src, width, fs, face, y);
      RowStep(face, y, fs);
      acc := acc + src[srcOffset..srcOffset + rowBytes];
      y := y + 1;
    }
    NextFace(acc, src, width, fs, face);
    return W.Some(acc);
  }

  /** Each row is one face row of bytes past the previous. */
  lemma RowStep(face: nat, y: nat, faceSize: nat)
    ensures DstOffset(face, y + 1, faceSize) == DstOffset(face, y, faceSize) + faceSize * BYTES_PER_PIXEL
  {
  }

  /** Appending row `y` of face `face` keeps the earlier rows and copies the
      new one. */
  lemma CopyRow(out: seq<bv8>, data: seq<bv8>, width: nat, faceSize: nat, face: nat, y: nat)
    requires face < 6 && y < faceSize
    requires |out| == DstOffset(face, y, faceSize)
    requires SrcOffset(face, y, width, faceSize) + faceSize * BYTES_PER_PIXEL <= |data|
    requires Copied(out, data, width, faceSize, face, y)
    ensures var s := SrcOffset(face, y, width, faceSize);
            Copied(out + data[s..s + faceSize * BYTES_PER_PIXEL], data, width, faceSize, face, y + 1)
  {
    var s := SrcOffset(face, y, width, faceSize);
    var out' := out + data[s..s + faceSize * BYTES_PER_PIXEL];
    forall f: nat, yy: nat, i: nat | f < 6 && yy < faceSize && i < faceSize * BYTES_PER_PIXEL && (f < face || (f == face && yy < y + 1))
      ensures DstByte(f, yy, i, faceSize) < |out'| && SrcByte(f, yy, i, width, faceSize) < |data|
              && out'[DstByte(f, yy, i, faceSize)] == data[SrcByte(f, yy, i, width, faceSize)]
    {
      if f == face && yy == y {
        assert out'[DstByte(f, yy, i, faceSize)] == data[s + i];
      } else {
        RowsDisjoint(f, yy, face, y, faceSize);
      }
    }
  }

  /** A face's last row done, the next face starts where it ended. */
  lemma NextFace(out: seq<bv8>, data: seq<bv8>, width: nat, faceSize: nat, face: nat)
    requires Copied(out, data, width, faceSize, face, faceSize)
    ensures Copied(out, data, width, faceSize, face + 1, 0)
    ensures DstOffset(face, faceSize, faceSize) == DstOffset(face + 1, 0, faceSize)
  {
    assert DstOffset(face, faceSize, faceSize) == (face + 1) * faceSize * faceSize * 4;
  }

  /** The cross image as the asset store holds it. */
  datatype Image = Image(width: nat, height: nat, data: W.Option<seq<bv8>>)

  /** Which of the two resources exist: the handle of the cross image while
      it waits to be converted, and the finished cubemap. */
  datatype Resources = Resources(cross: W.Option<nat>, cubemap: W.Option<seq<bv8>>)

  /** `skybox_convert_cross_to_cubemap_system`: nothing happens once a
      cubemap exists, before the cross image is requested, or while it is
      loading; otherwise the cubemap is made and the cross image's resource
      removed, so the conversion happens once. None when the conversion
      panics. */
  method ConvertSystem(res: Resources, images: map<nat, Image>) returns (r: W.Option<Resources>)
    requires forall h :: h in images && images[h].data.Some? ==>
               |images[h].data.value| == images[h].width * images[h].height * BYTES_PER_PIXEL
    ensures res.cubemap.Some? ==> r == W.Some(res)
    ensures res.cubemap.None? && (res.cross.None? || res.cross.value !in images) ==> r == W.Some(res)
    ensures res.cubemap.None? && res.cross.Some? && res.cross.value in images ==>
              var img := images[res.cross.value];
              (r.Some? <==> img.data.Some? && (img.width / 4 == 0 || img.height >= 3 * (img.width / 4)))
              && (r.Some? ==> r.value.cross.None? && r.value.cubemap.Some?
                              && |r.value.cubemap.value| == CubemapSize(img.width / 4))
  {
    if res.cubemap.Some? || res.cross.None? || res.cross.value !in images {
      return W.Some(res);
    }
    var img := images[res.cross.value];
    var cube := CreateCubemap(img.width, img.height, img.data);
    if cube.None? {
      return W.None;
    }
    return W.Some(Resources(W.None, W.Some(cube.value)));
  }
}

=== FILE: walls.dfy ===
/** Wall segments from grid-line flags (server/src/map/walls.rs): one
    segment per walled cell edge, with end offsets that close corners and
    leave room at T-junctions, then normalisation and collinear merging. The
    older copy of `normalize_wall`/`merge_walls` in server/src/map.rs is the
    same code with a tighter tolerance, so the tolerance is a parameter. */
module Walls {
  import opened MapGrid

  /** `Wall`: a segment from (x1, z1) to (x2, z2) of the given width. */
  datatype Wall = Wall(x1: real, z1: real, x2: real, z2: real, width: real)

  /** Tolerance of server/src/map/walls.rs. */
  const MERGE_EPS: real := 0.01
  /** Tolerance of the older server/src/map.rs. */
  const OLD_MERGE_EPS: real := 0.0001
  const WALL_OVERLAP: bool := false
  const HALF_T: real := WALL_THICKNESS / 2.0

  function Abs(x: real): real
  {
    if x < 0.0 then -x else x
  }

  function Max(a: real, b: real): (m: real)
    ensures m >= a && m >= b && (m == a || m == b)
  {
    if a >= b then a else b
  }

  // ---------------------------------------------------------------------------
  // Grid-line flags
  // ---------------------------------------------------------------------------

  /** `has_horizontal_wall`: the wall flag on horizontal grid line `row`
      (0..=rows) over column `col`. Line 0 is row 0's north side, line `rows`
      the last row's south side, any other line row `row`'s north side. */
  predicate HasHorizontalWall(g: Grid, rows: int, cols: int, row: int, col: int)
    requires Shaped(g, rows, cols) && rows > 0
    requires 0 <= row <= rows && 0 <= col < cols
  {
    if row == 0 then g[0][col].wallNorth
    else if row == rows then g[rows - 1][col].wallSouth
    else g[row][col].wallNorth
  }

  /** `has_vertical_wall`: the column analogue on vertical line `col`. */
  predicate HasVerticalWall(g: Grid, rows: int, cols: int, row: int, col: int)
    requires Shaped(g, rows, cols) && cols > 0
    requires 0 <= row < rows && 0 <= col <= cols
  {
    if col == 0 then g[row][0].wallWest
    else if col == cols then g[row][cols - 1].wallEast
    else g[row][col].wallWest
  }

  /** A grid where each shared edge is flagged the same from both sides. */
  predicate Symmetric(g: Grid, rows: int, cols: int)
    requires Shaped(g, rows, cols)
  {
    && (forall r, c :: 0 <= r < rows - 1 && 0 <= c < cols ==> (g[r][c].wallSouth <==> g[r + 1][c].wallNorth))
    && (forall r, c :: 0 <= r < rows && 0 <= c < cols - 1 ==> (g[r][c].wallEast <==> g[r][c + 1].wallWest))
  }

  /** On a symmetric grid the line flag is the flag of either cell touching
      the line: the function reads one side only, and the other agrees. */
  lemma LineFlagsSeeBothSides(g: Grid, rows: int, cols: int, row: int, col: int)
    requires Shaped(g, rows, cols) && rows > 0 && cols > 0 && Symmetric(g, rows, cols)
    ensures 0 < row < rows && 0 <= col < cols ==>
              (HasHorizontalWall(g, rows, cols, row, col) <==> g[row - 1][col].wallSouth)
    ensures 0 <= row < rows && 0 < col < cols ==>
              (HasVerticalWall(g, rows, cols, row, col) <==> g[row][col - 1].wallEast)
  {
  }

  // ---------------------------------------------------------------------------
  // Segment geometry
  // ---------------------------------------------------------------------------

  predicate IsEndOffset(d: real)
  {
    d == -HALF_T || d == 0.0 || d == HALF_T
  }

  /** The start offset: inset at a T-junction, extended at a corner or free
      end, flush when the line continues. */
  function StartOffset(through: bool, continues: bool): (d: real)
    ensures IsEndOffset(d)
    ensures continues ==> d == 0.0
  {
    if WALL_OVERLAP then -HALF_T
    else if through && !continues then HALF_T
    else if !continues then -HALF_T
    else 0.0
  }

  /** The end offset, the mirror image of `StartOffset`. */
  function EndOffset(through: bool, continues: bool): (d: real)
    ensures IsEndOffset(d) && d == -StartOffset(through, continues)
  {
    if WALL_OVERLAP then HALF_T
    else if through && !continues then -HALF_T
    else if !continues then HALF_T
    else 0.0
  }

  /** The wall emitted for the flagged segment of horizontal line `row` over
      column `col`. */
  function HSegment(g: Grid, rows: int, cols: int, row: int, col: int): (w: Wall)
    requires Shaped(g, rows, cols) && rows > 0 && cols > 0
    requires 0 <= row <= rows && 0 <= col < cols
    ensures w.z1 == LineZ(row) && w.z2 == LineZ(row) && w.width == WALL_THICKNESS
    ensures IsEndOffset(w.x1 - LineX(col)) && IsEndOffset(w.x2 - LineX(col + 1))
    ensures w.x1 < w.x2
  {
    var hasLeft := col > 0 && HasHorizontalWall(g, rows, cols, row, col - 1);
    var hasRight := col < cols - 1 && HasHorizontalWall(g, rows, cols, row, col + 1);
    var leftThrough := (row > 0 && HasVerticalWall(g, rows, cols, row - 1, col))
                       && (row < rows && HasVerticalWall(g, rows, cols, row, col));
    var rightThrough := (row > 0 && HasVerticalWall(g, rows, cols, row - 1, col + 1))
                        && (row < rows && HasVerticalWall(g, rows, cols, row, col + 1));
    Wall(LineX(col) + StartOffset(leftThrough, hasLeft), LineZ(row),
         LineX(col + 1) + EndOffset(rightThrough, hasRight), LineZ(row), WALL_THICKNESS)
  }

  /** `has_perpendicular_horizontal_walls`: whether a horizontal wall meets
      the top (line `row`) or bottom (line `row + 1`) end of the vertical
      segment at (`row`, `col`). */
  function PerpendicularWalls(g: Grid, rows: int, cols: int, row: int, col: int): (bool, bool)
    requires Shaped(g, rows, cols) && rows > 0 && cols > 0
    requires 0 <= row < rows && 0 <= col <= cols
  {
    var top := row > 0
      && ((col < cols && HasHorizontalWall(g, rows, cols, row, col))
          || (col > 0 && HasHorizontalWall(g, rows, cols, row, col - 1)));
    var bottom := row < rows
      && ((col < cols && HasHorizontalWall(g, rows, cols, row + 1, col))
          || (col > 0 && HasHorizontalWall(g, rows, cols, row + 1, col - 1)));
    (top, bottom)
  }

  /** The wall emitted for the flagged segment of vertical line `col` over
      row `row`. */
  function VSegment(g: Grid, rows: int, cols: int, row: int, col: int): (w: Wall)
    requires Shaped(g, rows, cols) && rows > 0 && cols > 0
    requires 0 <= row < rows && 0 <= col <= cols
    ensures w.x1 == LineX(col) && w.x2 == LineX(col) && w.width == WALL_THICKNESS
    ensures IsEndOffset(w.z1 - LineZ(row)) && IsEndOffset(w.z2 - LineZ(row + 1))
    ensures w.z1 < w.z2
  {
    var hasTop := row > 0 && HasVerticalWall(g, rows, cols, row - 1, col);
    var hasBottom := row < rows - 1 && HasVerticalWall(g, rows, cols, row + 1, col);
    var (perpTop, perpBottom) := PerpendicularWalls(g, rows, cols, row, col);
    var z1 := LineZ(row) + (if perpTop && !hasTop then HALF_T
                            else if !hasTop && !perpTop then -HALF_T
                            else 0.0);
    var z2 := LineZ(row + 1) + (if perpBottom && !hasBottom then -HALF_T
                                else if !hasBottom && !perpBottom then HALF_T
                                else 0.0);
    Wall(LineX(col), z1, LineX(col), z2, WALL_THICKNESS)
  }

  /** A flagged horizontal segment: line `r` in 0..=rows, column `c`. */
  predicate HFlagged(g: Grid, rows: int, cols: int, r: int, c: int)
    requires Shaped(g, rows, cols) && rows > 0
  {
    0 <= r <= rows && 0 <= c < cols && HasHorizontalWall(g, rows, cols, r, c)
  }

  /** A flagged vertical segment: line `c` in 0..=cols, row `r`. */
  predicate VFlagged(g: Grid, rows: int, cols: int, r: int, c: int)
    requires Shaped(g, rows, cols) && cols > 0
  {
    0 <= r < rows && 0 <= c <= cols && HasVerticalWall(g, rows, cols, r, c)
  }

  /** Position (a, b) comes at or after (a0, b0) in a scan over a then b. */
  predicate AtOrAfter(a0: int, b0: int, a: int, b: int)
  {
    a0 < a || (a == a0 && b0 <= b)
  }

  /** Each wall of `ws` occurs once. */
  predicate NoRepeats(ws: seq<Wall>)
  {
    forall i, j :: 0 <= i < j < |ws| ==> ws[i] != ws[j]
  }

  lemma NoRepeatsCons(w: Wall, ws: seq<Wall>)
    requires NoRepeats(ws) && w !in ws
    ensures NoRepeats([w] + ws)
  {
    var s := [w] + ws;
    forall i, j | 0 <= i < j < |s| ensures s[i] != s[j] {
      assert s[j] == ws[j - 1];
      if i > 0 { assert s[i] == ws[i - 1]; }
    }
  }

  lemma NoRepeatsAppend(a: seq<Wall>, b: seq<Wall>)
    requires NoRepeats(a) && NoRepeats(b) && forall w :: w in a ==> w !in b
    ensures NoRepeats(a + b)
  {
    var s := a + b;
    forall i, j | 0 <= i < j < |s| ensures s[i] != s[j] {
      if j >= |a| {
        assert s[j] == b[j - |a|];
        if i >= |a| { assert s[i] == b[i - |a|]; } else { assert s[i] == a[i] && a[i] in a; }
      } else {
        assert s[i] == a[i] && s[j] == a[j];
      }
    }
  }

  /** Distinct flagged segments give distinct walls: the line fixes the
      row, and the start, within half a thickness of its grid line, the
      column. */
  lemma HSegmentInjective(g: Grid, rows: int, cols: int, r1: int, c1: int, r2: int, c2: int)
    requires Shaped(g, rows, cols) && rows > 0 && cols > 0
    requires 0 <= r1 <= rows && 0 <= c1 < cols && 0 <= r2 <= rows && 0 <= c2 < cols
    ensures HSegment(g, rows, cols, r1, c1) == HSegment(g, rows, cols, r2, c2) ==> r1 == r2 && c1 == c2
  {
    var w1, w2 := HSegment(g, rows, cols, r1, c1), HSegment(g, rows, cols, r2, c2);
    if w1 == w2 {
      assert LineZ(r1) == LineZ(r2);
    }
  }

  lemma VSegmentInjective(g: Grid, rows: int, cols: int, r1: int, c1: int, r2: int, c2: int)
    requires Shaped(g, rows, cols) && rows > 0 && cols > 0
    requires 0 <= r1 < rows && 0 <= c1 <= cols && 0 <= r2 < rows && 0 <= c2 <= cols
    ensures VSegment(g, rows, cols, r1, c1) == VSegment(g, rows, cols, r2, c2) ==> r1 == r2 && c1 == c2
  {
    var w1, w2 := VSegment(g, rows, cols, r1, c1), VSegment(g, rows, cols, r2, c2);
    if w1 == w2 {
      assert LineX(c1) == LineX(c2);
    }
  }

  /** The segment at (row, col) is not among those strictly after it. */
  lemma HSegmentNotLater(g: Grid, rows: int, cols: int, row: int, col: int, ws: seq<Wall>)
    requires Shaped(g, rows, cols) && rows > 0 && cols > 0 && 0 <= row <= rows && 0 <= col < cols
    requires forall w :: w in ws ==>
               exists r, c :: HFlagged(g, rows, cols, r, c) && AtOrAfter(row, col + 1, r, c) && w == HSegment(g, rows, cols, r, c)
    ensures HSegment(g, rows, cols, row, col) !in ws
  {
    if HSegment(g, rows, cols, row, col) in ws {
      var r, c :| HFlagged(g, rows, cols, r, c) && AtOrAfter(row, col + 1, r, c)
                  && HSegment(g, rows, cols, row, col) == HSegment(g, rows, cols, r, c);
      HSegmentInjective(g, rows, cols, row, col, r, c);
    }
  }

  lemma VSegmentNotLater(g: Grid, rows: int, cols: int, row: int, col: int, ws: seq<Wall>)
    requires Shaped(g, rows, cols) && rows > 0 && cols > 0 && 0 <= row < rows && 0 <= col <= cols
    requires forall w :: w in ws ==>
               exists r, c :: VFlagged(g, rows, cols, r, c) && AtOrAfter(col, row + 1, c, r) && w == VSegment(g, rows, cols, r, c)
    ensures VSegment(g, rows, cols, row, col) !in ws
  {
    if VSegment(g, rows, cols, row, col) in ws {
      var r, c :| VFlagged(g, rows, cols, r, c) && AtOrAfter(col, row + 1, c, r)
                  && VSegment(g, rows, cols, row, col) == VSegment(g, rows, cols, r, c);
      VSegmentInjective(g, rows, cols, row, col, r, c);
    }
  }

  /** The horizontal segments of lines `row`..=rows, scanning columns from `col`. */
  function HorizontalFrom(g: Grid, rows: int, cols: int, row: int, col: int): (ws: seq<Wall>)
    requires Shaped(g, rows, cols) && rows > 0 && cols > 0
    requires 0 <= row <= rows + 1 && 0 <= col <= cols
    ensures forall r, c :: HFlagged(g, rows, cols, r, c) && AtOrAfter(row, col, r, c)
              ==> HSegment(g, rows, cols, r, c) in ws
    ensures forall w :: w in ws ==>
              exists r, c :: HFlagged(g, rows, cols, r, c) && AtOrAfter(row, col, r, c) && w == HSegment(g, rows, cols, r, c)
    ensures NoRepeats(ws)
    decreases rows + 1 - row, cols - col
  {
    if row > rows then []
    else if col == cols then HorizontalFrom(g, rows, cols, row + 1, 0)
    else if HasHorizontalWall(g, rows, cols, row, col) then
      var rest := HorizontalFrom(g, rows, cols, row, col + 1);
      HSegmentNotLater(g, rows, cols, row, col, rest);
      NoRepeatsCons(HSegment(g, rows, cols, row, col), rest);
      [HSegment(g, rows, cols, row, col)] + rest
    else HorizontalFrom(g, rows, cols, row, col + 1)
  }

  /** The vertical segments of lines `col`..=cols, scanning rows from `row`. */
  function VerticalFrom(g: Grid, rows: int, cols: int, col: int, row: int): (ws: seq<Wall>)
    requires Shaped(g, rows, cols) && rows > 0 && cols > 0
    requires 0 <= col <= cols + 1 && 0 <= row <= rows
    ensures forall r, c :: VFlagged(g, rows, cols, r, c) && AtOrAfter(col, row, c, r)
              ==> VSegment(g, rows, cols, r, c) in ws
    ensures forall w :: w in ws ==>
              exists r, c :: VFlagged(g, rows, cols, r, c) && AtOrAfter(col, row, c, r) && w == VSegment(g, rows, cols, r, c)
    ensures NoRepeats(ws)
    decreases cols + 1 - col, rows - row
  {
    if col > cols then []
    else if row == rows then VerticalFrom(g, rows, cols, col + 1, 0)
    else if HasVerticalWall(g, rows, cols, row, col) then
      var rest := VerticalFrom(g, rows, cols, col, row + 1);
      VSegmentNotLater(g, rows, cols, row, col, rest);
      NoRepeatsCons(VSegment(g, rows, cols, row, col), rest);
      [VSegment(g, rows, cols, row, col)] + rest
    else VerticalFrom(g, rows, cols, col, row + 1)
  }

  /** `generate_walls`: every flagged horizontal segment (lines 0..=rows)
      yields its wall, then every flagged vertical segment (lines 0..=cols);
      nothing else is emitted, no wall twice, and every wall is axis-aligned
      with width `WALL_THICKNESS`. */
  function GenerateWalls(g: Grid, cols: int, rows: int): (ws: seq<Wall>)
    requires Shaped(g, rows, cols) && rows > 0 && cols > 0
    ensures forall r, c :: HFlagged(g, rows, cols, r, c) ==> HSegment(g, rows, cols, r, c) in ws
    ensures forall r, c :: VFlagged(g, rows, cols, r, c) ==> VSegment(g, rows, cols, r, c) in ws
    ensures forall w :: w in ws ==>
              || (exists r, c :: HFlagged(g, rows, cols, r, c) && w == HSegment(g, rows, cols, r, c))
              || (exists r, c :: VFlagged(g, rows, cols, r, c) && w == VSegment(g, rows, cols, r, c))
    ensures forall w :: w in ws ==> w.width == WALL_THICKNESS && (w.z1 == w.z2 || w.x1 == w.x2)
    ensures NoRepeats(ws)
  {
    var hs := HorizontalFrom(g, rows, cols, 0, 0);
    var vs := VerticalFrom(g, rows, cols, 0, 0);
    assert forall r, c :: HFlagged(g, rows, cols, r, c) ==> AtOrAfter(0, 0, r, c);
    assert forall r, c :: VFlagged(g, rows, cols, r, c) ==> AtOrAfter(0, 0, c, r);
    assert forall w :: w in hs ==> w.x1 < w.x2;
    assert forall w :: w in vs ==> w.x1 == w.x2;
    NoRepeatsAppend(hs, vs);
    hs + vs
  }

  // ---------------------------------------------------------------------------
  // Normalisation
  // ---------------------------------------------------------------------------

  predicate IsHorizontal(w: Wall, eps: real)
  {
    Abs(w.z1 - w.z2) < eps
  }

  predicate IsVertical(w: Wall, eps: real)
  {
    !IsHorizontal(w, eps) && Abs(w.x1 - w.x2) < eps
  }

  /** `normalize_wall`: orders the end points of a horizontal wall by x and
      of a vertical wall by z; only a swap happens, and other walls pass
      through unchanged. */
  function Normalize(w: Wall, eps: real): (n: Wall)
    ensures IsHorizontal(n, eps) <==> IsHorizontal(w, eps)
    ensures IsVertical(n, eps) <==> IsVertical(w, eps)
    ensures IsHorizontal(w, eps) ==> n.x1 <= n.x2 && n.z1 == w.z1 && n.z2 == w.z2
    ensures IsVertical(w, eps) ==> n.z1 <= n.z2 && n.x1 == w.x1 && n.x2 == w.x2
    ensures {n.x1, n.x2} == {w.x1, w.x2} && {n.z1, n.z2} == {w.z1, w.z2} && n.width == w.width
    ensures !IsHorizontal(w, eps) && !IsVertical(w, eps) ==> n == w
  {
    if Abs(w.z1 - w.z2) < eps then
      (if w.x1 > w.x2 then w.(x1 := w.x2, x2 := w.x1) else w)
    else if Abs(w.x1 - w.x2) < eps then
      (if w.z1 > w.z2 then w.(z1 := w.z2, z2 := w.z1) else w)
    else w
  }

  /** Normalising twice is normalising once. */
  lemma NormalizeIdempotent(w: Wall, eps: real)
    ensures Normalize(Normalize(w, eps), eps) == Normalize(w, eps)
  {
  }

  // ---------------------------------------------------------------------------
  // Merging
  // ---------------------------------------------------------------------------

  /** Along a line: the coordinate fixed by the line, and the start and end
      coordinates along it (x for horizontal walls, z for vertical ones). */
  function LineOf(w: Wall, horizontal: bool): real
  {
    if horizontal then w.z1 else w.x1
  }

  function StartOf(w: Wall, horizontal: bool): real
  {
    if horizontal then w.x1 else w.z1
  }

  function EndOf(w: Wall, horizontal: bool): real
  {
    if horizontal then w.x2 else w.z2
  }

  function WithEnd(w: Wall, horizontal: bool, e: real): (r: Wall)
    ensures EndOf(r, horizontal) == e
    ensures LineOf(r, horizontal) == LineOf(w, horizontal) && StartOf(r, horizontal) == StartOf(w, horizontal)
    ensures r.width == w.width
  {
    if horizontal then w.(x2 := e) else w.(z2 := e)
  }

  /** The sort key order: by line coordinate, then by start. */
  predicate KeyLe(a: Wall, b: Wall, horizontal: bool)
  {
    || LineOf(a, horizontal) < LineOf(b, horizontal)
    || (LineOf(a, horizontal) == LineOf(b, horizontal) && StartOf(a, horizontal) <= StartOf(b, horizontal))
  }

  predicate SortedBy(s: seq<Wall>, horizontal: bool)
  {
    forall i, j :: 0 <= i < j < |s| ==> KeyLe(s[i], s[j], horizontal)
  }

  /** Inserts `w` before the first element it does not exceed, so it stays
      ahead of equal keys that came after it. */
  function Insert(w: Wall, s: seq<Wall>, horizontal: bool): seq<Wall>
  {
    if s == [] then [w]
    else if KeyLe(w, s[0], horizontal) then [w] + s
    else [s[0]] + Insert(w, s[1..], horizontal)
  }

  lemma {:induction false} InsertPermutes(w: Wall, s: seq<Wall>, horizontal: bool)
    ensures multiset(Insert(w, s, horizontal)) == multiset(s) + multiset{w}
  {
    if s != [] && !KeyLe(w, s[0], horizontal) {
      InsertPermutes(w, s[1..], horizontal);
      assert s == [s[0]] + s[1..];
    }
  }

  /** Inserting into a sorted list keeps it sorted. */
  lemma {:induction false} InsertSorted(w: Wall, s: seq<Wall>, horizontal: bool)
    requires SortedBy(s, horizontal)
    ensures SortedBy(Insert(w, s, horizontal), horizontal)
  {
    if s != [] && !KeyLe(w, s[0], horizontal) {
      var rest := Insert(w, s[1..], horizontal);
      InsertSorted(w, s[1..], horizontal);
      InsertPermutes(w, s[1..], horizontal);
      forall x | x in rest
        ensures KeyLe(s[0], x, horizontal)
      {
        assert x in multiset(rest);
        if x != w {
          assert x in multiset(s[1..]);
        }
      }
      var r := [s[0]] + rest;
      forall i, j | 0 <= i < j < |r|
        ensures KeyLe(r[i], r[j], horizontal)
      {
        if i > 0 {
          assert r[i] == rest[i - 1] && r[j] == rest[j - 1];
        } else {
          assert r[j] in rest;
        }
      }
    }
  }

  /** The stable sort of `sort_by` with the lexicographic key. */
  function Sort(s: seq<Wall>, horizontal: bool): seq<Wall>
  {
    if s == [] then [] else Insert(s[0], Sort(s[1..], horizontal), horizontal)
  }

  /** `Sort` orders by the key and is a permutation of its input. */
  lemma {:induction false} SortCorrect(s: seq<Wall>, horizontal: bool)
    ensures SortedBy(Sort(s, horizontal), horizontal)
    ensures multiset(Sort(s, horizontal)) == multiset(s)
  {
    if s != [] {
      SortCorrect(s[1..], horizontal);
      InsertSorted(s[0], Sort(s[1..], horizontal), horizontal);
      InsertPermutes(s[0], Sort(s[1..], horizontal), horizontal);
      assert s == [s[0]] + s[1..];
    }
  }

  /** The merge test of `merge_line`: same line and width within `eps`, and
      `w` starts no later than just past the end of `cur`. */
  predicate Mergeable(cur: Wall, w: Wall, horizontal: bool, eps: real)
  {
    && Abs(LineOf(cur, horizontal) - LineOf(w, horizontal)) < eps
    && Abs(cur.width - w.width) < eps
    && StartOf(w, horizontal) <= EndOf(cur, horizontal) + eps
  }

  /** `cur` extended by `w`. */
  function Absorb(cur: Wall, w: Wall, horizontal: bool): Wall
  {
    WithEnd(cur, horizontal, Max(EndOf(cur, horizontal), EndOf(w, horizontal)))
  }

  /** An output wall `o` grown from input wall `w`: same line, start and
      width, an end no earlier. */
  predicate GrownFrom(o: Wall, w: Wall, horizontal: bool)
  {
    && LineOf(o, horizontal) == LineOf(w, horizontal) && StartOf(o, horizontal) == StartOf(w, horizontal)
    && o.width == w.width && EndOf(o, horizontal) >= EndOf(w, horizontal)
  }

  /** Input wall `w` lies within output wall `o`: `o` is on its line and of
      its width within `eps`, reaches at least as far and, when the two lie
      on exactly the same line, starts no later. */
  predicate CoveredBy(w: Wall, o: Wall, horizontal: bool, eps: real)
  {
    && Abs(LineOf(o, horizontal) - LineOf(w, horizontal)) < eps
    && Abs(o.width - w.width) < eps
    && (LineOf(o, horizontal) == LineOf(w, horizontal) ==> StartOf(o, horizontal) <= StartOf(w, horizontal))
    && EndOf(o, horizontal) >= EndOf(w, horizontal)
  }

  /** Output wall `o` ends where one of the walls `ws` ends. */
  ghost predicate EndAmong(o: Wall, ws: seq<Wall>, horizontal: bool)
  {
    exists w :: w in ws && EndOf(o, horizontal) == EndOf(w, horizontal)
  }

  /** An output wall made from the walls `ws`: it starts where one of them
      starts, on its line and with its width, and ends where one of the
      walls it covers ends, so it reaches no further than they do. */
  ghost predicate MergedFrom(o: Wall, ws: seq<Wall>, horizontal: bool, eps: real)
  {
    && (exists w :: w in ws && GrownFrom(o, w, horizontal))
    && (exists w :: w in ws && CoveredBy(w, o, horizontal, eps) && EndOf(w, horizontal) == EndOf(o, horizontal))
  }

  /** A run is sorted: the walls to come are sorted and none sorts before
      the current run. */
  predicate RunSorted(cur: Wall, rest: seq<Wall>, horizontal: bool)
  {
    SortedBy(rest, horizontal) && forall k :: 0 <= k < |rest| ==> KeyLe(cur, rest[k], horizontal)
  }

  /** Absorbing the next wall ends where the run or that wall ends. */
  lemma AbsorbEndAmong(cur: Wall, rest: seq<Wall>, horizontal: bool, o: Wall)
    requires rest != [] && EndAmong(o, [Absorb(cur, rest[0], horizontal)] + rest[1..], horizontal)
    ensures EndAmong(o, [cur] + rest, horizontal)
  {
    var a := Absorb(cur, rest[0], horizontal);
    var w :| w in [a] + rest[1..] && EndOf(o, horizontal) == EndOf(w, horizontal);
    if w == a {
      if EndOf(a, horizontal) == EndOf(cur, horizontal) {
        assert cur in [cur] + rest;
      } else {
        assert rest[0] in [cur] + rest;
      }
    } else {
      assert w in [cur] + rest;
    }
  }

  /** The loop of `merge_line` with current run `cur` and the walls still
      to come: a merge extends `cur`, otherwise `cur` is emitted and the next
      wall starts a run. The output is no longer than the input, and its
      first wall starts as `cur` does and ends where one of the inputs
      ends. */
  function MergeRun(cur: Wall, rest: seq<Wall>, horizontal: bool, eps: real): (out: seq<Wall>)
    ensures 1 <= |out| <= |rest| + 1
    ensures GrownFrom(out[0], cur, horizontal)
    ensures EndAmong(out[0], [cur] + rest, horizontal)
    decreases |rest|
  {
    if rest == [] then
      assert cur in [cur] + rest;
      [cur]
    else if Mergeable(cur, rest[0], horizontal, eps) then
      var out := MergeRun(Absorb(cur, rest[0], horizontal), rest[1..], horizontal, eps);
      AbsorbEndAmong(cur, rest, horizontal, out[0]);
      out
    else
      assert cur in [cur] + rest;
      [cur] + MergeRun(rest[0], rest[1..], horizontal, eps)
  }

  /** Every output of a run grows from one of its input walls. */
  lemma {:induction false} MergeRunGrows(cur: Wall, rest: seq<Wall>, horizontal: bool, eps: real)
    ensures forall o :: o in MergeRun(cur, rest, horizontal, eps) ==>
              exists w :: w in [cur] + rest && GrownFrom(o, w, horizontal)
    decreases |rest|
  {
    var out := MergeRun(cur, rest, horizontal, eps);
    if rest == [] {
      assert GrownFrom(cur, cur, horizontal) && cur in [cur] + rest;
    } else if Mergeable(cur, rest[0], horizontal, eps) {
      var a := Absorb(cur, rest[0], horizontal);
      MergeRunGrows(a, rest[1..], horizontal, eps);
      assert out == MergeRun(a, rest[1..], horizontal, eps);
      forall o | o in out
        ensures exists w :: w in [cur] + rest && GrownFrom(o, w, horizontal)
      {
        var w :| w in [a] + rest[1..] && GrownFrom(o, w, horizontal);
        if w == a {
          assert GrownFrom(o, cur, horizontal) && cur in [cur] + rest;
        } else {
          assert w in [cur] + rest;
        }
      }
    } else {
      MergeRunGrows(rest[0], rest[1..], horizontal, eps);
      forall o | o in out
        ensures exists w :: w in [cur] + rest && GrownFrom(o, w, horizontal)
      {
        if o == cur {
          assert GrownFrom(cur, cur, horizontal) && cur in [cur] + rest;
        } else {
          assert o in MergeRun(rest[0], rest[1..], horizontal, eps);
          var w :| w in [rest[0]] + rest[1..] && GrownFrom(o, w, horizontal);
          assert w in [cur] + rest;
        }
      }
    }
  }

  /** The tail of a sorted run stays sorted after `cur` absorbs or hands
      over. */
  lemma RunSortedTail(cur: Wall, rest: seq<Wall>, horizontal: bool)
    requires rest != [] && RunSorted(cur, rest, horizontal)
    ensures RunSorted(Absorb(cur, rest[0], horizontal), rest[1..], horizontal)
    ensures RunSorted(rest[0], rest[1..], horizontal)
  {
    var a := Absorb(cur, rest[0], horizontal);
    forall k | 0 <= k < |rest[1..]| ensures KeyLe(a, rest[1..][k], horizontal) && KeyLe(rest[0], rest[1..][k], horizontal) {
      assert rest[1..][k] == rest[k + 1];
      assert KeyLe(cur, rest[k + 1], horizontal);
    }
  }

  /** On a sorted run, the first output ends where an input it covers
      ends. */
  lemma {:induction false} MergeRunFirst(cur: Wall, rest: seq<Wall>, horizontal: bool, eps: real)
    requires eps > 0.0 && RunSorted(cur, rest, horizontal)
    ensures var o := MergeRun(cur, rest, horizontal, eps)[0];
            exists w :: w in [cur] + rest && CoveredBy(w, o, horizontal, eps) && EndOf(w, horizontal) == EndOf(o, horizontal)
    decreases |rest|
  {
    var o := MergeRun(cur, rest, horizontal, eps)[0];
    if rest == [] || !Mergeable(cur, rest[0], horizontal, eps) {
      assert CoveredBy(cur, o, horizontal, eps) && cur in [cur] + rest;
    } else {
      var a := Absorb(cur, rest[0], horizontal);
      RunSortedTail(cur, rest, horizontal);
      MergeRunFirst(a, rest[1..], horizontal, eps);
      var w :| w in [a] + rest[1..] && CoveredBy(w, o, horizontal, eps) && EndOf(w, horizontal) == EndOf(o, horizontal);
      if w == a {
        assert KeyLe(cur, rest[0], horizontal);
        if EndOf(a, horizontal) == EndOf(cur, horizontal) {
          assert CoveredBy(cur, o, horizontal, eps) && cur in [cur] + rest;
        } else {
          assert CoveredBy(rest[0], o, horizontal, eps) && rest[0] in [cur] + rest;
        }
      } else {
        assert w in [cur] + rest;
      }
    }
  }

  /** On a sorted run, each later output ends where an input it covers
      ends, one of the walls after `cur`. */
  lemma {:induction false} MergeRunLater(cur: Wall, rest: seq<Wall>, horizontal: bool, eps: real)
    requires eps > 0.0 && RunSorted(cur, rest, horizontal)
    ensures var out := MergeRun(cur, rest, horizontal, eps);
            forall o :: o in out ==>
              (o == out[0] || exists w :: w in rest && CoveredBy(w, o, horizontal, eps) && EndOf(w, horizontal) == EndOf(o, horizontal))
    decreases |rest|
  {
    var out := MergeRun(cur, rest, horizontal, eps);
    if rest != [] {
      RunSortedTail(cur, rest, horizontal);
      if Mergeable(cur, rest[0], horizontal, eps) {
        MergeRunLater(Absorb(cur, rest[0], horizontal), rest[1..], horizontal, eps);
        forall o | o in out && o != out[0]
          ensures exists w :: w in rest && CoveredBy(w, o, horizontal, eps) && EndOf(w, horizontal) == EndOf(o, horizontal)
        {
          var w :| w in rest[1..] && CoveredBy(w, o, horizontal, eps) && EndOf(w, horizontal) == EndOf(o, horizontal);
          assert w in rest;
        }
      } else {
        var tail := MergeRun(rest[0], rest[1..], horizontal, eps);
        MergeRunFirst(rest[0], rest[1..], horizontal, eps);
        MergeRunLater(rest[0], rest[1..], horizontal, eps);
        assert rest == [rest[0]] + rest[1..];
        forall o | o in out && o != out[0]
          ensures exists w :: w in rest && CoveredBy(w, o, horizontal, eps) && EndOf(w, horizontal) == EndOf(o, horizontal)
        {
          assert o in tail;
          if o != tail[0] {
            var w :| w in rest[1..] && CoveredBy(w, o, horizontal, eps) && EndOf(w, horizontal) == EndOf(o, horizontal);
            assert w in rest;
          }
        }
      }
    }
  }

  /** Every input wall of a sorted run lies within some output wall. */
  lemma {:induction false} MergeRunCovers(cur: Wall, rest: seq<Wall>, horizontal: bool, eps: real)
    requires eps > 0.0 && RunSorted(cur, rest, horizontal)
    ensures forall w :: w in [cur] + rest ==>
              exists o :: o in MergeRun(cur, rest, horizontal, eps) && CoveredBy(w, o, horizontal, eps)
    decreases |rest|
  {
    var out := MergeRun(cur, rest, horizontal, eps);
    assert CoveredBy(cur, out[0], horizontal, eps);
    if rest != [] {
      RunSortedTail(cur, rest, horizontal);
      if Mergeable(cur, rest[0], horizontal, eps) {
        var a := Absorb(cur, rest[0], horizontal);
        MergeRunCovers(a, rest[1..], horizontal, eps);
        assert KeyLe(cur, rest[0], horizontal);
        assert CoveredBy(rest[0], out[0], horizontal, eps);
        forall w | w in [cur] + rest
          ensures exists o :: o in out && CoveredBy(w, o, horizontal, eps)
        {
          if w != cur && w != rest[0] {
            assert w in [a] + rest[1..];
          }
        }
      } else {
        var tail := MergeRun(rest[0], rest[1..], horizontal, eps);
        MergeRunCovers(rest[0], rest[1..], horizontal, eps);
        forall w | w in [cur] + rest
          ensures exists o :: o in out && CoveredBy(w, o, horizontal, eps)
        {
          if w != cur {
            assert w in [rest[0]] + rest[1..];
            var o :| o in tail && CoveredBy(w, o, horizontal, eps);
            assert o in out;
          }
        }
      }
    }
  }

  /** `merge_line` on a whole (sorted) list. */
  function MergeLine(list: seq<Wall>, horizontal: bool, eps: real): (out: seq<Wall>)
    ensures |out| <= |list| && (|out| == 0 <==> |list| == 0)
  {
    if list == [] then [] else MergeRun(list[0], list[1..], horizontal, eps)
  }

  lemma SortedRun(list: seq<Wall>, horizontal: bool)
    requires list != [] && SortedBy(list, horizontal)
    ensures RunSorted(list[0], list[1..], horizontal)
  {
    forall k | 0 <= k < |list[1..]| ensures KeyLe(list[0], list[1..][k], horizontal) {
      assert list[1..][k] == list[k + 1];
    }
  }

  /** On a sorted list, as `merge_walls` passes it: every output is made
      from the inputs (it starts where one starts and ends where one it
      covers ends), and every input lies within an output. */
  lemma MergeLineSound(list: seq<Wall>, horizontal: bool, eps: real)
    requires eps > 0.0 && SortedBy(list, horizontal)
    ensures forall o :: o in MergeLine(list, horizontal, eps) ==> MergedFrom(o, list, horizontal, eps)
    ensures forall w :: w in list ==> exists o :: o in MergeLine(list, horizontal, eps) && CoveredBy(w, o, horizontal, eps)
  {
    if list != [] {
      assert list == [list[0]] + list[1..];
      SortedRun(list, horizontal);
      MergeRunCovers(list[0], list[1..], horizontal, eps);
      forall o | o in MergeLine(list, horizontal, eps) ensures MergedFrom(o, list, horizontal, eps) {
        MergeLineMade(list, horizontal, eps, o);
      }
    }
  }

  lemma MergeLineMade(list: seq<Wall>, horizontal: bool, eps: real, o: Wall)
    requires eps > 0.0 && list != [] && RunSorted(list[0], list[1..], horizontal)
    requires o in MergeLine(list, horizontal, eps)
    ensures MergedFrom(o, list, horizontal, eps)
  {
    var out := MergeLine(list, horizontal, eps);
    assert list == [list[0]] + list[1..];
    MergeRunGrows(list[0], list[1..], horizontal, eps);
    MergeRunFirst(list[0], list[1..], horizontal, eps);
    MergeRunLater(list[0], list[1..], horizontal, eps);
    if o != out[0] {
      var w :| w in list[1..] && CoveredBy(w, o, horizontal, eps) && EndOf(w, horizontal) == EndOf(o, horizontal);
      assert w in list;
    }
  }

  /** Lines that differ by less than the tolerance still merge, and the
      merged wall then starts where the run did, after the absorbed wall:
      the absorbed wall is not contained. This is why `CoveredBy` asks for
      the start only on exactly the same line. */
  lemma NearLineStartsLater()
    ensures var cur := Wall(5.0, 0.0, 6.0, 0.0, WALL_THICKNESS);
            var w := Wall(0.0, 0.005, 7.0, 0.005, WALL_THICKNESS);
            && KeyLe(cur, w, true)
            && MergeLine([cur, w], true, MERGE_EPS) == [Wall(5.0, 0.0, 7.0, 0.0, WALL_THICKNESS)]
            && StartOf(w, true) < StartOf(cur, true)
  {
    var cur := Wall(5.0, 0.0, 6.0, 0.0, WALL_THICKNESS);
    var w := Wall(0.0, 0.005, 7.0, 0.005, WALL_THICKNESS);
    assert Mergeable(cur, w, true, MERGE_EPS);
    assert [cur, w][1..] == [w];
    assert [w][1..] == [];
    var a := Absorb(cur, w, true);
    assert a == Wall(5.0, 0.0, 7.0, 0.0, WALL_THICKNESS);
    assert MergeRun(a, [], true, MERGE_EPS) == [a];
    assert MergeRun(cur, [w], true, MERGE_EPS) == [a];
  }

  /** The partition loop of `merge_walls`: each wall is normalised and goes
      to the horizontals, the verticals or the others, keeping input order. */
  function Partition(walls: seq<Wall>, eps: real): (p: (seq<Wall>, seq<Wall>, seq<Wall>))
    ensures forall w :: w in p.0 ==> IsHorizontal(w, eps) && w.x1 <= w.x2
    ensures forall w :: w in p.1 ==> IsVertical(w, eps) && w.z1 <= w.z2
    ensures |p.0| + |p.1| + |p.2| == |walls|
  {
    if walls == [] then ([], [], [])
    else
      var rest := Partition(walls[1..], eps);
      var w := Normalize(walls[0], eps);
      if IsHorizontal(w, eps) then ([w] + rest.0, rest.1, rest.2)
      else if Abs(w.x1 - w.x2) < eps then (rest.0, [w] + rest.1, rest.2)
      else (rest.0, rest.1, [w] + rest.2)
  }

  /** Reference definition: the horizontal input walls, normalised, in
      input order. */
  function Horizontals(walls: seq<Wall>, eps: real): (r: seq<Wall>)
    ensures forall x :: x in r ==> IsHorizontal(x, eps) && x.x1 <= x.x2
    ensures forall w :: w in walls && IsHorizontal(w, eps) ==> Normalize(w, eps) in r
    ensures forall x :: x in r ==> exists w :: w in walls && IsHorizontal(w, eps) && x == Normalize(w, eps)
  {
    if walls == [] then []
    else
      var rest := Horizontals(walls[1..], eps);
      assert forall w :: w in walls ==> w == walls[0] || w in walls[1..];
      assert forall w :: w in walls[1..] ==> w in walls;
      (if IsHorizontal(walls[0], eps) then [Normalize(walls[0], eps)] else []) + rest
  }

  /** Reference definition: the vertical input walls, normalised, in input
      order. */
  function Verticals(walls: seq<Wall>, eps: real): (r: seq<Wall>)
    ensures forall x :: x in r ==> IsVertical(x, eps) && x.z1 <= x.z2
    ensures forall w :: w in walls && IsVertical(w, eps) ==> Normalize(w, eps) in r
    ensures forall x :: x in r ==> exists w :: w in walls && IsVertical(w, eps) && x == Normalize(w, eps)
  {
    if walls == [] then []
    else
      var rest := Verticals(walls[1..], eps);
      assert forall w :: w in walls ==> w == walls[0] || w in walls[1..];
      assert forall w :: w in walls[1..] ==> w in walls;
      (if IsVertical(walls[0], eps) then [Normalize(walls[0], eps)] else []) + rest
  }

  /** Reference definition: the input walls that are neither horizontal nor
      vertical, in input order. */
  function FilterOthers(walls: seq<Wall>, eps: real): (r: seq<Wall>)
    ensures forall w :: w in r <==> w in walls && !IsHorizontal(w, eps) && !IsVertical(w, eps)
  {
    if walls == [] then []
    else if !IsHorizontal(walls[0], eps) && !IsVertical(walls[0], eps)
    then [walls[0]] + FilterOthers(walls[1..], eps)
    else FilterOthers(walls[1..], eps)
  }

  /** The partition is exactly the three reference lists: the horizontals
      and the verticals normalised, the others unchanged, each in input
      order. */
  lemma {:induction false} PartitionCorrect(walls: seq<Wall>, eps: real)
    ensures Partition(walls, eps) == (Horizontals(walls, eps), Verticals(walls, eps), FilterOthers(walls, eps))
  {
    if walls != [] {
      PartitionCorrect(walls[1..], eps);
      var w := walls[0];
      var n := Normalize(w, eps);
      assert IsHorizontal(n, eps) <==> IsHorizontal(w, eps);
      assert (!IsHorizontal(n, eps) && Abs(n.x1 - n.x2) < eps) <==> IsVertical(w, eps);
      assert !IsHorizontal(w, eps) && !IsVertical(w, eps) ==> n == w;
      var rest := Partition(walls[1..], eps);
      var hs, vs := Horizontals(walls[1..], eps), Verticals(walls[1..], eps);
      if IsHorizontal(w, eps) {
        assert Horizontals(walls, eps) == [n] + hs;
        assert Verticals(walls, eps) == [] + vs == vs;
      } else if IsVertical(w, eps) {
        assert Horizontals(walls, eps) == [] + hs == hs;
        assert Verticals(walls, eps) == [n] + vs;
      } else {
        assert Horizontals(walls, eps) == [] + hs == hs;
        assert Verticals(walls, eps) == [] + vs == vs;
      }
    }
  }

  /** `merge_walls`: merged horizontals, then merged verticals, then the
      other walls. */
  function MergeWalls(walls: seq<Wall>, eps: real): (out: seq<Wall>)
  {
    var p := Partition(walls, eps);
    MergeLine(Sort(p.0, true), true, eps) + MergeLine(Sort(p.1, false), false, eps) + p.2
  }

  lemma SortMembers(s: seq<Wall>, horizontal: bool)
    ensures |Sort(s, horizontal)| == |s|
    ensures forall w :: w in Sort(s, horizontal) <==> w in s
  {
    SortCorrect(s, horizontal);
    assert |multiset(Sort(s, horizontal))| == |multiset(s)|;
    forall w ensures w in Sort(s, horizontal) <==> w in s {
      assert w in Sort(s, horizontal) <==> w in multiset(Sort(s, horizontal));
      assert w in s <==> w in multiset(s);
    }
  }

  lemma SortSorted(s: seq<Wall>, horizontal: bool)
    ensures SortedBy(Sort(s, horizontal), horizontal)
  {
    SortCorrect(s, horizontal);
  }

  /** The three parts of `merge_walls` in terms of the reference lists. */
  lemma MergeWallsParts(walls: seq<Wall>, eps: real)
    ensures MergeWalls(walls, eps) == MergeLine(Sort(Horizontals(walls, eps), true), true, eps)
                                      + MergeLine(Sort(Verticals(walls, eps), false), false, eps)
                                      + FilterOthers(walls, eps)
  {
    PartitionCorrect(walls, eps);
  }

  /** Being made from some walls carries over to any list holding them. */
  lemma MergedFromWider(o: Wall, a: seq<Wall>, b: seq<Wall>, horizontal: bool, eps: real)
    requires forall w :: w in a ==> w in b
    requires MergedFrom(o, a, horizontal, eps)
    ensures MergedFrom(o, b, horizontal, eps)
  {
  }

  /** Sorting then merging one direction's walls: every output is made from
      them and every one of them lies within an output. */
  lemma MergeSorted(line: seq<Wall>, horizontal: bool, eps: real)
    requires eps > 0.0
    ensures forall o :: o in MergeLine(Sort(line, horizontal), horizontal, eps) ==> MergedFrom(o, line, horizontal, eps)
    ensures forall w :: w in line ==> exists o :: o in MergeLine(Sort(line, horizontal), horizontal, eps) && CoveredBy(w, o, horizontal, eps)
  {
    forall o | o in MergeLine(Sort(line, horizontal), horizontal, eps) ensures MergedFrom(o, line, horizontal, eps) {
      SortedMade(o, line, horizontal, eps);
    }
    SortedCovers(line, horizontal, eps);
  }

  lemma SortedMade(o: Wall, line: seq<Wall>, horizontal: bool, eps: real)
    requires eps > 0.0
    requires o in MergeLine(Sort(line, horizontal), horizontal, eps)
    ensures MergedFrom(o, line, horizontal, eps)
  {
    SortSorted(line, horizontal);
    MergeLineSound(Sort(line, horizontal), horizontal, eps);
    MergedFromSort(o, line, horizontal, eps);
  }

  lemma MergedFromSort(o: Wall, line: seq<Wall>, horizontal: bool, eps: real)
    requires MergedFrom(o, Sort(line, horizontal), horizontal, eps)
    ensures MergedFrom(o, line, horizontal, eps)
  {
    SortMembers(line, horizontal);
    MergedFromWider(o, Sort(line, horizontal), line, horizontal, eps);
  }

  lemma SortedCovers(line: seq<Wall>, horizontal: bool, eps: real)
    requires eps > 0.0
    ensures forall w :: w in line ==> exists o :: o in MergeLine(Sort(line, horizontal), horizontal, eps) && CoveredBy(w, o, horizontal, eps)
  {
    SortSorted(line, horizontal);
    SortMembers(line, horizontal);
    MergeLineSound(Sort(line, horizontal), horizontal, eps);
  }

  /** `merge_walls` never returns more walls than it receives; the others
      come last, unchanged and in input order; every other output is made
      from the normalised horizontal or vertical inputs, starting where one
      starts and ending where one it covers ends; and every horizontal or
      vertical input, normalised, lies within an output wall on its line. */
  lemma MergeWallsCorrect(walls: seq<Wall>, eps: real)
    requires eps > 0.0
    ensures |MergeWalls(walls, eps)| <= |walls|
    ensures |FilterOthers(walls, eps)| <= |MergeWalls(walls, eps)|
    ensures MergeWalls(walls, eps)[|MergeWalls(walls, eps)| - |FilterOthers(walls, eps)|..] == FilterOthers(walls, eps)
    ensures forall o :: o in MergeWalls(walls, eps) ==>
              || o in FilterOthers(walls, eps)
              || MergedFrom(o, Horizontals(walls, eps), true, eps)
              || MergedFrom(o, Verticals(walls, eps), false, eps)
    ensures forall w :: w in walls && IsHorizontal(w, eps) ==>
              exists o :: o in MergeWalls(walls, eps) && CoveredBy(Normalize(w, eps), o, true, eps)
    ensures forall w :: w in walls && IsVertical(w, eps) ==>
              exists o :: o in MergeWalls(walls, eps) && CoveredBy(Normalize(w, eps), o, false, eps)
  {
    MergeWallsShape(walls, eps);
    MergeWallsParts(walls, eps);
    MergeSorted(Horizontals(walls, eps), true, eps);
    MergeSorted(Verticals(walls, eps), false, eps);
    MergeWallsCovers(walls, eps, true);
    MergeWallsCovers(walls, eps, false);
  }

  /** The length bound and the others at the end. */
  lemma MergeWallsShape(walls: seq<Wall>, eps: real)
    ensures |MergeWalls(walls, eps)| <= |walls|
    ensures |FilterOthers(walls, eps)| <= |MergeWalls(walls, eps)|
    ensures MergeWalls(walls, eps)[|MergeWalls(walls, eps)| - |FilterOthers(walls, eps)|..] == FilterOthers(walls, eps)
  {
    var p := Partition(walls, eps);
    PartitionCorrect(walls, eps);
    SortMembers(p.0, true);
    SortMembers(p.1, false);
    var merged := MergeLine(Sort(p.0, true), true, eps) + MergeLine(Sort(p.1, false), false, eps);
    assert MergeWalls(walls, eps) == merged + p.2;
  }

  /** Every input on one line direction, normalised, lies within an output
      wall. */
  lemma MergeWallsCovers(walls: seq<Wall>, eps: real, horizontal: bool)
    requires eps > 0.0
    ensures forall w :: w in walls && (if horizontal then IsHorizontal(w, eps) else IsVertical(w, eps)) ==>
              exists o :: o in MergeWalls(walls, eps) && CoveredBy(Normalize(w, eps), o, horizontal, eps)
  {
    forall w | w in walls && (if horizontal then IsHorizontal(w, eps) else IsVertical(w, eps))
      ensures exists o :: o in MergeWalls(walls, eps) && CoveredBy(Normalize(w, eps), o, horizontal, eps)
    {
      CoverOne(walls, eps, horizontal, w);
    }
  }

  lemma CoverOne(walls: seq<Wall>, eps: real, horizontal: bool, w: Wall)
    requires eps > 0.0 && w in walls && (if horizontal then IsHorizontal(w, eps) else IsVertical(w, eps))
    ensures exists o :: o in MergeWalls(walls, eps) && CoveredBy(Normalize(w, eps), o, horizontal, eps)
  {
    var hs, vs := Horizontals(walls, eps), Verticals(walls, eps);
    var line := if horizontal then hs else vs;
    assert Normalize(w, eps) in line;
    SortedCovers(line, horizontal, eps);
    var o :| o in MergeLine(Sort(line, horizontal), horizontal, eps) && CoveredBy(Normalize(w, eps), o, horizontal, eps);
    MergeWallsParts(walls, eps);
    var mh, mv := MergeLine(Sort(hs, true), true, eps), MergeLine(Sort(vs, false), false, eps);
    assert o in mh + mv + FilterOthers(walls, eps);
  }
}

=== FILE: wrappers.dfy ===
/** Small failure-compatible datatypes shared by the rest of the model. */
module Wrappers {

  /** An optional value; stands in for Rust's `Option`. */
  datatype Option<+T> = None | Some(value: T) {

    /** The wrapped value, or `default` when there is none. */
    function GetOr(default: T): (r: T)
      ensures Some? ==> r == value
      ensures None? ==> r == default
    {
      match this
      case Some(v) => v
      case None => default
    }
  }

  /** A randomness oracle: the k-th draw of a random number generator.
      Every random choice of the source becomes a read of such an oracle,
      so every statement proved about a generator holds for all draws. */
  type Rng = nat -> nat

  /** The draw `raw` mapped into the inclusive range [lo, hi], as
      `gen_range(lo..=hi)` yields. */
  function InRange(raw: nat, lo: int, hi: int): (r: int)
    requires lo <= hi
    ensures lo <= r <= hi
  {
    lo + raw % (hi - lo + 1)
  }

  /** A fair coin read from a draw. */
  predicate Coin(raw: nat)
  {
    raw % 2 == 0
  }

  /** The decimal digits of `n`, as Rust's `Display` writes an integer. */
  function NatToString(n: nat): (s: string)
    ensures |s| > 0
    ensures forall k :: 0 <= k < |s| ==> '0' <= s[k] <= '9'
    decreases n
  {
    var d := ['0' + (n % 10) as char];
    if n < 10 then d else NatToString(n / 10) + d
  }
}
